=== FILE: README.md ===
# ASTERIX decoder core: a Dafny model

This project models the core of the ASTERIX toolkit. ASTERIX is the EUROCONTROL
format for surveillance data. A data block is one category octet and a two-octet
big-endian length, followed by records. Each record opens with an FSPEC, a
bitmap of the data items present: seven presence bits per octet, with the low
bit (FX) saying that another FSPEC octet follows. The model covers the
following parts, one Dafny module each.

- **DataItemBits** (`src/asterix/DataItemBits.cpp`): bit-range extraction from an
  item's octets, with the signed, unsigned, six-bit character, hex and octal
  readers built on it.
- **XmlLoader** (`src/asterix/XMLParser.cpp`): the category-definition loader,
  a state machine over the stream of XML element events. It tracks the open
  category, item, format stack and BDS flag, and it enforces the parser's
  structural checks.
- **Asterix**, **Cat062**, **Cat021**, **Cat048**
  (`asterix/radar_integration/encoder/*.py`, `asterix/radar_integration/decoder/cat048.py`):
  FSPEC encoding, data block framing, and the category 62 and 21 item and
  record encoders. It also covers the category 48 item decoder.
- **Can**, **Ccsds**, **HexCodec**, **Zenoh**, **Dds**, **Records**
  (`asterix-rs/src/transport/*.rs`): the CAN fragmenter and reassembler, the
  CCSDS space packet header with its APID and sequence counter, the hex
  payload codec, and the Zenoh key expressions and DDS topic names with their
  parsers. Records holds the fields these transports take from a parsed record.
- **RustParser** and **Ffi** (`asterix-rs/src/parser.rs`, `asterix-rs/src/ffi.rs`):
  argument checks, offset and record-limit bookkeeping, the JSON pre-check of
  the Rust parser, path validation, error descriptions and log levels at the
  foreign-function boundary.
- **SpecConverter** and **ConstraintValues**
  (`asterix-specs-converter/asterixjson2xml.py`): conversion of a JSON category
  specification into the XML definition format. This covers item sizes, fixed
  bit layout, the compound FSPEC and UAP octets, and the evaluation of
  constraint values.
- **Wrappers**, **Bytes** and **Text** hold the shared helpers: `Option`/`Result`,
  octets and big-endian numbers, Rust's integer parsing, and string splitting,
  joining and trimming.

Every operation is a pure function over immutable values. Sockets, clocks,
the C++ engine behind the foreign-function boundary, and JSON serialisation
are not modelled. Where the transports need a serialised record, the text is
a parameter. Fixed-width integers are written out explicitly: `u8`/`u16`
wrap-around, Python's arbitrary-precision integers,
and C's `unsigned long` shifts. Where the source is evidently wrong, the
model keeps the code as written and a corrected twin. The twins and the
lemmas separating them are listed under Findings.

## Model

| member | source | states |
|---|---|---|
| DataItemBits.GetBits | src/asterix/DataItemBits.cpp:115-131 | no result exactly when from > to, either bound is below 1, or the range needs more octets than the buffer has; otherwise a whole number of octets covering the range |
| DataItemBits.GetBitsContents | src/asterix/DataItemBits.cpp:136-169 | the output holds the buffer's bits from `to` (or from the buffer's top bit, if lower) down to `from`, MSB first, followed by zero padding |
| DataItemBits.GetUnsigned | src/asterix/DataItemBits.cpp:172-210 | 0 for a width outside 1..32 or a refused range; otherwise a value below 2^width |
| DataItemBits.GetUnsignedValue | src/asterix/DataItemBits.cpp:172-210 | inside the buffer, the result is the big-endian buffer value shifted right by from−1 and taken mod 2^width, so bit 1 is the last octet's LSB |
| DataItemBits.GetSigned | src/asterix/DataItemBits.cpp:257-270 | the unsigned field u when u < 2^(n−1) and u − 2^n otherwise; the result lies in [−2^(n−1), 2^(n−1)) and its n-bit two's complement is u |
| DataItemBits.GetSixBitString | src/asterix/DataItemBits.cpp:272-322 | "???" unless the width is a positive multiple of 6 and the range is readable; otherwise width/6 characters |
| DataItemBits.SixBitCharacters | src/asterix/DataItemBits.cpp:297-319 | character k is the six-bit code table entry of the k-th 6-bit group counted from `to` down |
| DataItemBits.GetOctal | src/asterix/DataItemBits.cpp:421-473 | "???" unless the width is a positive multiple of 3 and the range is readable; otherwise width/3 characters, each in '0'..'7' |
| DataItemBits.OctalDigits | src/asterix/DataItemBits.cpp:445-470 | digit k is the octal digit of the k-th 3-bit group counted from `to` down |
| DataItemBits.GetHexBitStringMask | src/asterix/DataItemBits.cpp:390-418 | "???" for an empty range; otherwise the range widened to octet boundaries, with position j '1' iff its bit number lies in [from, to] and '0' elsewhere |
| DataItemBits.HexMaskLayout | src/asterix/DataItemBits.cpp:398-417 | for a proper range the mask length is a multiple of 8 covering the range, running from the octet boundary above `to` down to the one below `from` |
| DataItemBits.FilterOutItem | src/asterix/DataItemBits.cpp:905-911 | succeeds and marks the field filtered iff the first |short name| characters of the name compare equal under `strncmp`; otherwise the field is unchanged |
| DataItemBits.FilterOutItemPrefix | src/asterix/DataItemBits.cpp:905-911 | for strings without NUL, matching means the short name is a prefix of the name |
| DataItemBits.TextGuard | src/asterix/DataItemBits.cpp:803-823 | with global filtering on and the field not selected nothing changes and nothing is appended; otherwise from/to are put in order, a range outside 1..8·length is the "Wrong bit format" case, and missing names are filled from each other |
| DataItemBits.RenderedFieldReadsExactly | src/asterix/DataItemBits.cpp:803-823 | a field that passes the guard is read inside the buffer, where the source's reader and the bounds-checked reader agree |
| DataItemBits.OverlongRangeShiftsBits | src/asterix/DataItemBits.cpp:144-169 | reading bits 5..10 of the one-octet buffer FF gives 60 rather than the 15 the in-buffer bits hold |
| DataItemBits.GetUnsignedChecked | src/asterix/DataItemBits.cpp:172-210 | the corrected reader: inside the buffer the value of bits to..from, and 0 for any range reaching past it |
| DataItemBits.CheckedAgreesInside | src/asterix/DataItemBits.cpp:115-210 | inside the buffer the corrected reader and the source's reader give the same value |
| XmlLoader.PlacementIsTable | src/asterix/XMLParser.cpp:263-370 | the flags each start handler passes say exactly which parent kinds admit the format, and only Variable may open a Compound |
| XmlLoader.CategoryAccepted | src/asterix/XMLParser.cpp:199-222 | the corrected guard admits exactly the ids the category table holds, 0 to 256 |
| XmlLoader.CategoryGuardOffByOne | src/asterix/XMLParser.cpp:208-213 | the written guard admits MAX_CATEGORIES itself, which has no slot in the table, and agrees with the corrected guard on every other id |
| XmlLoader.AddFormat | src/asterix/XMLParser.cpp:108-193 | a rejected format leaves everything as it was except the error flag; an accepted one is appended with no parts and the current format as its parent, and becomes the current format |
| XmlLoader.SetLength | src/asterix/XMLParser.cpp:276-286 | a non-negative length is stored on that Fixed and nothing else changes; a negative length raises the error flag and is not stored |
| XmlLoader.BitsAttrs | src/asterix/XMLParser.cpp:384-438 | attributes change only the bit range of the field; with no error met, a range that started inside the limit stays inside it |
| XmlLoader.EndFormat | src/asterix/XMLParser.cpp:564-594 | a closing tag that matches the current format's kind returns to its parent; any other closing tag only raises the error flag |
| XmlLoader.Close | src/asterix/XMLParser.cpp:547-554 | closing a category adds its id to the defined ones and leaves no category open; closing the BDS category decides from its data items whether BDS formats can be loaded |
| XmlLoader.Parse | src/asterix/XMLParser.cpp:768-799 | whatever events arrive, the format tree obeys the nesting table and every Compound starts with a Variable; a successful load also has no second part in a Repetitive or Explicit and every bit field inside its Fixed; a defined id can be as large as MAX_CATEGORIES |
| XmlLoader.ParseCorrected | src/asterix/XMLParser.cpp:199-222 | with the corrected guard the same tree properties hold, and every defined id has a slot in the table |
| XmlLoader.Load | src/asterix/XMLParser.cpp:768-799 | the load succeeds exactly when no event raised the error flag |
| XmlLoader.StepKeepsInvariant | src/asterix/XMLParser.cpp:627-733 | every single start or end event keeps the tree invariant |
| XmlLoader.RunKeepsInvariant | src/asterix/XMLParser.cpp:627-733 | any sequence of events keeps the tree invariant |
| XmlLoader.FailedIsFinal | src/asterix/XMLParser.cpp:641-642 | once the error flag is raised, every later event is ignored |
| XmlLoader.RunAppend | src/asterix/XMLParser.cpp:768-799 | feeding two runs of events one after the other is feeding their concatenation |
| XmlLoader.ErrorRejectsDefinition | src/asterix/XMLParser.cpp:768-799 | a file whose first events raise an error is rejected, whatever follows them |
| XmlLoader.TopLevelFormat | src/asterix/XMLParser.cpp:181-190 | a format opened with no current format becomes the data item's format and the current format; a second one for the same item of the same opening of its category is an error |
| XmlLoader.OpenItem | src/asterix/XMLParser.cpp:199-233 | a `<Category>` start makes a new open category with no data items, and a `<DataItem>` in it names an item of that new category, not of any earlier category with the same id |
| XmlLoader.FreshItemHasNoFormat | src/asterix/XMLParser.cpp:181-190 | the first top-level format of a data item in a category just opened is recorded without a "Duplicate format" error, even if the same id and item were loaded before |
| XmlLoader.CategoryRoundLoads | src/asterix/XMLParser.cpp:199-233 | after a clean load with no format open, a category holding one item with one format loads cleanly and defines its id, whether or not that id was defined before |
| XmlLoader.ReopenedCategoryLoads | src/asterix/XMLParser.cpp:209 | a file that defines category 48 twice, each time with item 010 in a Variable, loads |
| XmlLoader.RejectedFormatDropped | src/asterix/XMLParser.cpp:108-193 | a format the current parent does not admit only raises the error flag and is not added |
| XmlLoader.CompoundFirstPart | src/asterix/XMLParser.cpp:158-175 | the first part of a Compound is refused, and not added, exactly when it is not a Variable |
| XmlLoader.SecondPartFails | src/asterix/XMLParser.cpp:123-157 | a second part of a Repetitive or an Explicit is kept, becomes the current format, and raises the error flag |
| XmlLoader.BitsNeedFixed | src/asterix/XMLParser.cpp:372-380 | a bit field outside a Fixed only raises the error flag |
| XmlLoader.BitBeyondLengthFails | src/asterix/XMLParser.cpp:386-396 | a single bit field is an error exactly when its bit lies beyond eight times the Fixed's length |
| XmlLoader.MismatchedEndFails | src/asterix/XMLParser.cpp:564-586 | closing a format kind other than the current one only raises the error flag |
| XmlLoader.OpenCloseReturns | src/asterix/XMLParser.cpp:564-586 | opening a format and closing it with a matching tag brings the current format back to where it was |
| XmlLoader.CategoryOverflowDefined | src/asterix/XMLParser.cpp:208-213 | a file with category 257 loads under the written guard and defines an id the table has no slot for, while the corrected guard rejects it |
| XmlLoader.BdsCategoryEnablesBds | src/asterix/XMLParser.cpp:346-356 | after a BDS category with a data item is closed, BDS formats can be loaded |
| XmlLoader.EmptyBdsCategoryDisablesBds | src/asterix/XMLParser.cpp:346-356 | after an empty BDS category is closed, a BDS format is a "Missing BDS definition" error |
| Asterix.MaxFrn | asterix/radar_integration/encoder/cat062.py:59 | the largest FRN of a non-empty list, and 0 for an empty one |
| Asterix.EncodeFspec | asterix/radar_integration/encoder/cat062.py:37-75 | empty exactly for an empty list; every FRN falls within the 7·n presence bits of the n octets, and some FRN needs the last octet, so n = (max+6)//7 |
| Asterix.FspecOctetBits | asterix/radar_integration/encoder/cat062.py:64-73 | in octet k, bit 7−j is set iff FRN 7k+j+1 is listed, and the FX bit is set iff another octet follows |
| Asterix.EncodeFspecExtent | asterix/radar_integration/encoder/cat062.py:72-73 | a reader that follows FX bits stops exactly at the end of the encoded FSPEC, whatever data follows |
| Asterix.EncodeFspecPresent | asterix/radar_integration/encoder/cat062.py:64-69 | a reader of the encoded FSPEC sees FRN f present iff f was in the list |
| Asterix.DataBlock | asterix/radar_integration/encoder/cat062.py:477-483 | the block is the category octet, the big-endian total length (3 + records) and the records verbatim; `struct.pack` raises when that length exceeds 65535 |
| Asterix.EncodeI010 | asterix/radar_integration/encoder/cat062.py:78-95 | SAC and SIC as two octets, raising outside 0..255 |
| Asterix.PackLow3 | asterix/radar_integration/encoder/cat062.py:133 | the three low octets of a 32-bit big-endian pack, i.e. the value mod 2^24; packing raises outside 0..2^32−1 |
| Asterix.UpperAscii | asterix/radar_integration/encoder/cat062.py:320 | `str.upper` on an ASCII character moves a..z to A..Z and keeps everything else |
| Asterix.UpperCharStart | asterix/radar_integration/encoder/cat062.py:320 | the upper case of a character begins with an ASCII character exactly for ASCII characters and the sixteen characters whose full upper case starts with a Latin capital, and never holds a lower-case ASCII letter |
| Asterix.UpperAppend | asterix/radar_integration/encoder/cat062.py:320 | upper-casing distributes over concatenation |
| Asterix.UpperOfAscii | asterix/radar_integration/encoder/cat062.py:320 | on ASCII text upper-casing keeps the length and upper-cases each letter in place |
| Asterix.AsciiField | asterix/radar_integration/encoder/cat062.py:320 | a successful `upper().ljust(w)[:w].encode('ascii')` is exactly w octets |
| Asterix.AsciiFieldOfAscii | asterix/radar_integration/encoder/cat062.py:327 | when the first w characters are ASCII the field succeeds and holds them upper-cased, then spaces up to w |
| Asterix.AsciiFieldFails | asterix/radar_integration/encoder/cat062.py:335 | a non-ASCII character in the first w positions after ASCII text makes the encoding raise, unless its upper case begins with an ASCII letter |
| Asterix.AsciiFieldExpands | asterix/radar_integration/encoder/cat062.py:320 | dotless i encodes as "I" and sharp s as "SS", since the upper case is taken before truncating and encoding |
| Cat062.EncodeI070 | asterix/radar_integration/encoder/cat062.py:98-133 | from the time of day in 1/128 s: three octets holding the count mod 2^24, raising when the count does not fit 32 bits |
| Cat062.EncodeI105 | asterix/radar_integration/encoder/cat062.py:175-177 | eight octets that read back as the two scaled coordinates in signed 32-bit big-endian; packing raises outside the signed 32-bit range |
| Cat062.EncodeI135 | asterix/radar_integration/encoder/cat062.py:212-224 | two octets whose low 15 bits read back, as 15-bit two's complement, as the value clamped to [−16384, 16383], and whose bit 16 is set iff QNH is requested or the value is negative |
| Cat062.EncodeI185 | asterix/radar_integration/encoder/cat062.py:258-266 | four octets reading back as the two components clamped to [−32768, 32767], big-endian signed 16-bit |
| Cat062.I390Subfields | asterix/radar_integration/encoder/cat062.py:316-340 | the present subfields are 2 iff a callsign is given, 7 iff an ADEP is given and 8 iff an ADES is given |
| Cat062.I390HeaderIsFspec | asterix/radar_integration/encoder/cat062.py:309-345 | the primary octet (0x40 for the callsign, 0x02 for ADEP, FX for ADES) and the optional secondary 0x80 are exactly the FSPEC encoding of the present subfields |
| Cat062.I390Shape | asterix/radar_integration/encoder/cat062.py:316-347 | the item is the header followed by the 7-octet callsign, the 4-octet ADEP and the 4-octet ADES fields of those given, in that order |
| Cat062.I390Extent | asterix/radar_integration/encoder/cat062.py:337-345 | a reader finds a one-octet header, or two when ADES is given, and the fields right after it |
| Cat062.I390Present | asterix/radar_integration/encoder/cat062.py:316-340 | a reader sees subfield 2, 7 or 8 present iff the callsign, ADEP or ADES was given |
| Cat062.RecordItems | asterix/radar_integration/encoder/cat062.py:412-442 | the record's FRNs are always 1, 3 and 4; 6 iff both velocity components are given; 12 iff the altitude is given; 27 iff any flight-plan field is given |
| Cat062.RecordFspec | asterix/radar_integration/encoder/cat062.py:444-445 | the record's FSPEC is 4 octets with flight-plan data, else 2 with an altitude, else 1, and a reader sees exactly the record's FRNs |
| Cat062.RecordHeader | asterix/radar_integration/encoder/cat062.py:444-448 | the encoded record starts with its FSPEC, then SAC and SIC |
| Cat062.RecordPresent | asterix/radar_integration/encoder/cat062.py:412-448 | reading the encoded record, FRN f is present iff the track supplies the item's inputs |
| Cat062.EncodeDatablock | asterix/radar_integration/encoder/cat062.py:448-483 | octet 0 is 62, octets 1-2 the big-endian total length 3 + records, then the records verbatim; raises past 65535 |
| Cat021.EncodeI040 | asterix/radar_integration/encoder/cat021.py:81-108 | one octet with ATP mod 4 in the top bits, bit 4 set iff ARC is non-zero, bit 3 set iff RC is non-zero, and the low three bits (FX included) clear |
| Cat021.EncodeI161 | asterix/radar_integration/encoder/cat021.py:111-122 | two octets holding the track number mod 4096 in the top 12 bits; the low 4 bits are always 0 |
| Cat021.EncodeI015 | asterix/radar_integration/encoder/cat021.py:125-135 | the service identifier as one octet, raising outside 0..255 |
| Cat021.Coordinate24 | asterix/radar_integration/encoder/cat021.py:177-189 | three octets that read back, as 24-bit two's complement, as the coordinate clamped to [−2^23, 2^23−1] |
| Cat021.EncodeI130 | asterix/radar_integration/encoder/cat021.py:177-191 | six octets: latitude then longitude, each reading back as its clamped 24-bit signed value |
| Cat021.EncodeI080 | asterix/radar_integration/encoder/cat021.py:194-204 | three big-endian octets holding the address mod 2^24 |
| Cat021.I170Text | asterix/radar_integration/encoder/cat021.py:218 | the upper-cased callsign cut or padded to exactly 8 characters |
| Cat021.I170TextOfAscii | asterix/radar_integration/encoder/cat021.py:218 | for an ASCII callsign, character i is the upper-cased i-th character, or a space past its end |
| Cat021.I170AsWrittenMisplacesBits | asterix/radar_integration/encoder/cat021.py:236-246 | callsign "AB" packs to 01 0A 08 20 82 08, whose first six-bit character decodes as a space, while the intended packing decodes as 'A' |
| Cat021.EncodeI170 | asterix/radar_integration/encoder/cat021.py:207-248 | the corrected packing: six octets whose 48-bit big-endian value is the eight 6-bit codes, first character most significant |
| Cat021.EncodeI170Decodes | asterix/radar_integration/encoder/cat021.py:207-248 | decoding the corrected I170 with the six-bit reader over bits 48..1 gives back the 8 characters of the padded callsign (characters outside the code set as spaces) |
| Cat021.EncodeU16Clamped | asterix/radar_integration/encoder/cat021.py:263-265 | I145 and I150: two big-endian octets holding the value clamped to 0..65535 |
| Cat021.EncodeI16Clamped | asterix/radar_integration/encoder/cat021.py:281-285 | I140 and I155: two octets reading back, signed big-endian, as the value clamped to [−32768, 32767] |
| Cat021.EncodeI151 | asterix/radar_integration/encoder/cat021.py:372-376 | two octets holding the true airspeed clamped to 0..32767 in bits 16..2, with bit 1 (RE) always 0 |
| Cat021.EncodeI152 | asterix/radar_integration/encoder/cat021.py:393-395 | two octets holding the heading count reduced mod 65536 |
| Cat021.EncodeI200 | asterix/radar_integration/encoder/cat021.py:288-317 | one octet with bit 7 set iff ICF is non-zero, bit 6 iff LNAV is non-zero, PS mod 8 in bits 5..3 and the low three bits clear |
| Cat021.RecordItemsPresent | asterix/radar_integration/encoder/cat021.py:438-506 | the record's FRNs are 1, 2, 4, 5, 6, 7 and 22 always, and 3, 11, 13, 14, 18, 19, 20, 21 each exactly when its argument is given |
| Cat021.RecordFspec | asterix/radar_integration/encoder/cat021.py:508-510 | the FSPEC is always 4 octets (FRN 22 is always present) and a reader sees exactly the record's FRNs |
| Cat021.RecordShape | asterix/radar_integration/encoder/cat021.py:438-512 | a record is the FSPEC, the front items, I071, I130 and I080, then I170 when a callsign is given, then the remaining items; the I170 encoder changes only the I170 octets |
| Cat021.RecordFails | asterix/radar_integration/encoder/cat021.py:438-512 | the record raises exactly when SAC, SIC or the service identifier is outside 0..255 or the time count does not fit 32 bits |
| Cat021.RecordHeader | asterix/radar_integration/encoder/cat021.py:508-512 | a report with in-range SAC, SIC, service identification and time encodes, to a record that starts with a 4-octet FSPEC and has at least 21 octets |
| Cat021.RecordFrontOctets | asterix/radar_integration/encoder/cat021.py:441-447 | a report with in-range arguments encodes, and right after the FSPEC come SAC, SIC and the default I040 octet 0 |
| Cat021.RecordCallsignMisencoded | asterix/radar_integration/encoder/cat021.py:471-473 | for callsign "AB" the record as written carries 01 0A 08 20 82 08 as I170 and differs from the intended record, which carries the corrected I170 |
| Cat021.EncodeDatablock | asterix/radar_integration/encoder/cat021.py:515-530 | octet 0 is 21, octets 1-2 the big-endian total length 3 + records, then the records verbatim; raises past 65535 |
| Cat048.DecodeItem | asterix/radar_integration/decoder/cat048.py:78-117 | any FRN outside 1..10 raises `Unsupported FRN`; a decoded item consumes at least one octet and never reads past the buffer |
| Cat048.DecodeI010 | asterix/radar_integration/decoder/cat048.py:119-141 | raises "I010 truncated" iff fewer than 2 octets remain, otherwise consumes exactly 2 |
| Cat048.I010RoundTrip | asterix/radar_integration/decoder/cat048.py:130-141 | decoding the two-octet I010 encoding gives back SAC and SIC and consumes 2 |
| Cat048.DecodeI140 | asterix/radar_integration/decoder/cat048.py:143-173 | raises iff fewer than 3 octets remain, otherwise consumes exactly 3 and yields a 24-bit time count |
| Cat048.Low3RoundTrip | asterix/radar_integration/decoder/cat048.py:153-173 | the 24-bit readers of I140 and I220 give back the value packed as the low three octets of a 32-bit word |
| Cat048.DecodeI020 | asterix/radar_integration/decoder/cat048.py:175-232 | raises iff no octet remains; TYP is below 8; consumes 2 octets iff FX is set and a following octet exists, else 1 |
| Cat048.I020RoundTrip | asterix/radar_integration/decoder/cat048.py:193-232 | decoding a descriptor octet gives back TYP (bits 8-6), SIM, RDP, SPI and RAB, and the consumed count follows the FX rule |
| Cat048.DecodeI040 | asterix/radar_integration/decoder/cat048.py:234-265 | raises iff fewer than 4 octets remain, otherwise consumes 4 and yields two 16-bit raw fields |
| Cat048.I040RoundTrip | asterix/radar_integration/decoder/cat048.py:234-265 | decoding two big-endian 16-bit words gives back rho and theta |
| Cat048.DecodeI070 | asterix/radar_integration/decoder/cat048.py:267-308 | raises iff fewer than 2 octets remain, otherwise consumes 2 and yields a code below 4096 |
| Cat048.I070RoundTrip | asterix/radar_integration/decoder/cat048.py:284-308 | V, G and L are bits 16, 15 and 14 and the code is the low 12 bits: decoding an encoded word gives all four back |
| Cat048.DecodeI090 | asterix/radar_integration/decoder/cat048.py:310-350 | raises iff fewer than 2 octets remain; otherwise consumes 2 and the level is bits 14..1 read as 14-bit two's complement, in [−8192, 8191] |
| Cat048.I090RoundTrip | asterix/radar_integration/decoder/cat048.py:325-335 | decoding an encoded word gives back V, G and any quarter flight level in [−8192, 8191] |
| Cat048.Subfields | asterix/radar_integration/decoder/cat048.py:379-420 | succeeds iff an octet remains for every present subfield; each present subfield reads the next octet in turn and the consumed count grows by the number present |
| Cat048.DecodeI130 | asterix/radar_integration/decoder/cat048.py:352-432 | succeeds iff the buffer holds the primary octet plus one octet per set bit among 0x40..0x02 plus one for FX, and then consumes exactly that many |
| Cat048.DecodeI220 | asterix/radar_integration/decoder/cat048.py:434-456 | raises iff fewer than 3 octets remain, otherwise consumes 3 and yields a 24-bit address |
| Cat048.DecodeI240 | asterix/radar_integration/decoder/cat048.py:458-480 | raises iff fewer than 6 octets remain, otherwise consumes 6 |
| Cat048.DecodeI250 | asterix/radar_integration/decoder/cat048.py:482-514 | a decoded I250 consumes 1 + 8·REP octets |
| Cat048.I250Blocks | asterix/radar_integration/decoder/cat048.py:493-514 | succeeds iff the REP octet and all REP 8-octet blocks are in the buffer, and block k is the k-th 8 octets after REP |
| Cat048.I250RoundTrip | asterix/radar_integration/decoder/cat048.py:493-514 | decoding a REP octet followed by REP 8-octet blocks gives back the blocks |
| Cat048.DecodeShift | asterix/radar_integration/decoder/cat048.py:78-117 | an item decoder reads nothing before its offset: decoding at the end of any prefix equals decoding the rest from 0 |
| Can.NewConfig | asterix-rs/src/transport/can.rs:201-214 | an empty interface name gives `ConfigError`, otherwise a classic-frame config for that interface with the 1000 ms reassembly timeout and error frames on |
| Can.WithFd | asterix-rs/src/transport/can.rs:217-224 | always succeeds, even for an empty name, with the FD frame type and the default timeout |
| Can.WithTimeout | asterix-rs/src/transport/can.rs:227-230 | replaces the reassembly timeout and keeps every other setting |
| Can.PayloadSize | asterix-rs/src/transport/can.rs:233-238 | 7 payload octets per classic frame and 63 per FD frame, so a header and a chunk never exceed 64 octets |
| Can.TruncatedCategory | asterix-rs/src/transport/can.rs:264-268 | the category a receiver sees is the largest multiple of 32 not above the sent one |
| Can.BuildCanId | asterix-rs/src/transport/can.rs:257-261 | the identifier fits in 11 bits, carries category/32 above bit 8 and the sequence number in the low octet |
| Can.ParseCanId | asterix-rs/src/transport/can.rs:264-268 | the parsed category is a multiple of 32, the sequence is the low octet, and any 11-bit identifier is rebuilt from its parse |
| Can.CanIdRoundTrip | asterix-rs/src/transport/can.rs:257-268 | parsing a built identifier gives back the truncated category and the exact sequence number |
| Can.BuildFragmentHeader | asterix-rs/src/transport/can.rs:271-277 | bit 7 is set iff the fragment is the last; bits 6..0 hold the index mod 128 |
| Can.ParseFragmentHeader | asterix-rs/src/transport/can.rs:280-284 | the parsed index is below 128 and rebuilding the header from the parse gives the same octet |
| Can.FragmentHeaderRoundTrip | asterix-rs/src/transport/can.rs:271-284 | parsing a built header gives (index mod 128, last flag) |
| Can.FragmentData | asterix-rs/src/transport/can.rs:287-310 | the loop produces exactly the reference fragment list (header octet followed by the next chunk of at most `payloadSize` octets) |
| Can.FragmentsCount | asterix-rs/src/transport/can.rs:287-310 | there are ceil(n/p) fragments, and none exactly when the input is empty |
| Can.FragmentsPayloads | asterix-rs/src/transport/can.rs:287-310 | dropping each fragment's header octet and concatenating gives back the input |
| Can.FragmentsShape | asterix-rs/src/transport/can.rs:295-306 | every fragment carries 1..p payload octets, all but the last carry exactly p, and fragment k's header holds index k with the last flag set exactly on the final one |
| Can.Reassemble | asterix-rs/src/transport/can.rs:345-357 | succeeds iff indices 0..=last are all stored, and then yields their chunks concatenated in index order |
| Can.AddFragment | asterix-rs/src/transport/can.rs:333-343 | stores or overwrites the chunk at its index, refreshes the timestamp, returns nothing unless the fragment is the last, and with the last flag returns the in-order concatenation iff every earlier index is present |
| Can.Subscribe | asterix-rs/src/transport/can.rs:537-542 | the subscription list gains the category, keeps its order and contents, and stays free of duplicates; subscribing twice changes nothing |
| Can.ProcessFrame | asterix-rs/src/transport/can.rs:603-632 | a frame with no data, or whose truncated category is filtered out by a non-empty subscription list, leaves the subscriber unchanged and delivers nothing |
| Can.ProcessFrameEffect | asterix-rs/src/transport/can.rs:634-660 | other categories' states are untouched; an accepted frame stores its chunk under its index and delivers a sample (truncated category, in-order data, wall time, interface) iff it is last and all earlier indices are present, removing that category's state on delivery |
| Can.CleanupExpired | asterix-rs/src/transport/can.rs:663-667 | keeps exactly the states updated within the timeout, unchanged |
| Can.ReceiveTimeout | asterix-rs/src/transport/can.rs:576-600 | an error is `ReceiveError` and only follows a failed read; a delivered sample has a category that is a multiple of 32 and passes the subscription filter |
| Can.FramesFor | asterix-rs/src/transport/can.rs:452-457 | fragment k goes out with identifier `build_can_id(category, k mod 256)`, an 11-bit identifier whose parse gives the truncated category and k mod 256 |
| Can.SendFrames | asterix-rs/src/transport/can.rs:459-472 | frames are sent in order and the first one that does not fit a classic frame or whose write fails stops the loop with `SendError`; success means every frame was sent |
| Can.PublishRaw | asterix-rs/src/transport/can.rs:452-475 | the frames sent are a prefix of the fragment frames, all of them on success, and failure is `SendError` |
| Can.Publish | asterix-rs/src/transport/can.rs:425-429 | publishing a record sends the one frame `[0x80, category]` built from the placeholder raw data, or fails with nothing sent |
| Can.ClassicFramesFit | asterix-rs/src/transport/can.rs:452-475 | with classic frames every fragment fits, so publishing fails only when a write is rejected |
| Can.FdLongMessageFails | asterix-rs/src/transport/can.rs:452-475 | an FD configuration still builds classic frames, so any message longer than 7 octets fails on its first frame and sends nothing |
| Can.RoundTrip | asterix-rs/src/transport/can.rs:287-310 | feeding a non-empty message's frames in order to an accepting subscriber delivers exactly the message, under its truncated category, on the last frame and nothing before |
| Can.DeliveredInAnyOrder | asterix-rs/src/transport/can.rs:333-357 | the same holds for any delivery order that ends with the last fragment and contains every index: the message arrives on the final frame and not earlier |
| Can.MissingFragmentNeverCompletes | asterix-rs/src/transport/can.rs:345-357 | if some non-final fragment is never delivered (and not already held), no frame of the sequence completes a message |
| Can.UnalignedSubscriptionsDeliverNothing | asterix-rs/src/transport/can.rs:625-632 | a non-empty subscription list with no multiple of 32 in it filters out every frame, since the truncated category is always such a multiple |
| Can.EvictedStateStartsFresh | asterix-rs/src/transport/can.rs:663-667 | after an expired state is evicted, the next frame of that category starts an empty fragment map, and only a lone last fragment with index 0 completes it |
| Ccsds.CalculateApid | asterix-rs/src/transport/ccsds.rs:376-378 | the APID is the base plus the category exactly when that sum fits sixteen bits; otherwise the `u16` addition overflows |
| Ccsds.CategoryFromApidAsWritten | asterix-rs/src/transport/ccsds.rs:498-504 | the written range check overflows exactly when the APID is at or above the base and the base is above 0xFEFF |
| Ccsds.CategoryFromApid | asterix-rs/src/transport/ccsds.rs:498-504 | an APID inside `[base, base + 256)` gives its offset from the base, and any other APID gives category 0 |
| Ccsds.CategoryFromApidAgrees | asterix-rs/src/transport/ccsds.rs:498-504 | wherever the written check does not overflow, it returns the same category as the overflow-free one |
| Ccsds.ApidRoundTrip | asterix-rs/src/transport/ccsds.rs:376-378 | the category mapped to an APID is recovered from that APID |
| Ccsds.CategoryFromApidOverflows | asterix-rs/src/transport/ccsds.rs:498-504 | for base 0xFF00, category 5 gives APID 0xFF05, but the written bound `base + 256` overflows before category 5 can be returned |
| Ccsds.NextSequenceCount | asterix-rs/src/transport/ccsds.rs:380-386 | hands out the APID's current count (0 the first time, always below 2^14), advances that APID's count by one modulo 2^14, and leaves every other APID's count alone |
| Ccsds.CountsWrap | asterix-rs/src/transport/ccsds.rs:380-386 | the k-th packet on an APID whose count starts at s carries `(s + k) mod 2^14`, so the counter wraps after 16383 |
| Ccsds.DataLengthField | asterix-rs/src/transport/ccsds.rs:344-348 | the length field fits sixteen bits and is the payload length minus one for 1 to 65536 octets, and 0 for an empty payload |
| Ccsds.PrimaryHeader | asterix-rs/src/transport/ccsds.rs:350-357 | six octets whose three big-endian words are the type bit above the APID, the sequence flags 0b11 above the count, and the length field |
| Ccsds.PublishRaw | asterix-rs/src/transport/ccsds.rs:339-374 | succeeds exactly when base + category is below 2048; fails with an overflow exactly when the sum does not fit sixteen bits, and then no counter moves; otherwise that APID's counter advances, even when the APID is too wide for the header; a packet is the header followed by the whole payload |
| Ccsds.ParseHeader | asterix-rs/src/transport/ccsds.rs:468-495 | fails exactly when there are fewer than six octets or fewer than the 7 + length field the header announces; otherwise returns an 11-bit APID, a 14-bit count and exactly the announced data octets |
| Ccsds.ParsePublished | asterix-rs/src/transport/ccsds.rs:339-495 | a packet published with a non-empty payload parses back to its APID, the count it was given, and the first length-field + 1 payload octets |
| Ccsds.PublishParseRoundTrip | asterix-rs/src/transport/ccsds.rs:339-495 | a payload of 1 to 65536 octets parses back whole, together with its APID and count |
| Ccsds.EmptyPayloadUnparseable | asterix-rs/src/transport/ccsds.rs:344-348 | an empty payload writes length field 0, which announces one octet, so the six-octet packet is reported as truncated |
| Ccsds.OversizedPayloadTruncated | asterix-rs/src/transport/ccsds.rs:344-348 | a payload above 65536 octets is sent whole but parses back shorter, because `len - 1` is cast to `u16` |
| HexCodec.PairValue | asterix-rs/src/transport/ccsds.rs:416-421 | a pair gives an octet exactly when `from_str_radix` in base 16 accepts it below 256, and then that value |
| HexCodec.DecodePairs | asterix-rs/src/transport/ccsds.rs:416-422 | a successful decoding has one octet per pair; the only failure is a pair that is not a hexadecimal number |
| HexCodec.DecodePairsValues | asterix-rs/src/transport/ccsds.rs:416-422 | octet k of a successful decoding is the value of characters 2k and 2k + 1 |
| HexCodec.DecodePairsFails | asterix-rs/src/transport/ccsds.rs:416-422 | decoding fails exactly when some pair is not a hexadecimal number |
| HexCodec.HexToBytes | asterix-rs/src/transport/ccsds.rs:407-423 | rejects for length exactly when the whitespace-free text has an odd UTF-8 length; a success comes from all-ASCII text and has half as many octets as that text has characters |
| HexCodec.ToHexDigits | asterix-rs/src/transport/ccsds.rs:407-423 | the reference encoding writes octet k at characters 2k and 2k + 1, high digit first |
| HexCodec.HexRoundTrip | asterix-rs/src/transport/ccsds.rs:407-423 | decoding the lower-case hexadecimal text of any octets gives those octets back |
| HexCodec.PlusSignAccepted | asterix-rs/src/transport/ccsds.rs:416-421 | "+f" decodes to the single octet 15, because `from_str_radix` takes a leading '+' |
| Zenoh.RouteSegments | asterix-rs/src/transport/zenoh.rs:334-344 | the route has three segments when both SAC and SIC are known and one otherwise; the first is always the decimal category |
| Zenoh.KeyExpr | asterix-rs/src/transport/zenoh.rs:334-344 | every key starts with the configured prefix followed by '/' |
| Zenoh.BuildKeyExpr | asterix-rs/src/transport/zenoh.rs:334-344 | a record without its I010 item is published under the category-only key |
| Zenoh.PublishRawKey | asterix-rs/src/transport/zenoh.rs:281-283 | the key of a raw publication parses back to its category, with no SAC and no SIC |
| Zenoh.RoutingKey | asterix-rs/src/transport/zenoh.rs:300-307 | the key of a routed raw publication parses back to its category, SAC and SIC |
| Zenoh.ParseKeyExpr | asterix-rs/src/transport/zenoh.rs:507-522 | the category is an octet, and a SAC or SIC is only reported as an octet read from a second or third segment that exists |
| Zenoh.KeyFromSegments | asterix-rs/src/transport/zenoh.rs:507-522 | for a prefix followed by '/'-free segments, the category, SAC and SIC are read from the first three segments whatever follows: a non-octet category reads as 0 and a non-octet SAC or SIC as absent |
| Zenoh.KeyRoundTrip | asterix-rs/src/transport/zenoh.rs:334-344 | a key built from an octet category parses back to it, together with SAC and SIC when both were given, and with neither when one was missing |
| Zenoh.RecordKeyRoundTrip | asterix-rs/src/transport/zenoh.rs:334-368 | a subscriber reading a record's key gets back the record's category, with the SAC and SIC of its I010 item when both are there |
| Zenoh.SerializeRecord | asterix-rs/src/transport/zenoh.rs:370-386 | with raw bytes on and hex data present, the payload is exactly the decoded hex data and fails exactly when that decoding fails; otherwise the JSON serialisation is used, and without one the call fails |
| Zenoh.RawBytesOffIgnoresHex | asterix-rs/src/transport/zenoh.rs:370-386 | with raw bytes off, the payload does not depend on the record's hex data |
| Dds.TaggedPart | asterix-rs/src/transport/dds.rs:430-440 | a topic part is its three-letter tag followed by the decimal value, and contains no '_' |
| Dds.TopicName | asterix-rs/src/transport/dds.rs:430-440 | every topic starts with the prefix followed by "_cat" |
| Dds.PublishRawTopic | asterix-rs/src/transport/dds.rs:346-347 | the topic of a raw publication is the category-only topic and parses back to that category with no SAC and no SIC |
| Dds.FieldOf | asterix-rs/src/transport/dds.rs:597-605 | a part is assigned to the field whose tag it starts with; a part with none of the three tags is ignored |
| Dds.ApplyPart | asterix-rs/src/transport/dds.rs:597-605 | one part changes the field its tag names, and only that field |
| Dds.ParseTopicName | asterix-rs/src/transport/dds.rs:588-608 | the category is an octet, as are the SAC and SIC when present |
| Dds.UntouchedSlot | asterix-rs/src/transport/dds.rs:597-605 | a field that no part names keeps its initial value |
| Dds.LastPartWins | asterix-rs/src/transport/dds.rs:597-605 | when several parts name the same field, the last of them decides its value |
| Dds.TopicFromParts | asterix-rs/src/transport/dds.rs:588-608 | the route of a prefix followed by '_'-free parts is the scan of those parts from category 0, no SAC and no SIC |
| Dds.TopicRoundTrip | asterix-rs/src/transport/dds.rs:430-440 | a topic built from an octet category parses back to it, together with SAC and SIC when both were given, and with neither when one was missing |
| Dds.LaterCategoryOverrides | asterix-rs/src/transport/dds.rs:597-600 | a topic with two "cat" parts reports the second category |
| Dds.Publish | asterix-rs/src/transport/dds.rs:326-343 | publishing fails exactly when the payload cannot be produced; the message then carries that payload, the record's category, the SAC and SIC of its I010 item, and a topic whose parsed category is the record's |
| Dds.PublishedTopicRoute | asterix-rs/src/transport/dds.rs:326-343 | a subscriber reading a published message's topic recovers its category, with its SAC and SIC when both are present |
| Records.AsI64 | asterix-rs/src/transport/zenoh.rs:351-355 | a field value reads as an integer exactly when it is an integer within the signed 64-bit range, and then it is that integer |
| Records.LowOctet | asterix-rs/src/transport/zenoh.rs:355 | the `as u8` cast keeps values 0..255 and otherwise agrees with the value modulo 256 |
| Records.ItemId | asterix-rs/src/transport/zenoh.rs:349 | the I010 item id is 'I', three characters of category, then "/010" |
| Records.ItemIdExamples | asterix-rs/src/transport/zenoh.rs:347-349 | categories 21, 48 and 62 give "I021/010", "I048/010" and "I062/010" |
| Records.SourceField | asterix-rs/src/transport/zenoh.rs:351-361 | a SAC or SIC is present exactly when the field exists and holds a 64-bit integer, and then it is that integer's low octet |
| Records.ExtractSacSic | asterix-rs/src/transport/zenoh.rs:346-368 | a record without its I010 item has neither SAC nor SIC; with it, SAC and SIC are each present exactly when that field holds a 64-bit integer, and both fit an octet |
| Records.WithSource | asterix-rs/src/transport/zenoh.rs:346-368 | a record whose I010 item carries integer SAC and SIC fields has those two octets extracted |
| Records.Payload | asterix-rs/src/transport/dds.rs:464-478 | when raw bytes are preferred and hex data is present, the payload is exactly the decoded hex data and fails exactly when that decoding fails; otherwise it is the JSON serialisation, or fails without one |
| Records.PayloadOfHex | asterix-rs/src/transport/dds.rs:464-478 | a record carrying the hexadecimal text of some non-empty octets yields exactly those octets as its payload |
| Text.ParseUnsigned | asterix-rs/src/transport/zenoh.rs:513-518 | a parsed value never exceeds the maximum, and neither the empty text nor a lone '+' parses |
| Text.ParseU8 | asterix-rs/src/transport/zenoh.rs:513-518 | `parse::<u8>` only yields values below 256 |
| Text.Decimal | asterix-rs/src/transport/zenoh.rs:339-341 | the decimal text of a number is non-empty, all digits, unsigned, and starts with '0' only for zero |
| Text.DecimalValue | asterix-rs/src/transport/zenoh.rs:339-341 | the digits of the decimal text read back as the number |
| Text.DecimalRoundTrip | asterix-rs/src/transport/zenoh.rs:513-518 | parsing the decimal text of a number up to the maximum gives the number back |
| Text.ZeroPadded | asterix-rs/src/transport/zenoh.rs:349 | `{:03}` pads to at least the width, and to exactly the width when the digits fit |
| Text.StripPrefix | asterix-rs/src/transport/zenoh.rs:508 | the prefix is removed exactly when the text starts with it, and putting it back gives the text |
| Text.TrimStart | asterix-rs/src/transport/zenoh.rs:509 | `trim_start_matches` removes only leading copies of the character, all of them, and keeps the rest unchanged |
| Text.Split | asterix-rs/src/transport/dds.rs:597 | at least one part, none containing the separator |
| Text.SplitJoin | asterix-rs/src/transport/zenoh.rs:509 | splitting the separator-joined parts, none containing the separator, gives the parts back |
| Text.RemoveWhitespace | asterix-rs/src/transport/zenoh.rs:391 | the result has no whitespace, and text with no whitespace is unchanged |
| Text.Trim | asterix-rs/src/parser.rs:322 | the trimmed text neither starts nor ends with whitespace, is empty exactly when the text is all whitespace, and text that does not start or end with whitespace is unchanged |
| Text.AsciiLength | asterix-rs/src/transport/ccsds.rs:410 | an ASCII text has as many UTF-8 bytes as characters |
| RustParser.CheckLength | asterix-rs/src/parser.rs:57-69 | the input is accepted exactly when it has 1 to 65536 octets; an empty input and an oversized one are rejected as invalid data, each with its own reason |
| RustParser.Parse | asterix-rs/src/parser.rs:57-86 | a rejected length is reported before the decoder runs, a null result from the decoder is a null-pointer error, and otherwise the result is the conversion of the decoded blocks |
| RustParser.CheckOffsetArguments | asterix-rs/src/parser.rs:126-179 | the arguments are accepted exactly when the length is 1 to 65536, the offset lies inside the data and at most 10000 blocks are asked for; an offset outside the data is a parse error carrying that offset, and too many blocks is invalid data |
| RustParser.TotalLengthAppend | asterix-rs/src/parser.rs:202-206 | the total record length of two runs of records is the sum of their totals |
| RustParser.BytesConsumed | asterix-rs/src/parser.rs:202-206 | the bytes consumed are the offset plus the lengths of the records returned, and so never less than the offset |
| RustParser.RemainingBlocks | asterix-rs/src/parser.rs:208-213 | no blocks remain once the data is consumed; otherwise the estimate is the unconsumed octets divided by 32, rounded down |
| RustParser.ConsumedChains | asterix-rs/src/parser.rs:202-206 | consuming one run of records and then another from where it stopped is consuming both runs in one call |
| RustParser.ParseWithOffset | asterix-rs/src/parser.rs:126-223 | rejected arguments are reported unchanged; a success comes from decoded blocks that convert to exactly the records returned, whose lengths advance the offset to the bytes consumed, with the remaining-block estimate of what is left |
| RustParser.Cap | asterix-rs/src/parser.rs:254-260 | the record limit that takes effect is at least one and at least the limit asked for, because the check follows the push |
| RustParser.ConvertFrom | asterix-rs/src/parser.rs:229-262 | records are only appended to what was already collected, and each appended record has the filtered category; a failure is the conversion error of some block the filter selected |
| RustParser.ConvertBlocks | asterix-rs/src/parser.rs:229-262 | every record returned has the filtered category, and a failure is the conversion error of some selected block |
| RustParser.Take | asterix-rs/src/parser.rs:254-260 | a prefix of at most n records, and the whole run when it is no longer than n |
| RustParser.ConvertFromTakes | asterix-rs/src/parser.rs:229-262 | when every selected block converts, the records appended are the selected records in order, cut to the remaining room under the limit |
| RustParser.ConvertBlocksSelects | asterix-rs/src/parser.rs:229-262 | when every selected block converts, the result is the non-null blocks of the filtered category in order, cut to the limit when one is set |
| RustParser.MaxRecordsZeroKeepsOne | asterix-rs/src/parser.rs:254-260 | a record limit of 0 still returns one record when any block is selected |
| RustParser.ZeroBlocksAccepted | asterix-rs/src/parser.rs:126-179 | asking for zero blocks is accepted when the data and offset are valid |
| RustParser.BraceCountsOccurrences | asterix-rs/src/parser.rs:339-345 | the two brace counts are the numbers of '{' and '}' characters in the text |
| RustParser.LineEnd | asterix-rs/src/parser.rs:330-335 | the position of the first newline, or the end of the text when there is none |
| RustParser.FirstLine | asterix-rs/src/parser.rs:330-335 | the first line is a prefix of the text and contains no newline |
| RustParser.CandidateText | asterix-rs/src/parser.rs:330-335 | the text handed to the JSON parser never spans a newline |
| RustParser.JsonPreCheck | asterix-rs/src/parser.rs:322-352 | the block has no items exactly when its trimmed JSON is empty, "{}" or "[]"; it is refused exactly with the differing '{' and '}' counts of the candidate line, and a line passed on to the JSON parser has as many '{' as '}' |
| RustParser.LaterLinesIgnored | asterix-rs/src/parser.rs:330-335 | whatever follows the first newline does not change the outcome of the pre-check |
| RustParser.JsonPreCheckStructural | asterix-rs/src/parser.rs:322-352 | the corrected pre-check agrees with the written one about empty documents and passes on the same candidate line |
| RustParser.StructuralAgreesWithoutStrings | asterix-rs/src/parser.rs:339-345 | without any '"' in the text, counting only braces outside strings gives the plain counts |
| RustParser.StringContentsIgnored | asterix-rs/src/parser.rs:339-345 | braces inside a JSON string do not count towards the balance |
| RustParser.BraceInStringRefused | asterix-rs/src/parser.rs:339-352 | the well-formed document {"a":"}"} is refused as one '{' against two '}' |
| RustParser.BraceInStringAccepted | asterix-rs/src/parser.rs:339-352 | the corrected pre-check passes {"a":"}"} on to the JSON parser |
| Ffi.CheckPath | asterix-rs/src/ffi.rs:177-199 | a path passes exactly when it is non-empty, does not start with "../", "..\" and is not "..", and has at most 4096 UTF-8 bytes; an empty path and an upward path are refused with their own reasons |
| Ffi.CallWithPath | asterix-rs/src/ffi.rs:177-213 | a refused path is reported before C++ is called; the call succeeds exactly when the path passes, has no NUL and C++ accepts it |
| Ffi.InitConfigDir | asterix-rs/src/ffi.rs:177-213 | a refused directory is reported before C++ is called; initialisation succeeds exactly when the directory passes, has no NUL and C++ reports success |
| Ffi.LoadCategory | asterix-rs/src/ffi.rs:217-253 | a refused file name is reported before C++ is called; loading succeeds exactly when the name passes, has no NUL and C++ reports success |
| Ffi.InnerParentAccepted | asterix-rs/src/ffi.rs:189-193 | a "/../" after a first segment that does not start with '.' is let through |
| Ffi.PathLengthBoundary | asterix-rs/src/ffi.rs:196-199 | a 4096-character ASCII path passes and a 4097-character one is too long |
| Ffi.PathLengthInBytes | asterix-rs/src/ffi.rs:196-199 | the limit is in bytes: 2049 two-byte characters are too long |
| Ffi.TwoByteLength | asterix-rs/src/ffi.rs:196-199 | a text of 'é' characters has twice as many UTF-8 bytes as characters |
| Ffi.Describe | asterix-rs/src/ffi.rs:315-356 | category 0 is refused before C++ is asked; for any other category the call succeeds exactly when C++ returns a description, returns it unchanged, and a null answer is an internal error |
| Ffi.LevelValue | asterix-rs/src/ffi.rs:262-274 | each level's discriminant lies in 0..4 |
| Ffi.LogLevelOf | asterix-rs/src/ffi.rs:302-312 | a value 0..4 maps to the level with that discriminant, and any other value falls back to Error |
| Ffi.LogLevelRoundTrip | asterix-rs/src/ffi.rs:295-312 | a level set through its discriminant reads back as the same level |
| SpecConverter.SumAppend | asterix-specs-converter/asterixjson2xml.py:66-75 | the sum of two joined runs of widths is the sum of their sums |
| SpecConverter.SizeIsSumOfWidths | asterix-specs-converter/asterixjson2xml.py:66-75 | a variation has a size exactly when every part down to the elements is measurable, and that size is the sum of the element and spare widths in order |
| SpecConverter.ItemsSizeIsSum | asterix-specs-converter/asterixjson2xml.py:66-88 | a Group's items have a size exactly when each one does, and it is the sum of their widths |
| SpecConverter.ItemSizeIsSum | asterix-specs-converter/asterixjson2xml.py:77-88 | an item has a size exactly when it is absent, a spare, unconverted or a measurable variation, and it is the sum of its widths |
| SpecConverter.ConvertItem | asterix-specs-converter/asterixjson2xml.py:135-382 | every converted variation gives each Extended a one-octet first part and one-octet extents |
| SpecConverter.ConvertVariation | asterix-specs-converter/asterixjson2xml.py:154-364 | the conversion of any understood variation gives every nested Extended one-octet first part and extents |
| SpecConverter.ConvertRepeated | asterix-specs-converter/asterixjson2xml.py:318-344 | the inner variation of a regular Repetitive also gives every Extended one-octet parts |
| SpecConverter.ConvertKeepsSlots | asterix-specs-converter/asterixjson2xml.py:142-256 | converting a Group keeps each slot in place: a None stays None, a spare keeps its length, and a slot is described exactly when its rule was understood |
| SpecConverter.MissingFspecIsZero | asterix-specs-converter/asterixjson2xml.py:346-358 | a Compound without an fspec key gets FSPEC length 0 while null stays null, and with any subitem the declared length 0 fails the renderer's length check |
| SpecConverter.FxRepetitiveIsExtended | asterix-specs-converter/asterixjson2xml.py:295-316 | an Fx-repetitive element converts to the same variation as an Extended holding that element |
| SpecConverter.ExtendedHasNoSize | asterix-specs-converter/asterixjson2xml.py:66-75 | the size of a converted Extended cannot be determined |
| SpecConverter.Positive | asterix-specs-converter/asterixjson2xml.py:726-727 | the sizes that get a bit field are exactly the positive ones: every kept size is above 0, every positive size is kept, and none is added |
| SpecConverter.FixedBits | asterix-specs-converter/asterixjson2xml.py:718-729 | one bit field per item with a positive width |
| SpecConverter.FixedBitsLayout | asterix-specs-converter/asterixjson2xml.py:718-729 | the bit fields have the items' positive widths in order, start at the top bit, touch without gap or overlap, and end at the top bit minus the total width plus one |
| SpecConverter.FixedBitsWidths | asterix-specs-converter/asterixjson2xml.py:718-729 | bit field k is as wide as the k-th positive item width |
| SpecConverter.FixedBitsContiguous | asterix-specs-converter/asterixjson2xml.py:718-729 | each bit field starts one below where the previous ended, and the last ends at the top bit minus the total width plus one |
| SpecConverter.ItemSizes | asterix-specs-converter/asterixjson2xml.py:718-729 | the sizes are there, one per item, exactly when every item's size can be determined |
| SpecConverter.RenderFixed | asterix-specs-converter/asterixjson2xml.py:699-732 | a bit size that is not a multiple of eight is an alignment error; a Fixed output has bitSize / 8 octets and at most one bit field per item; a BDS output is one item starting at the top bit |
| SpecConverter.FixedTilesItem | asterix-specs-converter/asterixjson2xml.py:699-732 | when the positive widths add up to the bit size, the bit fields tile the item exactly, from the top bit down to bit 1 |
| SpecConverter.LoneAbsentHasNoWidth | asterix-specs-converter/asterixjson2xml.py:77-82 | a Fixed holding only a None item gets no bit field at all |
| SpecConverter.FspecBits | asterix-specs-converter/asterixjson2xml.py:880-898 | the k-th FSPEC bit is numbered n - k, is a presence bit exactly when subitem k exists, and then carries that subitem's name and the presence number that follows those before it |
| SpecConverter.CompoundFspec | asterix-specs-converter/asterixjson2xml.py:876-900 | a declared FSPEC length is accepted exactly when it is a multiple of eight equal to the number of subitems; the FSPEC then has that many bits, numbered from the top down, and each present subitem has presence number one more than the present subitems before it |
| SpecConverter.PresenceNumbersConsecutive | asterix-specs-converter/asterixjson2xml.py:880-898 | the last present subitem's presence number is the count of present subitems |
| SpecConverter.Label | asterix-specs-converter/asterixjson2xml.py:1065 | a UAP slot is shown by its item name when that is non-empty, and as "-" exactly when the name is missing or empty |
| SpecConverter.Padding | asterix-specs-converter/asterixjson2xml.py:1068-1071 | the padding fills the octet with empty slots up to the FX position, numbering bits and FRNs on |
| SpecConverter.Chunk | asterix-specs-converter/asterixjson2xml.py:1064-1067 | each item of a chunk is shown at consecutive bit and FRN numbers |
| SpecConverter.Octet | asterix-specs-converter/asterixjson2xml.py:1059-1073 | UAP octet k shows seven slots with FRNs 7k + 1 to 7k + 7, then the FX bit |
| SpecConverter.UapIsOctets | asterix-specs-converter/asterixjson2xml.py:1045-1076 | the UAP is the run of octets with seven FRNs each, as many as the items need, and has eight entries per octet |
| SpecConverter.OctetsLayout | asterix-specs-converter/asterixjson2xml.py:1059-1076 | entry p of a run of octets from octet k sits at bit 8k + p and is an FX bit exactly at the eighth position of an octet |
| SpecConverter.UapFxPositions | asterix-specs-converter/asterixjson2xml.py:1045-1076 | entry p of a rendered UAP sits at bit p, and every eighth entry, and only those, is an FX bit |
| ConstraintValues.PythonPow | asterix-specs-converter/asterixjson2xml.py:127-130 | Python's `**` on integers is undefined (raises) exactly when a zero base has a negative exponent |
| ConstraintValues.EvaluateRaises | asterix-specs-converter/asterixjson2xml.py:109-133 | evaluation fails exactly when some Pow inside it raises; a Div by zero does not raise |
| ConstraintValues.DivInverse | asterix-specs-converter/asterixjson2xml.py:121-125 | a Div of two values with a non-zero denominator evaluates to the quotient, which times the denominator gives back the numerator |
| ConstraintValues.DivByZeroIsZero | asterix-specs-converter/asterixjson2xml.py:121-126 | a Div whose denominator is missing or evaluates to zero evaluates to 0 |
| ConstraintValues.NegativePowerIsReciprocal | asterix-specs-converter/asterixjson2xml.py:127-130 | a power with a negative exponent is the reciprocal of the power with the positive one |
| ConstraintValues.LsbToScaling | asterix-specs-converter/asterixjson2xml.py:190-210 | a Div lsb gives its numerator as the scaling, and its exponent as the fractional bits only when the denominator is a power of two; an Integer lsb is the scaling with no fractional bits |
| ConstraintValues.LsbPowerOfTwoKeepsValue | asterix-specs-converter/asterixjson2xml.py:190-210 | for an lsb of the form s / 2^n, the scaling s and the n fractional bits describe the same value as the lsb |
| ConstraintValues.LsbOtherDenominatorDropped | asterix-specs-converter/asterixjson2xml.py:190-210 | for the lsb 1/10 the conversion keeps scaling 1 and no fractional bits, although the lsb's value is 0.1 |

## Left out

- Asterix.EncodeFspec: requires every FRN to be at least 1. Python's `encode_fspec` (asterix/radar_integration/encoder/cat062.py:59-75) accepts any integer. Through negative indexing, `[1, 0]` gives 0x82 and `[0]` alone raises IndexError. Every caller passes literal FRNs of 1 or more.
- Asterix.AsciiField, Asterix.UpperChar: Python's `str.upper()` applies full Unicode case mapping. The model applies it to ASCII letters and to the sixteen characters of `AsciiUppered` that map into ASCII or expand, such as dotless i, long s and sharp s. Every other non-ASCII character stands for its own upper case. So the field fails exactly when the source's `encode('ascii')` would fail on such a character.
- Ccsds.PublishRaw, Ccsds.CategoryFromApidAsWritten: `u16` overflow is a `Fault`, following Rust's debug-build panic. A release build wraps instead; that build is not modelled.
- ConstraintValues.EvaluateRaises: values are exact rationals (`real`). Python's true division gives a binary float, and the int-versus-float distinction in the generated text (`5` against `5.0`) is lost.
- Cat048.DecodeI240: the six identification octets are returned raw. The six-bit text comes from `decode_6bit_ascii` in the decoder base class, which is not part of this model.
- SpecConverter.CompoundFspec: only a Compound with an explicit `fspec` is modelled. The FX-extended FSPEC path (asterix-specs-converter/asterixjson2xml.py:903-940) is not.
- SpecConverter.MissingFspecIsZero: a Compound without an `fspec` key converts to FSPEC length 0 (`value.get('fspec', 0)`). This is recorded as behaviour, not corrected: the renderer's assertion rejects it for any Compound with subitems.
- XmlLoader.Step: a category id arrives typed, as `Numeric(n)` or `BdsName`. The source's `atoi` of the attribute text, and its comparison against the string "BDS", are not modelled.
- XmlLoader: expat tokenising, the character-data handler, and the data-item name and description handlers are not modelled; apart from the log line below, they only fill text fields.
- XmlLoader: the `BitsValue`, `BitsUnit`, `BitsConst`, `UAP` and `UAPItem` handlers are not modelled. Their context checks are therefore not modelled either. Those checks raise the sticky error for a value, unit or constant outside a Bits field, and for a UAP or UAP item outside a Category or UAP. Their end handlers also raise "Closing unopened tag". These tags have no event in the model, so the model says nothing about files the source rejects for one of these reasons.
- XmlLoader: the attribute checks of `<Category>`, `<DataItem>`, `<DataItemFormat>` and `<Fixed>` are not modelled. The source raises the sticky error for an unknown attribute of any of them (XMLParser.cpp:219, :244, :258, :285), for a `rule` when no data item is current (:241), and for a `desc` outside a data item (:255). A `<Category>` or `<DataItem>` without an `id` keeps the previous category or item current. `<DataItemFormat>` has no event here. The model's `CategoryStart` and `DataItemStart` always carry an id and never fail on attributes, so it says nothing about files the source rejects for these reasons. Only `<Bits>` attributes are checked (`UnknownBitsAttr`).
- XmlLoader: the name and description handlers log "Attribute parsing error" outside a data item (XMLParser.cpp:48-71) through the tracer, or set a Python `SyntaxError` in the wrapper build, without raising the sticky error. Neither is modelled.
- XmlLoader: every rejected format counts as deleted. C++ memory ownership is not modelled.
- DataItemBits: the text, JSON and XML rendering in `getText`, scaled and floating-point values, and the Python and Wireshark wrapper sections are not modelled. Only the guard logic of `getText` is.
- Can: socket open, read and write are replaced by lists of frames and read events. `receive_timeout` takes the elapsed time as a parameter instead of reading a clock and sleeping.
- Can.FragmentData: requires a payload size above 0. With size 0 the source's loop never ends, and `payload_size()` only ever yields 7 or 63.
- Can.ProcessFrame: the reassembly map and subscriber list are explicit state. The tokio mutex, the mpsc channel and the listener task are not modelled.
- Zenoh, Dds: sessions, publishers, subscribers, participants and readers are not modelled. The serde JSON text of a record is a parameter of `serialize_record`'s JSON branch.
- Ccsds: the `SpHeader` library serialisation is replaced by the CCSDS 133.0-B-2 section 4.1.3 primary-header layout, written directly. UDP transport, secondary headers and timestamps are not modelled.
- RustParser: decoding itself happens in the C++ engine behind the foreign-function boundary. Its results enter the model as a list of parsed blocks. serde_json parsing beyond the brace and first-line pre-checks is not modelled.
- Ffi: `init_default` and the directory listing behind it (asterix-rs/src/ffi.rs:111-175), and the foreign calls themselves, are not modelled. The result of the foreign call is a parameter.
- Cat021, Cat062: the floating-point conversions of latitude, longitude, time, speed and altitude, before the integer stage, are not modelled. The encoders take the already-scaled integers.
- Floating-point numerics, the statistics and validation modules, and the command-line front ends are not modelled.

## Findings

| source | as written | input that shows it | evidently intended | confidence | as-written member | corrected member |
|---|---|---|---|---|---|---|
| asterix/radar_integration/encoder/cat021.py:236-246 | `encode_i170` ORs `val >> bit_offset` into octet `6i // 8`, and `val << (8 - bit_offset)` into the next octet when the offset exceeds 2, so the six-bit fields overlap instead of occupying bits 48-6i..43-6i | callsign "AB" packs to 01 0A 08 20 82 08; the first six-bit character read back is a space | the eight 6-bit codes concatenated into one 48-bit big-endian word | not executed | Cat021.I170AsWrittenMisplacesBits, Cat021.RecordCallsignMisencoded | Cat021.EncodeI170Decodes |
| src/asterix/XMLParser.cpp:208-213 | `handleCategoryStart` accepts `id <= MAX_CATEGORIES`, so the id MAX_CATEGORIES (257) is defined although the category table has no slot for it | a definition file with `<Category id="257">` | accept only ids below MAX_CATEGORIES | not executed | XmlLoader.CategoryOverflowDefined | XmlLoader.ParseCorrected |
| asterix-rs/src/transport/ccsds.rs:498-504 | `category_from_apid` computes the bound `base_apid + 256` in `u16`, which overflows when the base is above 0xFEFF | base 0xFF00 with APID 0xFF05, which `calculate_apid` produces for category 5 | compare `apid - base_apid < 256`, so that every APID `calculate_apid` produces maps back to its category | not executed | Ccsds.CategoryFromApidOverflows | Ccsds.ApidRoundTrip |
| asterix-rs/src/parser.rs:339-352 | the brace pre-check counts every '{' and '}' in the line, including those inside JSON strings | `{"a":"}"}` is refused as unbalanced | count only braces outside string literals | not executed | RustParser.BraceInStringRefused | RustParser.BraceInStringAccepted |
| src/asterix/DataItemBits.cpp:144-169 | `getBits` lets a range run past the item's octets when its octet count still fits, and shifts the stream by the missing high bits | bits 5..10 of the one-octet item FF read as 60 | refuse any range whose top bit lies beyond the item | not executed | DataItemBits.OverlongRangeShiftsBits | DataItemBits.CheckedAgreesInside |

=== FILE: Asterix.dfy ===
/**
 * The parts of the ASTERIX record layout (EUROCONTROL ASTERIX Part 1) that
 * the Python encoders share: the FSPEC, whose octets carry seven presence
 * bits for consecutive field reference numbers (FRNs) and a final FX bit
 * saying whether another octet follows; the data-block header of one
 * category octet and a big-endian 16-bit length; and the fixed-width ASCII
 * text fields.
 */
module Asterix {
  import opened Wrappers
  import opened Bytes

  /** The largest FRN of a list, 0 for an empty one, as `max(items) if items else 0`. */
  function MaxFrn(items: seq<int>): (m: int)
    ensures forall i :: 0 <= i < |items| ==> items[i] <= m
    ensures |items| == 0 ==> m == 0
    ensures |items| > 0 ==> m in items
  {
    if |items| == 0 then 0
    else if |items| == 1 then items[0]
    else
      var m := MaxFrn(items[..|items| - 1]);
      assert forall i :: 0 <= i < |items| - 1 ==> items[..|items| - 1][i] == items[i];
      if items[|items| - 1] > m then items[|items| - 1] else m
  }

  /** The largest FRN of a list is the one that bounds all others. */
  lemma MaxFrnIs(items: seq<int>, m: int)
    requires m in items && forall f :: f in items ==> f <= m
    ensures MaxFrn(items) == m
  {
  }

  /** FRNs are numbered from 1. */
  predicate ValidFrns(items: seq<int>) {
    forall i :: 0 <= i < |items| ==> items[i] >= 1
  }

  function Bit(b: bool): nat {
    if b then 1 else 0
  }

  /** The octet whose bits, most significant first, are `f1` .. `f7` and `fx`. */
  function Octet(f1: bool, f2: bool, f3: bool, f4: bool, f5: bool, f6: bool, f7: bool, fx: bool): byte {
    128 * Bit(f1) + 64 * Bit(f2) + 32 * Bit(f3) + 16 * Bit(f4) + 8 * Bit(f5) + 4 * Bit(f6) + 2 * Bit(f7) + Bit(fx)
  }

  /**
   * FSPEC octet `k` of `n`: the presence bits of FRNs 7k+1 .. 7k+7 from
   * the most significant bit down, and the FX bit, set on every octet but
   * the last.
   */
  function FspecOctet(items: seq<int>, k: nat, n: nat): byte {
    Octet(7 * k + 1 in items, 7 * k + 2 in items, 7 * k + 3 in items, 7 * k + 4 in items,
          7 * k + 5 in items, 7 * k + 6 in items, 7 * k + 7 in items, k + 1 < n)
  }

  /**
   * `encode_fspec`: as many octets as the largest FRN needs, each holding
   * its presence bits and the FX bit.
   */
  function EncodeFspec(items: seq<int>): (r: seq<byte>)
    requires ValidFrns(items)
    ensures |items| == 0 <==> |r| == 0
    ensures forall i :: 0 <= i < |items| ==> items[i] <= 7 * |r|
    ensures |r| > 0 ==> exists i :: 0 <= i < |items| && 7 * (|r| - 1) < items[i]
  {
    var n := (MaxFrn(items) + 6) / 7;
    seq(n, k requires 0 <= k < n => FspecOctet(items, k, n))
  }

  /**
   * The number of FSPEC octets at the front of `data`, as a decoder finds
   * it: up to and including the first octet whose FX bit is clear; None if
   * the data ends first.
   */
  function FspecExtent(data: seq<byte>): (r: Option<nat>)
    ensures r.Some? ==> 1 <= r.value <= |data| && data[r.value - 1] % 2 == 0
    ensures r.Some? ==> forall k :: 0 <= k < r.value - 1 ==> data[k] % 2 == 1
  {
    if |data| == 0 then None
    else if data[0] % 2 == 0 then Some(1)
    else match FspecExtent(data[1..])
      case None => None
      case Some(n) => Some(n + 1)
  }

  /** Whether the FSPEC at the front of `data` marks FRN `frn` present. */
  predicate Present(data: seq<byte>, frn: int) {
    match FspecExtent(data)
    case None => false
    case Some(n) => 1 <= frn <= 7 * n && BitSet(data[(frn - 1) / 7], 7 - (frn - 1) % 7)
  }

  /** Bit `k` of `(2 * hi + b) * 2^k + lo` is `b` when `lo` is below 2^k. */
  lemma BitOfSum(x: nat, k: nat, p: nat, hi: nat, b: nat, lo: nat)
    requires p == Pow2(k) && b <= 1 && lo < p && x == (2 * hi + b) * p + lo
    ensures BitSet(x, k) <==> b == 1
  {
    DivUnique(x, p, 2 * hi + b, lo);
    DivUnique(2 * hi + b, 2, hi, b);
  }

  /** The weights of the eight bits of an octet. */
  lemma OctetWeights()
    ensures Pow2(0) == 1 && Pow2(1) == 2 && Pow2(2) == 4 && Pow2(3) == 8
    ensures Pow2(4) == 16 && Pow2(5) == 32 && Pow2(6) == 64 && Pow2(7) == 128
  {
    assert Pow2(4) == 16;
  }

  /** The four high bits of the octet `x` with bits `b1` .. `b8`, most significant first. */
  lemma HighBits(x: nat, b1: nat, b2: nat, b3: nat, b4: nat, b5: nat, b6: nat, b7: nat, b8: nat)
    requires b1 <= 1 && b2 <= 1 && b3 <= 1 && b4 <= 1 && b5 <= 1 && b6 <= 1 && b7 <= 1 && b8 <= 1
    requires x == 128 * b1 + 64 * b2 + 32 * b3 + 16 * b4 + 8 * b5 + 4 * b6 + 2 * b7 + b8
    ensures BitSet(x, 7) <==> b1 == 1
    ensures BitSet(x, 6) <==> b2 == 1
    ensures BitSet(x, 5) <==> b3 == 1
    ensures BitSet(x, 4) <==> b4 == 1
  {
    OctetWeights();
    BitOfSum(x, 7, 128, 0, b1, 64 * b2 + 32 * b3 + 16 * b4 + 8 * b5 + 4 * b6 + 2 * b7 + b8);
    BitOfSum(x, 6, 64, b1, b2, 32 * b3 + 16 * b4 + 8 * b5 + 4 * b6 + 2 * b7 + b8);
    BitOfSum(x, 5, 32, 2 * b1 + b2, b3, 16 * b4 + 8 * b5 + 4 * b6 + 2 * b7 + b8);
    BitOfSum(x, 4, 16, 4 * b1 + 2 * b2 + b3, b4, 8 * b5 + 4 * b6 + 2 * b7 + b8);
  }

  /** The four low bits of the octet `x` with bits `b1` .. `b8`, most significant first. */
  lemma LowBits(x: nat, b1: nat, b2: nat, b3: nat, b4: nat, b5: nat, b6: nat, b7: nat, b8: nat)
    requires b1 <= 1 && b2 <= 1 && b3 <= 1 && b4 <= 1 && b5 <= 1 && b6 <= 1 && b7 <= 1 && b8 <= 1
    requires x == 128 * b1 + 64 * b2 + 32 * b3 + 16 * b4 + 8 * b5 + 4 * b6 + 2 * b7 + b8
    ensures BitSet(x, 3) <==> b5 == 1
    ensures BitSet(x, 2) <==> b6 == 1
    ensures BitSet(x, 1) <==> b7 == 1
    ensures BitSet(x, 0) <==> b8 == 1
  {
    OctetWeights();
    BitOfSum(x, 3, 8, 8 * b1 + 4 * b2 + 2 * b3 + b4, b5, 4 * b6 + 2 * b7 + b8);
    BitOfSum(x, 2, 4, 16 * b1 + 8 * b2 + 4 * b3 + 2 * b4 + b5, b6, 2 * b7 + b8);
    BitOfSum(x, 1, 2, 32 * b1 + 16 * b2 + 8 * b3 + 4 * b4 + 2 * b5 + b6, b7, b8);
    BitOfSum(x, 0, 1, 64 * b1 + 32 * b2 + 16 * b3 + 8 * b4 + 4 * b5 + 2 * b6 + b7, b8, 0);
  }

  /** Each bit of an octet is one of its flags: bit 7 the first, bit 0 the FX flag. */
  lemma OctetBits(f1: bool, f2: bool, f3: bool, f4: bool, f5: bool, f6: bool, f7: bool, fx: bool)
    ensures var x := Octet(f1, f2, f3, f4, f5, f6, f7, fx);
      && (BitSet(x, 7) <==> f1) && (BitSet(x, 6) <==> f2) && (BitSet(x, 5) <==> f3)
      && (BitSet(x, 4) <==> f4) && (BitSet(x, 3) <==> f5) && (BitSet(x, 2) <==> f6)
      && (BitSet(x, 1) <==> f7) && (BitSet(x, 0) <==> fx)
  {
    var x := Octet(f1, f2, f3, f4, f5, f6, f7, fx);
    HighBits(x, Bit(f1), Bit(f2), Bit(f3), Bit(f4), Bit(f5), Bit(f6), Bit(f7), Bit(fx));
    LowBits(x, Bit(f1), Bit(f2), Bit(f3), Bit(f4), Bit(f5), Bit(f6), Bit(f7), Bit(fx));
  }

  /** Bit 7 - j of an FSPEC octet is FRN 7k+j+1's presence, and bit 0 its FX bit. */
  lemma FspecOctetBits(items: seq<int>, k: nat, n: nat, j: nat)
    requires j < 7
    ensures BitSet(FspecOctet(items, k, n), 7 - j) <==> 7 * k + j + 1 in items
    ensures BitSet(FspecOctet(items, k, n), 0) <==> k + 1 < n
  {
    OctetBits(7 * k + 1 in items, 7 * k + 2 in items, 7 * k + 3 in items, 7 * k + 4 in items,
              7 * k + 5 in items, 7 * k + 6 in items, 7 * k + 7 in items, k + 1 < n);
  }

  /** The FX bit of an octet is its lowest bit. */
  lemma LowestBit(x: nat)
    ensures BitSet(x, 0) <==> x % 2 == 1
  {
  }

  /** A decoder reads back exactly the octets `encode_fspec` wrote, whatever follows. */
  lemma {:induction false} EncodedFspecExtent(items: seq<int>, rest: seq<byte>, k: nat)
    requires ValidFrns(items) && k < |EncodeFspec(items)|
    ensures FspecExtent(EncodeFspec(items)[k..] + rest) == Some(|EncodeFspec(items)| - k)
    decreases |EncodeFspec(items)| - k
  {
    var r := EncodeFspec(items);
    var data := r[k..] + rest;
    FspecOctetBits(items, k, |r|, 0);
    LowestBit(r[k]);
    assert data[0] == r[k];
    if k + 1 < |r| {
      assert data[1..] == r[k + 1..] + rest;
      EncodedFspecExtent(items, rest, k + 1);
    }
  }

  /** For a non-empty FRN list, a decoder reads exactly the octets `encode_fspec` produced. */
  lemma EncodeFspecExtent(items: seq<int>, rest: seq<byte>)
    requires ValidFrns(items) && |items| > 0
    ensures FspecExtent(EncodeFspec(items) + rest) == Some(|EncodeFspec(items)|)
  {
    var r := EncodeFspec(items);
    assert r[0..] == r;
    EncodedFspecExtent(items, rest, 0);
  }

  /**
   * The round trip of the FSPEC: for a non-empty FRN list, a decoder that
   * reads the octets `encode_fspec` produced, followed by anything, finds
   * exactly the listed FRNs present.
   */
  lemma EncodeFspecPresent(items: seq<int>, rest: seq<byte>, frn: int)
    requires ValidFrns(items) && |items| > 0
    ensures Present(EncodeFspec(items) + rest, frn) <==> frn in items
  {
    var r := EncodeFspec(items);
    EncodeFspecExtent(items, rest);
    if 1 <= frn <= 7 * |r| {
      PresentInRange(items, rest, frn);
    }
  }

  lemma PresentInRange(items: seq<int>, rest: seq<byte>, frn: int)
    requires ValidFrns(items) && |items| > 0
    requires FspecExtent(EncodeFspec(items) + rest) == Some(|EncodeFspec(items)|)
    requires 1 <= frn <= 7 * |EncodeFspec(items)|
    ensures Present(EncodeFspec(items) + rest, frn) <==> frn in items
  {
    var r := EncodeFspec(items);
    var k := (frn - 1) / 7;
    var j := (frn - 1) % 7;
    FrnPosition(frn, |r|);
    assert (r + rest)[k] == r[k] == FspecOctet(items, k, |r|);
    assert Present(r + rest, frn) == BitSet(FspecOctet(items, k, |r|), 7 - j);
    FspecOctetBits(items, k, |r|, j);
  }

  /** FRN `frn` is bit `7 - j` of FSPEC octet `k`, where `frn == 7k + j + 1`. */
  lemma FrnPosition(frn: int, n: nat)
    requires 1 <= frn <= 7 * n
    ensures 0 <= (frn - 1) / 7 < n && 0 <= (frn - 1) % 7 < 7
    ensures 7 * ((frn - 1) / 7) + (frn - 1) % 7 + 1 == frn
  {
  }

  /**
   * `encode_cat0NN_datablock`: the category octet, the big-endian length of
   * the whole block and the records back to back. `struct.pack('!BH', …)`
   * raises once the length no longer fits 16 bits.
   */
  function DataBlock(category: byte, records: seq<seq<byte>>): (r: Result<seq<byte>, string>)
    ensures r.Failure? <==> 3 + TotalLength(records) > 65535
    ensures r.Success? ==> |r.value| >= 3 && r.value[0] == category
    ensures r.Success? ==> BeValue(r.value[1..3]) == |r.value|
    ensures r.Success? ==> r.value[3..] == Flatten(records)
  {
    var length := 3 + TotalLength(records);
    if length > 65535 then Failure("struct.error: 'H' format requires 0 <= number <= 65535")
    else
      var block := [category] + PackU16(length) + Flatten(records);
      assert block[1..3] == PackU16(length);
      assert block[3..] == Flatten(records);
      Success(block)
  }

  /** `encode_i010` (data source identifier): SAC and SIC octets; `struct.pack('BB', …)` raises outside 0..255. */
  function EncodeI010(sac: int, sic: int): (r: Result<seq<byte>, string>)
    ensures r.Success? <==> 0 <= sac < 256 && 0 <= sic < 256
    ensures r.Success? ==> |r.value| == 2 && r.value[0] == sac && r.value[1] == sic
  {
    if 0 <= sac < 256 && 0 <= sic < 256 then
      var item: seq<byte> := [sac, sic];
      Success(item)
    else Failure("struct.error: ubyte format requires 0 <= number <= 255")
  }

  /**
   * `struct.pack('>I', v)[1:]`: the three low octets of a 32-bit field;
   * packing raises for a value outside 0 .. 2^32 - 1.
   */
  function PackLow3(v: int): (r: Result<seq<byte>, string>)
    ensures r.Success? <==> 0 <= v < 0x1_0000_0000
    ensures r.Success? ==> |r.value| == 3 && BeValue(r.value) == v % 0x100_0000
  {
    Pow2Values();
    if 0 <= v < 0x1_0000_0000 then
      var word := BeBytes(v, 4);
      BeValueWord(word);
      BeValueBound(word[1..]);
      DivUnique(v, 0x100_0000, word[0], BeValue(word[1..]));
      Success(word[1..])
    else Failure("struct.error: 'I' format requires 0 <= number <= 4294967295")
  }

  /** Python's `str.upper` on an ASCII character: the letters a-z move to A-Z. */
  function UpperAscii(c: char): (u: char)
    ensures 'a' <= c <= 'z' ==> 'A' <= u <= 'Z' && u as int == c as int - 32
    ensures !('a' <= c <= 'z') ==> u == c
  {
    if 'a' <= c <= 'z' then (c as int - 32) as char else c
  }

  /** The non-ASCII characters whose full Unicode upper case begins with an ASCII letter. */
  const AsciiUppered: set<char> := {
    '\U{DF}', '\U{131}', '\U{17F}', '\U{1F0}', '\U{1E96}', '\U{1E97}', '\U{1E98}', '\U{1E99}',
    '\U{1E9A}', '\U{FB00}', '\U{FB01}', '\U{FB02}', '\U{FB03}', '\U{FB04}', '\U{FB05}', '\U{FB06}'}

  /**
   * Python's `str.upper` on one character, as far as an ASCII encoding of
   * the result can tell: ASCII letters move to upper case; the characters
   * of `AsciiUppered` expand to their full upper case (sharp s to "SS",
   * dotless i to "I", long s to "S", the Latin ligatures to their letters,
   * and a few letters to a capital and a combining mark); every other
   * non-ASCII character stands for its own upper case, which begins with a
   * non-ASCII character as well, so the encoding fails at that position
   * whichever one it is.
   */
  function UpperChar(c: char): (u: string)
    ensures |u| > 0
    ensures c as int < 128 ==> u == [UpperAscii(c)]
  {
    if c as int < 128 then [UpperAscii(c)]
    else match c
      case '\U{DF}' => "SS"
      case '\U{131}' => "I"
      case '\U{17F}' => "S"
      case '\U{1F0}' => "J\U{30C}"
      case '\U{1E96}' => "H\U{331}"
      case '\U{1E97}' => "T\U{308}"
      case '\U{1E98}' => "W\U{30A}"
      case '\U{1E99}' => "Y\U{30A}"
      case '\U{1E9A}' => "A\U{2BE}"
      case '\U{FB00}' => "FF"
      case '\U{FB01}' => "FI"
      case '\U{FB02}' => "FL"
      case '\U{FB03}' => "FFI"
      case '\U{FB04}' => "FFL"
      case '\U{FB05}' => "ST"
      case '\U{FB06}' => "ST"
      case _ => [c]
  }

  /** An upper case begins with an ASCII character exactly for ASCII characters and those of `AsciiUppered`, and holds no lower-case ASCII letter. */
  lemma UpperCharStart(c: char)
    ensures UpperChar(c)[0] as int < 128 <==> c as int < 128 || c in AsciiUppered
    ensures forall i :: 0 <= i < |UpperChar(c)| ==> !('a' <= UpperChar(c)[i] <= 'z')
  {
  }

  /** `str.upper` on a whole string, character by character. */
  function Upper(s: string): (u: string)
    ensures |u| >= |s|
    decreases |s|
  {
    if |s| == 0 then [] else UpperChar(s[0]) + Upper(s[1..])
  }

  /** The upper case of a concatenation is the concatenation of the upper cases. */
  lemma {:induction false} UpperAppend(a: string, b: string)
    ensures Upper(a + b) == Upper(a) + Upper(b)
    decreases |a|
  {
    if |a| > 0 {
      assert (a + b)[0] == a[0] && (a + b)[1..] == a[1..] + b;
      UpperAppend(a[1..], b);
    } else {
      assert a + b == b;
    }
  }

  /** On ASCII text `str.upper` keeps the length and upper-cases each letter in place. */
  lemma {:induction false} UpperOfAscii(s: string)
    requires forall i :: 0 <= i < |s| ==> s[i] as int < 128
    ensures |Upper(s)| == |s|
    ensures forall i :: 0 <= i < |s| ==> Upper(s)[i] == UpperAscii(s[i])
    decreases |s|
  {
    if |s| > 0 {
      UpperOfAscii(s[1..]);
      assert Upper(s) == [UpperAscii(s[0])] + Upper(s[1..]);
    }
  }

  /**
   * `s.upper().ljust(w)[:w].encode('ascii')`: the first `w` characters of
   * the upper-cased text, padded with spaces; the encoding raises on a
   * non-ASCII character among them.
   */
  function AsciiField(s: string, w: nat): (r: Result<seq<byte>, string>)
    ensures r.Success? ==> |r.value| == w
  {
    var u := Upper(s);
    if exists i :: 0 <= i < |u| && i < w && u[i] as int >= 128 then Failure("UnicodeEncodeError: 'ascii' codec")
    else Success(seq(w, i requires 0 <= i < w => if i < |u| then u[i] as int else ' ' as int))
  }

  /** On text whose first `w` characters are ASCII the field is those characters upper-cased, then spaces. */
  lemma AsciiFieldOfAscii(s: string, w: nat)
    requires forall i :: 0 <= i < |s| && i < w ==> s[i] as int < 128
    ensures AsciiField(s, w).Success?
    ensures forall i :: 0 <= i < w ==>
      AsciiField(s, w).value[i] == if i < |s| then UpperAscii(s[i]) as int else ' ' as int
  {
    var k := if |s| < w then |s| else w;
    assert s == s[..k] + s[k..];
    UpperAppend(s[..k], s[k..]);
    UpperOfAscii(s[..k]);
    var u := Upper(s);
    assert forall i :: 0 <= i < k ==> u[i] == Upper(s[..k])[i];
  }

  /**
   * A non-ASCII character in the first `w` positions, after ASCII text,
   * makes the encoding fail unless its upper case begins with an ASCII
   * letter.
   */
  lemma AsciiFieldFails(s: string, w: nat, k: nat)
    requires k < |s| && k < w
    requires forall i :: 0 <= i < k ==> s[i] as int < 128
    requires s[k] as int >= 128 && s[k] !in AsciiUppered
    ensures AsciiField(s, w).Failure?
  {
    assert s == s[..k] + s[k..];
    UpperAppend(s[..k], s[k..]);
    UpperOfAscii(s[..k]);
    UpperCharStart(s[k]);
    assert Upper(s[k..]) == UpperChar(s[k]) + Upper(s[k + 1..]);
    assert Upper(s)[k] == UpperChar(s[k])[0];
  }

  /** Dotless i upper-cases to I and sharp s to SS, so both encode. */
  lemma AsciiFieldExpands()
    ensures AsciiField("\U{131}", 2) == Success(['I' as int, ' ' as int])
    ensures AsciiField("\U{DF}", 2) == Success(['S' as int, 'S' as int])
  {
    var i := "\U{131}";
    assert Upper(i) == "I" + Upper(i[1..]);
    assert Upper(i) == "I";
    var r := AsciiField(i, 2);
    assert r.Success?;
    assert r.value[0] == 'I' as int && r.value[1] == ' ' as int;
    assert r.value == ['I' as int, ' ' as int];
    var ss := "\U{DF}";
    assert Upper(ss) == "SS" + Upper(ss[1..]);
    assert Upper(ss) == "SS";
    var t := AsciiField(ss, 2);
    assert t.Success?;
    assert t.value[0] == 'S' as int && t.value[1] == 'S' as int;
    assert t.value == ['S' as int, 'S' as int];
  }
}

=== FILE: Bytes.dfy ===
/**
 * Byte-level helpers shared by the encoders, decoders and transports:
 * unbounded integers standing for machine bytes, big-endian packing as done
 * by Python's `struct` module and Rust's `to_be_bytes`, two's-complement
 * fields, and clamping.
 */
module Bytes {

  /** An octet, as an integer in 0..255. */
  type byte = x: int | 0 <= x < 256

  function Pow2(n: nat): (r: nat)
    ensures r >= 1
  {
    if n == 0 then 1 else 2 * Pow2(n - 1)
  }

  /** The powers of two the fixed-width fields of the model use. */
  lemma Pow2Values()
    ensures Pow2(3) == 8 && Pow2(5) == 32 && Pow2(6) == 64 && Pow2(7) == 128
    ensures Pow2(8) == 256 && Pow2(11) == 2048 && Pow2(12) == 4096
    ensures Pow2(14) == 16384 && Pow2(15) == 32768 && Pow2(16) == 65536
    ensures Pow2(23) == 0x80_0000 && Pow2(24) == 0x100_0000
    ensures Pow2(31) == 0x8000_0000 && Pow2(32) == 0x1_0000_0000
  {
    assert Pow2(0) == 1;
    assert Pow2(2) == 4;
    assert Pow2(4) == 16;
    assert Pow2(6) == 64;
    assert Pow2(8) == 256;
    assert Pow2(10) == 1024;
    assert Pow2(12) == 4096;
    assert Pow2(14) == 16384;
    assert Pow2(16) == 65536;
    assert Pow2(18) == 262144;
    assert Pow2(20) == 1048576;
    assert Pow2(22) == 4194304;
    assert Pow2(24) == 0x100_0000;
    assert Pow2(26) == 0x400_0000;
    assert Pow2(28) == 0x1000_0000;
    assert Pow2(30) == 0x4000_0000;
    assert Pow2(32) == 0x1_0000_0000;
  }

  lemma Pow2Octet()
    ensures Pow2(8) == 256
  {
    assert Pow2(4) == 16;
  }

  lemma Pow2Add(a: nat, b: nat)
    ensures Pow2(a + b) == Pow2(a) * Pow2(b)
  {
    if a > 0 {
      Pow2Add(a - 1, b);
    }
  }

  lemma MulAtLeast(a: int, b: int)
    requires a >= 1 && b > 0
    ensures a * b >= b
  {
  }

  /** Quotient and remainder determine each other: `a == q*p + r` with `0 <= r < p` gives `a / p == q`. */
  lemma DivUnique(a: int, p: int, q: int, r: int)
    requires p > 0 && 0 <= r < p && a == q * p + r
    ensures a / p == q
    ensures a % p == r
  {
    var q' := a / p;
    var r' := a % p;
    assert a == q' * p + r';
    assert (q - q') * p == r' - r;
    if q > q' {
      MulAtLeast(q - q', p);
    } else if q < q' {
      MulAtLeast(q' - q, p);
    }
  }

  lemma MulMonotone(c: nat, x: nat, y: nat)
    requires x <= y
    ensures c * x <= c * y
  {
    assert c * y - c * x == c * (y - x);
  }

  /** Dividing by `a` and then by `b` is dividing by `a * b`. */
  lemma DivDiv(x: nat, a: nat, b: nat)
    requires a > 0 && b > 0
    ensures x / (a * b) == (x / a) / b
  {
    var q := (x / a) / b;
    var r1 := x % a;
    var r2 := (x / a) % b;
    assert x / a == q * b + r2;
    MulMonotone(a, r2, b - 1);
    assert x == (q * (a * b)) + (a * r2 + r1) by {
      assert x == a * (x / a) + r1;
      assert a * (x / a) == a * (q * b) + a * r2;
    }
    DivUnique(x, a * b, q, a * r2 + r1);
  }

  /** Peeling the lowest bit: `y mod 2^(m+1)` is twice `(y / 2) mod 2^m` plus the lowest bit of `y`. */
  lemma ModDouble(y: nat, m: nat)
    ensures y % Pow2(m + 1) == 2 * ((y / 2) % Pow2(m)) + y % 2
  {
    var a := (y / 2) / Pow2(m);
    var b := (y / 2) % Pow2(m);
    assert y / 2 == a * Pow2(m) + b;
    assert y == a * Pow2(m + 1) + (2 * b + y % 2);
    DivUnique(y, Pow2(m + 1), a, 2 * b + y % 2);
  }

  /** An 8-bit counter's `wrapping_add(1)` tracks the true count modulo 256. */
  lemma WrappingIncrement(n: nat)
    ensures (n % 256 + 1) % 256 == (n + 1) % 256
  {
    if n % 256 == 255 {
      DivUnique(n + 1, 256, n / 256 + 1, 0);
    } else {
      DivUnique(n + 1, 256, n / 256, n % 256 + 1);
    }
  }

  /** Bit `k` of `x`, counting from 0 at the least significant end. */
  predicate BitSet(x: nat, k: nat) {
    (x / Pow2(k)) % 2 == 1
  }

  /** The number a bit string denotes, most significant bit first. */
  function StreamValue(bits: seq<bool>): (r: nat)
    ensures r < Pow2(|bits|)
  {
    if |bits| == 0 then 0
    else 2 * StreamValue(bits[..|bits| - 1]) + (if bits[|bits| - 1] then 1 else 0)
  }

  /** A bit string of zeros denotes 0. */
  lemma {:induction false} StreamValueZeros(bits: seq<bool>)
    requires forall i :: 0 <= i < |bits| ==> !bits[i]
    ensures StreamValue(bits) == 0
  {
    if |bits| > 0 {
      StreamValueZeros(bits[..|bits| - 1]);
    }
  }

  /** The value of a big-endian octet string. */
  function BeValue(s: seq<byte>): nat {
    if |s| == 0 then 0 else BeValue(s[..|s| - 1]) * 256 + s[|s| - 1]
  }

  lemma BeValueBound(s: seq<byte>)
    ensures BeValue(s) < Pow2(8 * |s|)
  {
    if |s| > 0 {
      var p := Pow2(8 * (|s| - 1));
      BeValueBound(s[..|s| - 1]);
      MulMonotone(256, BeValue(s[..|s| - 1]), p - 1);
      assert Pow2(8 * |s|) == p * 256 by {
        Pow2Add(8 * (|s| - 1), 8);
        assert Pow2(8) == 256;
      }
    }
  }

  /**
   * `v` written as `n` big-endian octets, as `struct.pack('>H', v)` (n = 2)
   * or the three-octet slices of the encoders do. `BeValue` is its inverse.
   */
  function BeBytes(v: nat, n: nat): (r: seq<byte>)
    requires v < Pow2(8 * n)
    ensures |r| == n
    ensures BeValue(r) == v
  {
    if n == 0 then []
    else
      Pow2Add(8 * (n - 1), 8);
      Pow2Values();
      var r := BeBytes(v / 256, n - 1) + [v % 256];
      assert r[..|r| - 1] == BeBytes(v / 256, n - 1);
      r
  }

  /** The value of up to three octets, written out. */
  lemma {:induction false} BeValueDigits(s: seq<byte>)
    requires 1 <= |s| <= 3
    ensures |s| == 1 ==> BeValue(s) == s[0]
    ensures |s| == 2 ==> BeValue(s) == s[0] as int * 256 + s[1] as int
    ensures |s| == 3 ==> BeValue(s) == s[0] as int * 65536 + s[1] as int * 256 + s[2] as int
  {
    if |s| == 1 {
      assert s[..0] == [];
    } else {
      var init := s[..|s| - 1];
      BeValueDigits(init);
      assert init[0] == s[0] && (|s| == 3 ==> init[1] == s[1]);
      assert BeValue(s) == BeValue(init) * 256 + s[|s| - 1];
      if |s| == 3 {
        assert (s[0] as int * 256 + s[1] as int) * 256 == s[0] as int * 65536 + s[1] as int * 256;
      }
    }
  }

  /** The top octet of a 32-bit big-endian word weighs 2^24. */
  lemma BeValueWord(s: seq<byte>)
    requires |s| == 4
    ensures BeValue(s) == s[0] as int * 0x100_0000 + BeValue(s[1..])
  {
    BeValueDigits(s[..3]);
    BeValueDigits(s[1..]);
    assert s[..3][..2] == s[..2];
    assert s[1..][..2] == s[1..3];
    BeValueDigits(s[1..3]);
  }

  /** `v` limited to `lo..hi`, as Python's `max(lo, min(hi, v))`. */
  function Clamp(v: int, lo: int, hi: int): (r: int)
    requires lo <= hi
    ensures lo <= r <= hi
    ensures lo <= v <= hi ==> r == v
    ensures v < lo ==> r == lo
    ensures v > hi ==> r == hi
  {
    if v < lo then lo else if v > hi then hi else v
  }

  /** The `bits`-wide two's-complement pattern of `v`. */
  function TwosComplement(v: int, bits: nat): (u: nat)
    requires bits >= 1
    requires -(Pow2(bits - 1) as int) <= v < Pow2(bits - 1)
    ensures u < Pow2(bits)
    ensures v >= 0 ==> u == v
    ensures v < 0 ==> u == v + Pow2(bits)
  {
    if v >= 0 then v else v + Pow2(bits)
  }

  /** The signed value of a `bits`-wide two's-complement pattern. */
  function FromTwosComplement(u: nat, bits: nat): (v: int)
    requires bits >= 1
    requires u < Pow2(bits)
    ensures -(Pow2(bits - 1) as int) <= v < Pow2(bits - 1)
    ensures TwosComplement(v, bits) == u
  {
    if u >= Pow2(bits - 1) then u - Pow2(bits) else u
  }

  /** Reading back a two's-complement pattern gives the value written. */
  lemma TwosComplementInverse(v: int, bits: nat)
    requires bits >= 1
    requires -(Pow2(bits - 1) as int) <= v < Pow2(bits - 1)
    ensures FromTwosComplement(TwosComplement(v, bits), bits) == v
  {
    assert Pow2(bits) == 2 * Pow2(bits - 1);
  }

  /** The value of a big-endian two's-complement octet string, as a signed `int.from_bytes`. */
  function SignedValue(s: seq<byte>): (v: int)
    requires |s| >= 1
    ensures -(Pow2(8 * |s| - 1) as int) <= v < Pow2(8 * |s| - 1)
  {
    BeValueBound(s);
    FromTwosComplement(BeValue(s), 8 * |s|)
  }

  /** `v` as an `n`-octet signed big-endian field, as `struct.pack('>h', v)` (n = 2) or `'>i'` (n = 4). */
  function PackSigned(v: int, n: nat): (r: seq<byte>)
    requires n >= 1
    requires -(Pow2(8 * n - 1) as int) <= v < Pow2(8 * n - 1)
    ensures |r| == n
    ensures SignedValue(r) == v
  {
    TwosComplementInverse(v, 8 * n);
    BeBytes(TwosComplement(v, 8 * n), n)
  }

  /** `struct.pack('>H', v)`: an unsigned 16-bit big-endian field. */
  function PackU16(v: nat): (r: seq<byte>)
    requires v <= 65535
    ensures |r| == 2
    ensures BeValue(r) == v
  {
    Pow2Values();
    BeBytes(v, 2)
  }

  /** Sum of the lengths of a list of octet strings. */
  function TotalLength(parts: seq<seq<byte>>): nat {
    if |parts| == 0 then 0 else TotalLength(parts[..|parts| - 1]) + |parts[|parts| - 1]|
  }

  /** The concatenation of a list of octet strings, as `b''.join(parts)`. */
  function Flatten(parts: seq<seq<byte>>): (r: seq<byte>)
    ensures |r| == TotalLength(parts)
  {
    if |parts| == 0 then [] else Flatten(parts[..|parts| - 1]) + parts[|parts| - 1]
  }
}

=== FILE: Can.dfy ===
/**
 * The CAN-bus transport of asterix-rs: an 11-bit identifier carrying the top
 * three category bits and a fragment sequence number, a one-octet fragment
 * header (last flag and 7-bit index), a fragmenter that splits a message into
 * header-prefixed chunks of 7 (classic) or 63 (FD) octets, and a subscriber
 * that reassembles fragments per truncated category.
 *
 * Clocks are parameters: `now` is the monotonic clock in milliseconds and
 * `wallMicros` the wall-clock timestamp stamped on completed samples.
 * Socket I/O is abstract: writes are accepted or rejected per frame, reads
 * are a list of outcomes.
 */
module Can {
  import opened Wrappers
  import opened Bytes

  /** Classic CAN: 8 data octets, one of them the fragment header. */
  const CAN_PAYLOAD_SIZE: nat := 7
  /** CAN FD: 64 data octets, one of them the fragment header. */
  const CANFD_PAYLOAD_SIZE: nat := 63
  const DEFAULT_REASSEMBLY_TIMEOUT_MS: nat := 1000
  const FRAGMENT_LAST_FLAG: byte := 0x80
  const FRAGMENT_INDEX_MASK: byte := 0x7F
  /**
   * The frame type the publisher builds is the classic data frame of the
   * socket library, whose constructor refuses more than 8 data octets.
   */
  const CLASSIC_FRAME_MAX_DATA: nat := 8

  datatype CanError =
    | InterfaceError
    | SendError
    | ReceiveError
    | FragmentError
    | Timeout
    | ConfigError

  datatype FrameType = Classic | Fd

  datatype Config = Config(
    interface: string,
    frameType: FrameType,
    reassemblyTimeoutMs: nat,
    enableErrorFrames: bool)

  // ---------------------------------------------------------------------
  // Configuration
  // ---------------------------------------------------------------------

  /** `CanConfig::new`: an empty interface name is a configuration error. */
  function NewConfig(interface: string): (r: Result<Config, CanError>)
    ensures r.Failure? <==> |interface| == 0
    ensures r.Failure? ==> r.error == ConfigError
    ensures r.Success? ==> r.value.interface == interface && r.value.frameType == Classic
    ensures r.Success? ==> r.value.reassemblyTimeoutMs == DEFAULT_REASSEMBLY_TIMEOUT_MS
    ensures r.Success? ==> r.value.enableErrorFrames
  {
    if |interface| == 0 then Failure(ConfigError)
    else Success(Config(interface, Classic, DEFAULT_REASSEMBLY_TIMEOUT_MS, true))
  }

  /** `CanConfig::with_fd`: unlike `new`, it accepts any name, the empty one included. */
  function WithFd(interface: string): (r: Result<Config, CanError>)
    ensures r.Success?
    ensures r.value.interface == interface && r.value.frameType == Fd
    ensures r.value.reassemblyTimeoutMs == DEFAULT_REASSEMBLY_TIMEOUT_MS && r.value.enableErrorFrames
  {
    Success(Config(interface, Fd, DEFAULT_REASSEMBLY_TIMEOUT_MS, true))
  }

  /** `CanConfig::with_timeout`: replaces the timeout and nothing else. */
  function WithTimeout(c: Config, timeoutMs: nat): (r: Config)
    ensures r.reassemblyTimeoutMs == timeoutMs
    ensures r.interface == c.interface && r.frameType == c.frameType
    ensures r.enableErrorFrames == c.enableErrorFrames
  {
    c.(reassemblyTimeoutMs := timeoutMs)
  }

  /** `payload_size`: the chunk size, one octet less than the frame's data capacity. */
  function PayloadSize(c: Config): (p: nat)
    ensures c.frameType == Classic ==> p == CAN_PAYLOAD_SIZE
    ensures c.frameType == Fd ==> p == CANFD_PAYLOAD_SIZE
    ensures 0 < p && p + 1 <= 64
  {
    match c.frameType
    case Classic => CAN_PAYLOAD_SIZE
    case Fd => CANFD_PAYLOAD_SIZE
  }

  // ---------------------------------------------------------------------
  // Identifier and header codecs
  // ---------------------------------------------------------------------

  /** `category & 0xE0`: the only category bits the identifier carries. */
  function TruncatedCategory(category: byte): (t: byte)
    ensures t % 32 == 0 && t <= category < t + 32
  {
    (category / 32) * 32
  }

  /**
   * `build_can_id`: bits 10..8 are the top three category bits, bits 7..0
   * the fragment sequence number.
   */
  function BuildCanId(category: byte, fragmentIndex: byte): (id: nat)
    ensures id < 0x800
    ensures id / 256 == category / 32
    ensures id % 256 == fragmentIndex
  {
    ((category / 32) % 8) * 256 + fragmentIndex
  }

  /**
   * `parse_can_id`: the category high bits shifted back into place and the
   * low eight bits. For an 11-bit identifier it inverts `BuildCanId`.
   */
  function ParseCanId(id: nat): (r: (byte, byte))
    ensures r.0 % 32 == 0
    ensures r.1 == id % 256
    ensures id < 0x800 ==> BuildCanId(r.0, r.1) == id
  {
    (((id / 256) % 8) * 32, id % 256)
  }

  /** Only the top three category bits survive the identifier. */
  lemma CanIdRoundTrip(category: byte, fragmentIndex: byte)
    ensures ParseCanId(BuildCanId(category, fragmentIndex)) == (TruncatedCategory(category), fragmentIndex)
  {
  }

  /** `build_fragment_header`: the index masked to 7 bits, bit 7 set for the last fragment. */
  function BuildFragmentHeader(fragmentIndex: byte, isLast: bool): (h: byte)
    ensures h % 128 == fragmentIndex % 128
    ensures h >= 128 <==> isLast
  {
    fragmentIndex % 128 + (if isLast then FRAGMENT_LAST_FLAG else 0)
  }

  /** `parse_fragment_header`: the inverse of `BuildFragmentHeader` on every octet. */
  function ParseFragmentHeader(h: byte): (r: (byte, bool))
    ensures r.0 < 128
    ensures BuildFragmentHeader(r.0, r.1) == h
  {
    (h % 128, h >= FRAGMENT_LAST_FLAG)
  }

  lemma FragmentHeaderRoundTrip(fragmentIndex: byte, isLast: bool)
    ensures ParseFragmentHeader(BuildFragmentHeader(fragmentIndex, isLast)) == (fragmentIndex % 128, isLast)
  {
  }

  // ---------------------------------------------------------------------
  // Fragmenter
  // ---------------------------------------------------------------------

  /** ceil(n / p): the number of chunks of at most `p` octets that cover `n` octets. */
  function FragmentCount(n: nat, p: nat): nat
    requires p > 0
  {
    (n + p - 1) / p
  }

  /**
   * The fragments of `data` whose first sequence number is `k`: the
   * reference definition of `fragment_data`'s loop, one chunk per step.
   */
  function Fragments(data: seq<byte>, p: nat, k: nat): seq<seq<byte>>
    requires p > 0
    decreases |data|
  {
    if |data| == 0 then []
    else
      var n := if |data| < p then |data| else p;
      [[BuildFragmentHeader(k % 256, n >= |data|)] + data[..n]] + Fragments(data[n..], p, k + 1)
  }

  /** A fragment without its header octet. */
  function Payload(f: seq<byte>): seq<byte> {
    if |f| == 0 then [] else f[1..]
  }

  /** The payloads of a list of fragments, concatenated in order. */
  function Payloads(fs: seq<seq<byte>>): seq<byte> {
    if |fs| == 0 then [] else Payload(fs[0]) + Payloads(fs[1..])
  }

  /**
   * `fragment_data`, with its loop and its wrapping 8-bit fragment counter.
   * A zero payload size would make the source loop forever, and the only
   * sizes `payload_size` produces are 7 and 63.
   */
  method FragmentData(category: byte, data: seq<byte>, payloadSize: nat) returns (fragments: seq<seq<byte>>)
    requires payloadSize > 0
    ensures fragments == Fragments(data, payloadSize, 0)
  {
    fragments := [];
    var totalSize := |data|;
    var offset := 0;
    var fragmentIndex: byte := 0;
    assert data[offset..] == data;
    while offset < totalSize
      invariant offset <= totalSize
      invariant fragmentIndex == |fragments| % 256
      invariant fragments + Fragments(data[offset..], payloadSize, |fragments|) == Fragments(data, payloadSize, 0)
      decreases totalSize - offset
    {
      var remaining := totalSize - offset;
      var chunkSize := if remaining < payloadSize then remaining else payloadSize;
      var isLast := offset + chunkSize >= totalSize;
      var fragment := [BuildFragmentHeader(fragmentIndex, isLast)] + data[offset..offset + chunkSize];
      ghost var k := |fragments|;
      FragmentDataStep(data, payloadSize, offset, fragments);
      assert (fragmentIndex + 1) % 256 == (k + 1) % 256 by {
        WrappingIncrement(k);
      }
      fragments := fragments + [fragment];
      offset := offset + chunkSize;
      fragmentIndex := (fragmentIndex + 1) % 256;
    }
    assert data[offset..] == [];
  }

  /** The number of chunks of at most `p` octets that cover `n` octets, one chunk at a time. */
  function ChunkCount(n: nat, p: nat): nat
    requires p > 0
    decreases n
  {
    if n == 0 then 0 else if n <= p then 1 else 1 + ChunkCount(n - p, p)
  }

  lemma {:induction false} ChunkCountIsCeil(n: nat, p: nat)
    requires p > 0
    ensures ChunkCount(n, p) == FragmentCount(n, p)
    decreases n
  {
    if n == 0 {
      DivUnique(p - 1, p, 0, p - 1);
    } else if n <= p {
      DivUnique(n + p - 1, p, 1, n - 1);
    } else {
      ChunkCountIsCeil(n - p, p);
      var q := (n - p + p - 1) / p;
      var m := (n - p + p - 1) % p;
      DivUnique(n + p - 1, p, q + 1, m);
    }
  }

  /** One step of the fragmenter's loop at `offset`. */
  lemma FragmentsStep(data: seq<byte>, offset: nat, p: nat, k: nat)
    requires p > 0 && offset < |data|
    ensures
      var n := if |data| - offset < p then |data| - offset else p;
      Fragments(data[offset..], p, k)
        == [[BuildFragmentHeader(k % 256, offset + n >= |data|)] + data[offset..offset + n]]
           + Fragments(data[offset + n..], p, k + 1)
  {
    var rest := data[offset..];
    var n := if |data| - offset < p then |data| - offset else p;
    assert rest[..n] == data[offset..offset + n];
    assert rest[n..] == data[offset + n..];
  }

  /** The fragmenter's loop invariant survives one chunk. */
  lemma FragmentDataStep(data: seq<byte>, p: nat, offset: nat, fragments: seq<seq<byte>>)
    requires p > 0 && offset < |data|
    ensures
      var n := if |data| - offset < p then |data| - offset else p;
      var fragment := [BuildFragmentHeader(|fragments| % 256, offset + n >= |data|)] + data[offset..offset + n];
      fragments + [fragment] + Fragments(data[offset + n..], p, |fragments| + 1)
        == fragments + Fragments(data[offset..], p, |fragments|)
  {
    var k := |fragments|;
    var n := if |data| - offset < p then |data| - offset else p;
    var fragment := [BuildFragmentHeader(k % 256, offset + n >= |data|)] + data[offset..offset + n];
    var rest := Fragments(data[offset + n..], p, k + 1);
    FragmentsStep(data, offset, p, k);
    ConcatAssoc(fragments, [fragment], rest);
  }

  lemma ConcatAssoc(a: seq<seq<byte>>, b: seq<seq<byte>>, c: seq<seq<byte>>)
    ensures a + b + c == a + (b + c)
  {
  }

  /** A non-empty payload has at least one fragment. */
  lemma FragmentsEmpty(data: seq<byte>, p: nat, k: nat)
    requires p > 0
    ensures |Fragments(data, p, k)| == 0 <==> |data| == 0
  {
  }

  lemma {:induction false} FragmentsChunks(data: seq<byte>, p: nat, k: nat)
    requires p > 0
    ensures |Fragments(data, p, k)| == ChunkCount(|data|, p)
    decreases |data|
  {
    if |data| > 0 {
      var n := if |data| < p then |data| else p;
      FragmentsChunks(data[n..], p, k + 1);
    }
  }

  /** There are ceil(n/p) fragments; the empty payload gives none. */
  lemma FragmentsCount(data: seq<byte>, p: nat, k: nat)
    requires p > 0
    ensures |Fragments(data, p, k)| == FragmentCount(|data|, p)
    ensures |data| == 0 <==> |Fragments(data, p, k)| == 0
  {
    FragmentsChunks(data, p, k);
    ChunkCountIsCeil(|data|, p);
    FragmentsEmpty(data, p, k);
  }

  /** Dropping each header octet and concatenating gives the payload back. */
  lemma {:induction false} FragmentsPayloads(data: seq<byte>, p: nat, k: nat)
    requires p > 0
    ensures Payloads(Fragments(data, p, k)) == data
    decreases |data|
  {
    if |data| > 0 {
      var n := if |data| < p then |data| else p;
      var fs := Fragments(data, p, k);
      FragmentsPayloads(data[n..], p, k + 1);
      assert fs[1..] == Fragments(data[n..], p, k + 1);
      assert Payload(fs[0]) == data[..n];
      assert data[..n] + data[n..] == data;
    }
  }

  /**
   * Fragment `j` is a header and 1..p octets, exactly p unless it is the
   * last; it carries sequence number (k + j) mod 256 and the last flag
   * exactly when it is the final one.
   */
  lemma {:induction false} FragmentAt(data: seq<byte>, p: nat, k: nat, j: nat)
    requires p > 0 && j < |Fragments(data, p, k)|
    ensures var fs := Fragments(data, p, k);
      && 2 <= |fs[j]| <= p + 1
      && (j < |fs| - 1 ==> |fs[j]| == p + 1)
      && fs[j][0] == BuildFragmentHeader((k + j) % 256, j == |fs| - 1)
    decreases j
  {
    var n := if |data| < p then |data| else p;
    var fs := Fragments(data, p, k);
    var rest := Fragments(data[n..], p, k + 1);
    assert fs == [[BuildFragmentHeader(k % 256, n >= |data|)] + data[..n]] + rest;
    if j == 0 {
      FragmentsEmpty(data[n..], p, k + 1);
    } else {
      FragmentAt(data[n..], p, k + 1, j - 1);
      assert fs[j] == rest[j - 1];
      assert k + 1 + (j - 1) == k + j;
    }
  }

  lemma FragmentsShape(data: seq<byte>, p: nat, k: nat)
    requires p > 0
    ensures var fs := Fragments(data, p, k);
      forall j :: 0 <= j < |fs| ==>
        && 2 <= |fs[j]| <= p + 1
        && (j < |fs| - 1 ==> |fs[j]| == p + 1)
        && fs[j][0] == BuildFragmentHeader((k + j) % 256, j == |fs| - 1)
  {
    var fs := Fragments(data, p, k);
    forall j | 0 <= j < |fs|
      ensures 2 <= |fs[j]| <= p + 1
      ensures j < |fs| - 1 ==> |fs[j]| == p + 1
      ensures fs[j][0] == BuildFragmentHeader((k + j) % 256, j == |fs| - 1)
    {
      FragmentAt(data, p, k, j);
    }
  }

  // ---------------------------------------------------------------------
  // Reassembly
  // ---------------------------------------------------------------------

  /** Stored chunks, keyed by fragment index. */
  type Chunks = map<byte, seq<byte>>

  /** `ReassemblyState`: chunks received so far, keyed by 7-bit index. */
  datatype ReassemblyState = ReassemblyState(
    category: byte,
    fragments: Chunks,
    expectedNext: byte,
    lastUpdate: nat)

  function NewState(category: byte, now: nat): ReassemblyState {
    ReassemblyState(category, map[], 0, now)
  }

  /** Every index in lo..hi-1 has a stored chunk. */
  predicate AllPresent(frags: Chunks, lo: nat, hi: nat) {
    forall i: byte :: lo <= i < hi ==> i in frags
  }

  /** The stored chunks for indices lo..hi-1, concatenated in index order. */
  function JoinedRange(frags: Chunks, lo: nat, hi: nat): seq<byte>
    requires lo <= hi <= 256
    requires AllPresent(frags, lo, hi)
    decreases hi - lo
  {
    if lo == hi then [] else frags[lo] + JoinedRange(frags, lo + 1, hi)
  }

  /** The loop of `reassemble` from index `i`, with the bytes gathered so far in `acc`. */
  function ReassembleFrom(frags: Chunks, i: nat, lastIndex: byte, acc: seq<byte>): (r: Option<seq<byte>>)
    requires i <= lastIndex + 1
    ensures r.Some? <==> AllPresent(frags, i, lastIndex + 1)
    ensures r.Some? ==> r.value == acc + JoinedRange(frags, i, lastIndex + 1)
    decreases lastIndex + 1 - i
  {
    if i > lastIndex then Some(acc)
    else if i as byte in frags then ReassembleFrom(frags, i + 1, lastIndex, acc + frags[i as byte])
    else None
  }

  /**
   * `reassemble`: the chunks for 0..=lastIndex in order, or None as soon as
   * one of them is missing.
   */
  function Reassemble(frags: Chunks, lastIndex: byte): (r: Option<seq<byte>>)
    ensures r.Some? <==> AllPresent(frags, 0, lastIndex + 1)
    ensures r.Some? ==> r.value == JoinedRange(frags, 0, lastIndex + 1)
  {
    ReassembleFrom(frags, 0, lastIndex, [])
  }

  /**
   * `add_fragment`: store (or overwrite) the chunk at its index, then try
   * to complete only when this fragment is flagged last.
   */
  function AddFragment(s: ReassemblyState, index: byte, data: seq<byte>, isLast: bool, now: nat): (r: (ReassemblyState, Option<seq<byte>>))
    ensures r.0.fragments == s.fragments[index := data]
    ensures r.0.lastUpdate == now && r.0.category == s.category
    ensures !isLast ==> r.1.None?
    ensures isLast ==> (r.1.Some? <==> AllPresent(r.0.fragments, 0, index + 1))
    ensures isLast && r.1.Some? ==> r.1.value == JoinedRange(r.0.fragments, 0, index + 1)
  {
    var s' := s.(lastUpdate := now, fragments := s.fragments[index := data]);
    if isLast then (s', Reassemble(s'.fragments, index)) else (s', None)
  }

  /** `Instant::elapsed`: saturates at zero. */
  function Elapsed(now: nat, since: nat): nat {
    if now >= since then now - since else 0
  }

  /** `is_expired`: strictly more than the timeout has passed since the last fragment. */
  predicate IsExpired(s: ReassemblyState, timeoutMs: nat, now: nat) {
    Elapsed(now, s.lastUpdate) > timeoutMs
  }

  // ---------------------------------------------------------------------
  // Subscriber
  // ---------------------------------------------------------------------

  datatype Frame = Frame(id: nat, data: seq<byte>)

  datatype Sample = Sample(category: byte, data: seq<byte>, timestamp: nat, interface: string)

  datatype Subscriber = Subscriber(
    config: Config,
    states: map<byte, ReassemblyState>,
    subscribed: seq<byte>)

  predicate NoDuplicates(s: seq<byte>) {
    forall i, j :: 0 <= i < j < |s| ==> s[i] != s[j]
  }

  /** A subscriber just opened: no reassembly in progress, no filter. */
  function NewSubscriber(config: Config): (s: Subscriber)
    ensures s.states == map[] && s.subscribed == [] && s.config == config
  {
    Subscriber(config, map[], [])
  }

  /** `subscribe`: add the category to the filter unless already there; never fails. */
  function Subscribe(s: Subscriber, category: byte): (r: Subscriber)
    ensures r.config == s.config && r.states == s.states
    ensures forall c :: c in r.subscribed <==> c in s.subscribed || c == category
    ensures NoDuplicates(s.subscribed) ==> NoDuplicates(r.subscribed)
    ensures category in s.subscribed ==> r == s
    ensures s.subscribed <= r.subscribed
  {
    if category in s.subscribed then s else s.(subscribed := s.subscribed + [category])
  }

  /** A frame whose truncated category passes the subscription filter. */
  predicate Accepts(s: Subscriber, category: byte) {
    |s.subscribed| == 0 || category in s.subscribed
  }

  /** The chunk map a frame for `category` is added to. */
  function CurrentFragments(s: Subscriber, category: byte): Chunks {
    if category in s.states then s.states[category].fragments else map[]
  }

  /**
   * `process_frame`: empty frames and filtered categories are ignored;
   * otherwise the chunk is added to the truncated category's reassembly,
   * and a completed message is returned as a sample while its state is
   * dropped. The source's `Result` is never an error.
   */
  function ProcessFrame(s: Subscriber, frame: Frame, now: nat, wallMicros: nat): (r: (Subscriber, Option<Sample>))
    ensures r.0.config == s.config && r.0.subscribed == s.subscribed
    ensures |frame.data| == 0 ==> r == (s, None)
    ensures !Accepts(s, ParseCanId(frame.id).0) ==> r == (s, None)
  {
    if |frame.data| == 0 then (s, None)
    else
      var (catHigh, _) := ParseCanId(frame.id);
      var (fragmentIndex, isLast) := ParseFragmentHeader(frame.data[0]);
      var payload := frame.data[1..];
      var category := catHigh;
      if |s.subscribed| > 0 && category !in s.subscribed then (s, None)
      else
        var state := if category in s.states then s.states[category] else NewState(category, now);
        var (state', complete) := AddFragment(state, fragmentIndex, payload, isLast, now);
        match complete
        case Some(d) =>
          (s.(states := s.states - {category}), Some(Sample(category, d, wallMicros, s.config.interface)))
        case None =>
          (s.(states := s.states[category := state']), None)
  }

  /**
   * What `process_frame` does with a frame of an admitted category: it
   * stores the chunk under the header's index (replacing any earlier one),
   * completes the message exactly when the header is flagged last and
   * every index up to it is present, and touches no other category.
   */
  lemma ProcessFrameEffect(s: Subscriber, frame: Frame, now: nat, wallMicros: nat)
    ensures var r := ProcessFrame(s, frame, now, wallMicros);
      var category := ParseCanId(frame.id).0;
      forall c :: c != category ==>
        (c in r.0.states <==> c in s.states) && (c in s.states ==> r.0.states[c] == s.states[c])
    ensures var r := ProcessFrame(s, frame, now, wallMicros);
      var category := ParseCanId(frame.id).0;
      |frame.data| > 0 && Accepts(s, category) ==>
        var (index, isLast) := ParseFragmentHeader(frame.data[0]);
        var frags := CurrentFragments(s, category)[index := frame.data[1..]];
        && (r.1.Some? <==> isLast && AllPresent(frags, 0, index + 1))
        && (r.1.Some? ==> r.1.value == Sample(category, JoinedRange(frags, 0, index + 1), wallMicros, s.config.interface)
                          && category !in r.0.states)
        && (r.1.None? ==> category in r.0.states && r.0.states[category].fragments == frags
                          && r.0.states[category].lastUpdate == now)
  {
  }

  /** `cleanup_expired_states`: keep exactly the states that have not expired. */
  function CleanupExpired(s: Subscriber, now: nat): (r: Subscriber)
    ensures r.config == s.config && r.subscribed == s.subscribed
    ensures forall c :: c in r.states <==> c in s.states && !IsExpired(s.states[c], s.config.reassemblyTimeoutMs, now)
    ensures forall c :: c in r.states ==> r.states[c] == s.states[c]
  {
    s.(states := map c | c in s.states && !IsExpired(s.states[c], s.config.reassemblyTimeoutMs, now) :: s.states[c])
  }

  /** What one `read_frame` call returned, at monotonic time `at`. */
  datatype ReadOutcome = Got(frame: Frame) | WouldBlock | ReadFailed
  datatype ReadEvent = ReadEvent(at: nat, outcome: ReadOutcome)

  /**
   * `receive_timeout`: while less than `timeoutMs` has passed since `start`,
   * drop expired states and handle one read. `events` are the successive
   * reads with the clock reading at each loop test; running out of events
   * stands for the deadline passing.
   */
  function ReceiveTimeout(s: Subscriber, start: nat, timeoutMs: nat, events: seq<ReadEvent>, wallMicros: nat): (r: (Subscriber, Result<Option<Sample>, CanError>))
    ensures r.1.Failure? ==> r.1.error == ReceiveError && exists k :: 0 <= k < |events| && events[k].outcome == ReadFailed
    ensures r.0.config == s.config && r.0.subscribed == s.subscribed
    ensures r.1.Success? && r.1.value.Some? ==> r.1.value.value.category % 32 == 0 && Accepts(s, r.1.value.value.category)
    decreases |events|
  {
    if |events| == 0 || Elapsed(events[0].at, start) >= timeoutMs then (s, Success(None))
    else
      var s1 := CleanupExpired(s, events[0].at);
      match events[0].outcome
      case Got(frame) =>
        var (s2, out) := ProcessFrame(s1, frame, events[0].at, wallMicros);
        if out.Some? then (s2, Success(out))
        else
          var r := ReceiveTimeout(s2, start, timeoutMs, events[1..], wallMicros);
          assert r.1.Failure? ==> events[1..][0].outcome == ReadFailed || exists k :: 1 <= k < |events| && events[k].outcome == ReadFailed by {
            if r.1.Failure? {
              var k :| 0 <= k < |events[1..]| && events[1..][k].outcome == ReadFailed;
              assert events[k + 1].outcome == ReadFailed;
            }
          }
          r
      case WouldBlock =>
        var r := ReceiveTimeout(s1, start, timeoutMs, events[1..], wallMicros);
        assert r.1.Failure? ==> exists k :: 1 <= k < |events| && events[k].outcome == ReadFailed by {
          if r.1.Failure? {
            var k :| 0 <= k < |events[1..]| && events[1..][k].outcome == ReadFailed;
            assert events[k + 1].outcome == ReadFailed;
          }
        }
        r
      case ReadFailed => (s1, Failure(ReceiveError))
  }

  // ---------------------------------------------------------------------
  // Publisher
  // ---------------------------------------------------------------------

  /**
   * The frames `publish_raw` builds: fragment k goes out under the
   * identifier of the category and sequence number k mod 256 (`idx as u8`).
   */
  function FramesFor(category: byte, data: seq<byte>, p: nat): (frames: seq<Frame>)
    requires p > 0
    ensures |frames| == |Fragments(data, p, 0)|
    ensures forall k :: 0 <= k < |frames| ==>
      && frames[k].id == BuildCanId(category, k % 256)
      && frames[k].id < 0x800
      && ParseCanId(frames[k].id) == (TruncatedCategory(category), k % 256)
      && frames[k].data == Fragments(data, p, 0)[k]
  {
    var fs := Fragments(data, p, 0);
    seq(|fs|, k requires 0 <= k < |fs| => Frame(BuildCanId(category, k % 256), fs[k]))
  }

  /** A frame the classic-frame constructor accepts. */
  predicate FrameFits(f: Frame) {
    |f.data| <= CLASSIC_FRAME_MAX_DATA
  }

  /**
   * The loop of `publish_raw` from frame `k`: each frame is built and
   * written in order; the first frame that does not fit or whose write is
   * rejected (`k in rejected`) ends the loop with `SendError`, and frames
   * already written stay written.
   */
  function SendFrames(frames: seq<Frame>, rejected: set<nat>, k: nat): (r: (seq<Frame>, Result<(), CanError>))
    requires k <= |frames|
    ensures k + |r.0| <= |frames|
    ensures r.0 == frames[k..k + |r.0|]
    ensures r.1.Success? <==> forall j :: k <= j < |frames| ==> FrameFits(frames[j]) && j !in rejected
    ensures r.1.Success? ==> k + |r.0| == |frames|
    ensures r.1.Failure? ==>
      && r.1.error == SendError
      && k + |r.0| < |frames|
      && (!FrameFits(frames[k + |r.0|]) || k + |r.0| in rejected)
      && forall j :: k <= j < k + |r.0| ==> FrameFits(frames[j]) && j !in rejected
    decreases |frames| - k
  {
    if k == |frames| then ([], Success(()))
    else if !FrameFits(frames[k]) || k in rejected then ([], Failure(SendError))
    else
      var (sent, res) := SendFrames(frames, rejected, k + 1);
      ([frames[k]] + sent, res)
  }

  /** `publish_raw`: fragment with the configured chunk size and send every frame. */
  function PublishRaw(config: Config, category: byte, data: seq<byte>, rejected: set<nat>): (r: (seq<Frame>, Result<(), CanError>))
    ensures var frames := FramesFor(category, data, PayloadSize(config));
      && r.0 <= frames
      && (r.1.Success? <==> forall j :: 0 <= j < |frames| ==> FrameFits(frames[j]) && j !in rejected)
      && (r.1.Success? ==> r.0 == frames)
      && (r.1.Failure? ==> r.1.error == SendError)
  {
    var frames := FramesFor(category, data, PayloadSize(config));
    SendFrames(frames, rejected, 0)
  }

  /**
   * `publish`: the record's raw bytes come from `get_raw_data`, which
   * returns the one-octet placeholder `[category]`.
   */
  function Publish(config: Config, category: byte, rejected: set<nat>): (r: (seq<Frame>, Result<(), CanError>))
    ensures r.1.Success? <==> 0 !in rejected
    ensures r.1.Success? ==> r.0 == [Frame(BuildCanId(category, 0), [0x80, category])]
    ensures r.1.Failure? ==> r.0 == []
  {
    var data := [category];
    assert data[..1] == data && data[1..] == [];
    assert Fragments(data, PayloadSize(config), 0) == [[BuildFragmentHeader(0, true)] + data];
    var frames := FramesFor(category, data, PayloadSize(config));
    assert frames[0] == Frame(BuildCanId(category, 0), [0x80, category]);
    assert frames == [Frame(BuildCanId(category, 0), [0x80, category])];
    PublishRaw(config, category, data, rejected)
  }

  /** With classic frames every fragment fits, so only rejected writes make publishing fail. */
  lemma ClassicFramesFit(config: Config, category: byte, data: seq<byte>, rejected: set<nat>)
    requires config.frameType == Classic
    ensures var frames := FramesFor(category, data, PayloadSize(config));
      var ok := PublishRaw(config, category, data, rejected).1.Success?;
      ok <==> forall j :: 0 <= j < |frames| ==> j !in rejected
  {
    FragmentsShape(data, CAN_PAYLOAD_SIZE, 0);
    var frames := FramesFor(category, data, PayloadSize(config));
    forall j | 0 <= j < |frames|
      ensures FrameFits(frames[j])
    {
      assert frames[j].data == Fragments(data, CAN_PAYLOAD_SIZE, 0)[j];
    }
  }

  /**
   * An FD configuration still builds classic frames: any message longer
   * than 7 octets fails on its first frame and nothing is sent.
   */
  lemma FdLongMessageFails(config: Config, category: byte, data: seq<byte>, rejected: set<nat>)
    requires config.frameType == Fd && |data| > CAN_PAYLOAD_SIZE
    ensures PublishRaw(config, category, data, rejected) == ([], Failure(SendError))
  {
    var fs := Fragments(data, CANFD_PAYLOAD_SIZE, 0);
    assert |fs[0]| > CLASSIC_FRAME_MAX_DATA;
  }

  // ---------------------------------------------------------------------
  // End-to-end delivery
  // ---------------------------------------------------------------------

  /** Successive `process_frame` calls, with the samples each one returned. */
  function FeedFrames(s: Subscriber, frames: seq<Frame>, now: nat, wallMicros: nat): (r: (Subscriber, seq<Option<Sample>>))
    ensures |r.1| == |frames|
    ensures r.0.config == s.config && r.0.subscribed == s.subscribed
    decreases |frames|
  {
    if |frames| == 0 then (s, [])
    else
      var (s1, out) := ProcessFrame(s, frames[0], now, wallMicros);
      var (s2, outs) := FeedFrames(s1, frames[1..], now, wallMicros);
      (s2, [out] + outs)
  }

  /** The frames of a message delivered in the order `order` (indices into `frames`). */
  function Reordered(frames: seq<Frame>, order: seq<nat>): (r: seq<Frame>)
    requires forall i :: 0 <= i < |order| ==> order[i] < |frames|
    ensures |r| == |order|
    ensures forall i :: 0 <= i < |order| ==> r[i] == frames[order[i]]
  {
    seq(|order|, i requires 0 <= i < |order| => frames[order[i]])
  }

  /** Chunks stored under their indices, matching the message's payloads. */
  predicate HoldsChunks(frags: Chunks, fs: seq<seq<byte>>, lo: nat, hi: nat)
    requires hi <= |fs| <= 256
  {
    forall j: byte :: lo <= j < hi ==> j in frags && frags[j] == Payload(fs[j])
  }

  lemma {:induction false} JoinedPayloads(frags: Chunks, fs: seq<seq<byte>>, lo: nat)
    requires lo <= |fs| <= 256
    requires HoldsChunks(frags, fs, lo, |fs|)
    ensures AllPresent(frags, lo, |fs|)
    ensures JoinedRange(frags, lo, |fs|) == Payloads(fs[lo..])
    decreases |fs| - lo
  {
    if lo < |fs| {
      JoinedPayloads(frags, fs, lo + 1);
      assert fs[lo..][1..] == fs[lo + 1..];
    }
  }

  lemma HeaderParses(h: byte, k: nat, last: bool)
    requires k < 128 && h == BuildFragmentHeader(k, last)
    ensures ParseFragmentHeader(h) == (k, last)
  {
    FragmentHeaderRoundTrip(k, last);
  }

  /** Fragment `k` of a message of at most 128 fragments: its header parses back to `k` and the last flag. */
  lemma MessageFragment(data: seq<byte>, p: nat, k: nat)
    requires p > 0 && |Fragments(data, p, 0)| <= 128 && k < |Fragments(data, p, 0)|
    ensures var fs := Fragments(data, p, 0);
      && |fs[k]| >= 2
      && ParseFragmentHeader(fs[k][0]) == (k, k == |fs| - 1)
      && fs[k][1..] == Payload(fs[k])
  {
    var fs := Fragments(data, p, 0);
    var last := k == |fs| - 1;
    assert |fs[k]| >= 2 && fs[k][0] == BuildFragmentHeader(k, last) by {
      FragmentAt(data, p, 0, k);
      assert (0 + k) % 256 == k;
    }
    HeaderParses(fs[k][0], k, last);
  }

  /** What a frame of the message tells the subscriber. */
  lemma MessageFrame(category: byte, data: seq<byte>, p: nat, k: nat)
    requires p > 0 && |Fragments(data, p, 0)| <= 128 && k < |Fragments(data, p, 0)|
    ensures var frames := FramesFor(category, data, p);
      var fs := Fragments(data, p, 0);
      && |frames[k].data| >= 2
      && ParseCanId(frames[k].id).0 == TruncatedCategory(category)
      && ParseFragmentHeader(frames[k].data[0]) == (k, k == |fs| - 1)
      && frames[k].data[1..] == Payload(fs[k])
  {
    MessageFragment(data, p, k);
  }

  /** One frame of a message through `process_frame`, for a category the filter admits. */
  lemma ProcessMessageFrame(s: Subscriber, category: byte, data: seq<byte>, p: nat, k: nat, now: nat, wallMicros: nat)
    requires p > 0 && |Fragments(data, p, 0)| <= 128 && k < |Fragments(data, p, 0)|
    requires Accepts(s, TruncatedCategory(category))
    ensures var fs := Fragments(data, p, 0);
      var n := |fs|;
      var cat := TruncatedCategory(category);
      var r := ProcessFrame(s, FramesFor(category, data, p)[k], now, wallMicros);
      var frags := CurrentFragments(s, cat)[k := Payload(fs[k])];
      && r.0.subscribed == s.subscribed && r.0.config == s.config
      && (k < n - 1 ==> r.1.None? && cat in r.0.states && r.0.states[cat].fragments == frags)
      && (k == n - 1 ==> (r.1.Some? <==> AllPresent(frags, 0, n)))
      && (k == n - 1 && r.1.Some? ==>
            r.1.value == Sample(cat, JoinedRange(frags, 0, n), wallMicros, s.config.interface) && cat !in r.0.states)
      && (k == n - 1 && r.1.None? ==> cat in r.0.states && r.0.states[cat].fragments == frags)
  {
    MessageFrame(category, data, p, k);
    ProcessFrameEffect(s, FramesFor(category, data, p)[k], now, wallMicros);
  }

  /** `FeedFrames` on a non-empty list: the first frame, then the rest. */
  lemma FeedFramesCons(s: Subscriber, frames: seq<Frame>, i: nat, now: nat, wallMicros: nat)
    requires i < |frames|
    ensures var (s1, out) := ProcessFrame(s, frames[i], now, wallMicros);
      var rest := FeedFrames(s1, frames[i + 1..], now, wallMicros);
      FeedFrames(s, frames[i..], now, wallMicros) == (rest.0, [out] + rest.1)
  {
    assert frames[i..][0] == frames[i];
    assert frames[i..][1..] == frames[i + 1..];
  }

  /** The delivery invariant: every fragment index in `order[..i]` is stored with its chunk. */
  predicate Delivered(s: Subscriber, category: byte, fs: seq<seq<byte>>, order: seq<nat>, i: nat)
    requires |fs| <= 128 && i <= |order|
    requires forall x :: 0 <= x < |order| ==> order[x] < |fs|
  {
    i > 0 ==>
      && category in s.states
      && forall x :: 0 <= x < i ==> order[x] in s.states[category].fragments
                                    && s.states[category].fragments[order[x]] == Payload(fs[order[x]])
  }

  /** A well-formed delivery order: indices of the message, the last one last and only there, every other one present. */
  predicate CompleteOrder(order: seq<nat>, n: nat) {
    && 1 <= n && 1 <= |order|
    && (forall x :: 0 <= x < |order| ==> order[x] < n)
    && order[|order| - 1] == n - 1
    && (forall x :: 0 <= x < |order| - 1 ==> order[x] != n - 1)
    && (forall j :: 0 <= j < n - 1 ==> j in order)
  }

  /** When the last fragment of a complete order arrives, every chunk of the message is stored. */
  lemma LastFrameHolds(s: Subscriber, cat: byte, fs: seq<seq<byte>>, order: seq<nat>, frags: Chunks)
    requires |fs| <= 128 && CompleteOrder(order, |fs|)
    requires Delivered(s, cat, fs, order, |order| - 1)
    requires frags == CurrentFragments(s, cat)[order[|order| - 1] := Payload(fs[order[|order| - 1]])]
    ensures HoldsChunks(frags, fs, 0, |fs|)
  {
    var i := |order| - 1;
    forall j: byte | 0 <= j < |fs|
      ensures j in frags && frags[j] == Payload(fs[j])
    {
      if j as nat != order[i] {
        assert j as nat in order;
        var x :| 0 <= x < |order| && order[x] == j as nat;
        assert x < i;
      }
    }
  }

  /**
   * The state part-way through a delivery: `order[..i]` has arrived, the
   * subscriber admits the category, and the rest of the order is pending.
   */
  predicate Pending(s: Subscriber, category: byte, data: seq<byte>, p: nat, order: seq<nat>, i: int) {
    && p > 0
    && |Fragments(data, p, 0)| <= 128
    && CompleteOrder(order, |Fragments(data, p, 0)|) && 0 <= i < |order|
    && Accepts(s, TruncatedCategory(category))
    && Delivered(s, TruncatedCategory(category), Fragments(data, p, 0), order, i)
  }

  /** The samples of a feed: nothing before position `j`, then `sample`. */
  predicate DeliversAt(outs: seq<Option<Sample>>, j: int, sample: Sample) {
    && 0 <= j < |outs|
    && outs[j] == Some(sample)
    && forall x :: 0 <= x < j ==> outs[x].None?
  }

  lemma DeliversLater(out: Option<Sample>, outs: seq<Option<Sample>>, j: int, sample: Sample)
    requires out.None? && DeliversAt(outs, j, sample)
    ensures DeliversAt([out] + outs, j + 1, sample)
  {
    var all := [out] + outs;
    forall x | 0 <= x < j + 1
      ensures all[x].None?
    {
      if x > 0 {
        assert all[x] == outs[x - 1];
      }
    }
  }

  /** A frame that delivers `sample` makes the feed deliver it first. */
  lemma FeedDelivers(s: Subscriber, frames: seq<Frame>, i: nat, now: nat, wallMicros: nat, sample: Sample)
    requires i < |frames| && ProcessFrame(s, frames[i], now, wallMicros).1 == Some(sample)
    ensures DeliversAt(FeedFrames(s, frames[i..], now, wallMicros).1, 0, sample)
  {
    FeedFramesCons(s, frames, i, now, wallMicros);
  }

  /** A frame that delivers nothing delays what the rest of the feed delivers by one position. */
  lemma FeedPasses(s: Subscriber, frames: seq<Frame>, i: nat, now: nat, wallMicros: nat, j: int, sample: Sample)
    requires i < |frames|
    requires ProcessFrame(s, frames[i], now, wallMicros).1.None?
    requires DeliversAt(FeedFrames(ProcessFrame(s, frames[i], now, wallMicros).0, frames[i + 1..], now, wallMicros).1, j, sample)
    ensures DeliversAt(FeedFrames(s, frames[i..], now, wallMicros).1, j + 1, sample)
  {
    var (s1, out) := ProcessFrame(s, frames[i], now, wallMicros);
    FeedFramesCons(s, frames, i, now, wallMicros);
    DeliversLater(out, FeedFrames(s1, frames[i + 1..], now, wallMicros).1, j, sample);
  }

  /** The last fragment of a complete order completes the message. */
  lemma FeedLast(s: Subscriber, category: byte, data: seq<byte>, p: nat, order: seq<nat>, now: nat, wallMicros: nat)
    requires Pending(s, category, data, p, order, |order| - 1)
    ensures ProcessFrame(s, FramesFor(category, data, p)[order[|order| - 1]], now, wallMicros).1
      == Some(Sample(TruncatedCategory(category), data, wallMicros, s.config.interface))
  {
    var fs := Fragments(data, p, 0);
    var k := order[|order| - 1];
    var cat := TruncatedCategory(category);
    ProcessMessageFrame(s, category, data, p, k, now, wallMicros);
    var frags := CurrentFragments(s, cat)[k := Payload(fs[k])];
    LastFrameHolds(s, cat, fs, order, frags);
    JoinedPayloads(frags, fs, 0);
    FragmentsPayloads(data, p, 0);
    assert fs[0..] == fs;
  }

  /** An earlier fragment of a complete order is stored and produces nothing. */
  lemma FeedEarlier(s: Subscriber, category: byte, data: seq<byte>, p: nat, order: seq<nat>, i: nat, now: nat, wallMicros: nat)
    requires Pending(s, category, data, p, order, i) && i < |order| - 1
    ensures var r := ProcessFrame(s, FramesFor(category, data, p)[order[i]], now, wallMicros);
      && r.1.None?
      && r.0.config == s.config
      && Pending(r.0, category, data, p, order, i + 1)
  {
    ProcessMessageFrame(s, category, data, p, order[i], now, wallMicros);
  }

  /** What feeding a message's frames in `order` from position `i` on delivers. */
  function FeedFrom(s: Subscriber, category: byte, data: seq<byte>, p: nat, order: seq<nat>, i: int, now: nat, wallMicros: nat): seq<Option<Sample>>
    requires Pending(s, category, data, p, order, i)
  {
    FeedFrames(s, Reordered(FramesFor(category, data, p), order)[i..], now, wallMicros).1
  }

  /** The subscriber after the frame at position `i` of `order`. */
  function StepAt(s: Subscriber, category: byte, data: seq<byte>, p: nat, order: seq<nat>, i: int, now: nat, wallMicros: nat): Subscriber
    requires Pending(s, category, data, p, order, i)
  {
    ProcessFrame(s, Reordered(FramesFor(category, data, p), order)[i], now, wallMicros).0
  }

  /** Feeding a complete order from its last position delivers the message at once. */
  lemma FeedLastStep(s: Subscriber, category: byte, data: seq<byte>, p: nat, order: seq<nat>, now: nat, wallMicros: nat)
    requires Pending(s, category, data, p, order, |order| - 1)
    ensures DeliversAt(FeedFrom(s, category, data, p, order, |order| - 1, now, wallMicros), 0,
                       Sample(TruncatedCategory(category), data, wallMicros, s.config.interface))
  {
    var frames := Reordered(FramesFor(category, data, p), order);
    assert frames[|order| - 1] == FramesFor(category, data, p)[order[|order| - 1]];
    FeedLast(s, category, data, p, order, now, wallMicros);
    FeedDelivers(s, frames, |order| - 1, now, wallMicros,
                 Sample(TruncatedCategory(category), data, wallMicros, s.config.interface));
  }

  /**
   * Feeding a complete order from an earlier position leaves a state that
   * is pending at the next position, and whatever the feed from that state
   * delivers at `j` the feed from `s` delivers one position later.
   */
  lemma FeedEarlierStep(s: Subscriber, category: byte, data: seq<byte>, p: nat, order: seq<nat>, i: nat, now: nat, wallMicros: nat, j: int, sample: Sample)
    requires Pending(s, category, data, p, order, i) && i < |order| - 1
    ensures StepAt(s, category, data, p, order, i, now, wallMicros).config == s.config
    ensures Pending(StepAt(s, category, data, p, order, i, now, wallMicros), category, data, p, order, i + 1)
    ensures DeliversAt(FeedFrom(StepAt(s, category, data, p, order, i, now, wallMicros),
                                category, data, p, order, i + 1, now, wallMicros), j, sample)
      ==> DeliversAt(FeedFrom(s, category, data, p, order, i, now, wallMicros), j + 1, sample)
  {
    var frames := Reordered(FramesFor(category, data, p), order);
    assert frames[i] == FramesFor(category, data, p)[order[i]];
    FeedEarlier(s, category, data, p, order, i, now, wallMicros);
    var s1 := ProcessFrame(s, frames[i], now, wallMicros).0;
    if DeliversAt(FeedFrames(s1, frames[i + 1..], now, wallMicros).1, j, sample) {
      FeedPasses(s, frames, i, now, wallMicros, j, sample);
    }
  }

  /** Feeding the rest of a complete order from position `i` delivers the message at its last frame and only there. */
  lemma {:induction false} FeedInOrder(s: Subscriber, category: byte, data: seq<byte>, p: nat, order: seq<nat>, i: nat, now: nat, wallMicros: nat)
    requires Pending(s, category, data, p, order, i)
    ensures DeliversAt(FeedFrom(s, category, data, p, order, i, now, wallMicros), |order| - 1 - i,
                       Sample(TruncatedCategory(category), data, wallMicros, s.config.interface))
    decreases |order| - i
  {
    if i == |order| - 1 {
      FeedLastStep(s, category, data, p, order, now, wallMicros);
    } else {
      var sample := Sample(TruncatedCategory(category), data, wallMicros, s.config.interface);
      var s1 := StepAt(s, category, data, p, order, i, now, wallMicros);
      FeedEarlierStep(s, category, data, p, order, i, now, wallMicros, |order| - 2 - i, sample);
      FeedInOrder(s1, category, data, p, order, i + 1, now, wallMicros);
    }
  }

  /**
   * A message of at most 128 fragments is delivered whole, whatever order
   * its fragments arrive in, provided the last one arrives last and the
   * filter admits its truncated category; earlier fragments produce
   * nothing. Any stale chunks of the category are overwritten or irrelevant.
   */
  lemma DeliveredInAnyOrder(s: Subscriber, category: byte, data: seq<byte>, p: nat, order: seq<nat>, now: nat, wallMicros: nat)
    requires p > 0
    requires |Fragments(data, p, 0)| <= 128
    requires CompleteOrder(order, |Fragments(data, p, 0)|)
    requires Accepts(s, TruncatedCategory(category))
    ensures var r := FeedFrames(s, Reordered(FramesFor(category, data, p), order), now, wallMicros);
      && r.1[|order| - 1] == Some(Sample(TruncatedCategory(category), data, wallMicros, s.config.interface))
      && (forall x :: 0 <= x < |order| - 1 ==> r.1[x].None?)
  {
    var frames := Reordered(FramesFor(category, data, p), order);
    assert frames[0..] == frames;
    assert Pending(s, category, data, p, order, 0);
    FeedInOrder(s, category, data, p, order, 0, now, wallMicros);
    assert FeedFrom(s, category, data, p, order, 0, now, wallMicros) == FeedFrames(s, frames, now, wallMicros).1;
  }

  /** The delivery order 0, 1, ..., n-1. */
  function InOrder(n: nat): (order: seq<nat>)
    ensures |order| == n && forall j :: 0 <= j < n ==> order[j] == j
  {
    seq(n, j requires 0 <= j < n => j as nat)
  }

  lemma InOrderComplete(n: nat)
    requires n >= 1
    ensures CompleteOrder(InOrder(n), n)
  {
    var order := InOrder(n);
    forall j | 0 <= j < n - 1
      ensures j in order
    {
      assert order[j] == j;
    }
  }

  lemma InOrderKeepsFrames(frames: seq<Frame>)
    ensures Reordered(frames, InOrder(|frames|)) == frames
  {
  }

  /** In-order delivery of every fragment of a message of at most 128 fragments. */
  lemma RoundTrip(s: Subscriber, category: byte, data: seq<byte>, p: nat, now: nat, wallMicros: nat)
    requires p > 0 && |data| > 0
    requires |Fragments(data, p, 0)| <= 128
    requires Accepts(s, TruncatedCategory(category))
    ensures var frames := FramesFor(category, data, p);
      var r := FeedFrames(s, frames, now, wallMicros);
      && r.1[|frames| - 1] == Some(Sample(TruncatedCategory(category), data, wallMicros, s.config.interface))
      && (forall x :: 0 <= x < |frames| - 1 ==> r.1[x].None?)
  {
    var frames := FramesFor(category, data, p);
    var n := |frames|;
    FragmentsEmpty(data, p, 0);
    InOrderComplete(n);
    DeliveredInAnyOrder(s, category, data, p, InOrder(n), now, wallMicros);
    InOrderKeepsFrames(frames);
  }

  lemma {:induction false} FeedWithout(s: Subscriber, category: byte, data: seq<byte>, p: nat, order: seq<nat>, m: nat, i: nat, now: nat, wallMicros: nat)
    requires p > 0
    requires |Fragments(data, p, 0)| <= 128
    requires i <= |order|
    requires forall x :: 0 <= x < |order| ==> order[x] < |Fragments(data, p, 0)|
    requires m < |Fragments(data, p, 0)| - 1 && m !in order
    requires TruncatedCategory(category) in s.states ==> m !in s.states[TruncatedCategory(category)].fragments
    ensures var r := FeedFrames(s, Reordered(FramesFor(category, data, p), order)[i..], now, wallMicros);
      forall x :: 0 <= x < |r.1| ==> r.1[x].None?
    decreases |order| - i
  {
    if i < |order| {
      var cat := TruncatedCategory(category);
      var frames := Reordered(FramesFor(category, data, p), order);
      var k := order[i];
      assert frames[i] == FramesFor(category, data, p)[k];
      FeedFramesCons(s, frames, i, now, wallMicros);
      var (s1, out) := ProcessFrame(s, frames[i], now, wallMicros);
      assert k != m;
      if Accepts(s, cat) {
        ProcessMessageFrame(s, category, data, p, k, now, wallMicros);
        var frags := CurrentFragments(s, cat)[k := Payload(Fragments(data, p, 0)[k])];
        assert m !in frags;
      } else {
        MessageFrame(category, data, p, k);
      }
      assert out.None?;
      FeedWithout(s1, category, data, p, order, m, i + 1, now, wallMicros);
    }
  }

  /**
   * Withholding a non-last fragment means no sample is ever produced, even
   * after the last fragment arrives, when the category holds no stale chunk
   * at the withheld index.
   */
  lemma MissingFragmentNeverCompletes(s: Subscriber, category: byte, data: seq<byte>, p: nat, order: seq<nat>, m: nat, now: nat, wallMicros: nat)
    requires p > 0
    requires |Fragments(data, p, 0)| <= 128
    requires forall x :: 0 <= x < |order| ==> order[x] < |Fragments(data, p, 0)|
    requires m < |Fragments(data, p, 0)| - 1 && m !in order
    requires TruncatedCategory(category) in s.states ==> m !in s.states[TruncatedCategory(category)].fragments
    ensures var r := FeedFrames(s, Reordered(FramesFor(category, data, p), order), now, wallMicros);
      forall x :: 0 <= x < |r.1| ==> r.1[x].None?
  {
    assert Reordered(FramesFor(category, data, p), order)[0..] == Reordered(FramesFor(category, data, p), order);
    FeedWithout(s, category, data, p, order, m, 0, now, wallMicros);
  }

  /**
   * With a non-empty filter, frames whose truncated category (a multiple
   * of 32) is not listed change nothing: subscribing only to, say, 48
   * admits no frame at all.
   */
  lemma UnalignedSubscriptionsDeliverNothing(s: Subscriber, frame: Frame, now: nat, wallMicros: nat)
    requires |s.subscribed| > 0
    requires forall i :: 0 <= i < |s.subscribed| ==> s.subscribed[i] % 32 != 0
    ensures ProcessFrame(s, frame, now, wallMicros) == (s, None)
  {
  }

  /**
   * A state idle for longer than the timeout is evicted on the next poll,
   * so a later fragment of that category starts from an empty chunk map.
   */
  lemma EvictedStateStartsFresh(s: Subscriber, frame: Frame, now: nat, wallMicros: nat)
    requires |frame.data| > 0
    requires var c := ParseCanId(frame.id).0;
      Accepts(s, c) && c in s.states && IsExpired(s.states[c], s.config.reassemblyTimeoutMs, now)
    ensures var c := ParseCanId(frame.id).0;
      var r := ProcessFrame(CleanupExpired(s, now), frame, now, wallMicros);
      var (index, isLast) := ParseFragmentHeader(frame.data[0]);
      && c !in CleanupExpired(s, now).states
      && (r.1.None? ==> r.0.states[c].fragments == map[index := frame.data[1..]])
      && (r.1.Some? ==> index == 0 && isLast && r.1.value.data == frame.data[1..])
  {
    var c := ParseCanId(frame.id).0;
    var (index, isLast) := ParseFragmentHeader(frame.data[0]);
    var frags := map[index := frame.data[1..]];
    if index > 0 {
      assert 0 !in frags;
    } else {
      assert JoinedRange(frags, 1, 1) == [];
    }
  }
}

=== FILE: Cat021.dfy ===
/**
 * The CAT021 (ADS-B target report) record encoder of the radar integration
 * package, from the integer stage on: the floating-point scaling of time,
 * position, flight level, height, speeds, heading and vertical rate happens
 * before the functions modelled here and gives their integer inputs.
 */
module Cat021 {
  import opened Wrappers
  import opened Bytes
  import opened Asterix
  import DataItemBits

  /**
   * `encode_i040`: the target report descriptor, one octet with the
   * address type in bits 6-5 (`atp & 3`), ARC in bit 4 and RC in bit 3
   * (set for any non-zero argument), counting bits from 0, and no extension.
   */
  function EncodeI040(atp: int, arc: int, rc: int): (r: byte)
    ensures r / 32 == atp % 4
    ensures BitSet(r, 4) <==> arc != 0
    ensures BitSet(r, 3) <==> rc != 0
    ensures r % 8 == 0
  {
    var b := (atp % 4) * 32 + 16 * Bit(arc != 0) + 8 * Bit(rc != 0);
    DescriptorLayout(atp % 4, Bit(arc != 0), Bit(rc != 0));
    b
  }

  /** The octet `32 a + 16 f + 8 g` holds `a` above bit 4, `f` in bit 4 and `g` in bit 3. */
  lemma DescriptorLayout(a: nat, f: nat, g: nat)
    requires a < 4 && f <= 1 && g <= 1
    ensures var b := a * 32 + 16 * f + 8 * g;
      && 0 <= b < 256 && b / 32 == a && b % 8 == 0
      && (BitSet(b, 4) <==> f == 1) && (BitSet(b, 3) <==> g == 1)
  {
    var b := a * 32 + 16 * f + 8 * g;
    Pow2Values();
    assert Pow2(4) == 16;
    DivUnique(b, 16, a * 2 + f, 8 * g);
    DivUnique(b, 8, a * 4 + 2 * f + g, 0);
    DivUnique(b, 32, a, 16 * f + 8 * g);
  }

  /** `encode_i161`: the low 12 bits of the track number, left-aligned in 16 bits. */
  function EncodeI161(trackNumber: int): (r: seq<byte>)
    ensures |r| == 2
    ensures BeValue(r) / 16 == trackNumber % 4096
    ensures BeValue(r) % 16 == 0
  {
    var track := trackNumber % 4096;
    DivUnique(track * 16, 16, track, 0);
    PackU16(track * 16)
  }

  /** `encode_i015`: the service identification octet; `struct.pack('B', …)` raises outside 0..255. */
  function EncodeI015(serviceId: int): (r: Result<seq<byte>, string>)
    ensures r.Success? <==> 0 <= serviceId < 256
    ensures r.Success? ==> r.value == [serviceId]
  {
    if 0 <= serviceId < 256 then
      var item: seq<byte> := [serviceId];
      Success(item)
    else Failure("struct.error: ubyte format requires 0 <= number <= 255")
  }

  /**
   * The integer stage of `encode_i130`: one coordinate in units of
   * 180/2^23 degrees, clamped to the signed 24-bit range and stored as
   * 24-bit two's complement (2^24 added to a negative value) in the low
   * three octets of a 32-bit word.
   */
  function Coordinate24(v: int): (r: seq<byte>)
    ensures |r| == 3
    ensures SignedValue(r) == Clamp(v, -0x80_0000, 0x7F_FFFF)
  {
    Pow2Values();
    var c := Clamp(v, -0x80_0000, 0x7F_FFFF);
    var pattern := if c < 0 then 0x100_0000 + c else c;
    assert pattern == TwosComplement(c, 24);
    TwosComplementInverse(c, 24);
    PackLow3(pattern).value
  }

  /** `encode_i130` from the scaled latitude and longitude: two 3-octet coordinates. */
  function EncodeI130(lat: int, lon: int): (r: seq<byte>)
    ensures |r| == 6
    ensures SignedValue(r[..3]) == Clamp(lat, -0x80_0000, 0x7F_FFFF)
    ensures SignedValue(r[3..]) == Clamp(lon, -0x80_0000, 0x7F_FFFF)
  {
    var a := Coordinate24(lat);
    var b := Coordinate24(lon);
    assert (a + b)[..3] == a && (a + b)[3..] == b;
    a + b
  }

  /** `encode_i080`: the low 24 bits of the aircraft address, `& 0xFFFFFF` then the low three octets. */
  function EncodeI080(address: int): (r: seq<byte>)
    ensures |r| == 3
    ensures BeValue(r) == address % 0x100_0000
  {
    var masked := address % 0x100_0000;
    DivUnique(masked, 0x100_0000, 0, masked);
    PackLow3(masked).value
  }

  /**
   * The callsign as `encode_i170` prepares it, `callsign.upper()[:8].ljust(8)`:
   * the first eight characters upper-cased, padded with spaces.
   */
  function I170Text(callsign: string): (t: string)
    ensures |t| == 8
  {
    var u := Upper(callsign);
    seq(8, i requires 0 <= i < 8 => if i < |u| then u[i] else ' ')
  }

  /** On an ASCII callsign the prepared text is its first eight characters upper-cased, then spaces. */
  lemma I170TextOfAscii(callsign: string)
    requires forall i :: 0 <= i < |callsign| ==> callsign[i] as int < 128
    ensures forall i :: 0 <= i < 8 ==> I170Text(callsign)[i] == if i < |callsign| then UpperAscii(callsign[i]) else ' '
  {
    UpperOfAscii(callsign);
  }

  /** The six-bit code `encode_i170` gives a character: A-Z 1..26, digits 48..57, anything else space (32). */
  function SixBitValue(c: char): (v: nat)
    ensures v < 64
  {
    if c == ' ' then 0x20
    else if 'A' <= c <= 'Z' then c as int - 'A' as int + 1
    else if '0' <= c <= '9' then c as int - '0' as int + 48
    else 0x20
  }

  /** The six-bit codes of the eight callsign characters. */
  function I170Values(callsign: string): (vals: seq<nat>)
    ensures |vals| == 8
    ensures forall i :: 0 <= i < 8 ==> vals[i] == SixBitValue(I170Text(callsign)[i]) < 64
  {
    seq(8, i requires 0 <= i < 8 => SixBitValue(I170Text(callsign)[i]))
  }

  /**
   * One step of the packing loop of `encode_i170` as written: character
   * `i` has its code shifted right by `(6 i) % 8` into octet `(6 i) / 8`
   * and, for a bit offset above 2, shifted left by `8 - offset`, masked to
   * 8 bits, into the next octet.
   */
  function I170PackStep(encoded: seq<bv8>, i: nat, val: bv8): (r: seq<bv8>)
    requires |encoded| == 6 && i < 8
    ensures |r| == 6
  {
    var byteIdx := (i * 6) / 8;
    var bitOffset := (i * 6) % 8;
    if byteIdx < 6 then
      var first := encoded[byteIdx := encoded[byteIdx] | (val >> bitOffset)];
      if byteIdx + 1 < 6 && bitOffset > 2 then first[byteIdx + 1 := first[byteIdx + 1] | (val << (8 - bitOffset))]
      else first
    else encoded
  }

  /** The packing loop of `encode_i170` as written, from character `i` on. */
  function I170PackFrom(vals: seq<bv8>, i: nat, encoded: seq<bv8>): (r: seq<bv8>)
    requires |vals| == 8 && i <= 8 && |encoded| == 6
    ensures |r| == 6
    decreases 8 - i
  {
    if i == 8 then encoded
    else I170PackFrom(vals, i + 1, I170PackStep(encoded, i, vals[i]))
  }

  /** `encode_i170` as written: the packing loop over a zeroed 6-octet buffer. */
  function I170AsWritten(callsign: string): (r: seq<byte>)
    ensures |r| == 6
  {
    var codes := seq(8, i requires 0 <= i < 8 => I170Values(callsign)[i] as bv8);
    var encoded := I170PackFrom(codes, 0, [0, 0, 0, 0, 0, 0]);
    seq(6, i requires 0 <= i < 6 => encoded[i] as int)
  }

  /** Six-bit codes read as one number, first code most significant. */
  function SixBitWord(vals: seq<nat>): (w: nat)
    requires forall k :: 0 <= k < |vals| ==> vals[k] < 64
    ensures w < Pow2(6 * |vals|)
  {
    if |vals| == 0 then 0
    else
      var init := vals[..|vals| - 1];
      var w := SixBitWord(init);
      Pow2Add(6 * |init|, 6);
      assert Pow2(6) == 64;
      MulMonotone(64, w + 1, Pow2(6 * |init|));
      w * 64 + vals[|vals| - 1]
  }

  /** The code at position `k` of a six-bit word sits `6 (n - 1 - k)` bits up. */
  lemma {:induction false} SixBitWordDigit(vals: seq<nat>, k: nat)
    requires forall j :: 0 <= j < |vals| ==> vals[j] < 64
    requires k < |vals|
    ensures (SixBitWord(vals) / Pow2(6 * (|vals| - 1 - k))) % 64 == vals[k]
  {
    var n := |vals|;
    var init := vals[..n - 1];
    var w := SixBitWord(init);
    assert Pow2(6) == 64;
    DivUnique(SixBitWord(vals), 64, w, vals[n - 1]);
    if k == n - 1 {
      assert Pow2(0) == 1;
    } else {
      var p := Pow2(6 * (n - 2 - k));
      Pow2Add(6, 6 * (n - 2 - k));
      assert 6 * (n - 1 - k) == 6 + 6 * (n - 2 - k);
      DivDiv(SixBitWord(vals), 64, p);
      SixBitWordDigit(init, k);
    }
  }

  /**
   * `encode_i170` as evidently intended: the eight six-bit codes packed
   * most significant first into 48 bits, which is how the ASTERIX decoder
   * reads aircraft identification.
   */
  function EncodeI170(callsign: string): (r: seq<byte>)
    ensures |r| == 6
    ensures BeValue(r) == SixBitWord(I170Values(callsign))
  {
    BeBytes(SixBitWord(I170Values(callsign)), 6)
  }

  /** The character the decoder shows for a prepared callsign character. */
  function I170Char(c: char): char {
    if 'A' <= c <= 'Z' || '0' <= c <= '9' then c else ' '
  }

  /** The ICAO six-bit table maps each code `encode_i170` produces back to its character. */
  lemma SixBitCodeInverse(c: char)
    ensures DataItemBits.SixBitCode[SixBitValue(c)] == I170Char(c)
  {
    var table := DataItemBits.SixBitCode;
    if 'A' <= c <= 'Z' {
      var i := c as int - 64;
      assert i == 1 || i == 2 || i == 3 || i == 4 || i == 5 || i == 6 || i == 7 || i == 8
        || i == 9 || i == 10 || i == 11 || i == 12 || i == 13 || i == 14 || i == 15 || i == 16
        || i == 17 || i == 18 || i == 19 || i == 20 || i == 21 || i == 22 || i == 23 || i == 24 || i == 25 || i == 26;
      assert table[i] == (i + 64) as char;
    } else if '0' <= c <= '9' {
      var i := c as int;
      assert i == 48 || i == 49 || i == 50 || i == 51 || i == 52 || i == 53 || i == 54 || i == 55 || i == 56 || i == 57;
      assert table[i] == i as char;
    }
  }

  /**
   * The round trip of I170: the ASTERIX decoder reading the 48 bits of
   * `EncodeI170` as a six-bit string finds the prepared callsign, letters
   * and digits kept and every other character a space.
   */
  lemma EncodeI170Decodes(callsign: string, k: nat)
    requires k < 8
    ensures |DataItemBits.GetSixBitString(EncodeI170(callsign), 1, 48)| == 8
    ensures DataItemBits.GetSixBitString(EncodeI170(callsign), 1, 48)[k] == I170Char(I170Text(callsign)[k])
  {
    var data := EncodeI170(callsign);
    var c := I170Text(callsign)[k];
    var v := I170Values(callsign)[k];
    assert v == SixBitValue(c);
    I170Field(callsign, k);
    SixBitRead(data, k, v);
    SixBitCodeInverse(c);
  }

  /** Reading 48 bits as a six-bit string shows at position `k` the table entry of the code in field `k`. */
  lemma SixBitRead(data: seq<byte>, k: nat, v: nat)
    requires |data| == 6 && k < 8
    requires DataItemBits.GetUnsigned(data, 48 - 6 * k - 5, 48 - 6 * k) == v
    ensures |DataItemBits.GetSixBitString(data, 1, 48)| == 8
    ensures v < 64 && DataItemBits.GetSixBitString(data, 1, 48)[k] == DataItemBits.SixBitCode[v]
  {
    SixBitLength(data);
    DataItemBits.SixBitCharacters(data, 1, 48, k);
  }

  lemma SixBitLength(data: seq<byte>)
    requires |data| == 6
    ensures |DataItemBits.GetSixBitString(data, 1, 48)| == 8
  {
    DataItemBits.GetBitsInside(data, 1, 48);
  }

  /** The six bits of character `k` in `EncodeI170` hold its code. */
  lemma I170Field(callsign: string, k: nat)
    requires k < 8
    ensures DataItemBits.GetUnsigned(EncodeI170(callsign), 48 - 6 * k - 5, 48 - 6 * k) == I170Values(callsign)[k]
  {
    var data := EncodeI170(callsign);
    var vals := I170Values(callsign);
    DataItemBits.GetUnsignedValue(data, 48 - 6 * k - 5, 48 - 6 * k);
    assert 48 - 6 * k - 5 - 1 == 6 * (8 - 1 - k);
    assert Pow2(6) == 64;
    SixBitWordDigit(vals, k);
  }

  /** The six-bit codes of "AB": A, B and six spaces. */
  lemma I170ValuesAB()
    ensures I170Values("AB") == [1, 2, 32, 32, 32, 32, 32, 32]
  {
    I170TextOfAscii("AB");
    var text := I170Text("AB");
    assert text == "AB      ";
  }

  /** The packing loop as written, run on the codes of "AB", one character at a time. */
  lemma I170PackAB(vals: seq<bv8>)
    requires vals == [1, 2, 32, 32, 32, 32, 32, 32]
    ensures I170PackFrom(vals, 0, [0, 0, 0, 0, 0, 0]) == [0x01, 0x0A, 0x08, 0x20, 0x82, 0x08]
  {
    var e0: seq<bv8> := [0, 0, 0, 0, 0, 0];
    var e1: seq<bv8> := [0x01, 0, 0, 0, 0, 0];
    var e2: seq<bv8> := [0x01, 0x08, 0, 0, 0, 0];
    var e3: seq<bv8> := [0x01, 0x0A, 0, 0, 0, 0];
    var e4: seq<bv8> := [0x01, 0x0A, 0x08, 0, 0, 0];
    var e5: seq<bv8> := [0x01, 0x0A, 0x08, 0x20, 0, 0];
    var e6: seq<bv8> := [0x01, 0x0A, 0x08, 0x20, 0x80, 0];
    var e7: seq<bv8> := [0x01, 0x0A, 0x08, 0x20, 0x82, 0];
    var e8: seq<bv8> := [0x01, 0x0A, 0x08, 0x20, 0x82, 0x08];
    I170Steps01AB();
    I170Steps23AB();
    I170Steps45AB();
    I170Steps67AB();
    assert I170PackFrom(vals, 8, e8) == e8;
    assert I170PackFrom(vals, 7, e7) == e8;
    assert I170PackFrom(vals, 6, e6) == e8;
    assert I170PackFrom(vals, 5, e5) == e8;
    assert I170PackFrom(vals, 4, e4) == e8;
    assert I170PackFrom(vals, 3, e3) == e8;
    assert I170PackFrom(vals, 2, e2) == e8;
    assert I170PackFrom(vals, 1, e1) == e8;
  }

  /** Steps 0 and 1 of the packing loop on the codes of "AB". */
  lemma I170Steps01AB()
    ensures I170PackStep([0, 0, 0, 0, 0, 0], 0, 1) == [0x01, 0, 0, 0, 0, 0]
    ensures I170PackStep([0x01, 0, 0, 0, 0, 0], 1, 2) == [0x01, 0x08, 0, 0, 0, 0]
  {
  }

  /** Steps 2 and 3 of the packing loop on the codes of "AB". */
  lemma I170Steps23AB()
    ensures I170PackStep([0x01, 0x08, 0, 0, 0, 0], 2, 32) == [0x01, 0x0A, 0, 0, 0, 0]
    ensures I170PackStep([0x01, 0x0A, 0, 0, 0, 0], 3, 32) == [0x01, 0x0A, 0x08, 0, 0, 0]
  {
  }

  /** Steps 4 and 5 of the packing loop on the codes of "AB". */
  lemma I170Steps45AB()
    ensures I170PackStep([0x01, 0x0A, 0x08, 0, 0, 0], 4, 32) == [0x01, 0x0A, 0x08, 0x20, 0, 0]
    ensures I170PackStep([0x01, 0x0A, 0x08, 0x20, 0, 0], 5, 32) == [0x01, 0x0A, 0x08, 0x20, 0x80, 0]
  {
  }

  /** Steps 6 and 7 of the packing loop on the codes of "AB". */
  lemma I170Steps67AB()
    ensures I170PackStep([0x01, 0x0A, 0x08, 0x20, 0x80, 0], 6, 32) == [0x01, 0x0A, 0x08, 0x20, 0x82, 0]
    ensures I170PackStep([0x01, 0x0A, 0x08, 0x20, 0x82, 0], 7, 32) == [0x01, 0x0A, 0x08, 0x20, 0x82, 0x08]
  {
  }

  /** A six-octet field whose first octet is below 4 decodes with a space as its first six-bit character. */
  lemma BlankFirstSixBit(data: seq<byte>)
    requires |data| == 6 && data[0] < 4
    ensures DataItemBits.GetSixBitString(data, 1, 48)[0] == ' '
  {
    DataItemBits.SixBitCharacters(data, 1, 48, 0);
    DataItemBits.GetUnsignedInside(data, 43, 48);
    var bits := DataItemBits.BitsDown(data, 43, 48);
    forall i | 0 <= i < 6
      ensures !bits[i]
    {
      TopBitClear(data, i);
    }
    StreamValueZeros(bits);
  }

  /** Bit `48 - i` of six octets is clear when `i < 6` and the first octet is below 4. */
  lemma TopBitClear(data: seq<byte>, i: int)
    requires |data| == 6 && data[0] < 4 && 0 <= i < 6
    ensures !DataItemBits.BitAt(data, 48 - i)
  {
    assert (47 - i) / 8 == 5 && (47 - i) % 8 == 7 - i;
    ShrTiny(data[0] as nat, 7 - i);
  }

  /** A number below 4 shifted right by two or more places is 0. */
  lemma ShrTiny(v: nat, k: nat)
    requires v < 4 && k >= 2
    ensures DataItemBits.Shr(v, k) == 0
  {
    assert DataItemBits.Shr(v, k) == DataItemBits.Shr(v / 2 / 2, k - 2);
    DataItemBits.ShrSmall(0, k - 2);
  }

  /**
   * What the loop as written produces for "AB": character 0 lands in the
   * low bits of octet 0, so the decoder's first six-bit field (the top six
   * bits of octet 0) reads 0, a space, where the intended encoding gives
   * 'A'.
   */
  lemma I170AsWrittenMisplacesBits()
    ensures I170AsWritten("AB") == [0x01, 0x0A, 0x08, 0x20, 0x82, 0x08]
    ensures DataItemBits.GetSixBitString(I170AsWritten("AB"), 1, 48)[0] == ' '
    ensures DataItemBits.GetSixBitString(EncodeI170("AB"), 1, 48)[0] == 'A'
  {
    AsWrittenOctetsAB();
    BlankFirstSixBit(I170AsWritten("AB"));
    EncodeI170Decodes("AB", 0);
  }

  /** The octets the packing loop as written produces for "AB". */
  lemma AsWrittenOctetsAB()
    ensures I170AsWritten("AB") == [0x01, 0x0A, 0x08, 0x20, 0x82, 0x08]
  {
    I170ValuesAB();
    var codes := seq(8, i requires 0 <= i < 8 => I170Values("AB")[i] as bv8);
    assert codes == [1, 2, 32, 32, 32, 32, 32, 32];
    I170PackAB(codes);
  }

  /** `encode_i145` and `encode_i150` after scaling: the value clamped to 0..65535, unsigned 16 bits. */
  function EncodeU16Clamped(v: int): (r: seq<byte>)
    ensures |r| == 2
    ensures BeValue(r) == Clamp(v, 0, 65535)
  {
    PackU16(Clamp(v, 0, 65535))
  }

  /** `encode_i140` and `encode_i155` after scaling: the value clamped to the signed 16-bit range. */
  function EncodeI16Clamped(v: int): (r: seq<byte>)
    ensures |r| == 2
    ensures SignedValue(r) == Clamp(v, -32768, 32767)
  {
    Pow2Values();
    PackSigned(Clamp(v, -32768, 32767), 2)
  }

  /** `encode_i151`: the true airspeed clamped to 15 bits, shifted left so the RE bit (bit 0) is clear. */
  function EncodeI151(tas: int): (r: seq<byte>)
    ensures |r| == 2
    ensures BeValue(r) / 2 == Clamp(tas, 0, 32767)
    ensures BeValue(r) % 2 == 0
  {
    var t := Clamp(tas, 0, 32767);
    DivUnique(t * 2, 2, t, 0);
    PackU16(t * 2)
  }

  /** `encode_i152` after scaling: the heading taken modulo a full turn of 65536 units. */
  function EncodeI152(heading: int): (r: seq<byte>)
    ensures |r| == 2
    ensures BeValue(r) < 65536
    ensures (heading - BeValue(r)) % 65536 == 0
  {
    var h := heading % 65536;
    DivUnique(heading - h, 65536, heading / 65536, 0);
    PackU16(h)
  }

  /**
   * `encode_i200`: the target status octet, ICF in bit 7 and LNAV in bit 6
   * (set for any non-zero argument) and the priority status `ps & 7` in
   * bits 5-3.
   */
  function EncodeI200(icf: int, lnav: int, ps: int): (r: byte)
    ensures BitSet(r, 7) <==> icf != 0
    ensures BitSet(r, 6) <==> lnav != 0
    ensures (r / 8) % 8 == ps % 8
    ensures r % 8 == 0
  {
    var b := 128 * Bit(icf != 0) + 64 * Bit(lnav != 0) + (ps % 8) * 8;
    StatusLayout(Bit(icf != 0), Bit(lnav != 0), ps % 8);
    b
  }

  /** The octet `128 f + 64 l + 8 p` holds `f` in bit 7, `l` in bit 6 and `p` in bits 5-3. */
  lemma StatusLayout(f: nat, l: nat, p: nat)
    requires f <= 1 && l <= 1 && p < 8
    ensures var b := 128 * f + 64 * l + p * 8;
      && 0 <= b < 256 && (BitSet(b, 7) <==> f == 1) && (BitSet(b, 6) <==> l == 1)
      && (b / 8) % 8 == p && b % 8 == 0
  {
    var b := 128 * f + 64 * l + p * 8;
    Pow2Values();
    DivUnique(b, 128, f, 64 * l + p * 8);
    DivUnique(b, 64, 2 * f + l, p * 8);
    DivUnique(b, 8, 16 * f + 8 * l + p, 0);
    DivUnique(16 * f + 8 * l + p, 8, 2 * f + l, p);
  }

  /**
   * The arguments of `encode_cat021_record` after their floating-point
   * stage: latitude and longitude in 180/2^23 degrees, time of day in
   * 1/128 s, flight level in 1/4 FL, height and vertical rate in 6.25 ft
   * (per minute), air speed in 2^-14 NM/s, true airspeed in knots and
   * heading in 360/2^16 degrees.
   */
  datatype Report = Report(
    lat: int, lon: int, address: int, time128: int, sac: int, sic: int, trackNumber: Option<int>,
    callsign: Option<string>, flightLevel: Option<int>, gnssHeight: Option<int>, airspeed: Option<int>,
    trueAirspeed: Option<int>, heading: Option<int>, verticalRate: Option<int>, serviceId: int)

  /** FRN `f` when `given`, nothing otherwise. */
  function OptionalFrn(given: bool, f: int): (items: seq<int>)
    ensures forall x :: x in items <==> given && x == f
  {
    if given then [f] else []
  }

  /** The FRNs of the position and identity part of a CAT021 record: 1 to 7, with 3 only for a track number. */
  function FrontItems(t: Report): (items: seq<int>)
    ensures forall f :: f in items <==> (1 <= f <= 7 && f != 3) || (f == 3 && t.trackNumber.Some?)
  {
    [1, 2] + OptionalFrn(t.trackNumber.Some?, 3) + [4, 5, 6, 7]
  }

  /** The FRNs of the optional kinematic items of a CAT021 record, in order. */
  function KinematicItems(t: Report): (items: seq<int>)
    ensures forall f :: f in items <==>
      (f == 11 && t.callsign.Some?) || (f == 13 && t.flightLevel.Some?) || (f == 14 && t.gnssHeight.Some?)
      || (f == 18 && t.verticalRate.Some?) || (f == 19 && t.airspeed.Some?)
      || (f == 20 && t.trueAirspeed.Some?) || (f == 21 && t.heading.Some?)
  {
    var a := OptionalFrn(t.callsign.Some?, 11) + OptionalFrn(t.flightLevel.Some?, 13)
      + OptionalFrn(t.gnssHeight.Some?, 14);
    var b := OptionalFrn(t.verticalRate.Some?, 18) + OptionalFrn(t.airspeed.Some?, 19)
      + OptionalFrn(t.trueAirspeed.Some?, 20) + OptionalFrn(t.heading.Some?, 21);
    a + b
  }

  /** The FRNs of a CAT021 record, in order; 22 (I200) always comes last. */
  function RecordItems(t: Report): (items: seq<int>)
    ensures ValidFrns(items)
    ensures 22 in items && forall f :: f in items ==> f <= 22
  {
    var front, kinematic := FrontItems(t), KinematicItems(t);
    var items := front + kinematic + [22];
    assert forall f :: f in items <==> f in front || f in kinematic || f == 22;
    assert forall i :: 0 <= i < |items| ==> items[i] in items;
    items
  }

  /**
   * A CAT021 record carries items 1, 2, 4, 5, 6, 7 and 22 always, and each
   * other item exactly when its argument is given.
   */
  lemma RecordItemsPresent(t: Report, f: int)
    ensures f in RecordItems(t) <==>
      f == 1 || f == 2 || f == 4 || f == 5 || f == 6 || f == 7 || f == 22
      || (f == 3 && t.trackNumber.Some?) || (f == 11 && t.callsign.Some?)
      || (f == 13 && t.flightLevel.Some?) || (f == 14 && t.gnssHeight.Some?)
      || (f == 18 && t.verticalRate.Some?) || (f == 19 && t.airspeed.Some?)
      || (f == 20 && t.trueAirspeed.Some?) || (f == 21 && t.heading.Some?)
  {
    assert RecordItems(t) == FrontItems(t) + KinematicItems(t) + [22];
  }

  /** An optional item: its octets when the argument is given, nothing otherwise. */
  function OptionalItem<T>(arg: Option<T>, encode: T -> seq<byte>): seq<byte> {
    match arg
    case None => []
    case Some(v) => encode(v)
  }

  /** I071, I130 and I080 of `encode_cat021_record`: time, position and address, twelve octets. */
  function TailHead(t: Report): (r: Result<seq<byte>, string>)
    ensures r.Success? ==> |r.value| == 12
  {
    var i071 :- PackLow3(t.time128);
    Success(i071 + EncodeI130(t.lat, t.lon) + EncodeI080(t.address))
  }

  /** The optional items after I170, in FRN order, and I200 with its defaults. */
  function TailRest(t: Report): (r: seq<byte>)
    ensures |r| >= 1
  {
    OptionalItem(t.flightLevel, EncodeU16Clamped)
      + OptionalItem(t.gnssHeight, EncodeI16Clamped) + OptionalItem(t.verticalRate, EncodeI16Clamped)
      + OptionalItem(t.airspeed, EncodeU16Clamped) + OptionalItem(t.trueAirspeed, EncodeI151)
      + OptionalItem(t.heading, EncodeI152) + [EncodeI200(0, 0, 0)]
  }

  /**
   * The data items of `encode_cat021_record` from I071 on, in FRN order:
   * position, address, the optional items, and I200 with its defaults.
   */
  function RecordTail(t: Report, i170: string -> seq<byte>): (r: Result<seq<byte>, string>)
    ensures r.Success? ==> |r.value| >= 13
  {
    var head :- TailHead(t);
    Success(head + OptionalItem(t.callsign, i170) + TailRest(t))
  }

  /**
   * The data items of `encode_cat021_record` up to I015: I010, I040 with
   * its defaults, I161 when a track number is given, and I015.
   */
  function RecordFront(t: Report): (r: Result<seq<byte>, string>)
    ensures r.Success? ==> |r.value| >= 4 && r.value[0] == t.sac && r.value[1] == t.sic && r.value[2] == 0
  {
    var i010 :- EncodeI010(t.sac, t.sic);
    var i015 :- EncodeI015(t.serviceId);
    var i161 := OptionalItem(t.trackNumber, EncodeI161);
    Success(i010 + [EncodeI040(0, 0, 0)] + i161 + i015)
  }

  /** A CAT021 record built with a given I170 encoder: the FSPEC of the items present, then the items. */
  function RecordWith(t: Report, i170: string -> seq<byte>): Result<seq<byte>, string> {
    var front :- RecordFront(t);
    var tail :- RecordTail(t, i170);
    Success(EncodeFspec(RecordItems(t)) + (front + tail))
  }

  /** `encode_cat021_record` as written, with the I170 packing loop as written. */
  function EncodeRecord(t: Report): Result<seq<byte>, string> {
    RecordWith(t, I170AsWritten)
  }

  /** `encode_cat021_record` as evidently intended, with I170 packed most significant first. */
  function EncodeRecordIntended(t: Report): Result<seq<byte>, string> {
    RecordWith(t, EncodeI170)
  }

  /** The arguments with which the front items and I071 encode: octet SAC, SIC and service identification, a time that fits 32 bits. */
  predicate RecordEncodable(t: Report) {
    0 <= t.sac < 256 && 0 <= t.sic < 256 && 0 <= t.serviceId < 256 && 0 <= t.time128 < 0x1_0000_0000
  }

  /** The octets of a record before I170: the FSPEC, the front items, I071, I130 and I080. */
  function RecordPrefix(t: Report): seq<byte>
    requires RecordEncodable(t)
  {
    FrontFails(t);
    HeadFails(t);
    EncodeFspec(RecordItems(t)) + RecordFront(t).value + TailHead(t).value
  }

  /**
   * The I170 encoder decides only the I170 octets of a record: whether the
   * record encodes does not depend on it, and the record is the same
   * prefix, then I170 when a callsign is given, then the same rest.
   */
  lemma RecordShape(t: Report, i170: string -> seq<byte>)
    ensures RecordWith(t, i170).Success? <==> RecordEncodable(t)
    ensures RecordEncodable(t) ==>
      && RecordWith(t, i170).value == RecordPrefix(t) + OptionalItem(t.callsign, i170) + TailRest(t)
      && |RecordPrefix(t)| == 4 + |RecordFront(t).value| + 12
  {
    FrontFails(t);
    HeadFails(t);
    if RecordEncodable(t) {
      RecordFspecLength(t);
      var fspec, front, head := EncodeFspec(RecordItems(t)), RecordFront(t).value, TailHead(t).value;
      var item, rest := OptionalItem(t.callsign, i170), TailRest(t);
      TailShape(t, i170);
      Regroup(fspec, front, head, item, rest);
    }
  }

  lemma Regroup(a: seq<byte>, b: seq<byte>, c: seq<byte>, d: seq<byte>, e: seq<byte>)
    ensures a + (b + (c + d + e)) == a + b + c + d + e
  {
  }

  lemma TailShape(t: Report, i170: string -> seq<byte>)
    requires TailHead(t).Success?
    ensures RecordTail(t, i170) == Success(TailHead(t).value + OptionalItem(t.callsign, i170) + TailRest(t))
  {
  }

  /**
   * A record with callsign "AB": `encode_cat021_record` writes the I170
   * octets of the packing loop as written, whose first six-bit character
   * reads as a space, where the intended record has the octets that read
   * 'A'; everything else agrees.
   */
  lemma RecordCallsignMisencoded(t: Report)
    requires t.callsign == Some("AB") && RecordEncodable(t)
    ensures EncodeRecord(t) == Success(RecordPrefix(t) + [0x01, 0x0A, 0x08, 0x20, 0x82, 0x08] + TailRest(t))
    ensures EncodeRecordIntended(t) == Success(RecordPrefix(t) + EncodeI170("AB") + TailRest(t))
    ensures EncodeRecord(t) != EncodeRecordIntended(t)
  {
    I170AsWrittenMisplacesBits();
    RecordShape(t, I170AsWritten);
    RecordShape(t, EncodeI170);
    var p, q := RecordPrefix(t), TailRest(t);
    var a, b := I170AsWritten("AB"), EncodeI170("AB");
    assert a != b;
    assert (p + a + q)[|p|..|p| + 6] == a;
    assert (p + b + q)[|p|..|p| + 6] == b;
  }

  /** `encode_cat021_record` fails exactly for an out-of-range SAC, SIC, service identification or time. */
  lemma RecordFails(t: Report)
    ensures EncodeRecord(t).Failure? <==>
      !(0 <= t.sac < 256 && 0 <= t.sic < 256 && 0 <= t.serviceId < 256 && 0 <= t.time128 < 0x1_0000_0000)
  {
    RecordShape(t, I170AsWritten);
  }

  lemma FrontFails(t: Report)
    ensures RecordFront(t).Success? <==> 0 <= t.sac < 256 && 0 <= t.sic < 256 && 0 <= t.serviceId < 256
  {
  }

  lemma HeadFails(t: Report)
    ensures TailHead(t).Success? <==> 0 <= t.time128 < 0x1_0000_0000
  {
  }

  /** Item 22 is always present and last, so a CAT021 FSPEC is four octets. */
  lemma RecordFspecLength(t: Report)
    ensures |EncodeFspec(RecordItems(t))| == 4
  {
    MaxFrnIs(RecordItems(t), 22);
  }

  /** The FSPEC of a CAT021 record is always four octets and marks exactly the items present. */
  lemma RecordFspec(t: Report, rest: seq<byte>, frn: int)
    ensures |EncodeFspec(RecordItems(t))| == 4
    ensures FspecExtent(EncodeFspec(RecordItems(t)) + rest) == Some(4)
    ensures Present(EncodeFspec(RecordItems(t)) + rest, frn) <==> frn in RecordItems(t)
  {
    var items := RecordItems(t);
    MaxFrnIs(items, 22);
    EncodeFspecExtent(items, rest);
    EncodeFspecPresent(items, rest, frn);
  }

  /** A report with in-range arguments encodes to a record that opens with four FSPEC octets and is at least 21 octets long. */
  lemma RecordHeader(t: Report)
    requires RecordEncodable(t)
    ensures EncodeRecord(t).Success?
    ensures FspecExtent(EncodeRecord(t).value) == Some(4) && |EncodeRecord(t).value| >= 21
  {
    RecordShape(t, I170AsWritten);
    var front := RecordFront(t).value;
    var tail := RecordTail(t, I170AsWritten).value;
    RecordFspec(t, front + tail, 1);
    assert EncodeRecord(t).value == EncodeFspec(RecordItems(t)) + (front + tail);
  }

  /** A report with in-range arguments encodes, and after the FSPEC come SAC, SIC and the all-zero I040 octet. */
  lemma RecordFrontOctets(t: Report)
    requires RecordEncodable(t)
    ensures EncodeRecord(t).Success?
    ensures var r := EncodeRecord(t).value; r[4] == t.sac && r[5] == t.sic && r[6] == 0
  {
    RecordShape(t, I170AsWritten);
    var front := RecordFront(t).value;
    var tail := RecordTail(t, I170AsWritten).value;
    var fspec := EncodeFspec(RecordItems(t));
    RecordFspecLength(t);
    assert EncodeRecord(t).value == fspec + (front + tail);
    OctetsAfterFspec(fspec, front, tail);
  }

  /** The three octets after a four-octet FSPEC are the first three of the items. */
  lemma OctetsAfterFspec(fspec: seq<byte>, front: seq<byte>, tail: seq<byte>)
    requires |fspec| == 4 && |front| >= 3
    ensures var r := fspec + (front + tail); r[4] == front[0] && r[5] == front[1] && r[6] == front[2]
  {
  }

  /** `encode_cat021_datablock`: category 21, the block length and the records. */
  function EncodeDatablock(records: seq<seq<byte>>): (r: Result<seq<byte>, string>)
    ensures r.Failure? <==> 3 + TotalLength(records) > 65535
    ensures r.Success? ==> |r.value| >= 3 && r.value[0] == 21 && BeValue(r.value[1..3]) == |r.value|
    ensures r.Success? ==> r.value[3..] == Flatten(records)
  {
    DataBlock(21, records)
  }
}

=== FILE: Cat048.dfy ===
/**
 * The CAT048 (monoradar target report) data-item decoders of the Python
 * radar integration: each reads one item at an offset of a record buffer
 * and returns the item's fields with the number of octets it consumed, or
 * raises `DecoderError` when the buffer ends too early. Physical scalings
 * (nautical miles, degrees, seconds, flight levels) are floating point and
 * left out: the model keeps the raw integer fields they are computed from.
 */
module Cat048 {
  import opened Wrappers
  import opened Bytes
  import Asterix
  import Text

  /** The `DecoderError` exceptions of the item decoders. */
  datatype DecoderError =
    | Truncated(what: string)
    | UnsupportedFrn(frn: int)

  /** I020 target report descriptor: report type and the four flags of its first octet. */
  datatype Descriptor = Descriptor(typ: nat, sim: bool, rdp: bool, spi: bool, rab: bool)

  /** I070 Mode-3/A code: validated, garbled and smoothed flags and the 12-bit code. */
  datatype Mode3A = Mode3A(v: bool, g: bool, l: bool, code: nat)

  /** I090 flight level: validated and garbled flags, and the level in quarter flight levels. */
  datatype FlightLevel = FlightLevel(v: bool, g: bool, quarterFl: int)

  /** I130 radar plot characteristics: each subfield when its primary bit is set. */
  datatype PlotCharacteristics = PlotCharacteristics(
    srl: Option<byte>, srr: Option<byte>, sam: Option<int>,
    prl: Option<byte>, pam: Option<int>, rpd: Option<int>)

  /** A decoded CAT048 data item, FRN 1 to 10. */
  datatype Item =
    | DataSource(sac: byte, sic: byte)
    | TimeOfDay(time128: nat)
    | TargetDescriptor(descriptor: Descriptor)
    | PolarPosition(rho: nat, theta: nat)
    | Mode3ACode(mode3a: Mode3A)
    | FlightLevelItem(level: FlightLevel)
    | Characteristics(plot: PlotCharacteristics)
    | AircraftAddress(address: nat)
    | Identification(octets: seq<byte>)
    | ModeSData(rep: byte, blocks: seq<seq<byte>>)

  /** An item with the number of octets it took, or the error raised. */
  type Decoded = Result<(Item, nat), DecoderError>

  /** `decode_uint(data, offset, n)`: `n` octets read as a big-endian unsigned number. */
  function Unsigned(data: seq<byte>, offset: nat, n: nat): (v: nat)
    requires offset + n <= |data|
    ensures v < Pow2(8 * n)
  {
    BeValueBound(data[offset..offset + n]);
    BeValue(data[offset..offset + n])
  }

  /** `decode_int(data, offset, 1)`: one octet read as an 8-bit two's-complement number. */
  function SignedOctet(b: byte): (v: int)
    ensures -128 <= v < 128
    ensures v >= 0 ==> v == b
    ensures v < 0 ==> v == b - 256
  {
    Pow2Values();
    FromTwosComplement(b, 8)
  }

  /** The weights of the three top bits of a 16-bit word. */
  lemma WordWeights()
    ensures Pow2(13) == 0x2000 && Pow2(14) == 0x4000 && Pow2(15) == 0x8000
  {
    assert Pow2(8) == 256;
  }

  /** `_decode_i010`: SAC and SIC, two octets. */
  function DecodeI010(data: seq<byte>, offset: nat): (r: Decoded)
    ensures r.Failure? <==> offset + 2 > |data|
    ensures r.Failure? ==> r.error == Truncated("I010")
    ensures r.Success? ==> r.value.1 == 2
  {
    if offset + 2 > |data| then Failure(Truncated("I010"))
    else Success((DataSource(data[offset], data[offset + 1]), 2))
  }

  /** `_decode_i140`: the time of day in 1/128 s, a 24-bit unsigned field. */
  function DecodeI140(data: seq<byte>, offset: nat): (r: Decoded)
    ensures r.Failure? <==> offset + 3 > |data|
    ensures r.Failure? ==> r.error == Truncated("I140")
    ensures r.Success? ==> r.value.1 == 3 && r.value.0.TimeOfDay? && r.value.0.time128 < 0x100_0000
  {
    Pow2Values();
    if offset + 3 > |data| then Failure(Truncated("I140"))
    else Success((TimeOfDay(Unsigned(data, offset, 3)), 3))
  }

  /**
   * `_decode_i020`: TYP is the top three bits, then SIM, RDP, SPI and RAB;
   * an extension octet is skipped when FX is set and one follows.
   */
  function DecodeI020(data: seq<byte>, offset: nat): (r: Decoded)
    ensures r.Failure? <==> offset >= |data|
    ensures r.Failure? ==> r.error == Truncated("I020")
    ensures r.Success? ==> r.value.0.TargetDescriptor? && r.value.0.descriptor.typ < 8
    ensures r.Success? ==> r.value.1 == if data[offset] % 2 == 1 && offset + 1 < |data| then 2 else 1
  {
    if offset >= |data| then Failure(Truncated("I020"))
    else
      var b := data[offset];
      var d := Descriptor(b / 32, BitSet(b, 4), BitSet(b, 3), BitSet(b, 2), BitSet(b, 1));
      var fx := BitSet(b, 0);
      Success((TargetDescriptor(d), if fx && offset + 1 < |data| then 2 else 1))
  }

  /** `_decode_i040`: slant range and azimuth, two unsigned 16-bit fields. */
  function DecodeI040(data: seq<byte>, offset: nat): (r: Decoded)
    ensures r.Failure? <==> offset + 4 > |data|
    ensures r.Failure? ==> r.error == Truncated("I040")
    ensures r.Success? ==> r.value.1 == 4 && r.value.0.PolarPosition?
    ensures r.Success? ==> r.value.0.rho < 65536 && r.value.0.theta < 65536
  {
    Pow2Values();
    if offset + 4 > |data| then Failure(Truncated("I040"))
    else Success((PolarPosition(Unsigned(data, offset, 2), Unsigned(data, offset + 2, 2)), 4))
  }

  /** `_decode_i070`: V, G and L are bits 16, 15 and 14 of the word, the code its low 12 bits. */
  function DecodeI070(data: seq<byte>, offset: nat): (r: Decoded)
    ensures r.Failure? <==> offset + 2 > |data|
    ensures r.Failure? ==> r.error == Truncated("I070")
    ensures r.Success? ==> r.value.1 == 2 && r.value.0.Mode3ACode? && r.value.0.mode3a.code < 4096
  {
    if offset + 2 > |data| then Failure(Truncated("I070"))
    else
      var w := Unsigned(data, offset, 2);
      Success((Mode3ACode(Mode3A(BitSet(w, 15), BitSet(w, 14), BitSet(w, 13), w % 0x1000)), 2))
  }

  /**
   * `_decode_i090`: V and G are bits 16 and 15; bits 14..1 are the level,
   * made negative by subtracting 2^14 when bit 14 is set.
   */
  function DecodeI090(data: seq<byte>, offset: nat): (r: Decoded)
    ensures r.Failure? <==> offset + 2 > |data|
    ensures r.Failure? ==> r.error == Truncated("I090")
    ensures r.Success? ==> r.value.1 == 2 && r.value.0.FlightLevelItem?
    ensures r.Success? ==> -8192 <= r.value.0.level.quarterFl <= 8191
    ensures r.Success? ==>
      r.value.0.level.quarterFl == FromTwosComplement(Unsigned(data, offset, 2) % 0x4000, 14)
  {
    if offset + 2 > |data| then Failure(Truncated("I090"))
    else
      var w := Unsigned(data, offset, 2);
      var raw := w % 0x4000;
      WordWeights();
      var level := if BitSet(raw, 13) then raw - 0x4000 else raw;
      Success((FlightLevelItem(FlightLevel(BitSet(w, 15), BitSet(w, 14), level)), 2))
  }

  /**
   * One optional I130 subfield: when `present`, the octet after the
   * `consumed` octets read so far, which must exist.
   */
  function I130Subfield(data: seq<byte>, offset: nat, consumed: nat, present: bool, name: string): (r: Result<(Option<byte>, nat), DecoderError>)
    ensures r.Failure? <==> present && offset + consumed >= |data|
    ensures r.Failure? ==> r.error == Truncated(name)
    ensures r.Success? ==> r.value.1 == consumed + Asterix.Bit(present)
    ensures r.Success? ==> r.value.0 == if present then Some(data[offset + consumed]) else None
  {
    if !present then Success((None, consumed))
    else if offset + consumed >= |data| then Failure(Truncated(name))
    else Success((Some(data[offset + consumed]), consumed + 1))
  }

  function SignedField(o: Option<byte>): Option<int> {
    match o
    case None => None
    case Some(b) => Some(SignedOctet(b))
  }

  /** The number of flags set. */
  function Count(flags: seq<bool>): nat {
    if |flags| == 0 then 0 else Asterix.Bit(flags[0]) + Count(flags[1..])
  }

  /**
   * The optional I130 subfields in reading order, each read when its flag
   * is set: the octet after the `consumed` octets read so far, which must
   * exist. Field `k` is the octet after the fields present before it.
   */
  function Subfields(data: seq<byte>, offset: nat, consumed: nat, present: seq<bool>, names: seq<string>): (r: Result<(seq<Option<byte>>, nat), DecoderError>)
    requires |names| == |present| && offset + consumed <= |data|
    ensures r.Success? <==> offset + consumed + Count(present) <= |data|
    ensures r.Success? ==> |r.value.0| == |present| && r.value.1 == consumed + Count(present)
    ensures r.Success? ==> forall k :: 0 <= k < |present| ==>
      offset + consumed + Count(present[..k]) < |data| || !present[k]
    ensures r.Success? ==> forall k :: 0 <= k < |present| ==>
      r.value.0[k] == if present[k] then Some(data[offset + consumed + Count(present[..k])]) else None
    decreases |present|
  {
    if |present| == 0 then Success(([], consumed))
    else
      var head :- I130Subfield(data, offset, consumed, present[0], names[0]);
      var tail :- Subfields(data, offset, head.1, present[1..], names[1..]);
      SubfieldsStep(present, consumed, head.1);
      Success(([head.0] + tail.0, tail.1))
  }

  /** How the positions of the fields after the first shift by the first field's octet. */
  lemma SubfieldsStep(present: seq<bool>, consumed: nat, next: nat)
    requires |present| > 0 && next == consumed + Asterix.Bit(present[0])
    ensures Count(present) == Asterix.Bit(present[0]) + Count(present[1..])
    ensures forall k :: 1 <= k <= |present| ==> consumed + Count(present[..k]) == next + Count(present[1..][..k - 1])
  {
    forall k | 1 <= k <= |present|
      ensures consumed + Count(present[..k]) == next + Count(present[1..][..k - 1])
    {
      assert present[..k][1..] == present[1..][..k - 1];
    }
  }

  /** The I130 presence flags: SRL, SRR, SAM, PRL, PAM, RPD (bits 0x40 .. 0x02) and FX. */
  function I130Flags(primary: byte): (flags: seq<bool>)
    ensures |flags| == 7
  {
    [BitSet(primary, 6), BitSet(primary, 5), BitSet(primary, 4), BitSet(primary, 3),
     BitSet(primary, 2), BitSet(primary, 1), BitSet(primary, 0)]
  }

  const I130Names: seq<string> :=
    ["I130 SRL", "I130 SRR", "I130 SAM", "I130 PRL", "I130 PAM", "I130 RPD", "I130 extension"]

  /**
   * The length of an I130 item: the primary octet, one octet per subfield
   * bit set among 0x40 .. 0x02, and one more when FX is set.
   */
  function I130Length(primary: byte): nat {
    1 + Count(I130Flags(primary))
  }

  /**
   * `_decode_i130`: the primary octet, then SRL, SRR, SAM, PRL, PAM and
   * RPD in that order when their bits are set (SAM, PAM and RPD signed),
   * then a skipped extension octet when FX is set.
   */
  function DecodeI130(data: seq<byte>, offset: nat): (r: Decoded)
    ensures r.Success? <==> offset < |data| && offset + I130Length(data[offset]) <= |data|
    ensures r.Success? ==> r.value.0.Characteristics? && r.value.1 == I130Length(data[offset])
  {
    if offset >= |data| then Failure(Truncated("I130"))
    else
      var fields :- Subfields(data, offset, 1, I130Flags(data[offset]), I130Names);
      var v := fields.0;
      var plot := PlotCharacteristics(v[0], v[1], SignedField(v[2]), v[3], SignedField(v[4]), SignedField(v[5]));
      Success((Characteristics(plot), fields.1))
  }

  /** `_decode_i220`: the 24-bit Mode S address. */
  function DecodeI220(data: seq<byte>, offset: nat): (r: Decoded)
    ensures r.Failure? <==> offset + 3 > |data|
    ensures r.Failure? ==> r.error == Truncated("I220")
    ensures r.Success? ==> r.value.1 == 3 && r.value.0.AircraftAddress? && r.value.0.address < 0x100_0000
  {
    Pow2Values();
    if offset + 3 > |data| then Failure(Truncated("I220"))
    else Success((AircraftAddress(Unsigned(data, offset, 3)), 3))
  }

  /** `_decode_i240`: the six octets of the 6-bit aircraft identification. */
  function DecodeI240(data: seq<byte>, offset: nat): (r: Decoded)
    ensures r.Failure? <==> offset + 6 > |data|
    ensures r.Failure? ==> r.error == Truncated("I240")
    ensures r.Success? ==> r.value.1 == 6 && r.value.0.Identification? && |r.value.0.octets| == 6
  {
    if offset + 6 > |data| then Failure(Truncated("I240"))
    else Success((Identification(data[offset..offset + 6]), 6))
  }

  /** The MB data blocks `i` .. `rep - 1` of an I250 item starting at `offset`: eight octets each. */
  function MbBlocks(data: seq<byte>, offset: nat, rep: nat, i: nat): (r: Result<seq<seq<byte>>, DecoderError>)
    requires i <= rep
    decreases rep - i
  {
    var start := offset + 1 + 8 * i;
    if i == rep then Success([])
    else if start + 8 > |data| then Failure(Truncated("I250 MB block " + Text.Decimal(i)))
    else
      var rest :- MbBlocks(data, offset, rep, i + 1);
      Success([data[start..start + 8]] + rest)
  }

  /**
   * The blocks from `i` on are all there exactly when the buffer holds
   * `1 + 8 * rep` octets from `offset`; block `i + k` is then the `k`-th
   * result.
   */
  lemma {:induction false} MbBlocksShape(data: seq<byte>, offset: nat, rep: nat, i: nat)
    requires i <= rep
    ensures MbBlocks(data, offset, rep, i).Success? <==> i == rep || offset + 1 + 8 * rep <= |data|
    ensures MbBlocks(data, offset, rep, i).Success? ==>
      var blocks := MbBlocks(data, offset, rep, i).value;
      |blocks| == rep - i &&
      forall k :: 0 <= k < rep - i ==>
        offset + 1 + 8 * (i + k) + 8 <= |data| &&
        blocks[k] == data[offset + 1 + 8 * (i + k)..offset + 1 + 8 * (i + k) + 8]
    decreases rep - i
  {
    if i < rep {
      MbBlocksShape(data, offset, rep, i + 1);
      var start := offset + 1 + 8 * i;
      if start + 8 <= |data| && MbBlocks(data, offset, rep, i + 1).Success? {
        var rest := MbBlocks(data, offset, rep, i + 1).value;
        var blocks := MbBlocks(data, offset, rep, i).value;
        assert blocks == [data[start..start + 8]] + rest;
        forall k | 0 < k < rep - i
          ensures blocks[k] == rest[k - 1]
        {
        }
      }
    }
  }

  /** `_decode_i250`: the repetition factor REP, then REP blocks of eight octets. */
  function DecodeI250(data: seq<byte>, offset: nat): (r: Decoded)
    ensures r.Success? ==> r.value.0.ModeSData? && r.value.1 == 1 + 8 * r.value.0.rep as int
  {
    if offset >= |data| then Failure(Truncated("I250"))
    else
      var rep := data[offset];
      var blocks :- MbBlocks(data, offset, rep, 0);
      Success((ModeSData(rep, blocks), 1 + 8 * rep as int))
  }

  /**
   * `_decode_i250` succeeds exactly when the buffer holds all REP blocks;
   * the `k`-th block is then the eight octets at `offset + 1 + 8k`.
   */
  lemma I250Blocks(data: seq<byte>, offset: nat)
    ensures DecodeI250(data, offset).Success? <==> offset < |data| && offset + 1 + 8 * data[offset] as int <= |data|
    ensures DecodeI250(data, offset).Success? ==>
      var item := DecodeI250(data, offset).value.0;
      item.rep == data[offset] && |item.blocks| == item.rep &&
      forall k :: 0 <= k < item.rep ==> item.blocks[k] == data[offset + 1 + 8 * k..offset + 9 + 8 * k]
  {
    if offset < |data| {
      MbBlocksShape(data, offset, data[offset], 0);
    }
  }

  /** `_decode_data_item`: the decoder of FRNs 1 to 10; any other FRN raises `Unsupported FRN`. */
  function DecodeItem(frn: int, data: seq<byte>, offset: nat): (r: Decoded)
    ensures !(1 <= frn <= 10) ==> r == Failure(UnsupportedFrn(frn))
    ensures r.Success? ==> 1 <= r.value.1 && offset + r.value.1 <= |data|
  {
    if frn == 1 then DecodeI010(data, offset)
    else if frn == 2 then DecodeI140(data, offset)
    else if frn == 3 then DecodeI020(data, offset)
    else if frn == 4 then DecodeI040(data, offset)
    else if frn == 5 then DecodeI070(data, offset)
    else if frn == 6 then DecodeI090(data, offset)
    else if frn == 7 then DecodeI130(data, offset)
    else if frn == 8 then DecodeI220(data, offset)
    else if frn == 9 then DecodeI240(data, offset)
    else if frn == 10 then
      I250Blocks(data, offset);
      DecodeI250(data, offset)
    else Failure(UnsupportedFrn(frn))
  }

  // Reference encodings: the layouts the decoders read, each with the round
  // trip that ties it to its decoder.

  /** An I010 item written by the encoders decodes to its SAC and SIC. */
  lemma I010RoundTrip(sac: int, sic: int, rest: seq<byte>)
    requires Asterix.EncodeI010(sac, sic).Success?
    ensures DecodeI010(Asterix.EncodeI010(sac, sic).value + rest, 0) == Success((DataSource(sac, sic), 2))
  {
  }

  /** Three octets `struct.pack('>I', v)[1:]` decode to `v` modulo 2^24, as I140 or as I220. */
  lemma Low3RoundTrip(v: int, rest: seq<byte>)
    requires 0 <= v < 0x1_0000_0000
    ensures DecodeI140(Asterix.PackLow3(v).value + rest, 0) == Success((TimeOfDay(v % 0x100_0000), 3))
    ensures DecodeI220(Asterix.PackLow3(v).value + rest, 0) == Success((AircraftAddress(v % 0x100_0000), 3))
  {
    var field := Asterix.PackLow3(v).value;
    assert (field + rest)[0..3] == field;
  }

  /** Two unsigned 16-bit fields decode as the I040 range and azimuth. */
  lemma I040RoundTrip(rho: nat, theta: nat, rest: seq<byte>)
    requires rho <= 65535 && theta <= 65535
    ensures DecodeI040(PackU16(rho) + PackU16(theta) + rest, 0) == Success((PolarPosition(rho, theta), 4))
  {
    var data := PackU16(rho) + PackU16(theta) + rest;
    assert data[0..2] == PackU16(rho);
    assert data[2..4] == PackU16(theta);
  }

  /** The I020 first octet: TYP in the top three bits, then SIM, RDP, SPI, RAB and FX. */
  function EncodeDescriptor(d: Descriptor, fx: bool): (b: byte)
    requires d.typ < 8
  {
    Asterix.Octet(d.typ >= 4, (d.typ / 2) % 2 == 1, d.typ % 2 == 1, d.sim, d.rdp, d.spi, d.rab, fx)
  }

  /** A descriptor octet decodes to its descriptor; FX makes I020 take the following octet when there is one. */
  lemma I020RoundTrip(d: Descriptor, fx: bool, rest: seq<byte>)
    requires d.typ < 8
    ensures DecodeI020([EncodeDescriptor(d, fx)] + rest, 0)
      == Success((TargetDescriptor(d), if fx && |rest| > 0 then 2 else 1))
  {
    var b := EncodeDescriptor(d, fx);
    DescriptorFields(d, fx);
    var data := [b] + rest;
    assert data[0] == b;
    assert Descriptor(b / 32, BitSet(b, 4), BitSet(b, 3), BitSet(b, 2), BitSet(b, 1)) == d;
  }

  /** The fields `_decode_i020` reads out of a descriptor octet. */
  lemma DescriptorFields(d: Descriptor, fx: bool)
    requires d.typ < 8
    ensures var b := EncodeDescriptor(d, fx);
      && b / 32 == d.typ && (BitSet(b, 4) <==> d.sim) && (BitSet(b, 3) <==> d.rdp)
      && (BitSet(b, 2) <==> d.spi) && (BitSet(b, 1) <==> d.rab) && (b % 2 == 1 <==> fx)
  {
    DescriptorType(d, fx);
    var b := EncodeDescriptor(d, fx);
    Asterix.OctetBits(d.typ >= 4, (d.typ / 2) % 2 == 1, d.typ % 2 == 1, d.sim, d.rdp, d.spi, d.rab, fx);
    Asterix.LowestBit(b);
  }

  /** TYP is the descriptor octet divided by 32. */
  lemma DescriptorType(d: Descriptor, fx: bool)
    requires d.typ < 8
    ensures EncodeDescriptor(d, fx) / 32 == d.typ
  {
    var t2, t1, t0 := d.typ >= 4, (d.typ / 2) % 2 == 1, d.typ % 2 == 1;
    var lo := 16 * Asterix.Bit(d.sim) + 8 * Asterix.Bit(d.rdp) + 4 * Asterix.Bit(d.spi)
      + 2 * Asterix.Bit(d.rab) + Asterix.Bit(fx);
    TypeBits(d.typ);
    OctetSplit(t2, t1, t0, d.sim, d.rdp, d.spi, d.rab, fx);
    DivUnique(EncodeDescriptor(d, fx), 32, d.typ, lo);
  }

  /** The three TYP bits weigh 128, 64 and 32. */
  lemma TypeBits(typ: nat)
    requires typ < 8
    ensures 4 * Asterix.Bit(typ >= 4) + 2 * Asterix.Bit((typ / 2) % 2 == 1) + Asterix.Bit(typ % 2 == 1) == typ
  {
    assert typ == 0 || typ == 1 || typ == 2 || typ == 3 || typ == 4 || typ == 5 || typ == 6 || typ == 7;
  }

  /** An octet is its top three bits times 32 plus its low five. */
  lemma OctetSplit(f1: bool, f2: bool, f3: bool, f4: bool, f5: bool, f6: bool, f7: bool, fx: bool)
    ensures Asterix.Octet(f1, f2, f3, f4, f5, f6, f7, fx)
      == 32 * (4 * Asterix.Bit(f1) + 2 * Asterix.Bit(f2) + Asterix.Bit(f3))
        + (16 * Asterix.Bit(f4) + 8 * Asterix.Bit(f5) + 4 * Asterix.Bit(f6) + 2 * Asterix.Bit(f7) + Asterix.Bit(fx))
    ensures 16 * Asterix.Bit(f4) + 8 * Asterix.Bit(f5) + 4 * Asterix.Bit(f6) + 2 * Asterix.Bit(f7) + Asterix.Bit(fx) < 32
  {
  }

  /** The I070 word: V, G and L in bits 16, 15 and 14, bit 13 spare, the code below. */
  function EncodeMode3A(m: Mode3A): (w: nat)
    requires m.code < 4096
    ensures w <= 65535
  {
    0x8000 * Asterix.Bit(m.v) + 0x4000 * Asterix.Bit(m.g) + 0x2000 * Asterix.Bit(m.l) + m.code
  }

  /** An I070 word decodes to its flags and code. */
  lemma I070RoundTrip(m: Mode3A, rest: seq<byte>)
    requires m.code < 4096
    ensures DecodeI070(PackU16(EncodeMode3A(m)) + rest, 0) == Success((Mode3ACode(m), 2))
  {
    var w := EncodeMode3A(m);
    var v, g, l := Asterix.Bit(m.v), Asterix.Bit(m.g), Asterix.Bit(m.l);
    assert (PackU16(w) + rest)[0..2] == PackU16(w);
    WordWeights();
    Asterix.BitOfSum(w, 15, 0x8000, 0, v, 0x4000 * g + 0x2000 * l + m.code);
    Asterix.BitOfSum(w, 14, 0x4000, v, g, 0x2000 * l + m.code);
    Asterix.BitOfSum(w, 13, 0x2000, 2 * v + g, l, m.code);
    DivUnique(w, 0x1000, 8 * v + 4 * g + 2 * l, m.code);
  }

  /** The I090 word: V and G in bits 16 and 15, the level as 14-bit two's complement below. */
  function EncodeFlightLevel(f: FlightLevel): (w: nat)
    requires -8192 <= f.quarterFl <= 8191
    ensures w <= 65535
  {
    WordWeights();
    0x8000 * Asterix.Bit(f.v) + 0x4000 * Asterix.Bit(f.g) + TwosComplement(f.quarterFl, 14)
  }

  /** An I090 word decodes to its flags and level, negative levels included. */
  lemma I090RoundTrip(f: FlightLevel, rest: seq<byte>)
    requires -8192 <= f.quarterFl <= 8191
    ensures DecodeI090(PackU16(EncodeFlightLevel(f)) + rest, 0) == Success((FlightLevelItem(f), 2))
  {
    var w := EncodeFlightLevel(f);
    var v, g := Asterix.Bit(f.v), Asterix.Bit(f.g);
    WordWeights();
    var tc := TwosComplement(f.quarterFl, 14);
    assert (PackU16(w) + rest)[0..2] == PackU16(w);
    Asterix.BitOfSum(w, 15, 0x8000, 0, v, 0x4000 * g + tc);
    Asterix.BitOfSum(w, 14, 0x4000, v, g, tc);
    DivUnique(w, 0x4000, 2 * v + g, tc);
    TwosComplementInverse(f.quarterFl, 14);
  }

  /** An I250 item: the repetition factor, then the eight-octet blocks. */
  function EncodeI250(blocks: seq<seq<byte>>): (r: seq<byte>)
    requires |blocks| < 256
    requires forall k :: 0 <= k < |blocks| ==> |blocks[k]| == 8
    ensures |r| == 1 + 8 * |blocks|
  {
    FlattenBlocks(blocks, 0);
    [|blocks|] + Flatten(blocks)
  }

  /** Blocks of eight octets, concatenated: block `k` starts at `8k`. */
  lemma {:induction false} FlattenBlocks(blocks: seq<seq<byte>>, k: nat)
    requires forall j :: 0 <= j < |blocks| ==> |blocks[j]| == 8
    ensures |Flatten(blocks)| == 8 * |blocks|
    ensures k < |blocks| ==> Flatten(blocks)[8 * k..8 * k + 8] == blocks[k]
    decreases |blocks|
  {
    if |blocks| > 0 {
      var init := blocks[..|blocks| - 1];
      FlattenBlocks(init, k);
      assert Flatten(blocks) == Flatten(init) + blocks[|blocks| - 1];
      if k < |init| {
        assert Flatten(blocks)[8 * k..8 * k + 8] == Flatten(init)[8 * k..8 * k + 8];
        assert init[k] == blocks[k];
      }
    }
  }

  /** An I250 item decodes to its blocks. */
  lemma I250RoundTrip(blocks: seq<seq<byte>>, rest: seq<byte>)
    requires |blocks| < 256
    requires forall k :: 0 <= k < |blocks| ==> |blocks[k]| == 8
    ensures DecodeI250(EncodeI250(blocks) + rest, 0) == Success((ModeSData(|blocks|, blocks), 1 + 8 * |blocks|))
  {
    var data := EncodeI250(blocks) + rest;
    FlattenBlocks(blocks, 0);
    assert data[0] == |blocks|;
    I250Blocks(data, 0);
    var item := DecodeI250(data, 0).value.0;
    forall k | 0 <= k < |blocks|
      ensures item.blocks[k] == blocks[k]
    {
      FlattenBlocks(blocks, k);
      assert data[1 + 8 * k..9 + 8 * k] == Flatten(blocks)[8 * k..8 * k + 8];
    }
    assert item.blocks == blocks;
  }

  // The decoders read nothing before their offset.

  lemma {:induction false} SubfieldsShift(before: seq<byte>, data: seq<byte>, consumed: nat, present: seq<bool>, names: seq<string>)
    requires |names| == |present| && consumed <= |data|
    ensures Subfields(before + data, |before|, consumed, present, names) == Subfields(data, 0, consumed, present, names)
    decreases |present|
  {
    if |present| > 0 && (present[0] ==> consumed < |data|) {
      assert present[0] ==> (before + data)[|before| + consumed] == data[consumed];
      SubfieldsShift(before, data, consumed + Asterix.Bit(present[0]), present[1..], names[1..]);
    }
  }

  lemma {:induction false} MbBlocksShift(before: seq<byte>, data: seq<byte>, rep: nat, i: nat)
    requires i <= rep
    ensures MbBlocks(before + data, |before|, rep, i) == MbBlocks(data, 0, rep, i)
    decreases rep - i
  {
    if i < rep {
      MbBlocksShift(before, data, rep, i + 1);
      var start := 1 + 8 * i;
      if start + 8 <= |data| {
        assert (before + data)[|before| + start..|before| + start + 8] == data[start..start + 8];
      }
    }
  }

  /** Decoding an item at an offset reads only the octets from the offset on. */
  lemma DecodeShift(frn: int, before: seq<byte>, data: seq<byte>)
    ensures DecodeItem(frn, before + data, |before|) == DecodeItem(frn, data, 0)
  {
    var all := before + data;
    var o := |before|;
    if frn == 7 && |data| > 0 {
      assert all[o] == data[0];
      SubfieldsShift(before, data, 1, I130Flags(data[0]), I130Names);
    } else if frn == 10 && |data| > 0 {
      assert all[o] == data[0];
      MbBlocksShift(before, data, data[0], 0);
    } else if frn in {1, 3, 9} && |data| > 0 {
      LeadOctetShift(frn, before, data);
    } else if frn in {2, 4, 5, 6, 8} && |data| >= 2 {
      FixedOctetsShift(frn, before, data);
    }
  }

  /** I010, I020 and I240 read the octet at the offset and what follows it. */
  lemma LeadOctetShift(frn: int, before: seq<byte>, data: seq<byte>)
    requires (frn == 1 || frn == 3 || frn == 9) && |data| > 0
    ensures DecodeItem(frn, before + data, |before|) == DecodeItem(frn, data, 0)
  {
    var all := before + data;
    var o := |before|;
    assert all[o] == data[0];
    assert |data| > 1 ==> all[o + 1] == data[1];
    assert |data| >= 6 ==> all[o..o + 6] == data[0..6];
  }

  /** The fixed-length items of two to four octets read the octets from the offset on. */
  lemma FixedOctetsShift(frn: int, before: seq<byte>, data: seq<byte>)
    requires (frn == 2 || frn == 4 || frn == 5 || frn == 6 || frn == 8) && |data| >= 2
    ensures DecodeItem(frn, before + data, |before|) == DecodeItem(frn, data, 0)
  {
    var all := before + data;
    var o := |before|;
    assert all[o..o + 2] == data[0..2];
    assert |data| >= 3 ==> all[o..o + 3] == data[0..3];
    assert |data| >= 4 ==> all[o + 2..o + 4] == data[2..4];
  }
}

=== FILE: Cat062.dfy ===
/**
 * The CAT062 (system track data) record encoder of the radar integration
 * package, from the integer stage on: the floating-point conversions of
 * time, position, altitude and velocity to scaled integers happen before
 * the functions modelled here and are their inputs.
 */
module Cat062 {
  import opened Wrappers
  import opened Bytes
  import opened Asterix

  /** `encode_i070` from the time of day in 1/128 s: the low 24 bits of the count. */
  function EncodeI070(time128: int): (r: Result<seq<byte>, string>)
    ensures r.Success? <==> 0 <= time128 < 0x1_0000_0000
    ensures r.Success? ==> |r.value| == 3 && BeValue(r.value) == time128 % 0x100_0000
  {
    PackLow3(time128)
  }

  /** `encode_i105` from the scaled latitude and longitude: two signed 32-bit fields. */
  function EncodeI105(lat: int, lon: int): (r: Result<seq<byte>, string>)
    ensures r.Success? <==> -0x8000_0000 <= lat < 0x8000_0000 && -0x8000_0000 <= lon < 0x8000_0000
    ensures r.Success? ==> |r.value| == 8
    ensures r.Success? ==> SignedValue(r.value[..4]) == lat && SignedValue(r.value[4..]) == lon
  {
    Pow2Values();
    if -0x8000_0000 <= lat < 0x8000_0000 && -0x8000_0000 <= lon < 0x8000_0000 then
      var a := PackSigned(lat, 4);
      var b := PackSigned(lon, 4);
      assert (a + b)[..4] == a && (a + b)[4..] == b;
      Success(a + b)
    else Failure("struct.error: 'i' format requires -2147483648 <= number <= 2147483647")
  }

  /**
   * The I135 word for a clamped altitude: masked to 15 bits, with the top
   * bit set for a negative value (the 0x8000 of the negative branch) or a
   * QNH correction.
   */
  function I135Word(v: int, qnh: bool): nat
    requires -16384 <= v <= 16383
  {
    var masked := if v >= 0 then v % 0x8000 else 0x8000 + v % 0x8000;
    if qnh && masked < 0x8000 then masked + 0x8000 else masked
  }

  /** The weights of the two top bits of a 16-bit word. */
  lemma Pow2Fifteen()
    ensures Pow2(14) == 0x4000 && Pow2(15) == 0x8000
  {
    Pow2Values();
  }

  /** The top bit of the I135 word is the sign or QNH flag; the low 15 bits are the altitude. */
  lemma I135WordBits(v: int, qnh: bool)
    requires -16384 <= v <= 16383
    ensures Pow2(15) == 0x8000
    ensures I135Word(v, qnh) <= 65535
    ensures BitSet(I135Word(v, qnh), 15) <==> qnh || v < 0
    ensures FromTwosComplement(I135Word(v, qnh) % 0x8000, 15) == v
  {
    var word := I135Word(v, qnh);
    var low := v % 0x8000;
    var sign := if qnh || v < 0 then 1 else 0;
    assert word == sign * 0x8000 + low;
    DivUnique(word, 0x8000, sign, low);
    Pow2Fifteen();
  }

  /**
   * `encode_i135` from the altitude in 1/4 flight levels: the value clamped
   * to the signed 15-bit range, masked to 15 bits, with bit 16 set for a
   * negative value or a QNH correction.
   */
  function EncodeI135(quarterFl: int, qnh: bool): (r: seq<byte>)
    ensures |r| == 2
    ensures BitSet(BeValue(r), 15) <==> qnh || quarterFl < 0
    ensures Pow2(15) == 0x8000 && FromTwosComplement(BeValue(r) % 0x8000, 15) == Clamp(quarterFl, -16384, 16383)
  {
    var v := Clamp(quarterFl, -16384, 16383);
    I135WordBits(v, qnh);
    PackU16(I135Word(v, qnh))
  }

  /** `encode_i185` from the velocity in 1/4 m/s: each component clamped and packed as signed 16 bits. */
  function EncodeI185(vx: int, vy: int): (r: seq<byte>)
    ensures |r| == 4
    ensures SignedValue(r[..2]) == Clamp(vx, -32768, 32767)
    ensures SignedValue(r[2..]) == Clamp(vy, -32768, 32767)
  {
    Pow2Values();
    var a := PackSigned(Clamp(vx, -32768, 32767), 2);
    var b := PackSigned(Clamp(vy, -32768, 32767), 2);
    assert (a + b)[..2] == a && (a + b)[2..] == b;
    a + b
  }

  /** The I390 subfields present: 2 is the callsign, 7 the departure and 8 the destination airport. */
  function I390Subfields(cs: bool, dep: bool, dst: bool): (s: seq<int>)
    ensures ValidFrns(s)
    ensures forall f :: f in s <==> (f == 2 && cs) || (f == 7 && dep) || (f == 8 && dst)
  {
    (if cs then [2] else []) + (if dep then [7] else []) + (if dst then [8] else [])
  }

  /**
   * The subfield octets of I390: a primary octet with 0x40 for the
   * callsign, 0x02 for the departure airport and FX for the destination
   * airport, whose presence 0x80 sits in a secondary octet.
   */
  function I390Header(cs: bool, dep: bool, dst: bool): seq<byte> {
    [(if cs then 0x40 else 0) + (if dep then 0x02 else 0) + (if dst then 0x01 else 0)]
    + (if dst then [0x80] else [])
  }

  /** The first FSPEC octet of the I390 subfields is the primary octet. */
  lemma I390Primary(cs: bool, dep: bool, dst: bool)
    ensures FspecOctet(I390Subfields(cs, dep, dst), 0, if dst then 2 else 1)
      == (if cs then 0x40 else 0) + (if dep then 0x02 else 0) + (if dst then 0x01 else 0)
  {
    var s := I390Subfields(cs, dep, dst);
    assert 1 !in s && 3 !in s && 4 !in s && 5 !in s && 6 !in s;
  }

  /** The second FSPEC octet of the I390 subfields is the secondary octet. */
  lemma I390Secondary(cs: bool, dep: bool)
    ensures FspecOctet(I390Subfields(cs, dep, true), 1, 2) == 0x80
  {
    var s := I390Subfields(cs, dep, true);
    assert 8 in s && 9 !in s && 10 !in s && 11 !in s && 12 !in s && 13 !in s && 14 !in s;
  }

  /** Whenever a subfield is given, the I390 header is the FSPEC of the subfields present. */
  lemma I390HeaderIsFspec(cs: bool, dep: bool, dst: bool)
    requires cs || dep || dst
    ensures EncodeFspec(I390Subfields(cs, dep, dst)) == I390Header(cs, dep, dst)
  {
    var s := I390Subfields(cs, dep, dst);
    MaxFrnIs(s, if dst then 8 else if dep then 7 else 2);
    I390Primary(cs, dep, dst);
    if dst {
      I390Secondary(cs, dep);
      TwoOctetHeader(s, I390Header(cs, dep, dst));
    } else {
      OneOctetHeader(s, I390Header(cs, dep, dst));
    }
  }

  lemma OneOctetHeader(s: seq<int>, header: seq<byte>)
    requires ValidFrns(s) && |header| == 1
    requires (MaxFrn(s) + 6) / 7 == 1 && FspecOctet(s, 0, 1) == header[0]
    ensures EncodeFspec(s) == header
  {
  }

  lemma TwoOctetHeader(s: seq<int>, header: seq<byte>)
    requires ValidFrns(s) && |header| == 2
    requires (MaxFrn(s) + 6) / 7 == 2 && FspecOctet(s, 0, 2) == header[0] && FspecOctet(s, 1, 2) == header[1]
    ensures EncodeFspec(s) == header
  {
  }

  /** The text of an optional subfield, empty when absent. */
  function OptionalField(s: Option<string>, w: nat): Result<seq<byte>, string> {
    match s
    case None => Success([])
    case Some(text) => AsciiField(text, w)
  }

  /**
   * `encode_i390`: the subfield octets, then the 7-, 4- and 4-octet text
   * fields present.
   */
  function EncodeI390(callsign: Option<string>, adep: Option<string>, ades: Option<string>): (r: Result<seq<byte>, string>)
  {
    var cs :- OptionalField(callsign, 7);
    var dep :- OptionalField(adep, 4);
    var dst :- OptionalField(ades, 4);
    Success(I390Header(callsign.Some?, adep.Some?, ades.Some?) + cs + dep + dst)
  }

  /** The text fields of `encode_i390`, in subfield order. */
  function I390Text(callsign: Option<string>, adep: Option<string>, ades: Option<string>): seq<byte>
    requires EncodeI390(callsign, adep, ades).Success?
  {
    OptionalField(callsign, 7).value + OptionalField(adep, 4).value + OptionalField(ades, 4).value
  }

  /** The text fields of I390 follow its subfield octets. */
  lemma I390Shape(callsign: Option<string>, adep: Option<string>, ades: Option<string>)
    requires EncodeI390(callsign, adep, ades).Success?
    ensures EncodeI390(callsign, adep, ades).value
      == I390Header(callsign.Some?, adep.Some?, ades.Some?) + I390Text(callsign, adep, ades)
  {
  }

  /**
   * A compound-item decoder finds one subfield octet in I390, or two with a
   * destination airport, and the text fields right after them.
   */
  lemma I390Extent(callsign: Option<string>, adep: Option<string>, ades: Option<string>)
    requires EncodeI390(callsign, adep, ades).Success?
    requires callsign.Some? || adep.Some? || ades.Some?
    ensures FspecExtent(EncodeI390(callsign, adep, ades).value) == Some(if ades.Some? then 2 else 1)
    ensures EncodeI390(callsign, adep, ades).value[if ades.Some? then 2 else 1..] == I390Text(callsign, adep, ades)
  {
    var header := I390Header(callsign.Some?, adep.Some?, ades.Some?);
    var rest := I390Text(callsign, adep, ades);
    I390Shape(callsign, adep, ades);
    I390HeaderIsFspec(callsign.Some?, adep.Some?, ades.Some?);
    EncodeFspecExtent(I390Subfields(callsign.Some?, adep.Some?, ades.Some?), rest);
    assert (header + rest)[|header|..] == rest;
  }

  /** The subfield octets of I390 mark exactly the subfields given. */
  lemma I390Present(callsign: Option<string>, adep: Option<string>, ades: Option<string>, subfield: int)
    requires EncodeI390(callsign, adep, ades).Success?
    requires callsign.Some? || adep.Some? || ades.Some?
    ensures Present(EncodeI390(callsign, adep, ades).value, subfield) <==>
      (subfield == 2 && callsign.Some?) || (subfield == 7 && adep.Some?) || (subfield == 8 && ades.Some?)
  {
    var subfields := I390Subfields(callsign.Some?, adep.Some?, ades.Some?);
    I390Shape(callsign, adep, ades);
    I390HeaderIsFspec(callsign.Some?, adep.Some?, ades.Some?);
    assert EncodeI390(callsign, adep, ades).value == EncodeFspec(subfields) + I390Text(callsign, adep, ades);
    EncodeFspecPresent(subfields, I390Text(callsign, adep, ades), subfield);
  }

  /**
   * The arguments of `encode_cat062_record` after their floating-point
   * stage: time of day in 1/128 s, latitude and longitude in units of
   * 180/2^25 degrees, altitude in 1/4 FL and velocity in 1/4 m/s.
   */
  datatype Track = Track(
    sac: int, sic: int, time128: int, lat: int, lon: int, altitude: Option<int>,
    vx: Option<int>, vy: Option<int>, callsign: Option<string>, adep: Option<string>, ades: Option<string>)
  {
    predicate HasVelocity() {
      vx.Some? && vy.Some?
    }

    predicate HasFlightPlan() {
      callsign.Some? || adep.Some? || ades.Some?
    }
  }

  /** The FRNs of a CAT062 record: I010, I070 and I105 always, I185, I135 and I390 when given. */
  function RecordItems(t: Track): (items: seq<int>)
    ensures ValidFrns(items)
    ensures forall f :: f in items <==>
      f == 1 || f == 3 || f == 4 || (f == 6 && t.HasVelocity()) || (f == 12 && t.altitude.Some?)
      || (f == 27 && t.HasFlightPlan())
  {
    [1, 3, 4] + (if t.HasVelocity() then [6] else []) + (if t.altitude.Some? then [12] else [])
    + (if t.HasFlightPlan() then [27] else [])
  }

  /**
   * The data items of `encode_cat062_record` after I010, in FRN order. The
   * velocity is present only when both components are given, the
   * flight-plan item when any of its fields is; the altitude is encoded
   * without QNH correction.
   */
  function RecordTail(t: Track): (r: Result<seq<byte>, string>)
    ensures r.Success? ==> |r.value| >= 11
  {
    var i070 :- EncodeI070(t.time128);
    var i105 :- EncodeI105(t.lat, t.lon);
    var i185 := if t.HasVelocity() then EncodeI185(t.vx.value, t.vy.value) else [];
    var i135 := if t.altitude.Some? then EncodeI135(t.altitude.value, false) else [];
    var i390 :- if t.HasFlightPlan() then EncodeI390(t.callsign, t.adep, t.ades) else Success([]);
    Success(i070 + i105 + i185 + i135 + i390)
  }

  /** The data items of `encode_cat062_record`, I010 first. */
  function RecordData(t: Track): (r: Result<seq<byte>, string>)
    ensures r.Success? ==> |r.value| >= 13 && r.value[0] == t.sac && r.value[1] == t.sic
  {
    var i010 :- EncodeI010(t.sac, t.sic);
    var tail :- RecordTail(t);
    Success(i010 + tail)
  }

  /** `encode_cat062_record`: the FSPEC of the items present, then the items. */
  function EncodeRecord(t: Track): (r: Result<seq<byte>, string>)
  {
    var data :- RecordData(t);
    Success(EncodeFspec(RecordItems(t)) + data)
  }

  /** The FSPEC of a CAT062 record, whatever follows it. */
  lemma RecordFspec(t: Track, rest: seq<byte>, frn: int)
    ensures var fspec := EncodeFspec(RecordItems(t));
      && |fspec| == (if t.HasFlightPlan() then 4 else if t.altitude.Some? then 2 else 1)
      && FspecExtent(fspec + rest) == Some(|fspec|)
      && (Present(fspec + rest, frn) <==> frn in RecordItems(t))
  {
    var items := RecordItems(t);
    EncodeFspecExtent(items, rest);
    EncodeFspecPresent(items, rest, frn);
    MaxFrnIs(items, if t.HasFlightPlan() then 27 else if t.altitude.Some? then 12
      else if t.HasVelocity() then 6 else 4);
  }

  /**
   * An encoded CAT062 record starts with an FSPEC of one, two or four
   * octets, followed directly by the SAC and SIC.
   */
  lemma RecordHeader(t: Track)
    requires EncodeRecord(t).Success?
    ensures var r := EncodeRecord(t).value;
      var n := if t.HasFlightPlan() then 4 else if t.altitude.Some? then 2 else 1;
      FspecExtent(r) == Some(n) && |r| >= n + 13 && r[n] == t.sac && r[n + 1] == t.sic
  {
    var data := RecordData(t).value;
    var fspec := EncodeFspec(RecordItems(t));
    assert EncodeRecord(t).value == fspec + data;
    RecordFspec(t, data, 1);
    assert (fspec + data)[|fspec|] == data[0] && (fspec + data)[|fspec| + 1] == data[1];
  }

  /**
   * What a decoder finds present in an encoded CAT062 record: FRNs 1, 3
   * and 4, FRN 6 exactly when both velocity components were given, FRN 12
   * exactly when the altitude was, FRN 27 exactly when a flight-plan field
   * was, and no other FRN.
   */
  lemma RecordPresent(t: Track, frn: int)
    requires EncodeRecord(t).Success?
    ensures Present(EncodeRecord(t).value, frn)
      <==> frn == 1 || frn == 3 || frn == 4 || (frn == 6 && t.vx.Some? && t.vy.Some?)
           || (frn == 12 && t.altitude.Some?) || (frn == 27 && (t.callsign.Some? || t.adep.Some? || t.ades.Some?))
  {
    var data := RecordData(t).value;
    assert EncodeRecord(t).value == EncodeFspec(RecordItems(t)) + data;
    RecordFspec(t, data, frn);
  }

  /** `encode_cat062_datablock`: category 62, the block length, the records. */
  function EncodeDatablock(records: seq<seq<byte>>): (r: Result<seq<byte>, string>)
    ensures r.Failure? <==> 3 + TotalLength(records) > 65535
    ensures r.Success? ==> |r.value| >= 3 && r.value[0] == 62
    ensures r.Success? ==> BeValue(r.value[1..3]) == |r.value| && r.value[3..] == Flatten(records)
  {
    DataBlock(62, records)
  }
}

=== FILE: Ccsds.dfy ===
/**
 * The CCSDS Space Packet transport: an ASTERIX category maps to the APID
 * `base_apid + category`, each APID has a 14-bit sequence counter, and a
 * payload travels behind the six-octet Packet Primary Header of section
 * 4.1.3 of CCSDS 133.0-B-2 (version 0, type, no secondary header, APID,
 * "unsegmented" sequence flags, sequence count, data length minus one).
 *
 * The header is written and read by a library (`SpHeader`) that is not
 * part of this model; the layout is written out here instead. Rust `u16`
 * arithmetic panics on overflow in debug builds, and `u11::new` /
 * `u14::new` panic on values that do not fit: those panics are `Fault`s.
 */
module Ccsds {
  import opened Wrappers
  import opened Bytes

  datatype Mode = Telemetry | Telecommand

  /** The part of `CcsdsConfig` the packet layout depends on. */
  datatype Config = Config(mode: Mode, baseApid: nat)

  /**
   * Why publishing or parsing fails: `Overflow`, u16 arithmetic out of
   * range; `ApidTooWide`, `u11::new` on an APID above 2047;
   * `PacketTooShort`, fewer than six octets; `DataTruncated`, fewer data
   * octets than the length field announces.
   */
  datatype Fault = Overflow | ApidTooWide | PacketTooShort | DataTruncated

  /** `calculate_apid`: the base APID plus the category, a `u16` addition. */
  function CalculateApid(baseApid: nat, category: byte): (r: Option<nat>)
    requires baseApid < 65536
    ensures r.Some? <==> baseApid + category < 65536
    ensures r.Some? ==> r.value == baseApid + category
  {
    if baseApid + category < 65536 then Some(baseApid + category) else None
  }

  /**
   * `category_from_apid` as written: the upper bound `base_apid + 256` is
   * itself a `u16` sum, evaluated only once `apid >= base_apid` holds; it
   * overflows for a base above 0xFEFF. `None` is that overflow.
   */
  function CategoryFromApidAsWritten(apid: nat, baseApid: nat): (r: Option<byte>)
    requires apid < 65536 && baseApid < 65536
    ensures r.None? <==> apid >= baseApid && baseApid + 256 >= 65536
  {
    if apid < baseApid then Some(0)
    else if baseApid + 256 >= 65536 then None
    else if apid < baseApid + 256 then Some(apid - baseApid)
    else Some(0)
  }

  /**
   * `category_from_apid` with the bound computed without overflow: the
   * offset from the base when it is below 256, and 0 for any other APID.
   */
  function CategoryFromApid(apid: nat, baseApid: nat): (c: byte)
    requires apid < 65536 && baseApid < 65536
    ensures baseApid <= apid < baseApid + 256 ==> c == apid - baseApid
    ensures !(baseApid <= apid < baseApid + 256) ==> c == 0
  {
    if apid >= baseApid && apid - baseApid < 256 then apid - baseApid else 0
  }

  /** Wherever the written bound does not overflow, the two agree. */
  lemma CategoryFromApidAgrees(apid: nat, baseApid: nat)
    requires apid < 65536 && baseApid < 65536
    requires CategoryFromApidAsWritten(apid, baseApid).Some?
    ensures CategoryFromApidAsWritten(apid, baseApid).value == CategoryFromApid(apid, baseApid)
  {
  }

  /** The category comes back from the APID it was mapped to. */
  lemma ApidRoundTrip(baseApid: nat, category: byte)
    requires baseApid < 65536 && CalculateApid(baseApid, category).Some?
    ensures CategoryFromApid(CalculateApid(baseApid, category).value, baseApid) == category
  {
  }

  /** With base 0xFF00, APID 0xFF05 is category 5, but the written bound overflows first. */
  lemma CategoryFromApidOverflows()
    ensures CalculateApid(0xFF00, 5) == Some(0xFF05)
    ensures CategoryFromApidAsWritten(0xFF05, 0xFF00).None?
    ensures CategoryFromApid(0xFF05, 0xFF00) == 5
  {
  }

  /** The sequence counter of each APID that has sent a packet. */
  type Counters = map<nat, nat>

  /** Sequence counters per APID, each below 2^14. */
  predicate ValidCounters(counters: Counters) {
    forall apid :: apid in counters ==> counters[apid] < 0x4000
  }

  /** The current count of an APID: 0 before its first packet. */
  function CountOf(counters: Counters, apid: nat): nat {
    if apid in counters then counters[apid] else 0
  }

  /**
   * `next_sequence_count`: the APID's current count, and the counters with
   * that APID's count advanced by one modulo 2^14; no other APID changes.
   */
  function NextSequenceCount(counters: Counters, apid: nat): (r: (nat, Counters))
    requires ValidCounters(counters)
    ensures r.0 == CountOf(counters, apid) && r.0 < 0x4000
    ensures ValidCounters(r.1)
    ensures CountOf(r.1, apid) == (r.0 + 1) % 0x4000
    ensures forall other :: other != apid ==> CountOf(r.1, other) == CountOf(counters, other)
    ensures r.1.Keys == counters.Keys + {apid}
  {
    var current := CountOf(counters, apid);
    (current, counters[apid := (current + 1) % 0x4000])
  }

  /** The counts handed out by `n` successive packets on one APID. */
  function CountsHandedOut(counters: Counters, apid: nat, n: nat): (r: seq<nat>)
    requires ValidCounters(counters)
    ensures |r| == n
    decreases n
  {
    if n == 0 then []
    else
      var (current, next) := NextSequenceCount(counters, apid);
      [current] + CountsHandedOut(next, apid, n - 1)
  }

  /** From a fresh APID, packet `k` carries the count `k mod 2^14`. */
  lemma {:induction false} CountsWrap(counters: Counters, apid: nat, n: nat, start: nat)
    requires ValidCounters(counters) && start < 0x4000 && CountOf(counters, apid) == start
    ensures forall k :: 0 <= k < n ==> CountsHandedOut(counters, apid, n)[k] == (start + k) % 0x4000
    decreases n
  {
    if n > 0 {
      var next := NextSequenceCount(counters, apid).1;
      CountsWrap(next, apid, n - 1, (start + 1) % 0x4000);
      var r := CountsHandedOut(counters, apid, n);
      var tail := CountsHandedOut(next, apid, n - 1);
      assert r == [start] + tail;
      forall k | 1 <= k < n
        ensures r[k] == (start + k) % 0x4000
      {
        assert r[k] == tail[k - 1];
        WrapStep(start, k - 1);
      }
    }
  }

  /** Counting on from the wrapped successor is counting on from the start. */
  lemma WrapStep(start: nat, j: nat)
    requires start < 0x4000
    ensures ((start + 1) % 0x4000 + j) % 0x4000 == (start + 1 + j) % 0x4000
  {
    if start + 1 < 0x4000 {
      assert (start + 1) % 0x4000 == start + 1;
    } else {
      assert (start + 1) % 0x4000 == 0;
      assert (start + 1 + j) == j + 0x4000;
    }
  }

  /** The Packet Data Length field: length minus one as a `u16` (so wrapping), 0 for an empty payload. */
  function DataLengthField(n: nat): (f: nat)
    ensures f < 65536
    ensures 1 <= n <= 65536 ==> f == n - 1
    ensures 1 <= n ==> f <= n - 1
    ensures n == 0 ==> f == 0
  {
    if n == 0 then 0 else (n - 1) % 65536
  }

  /** The Packet Type bit: 0 for telemetry, 1 for telecommand. */
  function TypeBit(mode: Mode): nat {
    if mode == Telemetry then 0 else 1
  }

  /**
   * The six-octet primary header: version 0, the type bit, secondary
   * header flag 0 and the 11-bit APID; sequence flags 0b11 and the 14-bit
   * count; the data length field.
   */
  function PrimaryHeader(mode: Mode, apid: nat, count: nat, dataLength: nat): (h: seq<byte>)
    requires apid < 2048 && count < 0x4000 && dataLength < 65536
    ensures |h| == 6
    ensures BeValue(h[0..2]) == 0x1000 * TypeBit(mode) + apid
    ensures BeValue(h[2..4]) == 0xC000 + count
    ensures BeValue(h[4..6]) == dataLength
  {
    var h := PackU16(0x1000 * TypeBit(mode) + apid) + PackU16(0xC000 + count) + PackU16(dataLength);
    assert h[0..2] == PackU16(0x1000 * TypeBit(mode) + apid);
    assert h[2..4] == PackU16(0xC000 + count);
    assert h[4..6] == PackU16(dataLength);
    h
  }

  /**
   * `publish_raw`: the APID of the category, the next count of that APID,
   * and the packet that would go out, header then payload. The count is
   * taken before the header is built, so an APID too wide for the header
   * still advances its counter; the `u16` overflow in `calculate_apid`
   * happens before the counter is touched.
   */
  function PublishRaw(config: Config, counters: Counters, category: byte, data: seq<byte>): (r: (Counters, Result<seq<byte>, Fault>))
    requires config.baseApid < 65536 && ValidCounters(counters)
    ensures ValidCounters(r.0)
    ensures r.1.Success? <==> config.baseApid + category < 2048
    ensures r.1 == Failure(Overflow) <==> config.baseApid + category >= 65536
    ensures r.1 == Failure(Overflow) ==> r.0 == counters
    ensures r.1 != Failure(Overflow) ==> r.0 == NextSequenceCount(counters, config.baseApid + category).1
    ensures r.1.Success? ==> |r.1.value| == 6 + |data| && r.1.value[6..] == data
  {
    match CalculateApid(config.baseApid, category)
    case None => (counters, Failure(Overflow))
    case Some(apid) =>
      var (count, next) := NextSequenceCount(counters, apid);
      if apid >= 2048 then (next, Failure(ApidTooWide))
      else
        var packet := PrimaryHeader(config.mode, apid, count, DataLengthField(|data|)) + data;
        assert packet[6..] == data;
        (next, Success(packet))
  }

  /**
   * `parse_ccsds_header`: the APID, the sequence count and the data field,
   * which is `data_len + 1` octets long and must all be there.
   */
  function ParseHeader(packet: seq<byte>): (r: Result<(nat, nat, seq<byte>), Fault>)
    ensures r.Failure? <==> |packet| < 6 || |packet| < 7 + BeValue(packet[4..6])
    ensures r.Success? ==> r.value.0 < 2048 && r.value.1 < 0x4000
    ensures r.Success? ==> r.value.2 == packet[6..7 + BeValue(packet[4..6])]
  {
    if |packet| < 6 then Failure(PacketTooShort)
    else
      var apid := BeValue(packet[0..2]) % 2048;
      var count := BeValue(packet[2..4]) % 0x4000;
      var length := BeValue(packet[4..6]) + 1;
      if |packet| < 6 + length then Failure(DataTruncated)
      else Success((apid, count, packet[6..6 + length]))
  }

  /**
   * A published packet with a non-empty payload parses back to its APID,
   * the count it was given, and the first `DataLengthField(|data|) + 1`
   * octets of the payload.
   */
  lemma ParsePublished(config: Config, counters: Counters, category: byte, data: seq<byte>)
    requires config.baseApid + category < 2048 && ValidCounters(counters)
    requires 1 <= |data|
    ensures var apid := config.baseApid + category;
      ParseHeader(PublishRaw(config, counters, category, data).1.value)
        == Success((apid, CountOf(counters, apid), data[..DataLengthField(|data|) + 1]))
  {
    var apid := config.baseApid + category;
    var count := CountOf(counters, apid);
    var field := DataLengthField(|data|);
    var header := PrimaryHeader(config.mode, apid, count, field);
    var packet := header + data;
    assert PublishRaw(config, counters, category, data).1.value == packet;
    assert packet[0..2] == header[0..2] && packet[2..4] == header[2..4] && packet[4..6] == header[4..6];
    DivUnique(0x1000 * TypeBit(config.mode) + apid, 2048, 2 * TypeBit(config.mode), apid);
    DivUnique(0xC000 + count, 0x4000, 3, count);
    assert packet[6..6 + field + 1] == data[..field + 1];
  }

  /**
   * A published packet with one to 65536 data octets parses back to its
   * APID, the count it was given, and the payload.
   */
  lemma PublishParseRoundTrip(config: Config, counters: Counters, category: byte, data: seq<byte>)
    requires config.baseApid + category < 2048 && ValidCounters(counters)
    requires 1 <= |data| <= 65536
    ensures var apid := config.baseApid + category;
      ParseHeader(PublishRaw(config, counters, category, data).1.value)
        == Success((apid, CountOf(counters, apid), data))
  {
    ParsePublished(config, counters, category, data);
    assert data[..|data|] == data;
  }

  /**
   * An empty payload still announces one data octet, so its six-octet
   * packet does not parse back.
   */
  lemma EmptyPayloadUnparseable(config: Config, counters: Counters, category: byte)
    requires config.baseApid + category < 2048 && ValidCounters(counters)
    ensures ParseHeader(PublishRaw(config, counters, category, []).1.value) == Failure(DataTruncated)
  {
    var packet := PublishRaw(config, counters, category, []).1.value;
    var apid := config.baseApid + category;
    var header := PrimaryHeader(config.mode, apid, CountOf(counters, apid), 0);
    assert packet == header + [];
    assert packet[4..6] == header[4..6];
  }

  /**
   * The length field is sixteen bits wide: a payload of more than 65536
   * octets goes out whole, but reads back as its length minus one modulo
   * 65536, plus one, octets.
   */
  lemma OversizedPayloadTruncated(config: Config, counters: Counters, category: byte, data: seq<byte>)
    requires config.baseApid + category < 2048 && ValidCounters(counters)
    requires |data| > 65536
    ensures ParseHeader(PublishRaw(config, counters, category, data).1.value).Success?
    ensures |ParseHeader(PublishRaw(config, counters, category, data).1.value).value.2| < |data|
  {
    ParsePublished(config, counters, category, data);
  }
}

=== FILE: ConstraintValues.dfy ===
/**
 * Constraint values of the JSON category definitions, as the converter
 * evaluates them (`evaluate_constraint_value`), and the conversion of a
 * Quantity's `lsb` into a scaling and a number of fractional bits.
 * Python's integer, true-division and power operators are modelled on
 * Dafny's `int` and `real`; a Python exception is `None`.
 */
module ConstraintValues {
  import opened Wrappers

  /**
   * A constraint value object. A missing field is `None`; a missing
   * sub-object of a `Div` evaluates like `{}`, that is to 0.
   */
  datatype ConstraintValue =
    | IntegerValue(value: Option<int>)
    | Div(numerator: Option<ConstraintValue>, denominator: Option<ConstraintValue>)
    | Pow(base: Option<int>, exponent: Option<int>)
    | OtherValue(value: Option<int>)

  function Power(b: int, e: nat): int {
    if e == 0 then 1 else b * Power(b, e - 1)
  }

  function RealPower(b: real, e: nat): real {
    if e == 0 then 1.0 else b * RealPower(b, e - 1)
  }

  lemma {:induction false} PowerNonZero(b: int, e: nat)
    requires b != 0
    ensures Power(b, e) != 0
  {
    if e > 0 {
      PowerNonZero(b, e - 1);
      NonZeroProduct(b, Power(b, e - 1));
    }
  }

  lemma NonZeroProduct(x: int, y: int)
    requires x != 0 && y != 0
    ensures x * y != 0
  {
  }

  lemma {:induction false} PowerAsReal(b: int, e: nat)
    ensures Power(b, e) as real == RealPower(b as real, e)
  {
    if e > 0 {
      PowerAsReal(b, e - 1);
      assert (b * Power(b, e - 1)) as real == (b as real) * (Power(b, e - 1) as real);
    }
  }

  /**
   * `base ** exponent` on Python integers: an integer for a non-negative
   * exponent, otherwise the fraction (1/base)^-exponent, and
   * ZeroDivisionError for a zero base.
   */
  function PythonPow(b: int, e: int): (r: Option<real>)
    ensures r.None? <==> e < 0 && b == 0
  {
    if e >= 0 then Some(Power(b, e) as real)
    else if b == 0 then None
    else Some(RealPower(1.0 / (b as real), -e))
  }

  /** The value of a `Div`: true division, and 0 for a zero denominator. */
  function Quotient(n: real, d: real): real {
    if d != 0.0 then n / d else 0.0
  }

  /** `evaluate_constraint_value`: `None` where Python raises. */
  function Evaluate(v: ConstraintValue): (r: Option<real>)
    decreases v
  {
    match v
    case IntegerValue(value) => Some(value.GetOr(0) as real)
    case Div(numerator, denominator) =>
      var n :- EvaluateField(v, numerator);
      var d :- EvaluateField(v, denominator);
      Some(Quotient(n, d))
    case Pow(b, e) => PythonPow(b.GetOr(0), e.GetOr(0))
    case OtherValue(value) => Some(value.GetOr(0) as real)
  }

  /** A sub-object of a `Div`; a missing one is `{}`, which evaluates to 0. */
  function EvaluateField(owner: ConstraintValue, field: Option<ConstraintValue>): Option<real>
    requires field.Some? ==> field.value < owner
    decreases owner, 0
  {
    match field
    case None => Some(0.0)
    case Some(inner) => Evaluate(inner)
  }

  /** Evaluation raises exactly when some power inside has base 0 and a negative exponent. */
  predicate Raises(v: ConstraintValue)
    decreases v
  {
    match v
    case Div(numerator, denominator) =>
      (numerator.Some? && Raises(numerator.value)) || (denominator.Some? && Raises(denominator.value))
    case Pow(b, e) => b.GetOr(0) == 0 && e.GetOr(0) < 0
    case _ => false
  }

  lemma {:induction false} EvaluateRaises(v: ConstraintValue)
    ensures Evaluate(v).None? <==> Raises(v)
    decreases v
  {
    match v
    case Div(numerator, denominator) =>
      if numerator.Some? {
        EvaluateRaises(numerator.value);
      }
      if denominator.Some? {
        EvaluateRaises(denominator.value);
      }
    case _ =>
  }

  /** A quotient times its non-zero denominator gives back the numerator. */
  lemma DivInverse(num: ConstraintValue, den: ConstraintValue, n: real, d: real)
    requires Evaluate(num) == Some(n) && Evaluate(den) == Some(d) && d != 0.0
    ensures Evaluate(Div(Some(num), Some(den))) == Some(n / d)
    ensures Evaluate(Div(Some(num), Some(den))).value * d == n
  {
    var q := n / d;
    assert Evaluate(Div(Some(num), Some(den))) == Some(q);
    QuotientTimesDivisor(n, d, q);
  }

  lemma QuotientTimesDivisor(n: real, d: real, q: real)
    requires d != 0.0 && q == n / d
    ensures q * d == n
  {
  }

  /** A zero or missing denominator gives 0 instead of raising. */
  lemma DivByZeroIsZero(num: ConstraintValue, den: Option<ConstraintValue>)
    requires Evaluate(num).Some?
    requires den.None? || Evaluate(den.value) == Some(0.0)
    ensures Evaluate(Div(Some(num), den)) == Some(0.0)
  {
  }

  lemma {:induction false} ReciprocalPower(b: real, e: nat)
    requires b != 0.0
    ensures RealPower(1.0 / b, e) * RealPower(b, e) == 1.0
  {
    if e > 0 {
      ReciprocalPower(b, e - 1);
      var x := RealPower(1.0 / b, e - 1);
      var y := RealPower(b, e - 1);
      assert (1.0 / b) * b == 1.0;
      assert ((1.0 / b) * x) * (b * y) == ((1.0 / b) * b) * (x * y);
    }
  }

  /** A negative power is the reciprocal of the positive one. */
  lemma NegativePowerIsReciprocal(b: int, e: int)
    requires b != 0 && e > 0
    ensures Evaluate(Pow(Some(b), Some(-e))).Some?
    ensures Evaluate(Pow(Some(b), Some(-e))).value * Evaluate(Pow(Some(b), Some(e))).value == 1.0
  {
    assert Evaluate(Pow(Some(b), Some(-e))) == Some(RealPower(1.0 / (b as real), e));
    assert Evaluate(Pow(Some(b), Some(e))) == Some(Power(b, e) as real);
    PowerAsReal(b, e);
    ReciprocalPower(b as real, e);
  }

  /**
   * The `lsb` of a Quantity becomes a scaling and a number of fractional
   * bits: a `Div` gives its numerator and, when the denominator is a power
   * of two, that power's exponent; an `Integer` is the scaling itself;
   * anything else gives scaling 1.
   */
  function LsbToScaling(lsb: ConstraintValue): (r: (ConstraintValue, int))
    ensures lsb.Div? && lsb.denominator.Some? && lsb.denominator.value.Pow? && lsb.denominator.value.base == Some(2) ==>
      r.1 == lsb.denominator.value.exponent.GetOr(0)
    ensures !(lsb.Div? && lsb.denominator.Some? && lsb.denominator.value.Pow? && lsb.denominator.value.base == Some(2)) ==> r.1 == 0
    ensures lsb.Div? && lsb.numerator.Some? ==> r.0 == lsb.numerator.value
    ensures lsb.IntegerValue? ==> r.0 == lsb
  {
    match lsb
    case Div(numerator, denominator) =>
      var scaling := numerator.GetOr(OtherValue(None));
      if denominator.Some? && denominator.value.Pow? && denominator.value.base == Some(2) then
        (scaling, denominator.value.exponent.GetOr(0))
      else (scaling, 0)
    case IntegerValue(_) => (lsb, 0)
    case _ => (IntegerValue(Some(1)), 0)
  }

  /**
   * For an lsb of the form s / 2^n the scaling is s and the fractional
   * bits n, and the lsb's value is the scaling's value over 2^n.
   */
  lemma LsbPowerOfTwoKeepsValue(scaling: ConstraintValue, s: real, n: nat)
    requires Evaluate(scaling) == Some(s)
    ensures var lsb := Div(Some(scaling), Some(Pow(Some(2), Some(n))));
      && LsbToScaling(lsb) == (scaling, n)
      && Evaluate(lsb).Some?
      && Evaluate(lsb).value * (Power(2, n) as real) == s
  {
    PowerNonZero(2, n);
    var d := Power(2, n) as real;
    assert Evaluate(Pow(Some(2), Some(n))) == Some(d);
    DivInverse(scaling, Pow(Some(2), Some(n)), s, d);
  }

  /** Any other denominator is dropped: an lsb of 1/10 becomes scaling 1 with no fractional bits. */
  lemma LsbOtherDenominatorDropped()
    ensures var lsb := Div(Some(IntegerValue(Some(1))), Some(IntegerValue(Some(10))));
      && LsbToScaling(lsb) == (IntegerValue(Some(1)), 0)
      && Evaluate(lsb) == Some(0.1)
  {
  }
}

=== FILE: DataItemBits.dfy ===
/**
 * Bit-field extraction of the ASTERIX decoder: a field of a data item is a
 * range of bit numbers `from..to`, counted from 1 at the least significant
 * bit of the item's last octet, read most significant bit first, and
 * rendered as an unsigned or two's-complement number, a string of six-bit
 * ICAO characters, octal digits, or a byte-aligned bit mask.
 */
module DataItemBits {
  import opened Wrappers
  import opened Bytes

  /** The ICAO six-bit character set of aircraft identification. */
  const SixBitCode: seq<char> :=
    [' ', 'A', 'B', 'C', 'D', 'E', 'F', 'G', 'H', 'I', 'J', 'K', 'L', 'M', 'N', 'O']
    + ['P', 'Q', 'R', 'S', 'T', 'U', 'V', 'W', 'X', 'Y', 'Z', ' ', ' ', ' ', ' ', ' ']
    + [' ', ' ', ' ', ' ', ' ', ' ', ' ', ' ', ' ', ' ', ' ', ' ', ' ', ' ', ' ', ' ']
    + ['0', '1', '2', '3', '4', '5', '6', '7', '8', '9', ' ', ' ', ' ', ' ', ' ', ' ']

  /** What the string decoders return for a request they refuse. */
  const ErrorString: string := "???"

  /** `v` shifted right by `k` bits. */
  function Shr(v: nat, k: nat): nat {
    if k == 0 then v else Shr(v / 2, k - 1)
  }

  /** The low `k` bits of `v`, as a number. */
  function Low(v: nat, k: nat): nat {
    if k == 0 then 0 else 2 * Low(v / 2, k - 1) + v % 2
  }

  /** Bit number `b` of the buffer: octet `|data| - 1 - (b-1)/8`, bit `(b-1) % 8` of it. */
  predicate BitAt(data: seq<byte>, b: int)
    requires 1 <= b <= 8 * |data|
  {
    Shr(data[|data| - 1 - (b - 1) / 8], (b - 1) % 8) % 2 == 1
  }

  /** The bits numbered `hi` down to `lo`, in reading order. */
  function BitsDown(data: seq<byte>, lo: int, hi: int): (r: seq<bool>)
    requires 1 <= lo && hi <= 8 * |data|
    ensures |r| == if lo <= hi then hi - lo + 1 else 0
  {
    if lo > hi then [] else seq(hi - lo + 1, i requires 0 <= i < hi - lo + 1 => BitAt(data, hi - i))
  }

  function Zeros(n: nat): (r: seq<bool>)
    ensures |r| == n && forall i :: 0 <= i < n ==> !r[i]
  {
    seq(n, _ => false)
  }

  /** The octets needed to hold `n` bits. */
  function OctetsFor(n: int): int {
    (n + 7) / 8
  }

  /**
   * The bit copy of `getBits`: refused when the range is reversed, starts
   * below bit 1, or needs more octets than the buffer has; otherwise the
   * bits from `to` (or from the buffer's top bit, if `to` lies above it) down
   * to `from`, packed from the most significant end of a zeroed buffer of
   * `OctetsFor(to - from + 1)` octets. The result is that buffer's bits.
   */
  function GetBits(data: seq<byte>, from: int, to: int): (r: Option<seq<bool>>)
    ensures r.None? <==> from > to || to < 1 || from < 1 || OctetsFor(to - from + 1) > |data|
    ensures r.Some? ==> |r.value| == 8 * OctetsFor(to - from + 1) >= to - from + 1
  {
    if from > to || to < 1 || from < 1 || OctetsFor(to - from + 1) > |data| then None
    else
      var top := if to <= 8 * |data| then to else 8 * |data|;
      var emitted := BitsDown(data, from, top);
      Some(emitted + Zeros(8 * OctetsFor(to - from + 1) - |emitted|))
  }

  /**
   * What the copy holds: the bits from the lower of `to` and the buffer's
   * top bit down to `from`, most significant first, then zeros.
   */
  lemma GetBitsContents(data: seq<byte>, from: int, to: int)
    requires GetBits(data, from, to).Some?
    ensures
      var r := GetBits(data, from, to).value;
      var top := if to <= 8 * |data| then to else 8 * |data|;
      var emitted := if from <= top then top - from + 1 else 0;
      (forall i :: 0 <= i < emitted ==> r[i] == BitAt(data, top - i)) &&
      (forall i :: emitted <= i < |r| ==> !r[i])
  {
    var r := GetBits(data, from, to).value;
    var top := if to <= 8 * |data| then to else 8 * |data|;
    var e := BitsDown(data, from, top);
    var z := Zeros(8 * OctetsFor(to - from + 1) - |e|);
    assert r == e + z;
    forall i | 0 <= i < |e|
      ensures r[i] == BitAt(data, top - i)
    {
      assert r[i] == e[i];
    }
    forall i | |e| <= i < |r|
      ensures !r[i]
    {
      assert r[i] == z[i - |e|];
    }
  }

  /**
   * `getUnsigned`: 0 for a width outside 1..32 or a refused range, else the
   * first `to - from + 1` bits of the copy read as a number.
   */
  function GetUnsigned(data: seq<byte>, from: int, to: int): (r: nat)
    ensures !(1 <= to - from + 1 <= 32) ==> r == 0
    ensures GetBits(data, from, to).None? ==> r == 0
    ensures 1 <= to - from + 1 ==> r < Pow2(to - from + 1)
  {
    var width := to - from + 1;
    if width < 1 || width > 32 then 0
    else
      match GetBits(data, from, to)
      case None => 0
      case Some(bits) => StreamValue(bits[..width])
  }

  lemma {:induction false} ShrShr(v: nat, a: nat, b: nat)
    ensures Shr(Shr(v, a), b) == Shr(v, a + b)
    decreases a
  {
    if a > 0 {
      ShrShr(v / 2, a - 1, b);
    }
  }

  lemma ShrSucc(v: nat, k: nat)
    ensures Shr(v, k + 1) == Shr(v, k) / 2
  {
    ShrShr(v, k, 1);
  }

  lemma {:induction false} ShrSmall(v: nat, k: nat)
    requires v < Pow2(k)
    ensures Shr(v, k) == 0
    decreases k
  {
    if k > 0 {
      ShrSmall(v / 2, k - 1);
    }
  }

  /** Halving `2^j * a + l` halves `l` and keeps its parity, for `j > 0`. */
  lemma HalfStep(a: nat, l: nat, j: nat)
    requires j > 0
    ensures (Pow2(j) * a + l) / 2 == Pow2(j - 1) * a + l / 2
    ensures (Pow2(j) * a + l) % 2 == l % 2
  {
    var h := Pow2(j - 1) * a;
    var x := Pow2(j) * a + l;
    assert x == 2 * (h + l / 2) + l % 2 by {
      assert Pow2(j) * a == 2 * h by {
        assert Pow2(j) == 2 * Pow2(j - 1);
      }
    }
    DivUnique(x, 2, h + l / 2, l % 2);
  }

  /** Shifting `2^j * a + l` right by at most `j` bits shifts `a` and `l` separately. */
  lemma {:induction false} ShrMul(a: nat, l: nat, j: nat, k: nat)
    requires k <= j
    ensures Shr(Pow2(j) * a + l, k) == Pow2(j - k) * a + Shr(l, k)
    decreases k
  {
    if k > 0 {
      var y := Pow2(j - 1) * a + l / 2;
      assert Shr(Pow2(j) * a + l, k) == Shr(y, k - 1) by {
        HalfStep(a, l, j);
      }
      assert Shr(y, k - 1) == Pow2(j - k) * a + Shr(l / 2, k - 1) by {
        ShrMul(a, l / 2, j - 1, k - 1);
      }
    }
  }

  /** Shifting right by fewer than `j` bits, the multiple of `2^j` does not reach the lowest bit. */
  lemma {:induction false} ShrParity(a: nat, l: nat, j: nat, k: nat)
    requires k < j
    ensures Shr(Pow2(j) * a + l, k) % 2 == Shr(l, k) % 2
    decreases k
  {
    HalfStep(a, l, j);
    if k > 0 {
      ShrParity(a, l / 2, j - 1, k - 1);
    }
  }

  /** The value of all but the last octet, and the last octet, make up the value. */
  lemma BeValueSplit(data: seq<byte>)
    requires |data| > 0
    ensures BeValue(data) == Pow2(8) * BeValue(data[..|data| - 1]) + data[|data| - 1]
  {
    Pow2Values();
  }

  lemma BitAtLastOctet(data: seq<byte>, b: int)
    requires |data| > 0 && 1 <= b <= 8
    ensures BitAt(data, b) <==> Shr(BeValue(data), b - 1) % 2 == 1
  {
    BeValueSplit(data);
    ShrParity(BeValue(data[..|data| - 1]), data[|data| - 1], 8, b - 1);
    assert (b - 1) / 8 == 0 && (b - 1) % 8 == b - 1;
  }

  lemma BitAtHigherOctet(data: seq<byte>, b: int)
    requires 8 < b <= 8 * |data|
    ensures BitAt(data, b) == BitAt(data[..|data| - 1], b - 8)
  {
    assert (b - 1) / 8 == (b - 9) / 8 + 1;
    assert (b - 1) % 8 == (b - 9) % 8;
  }

  lemma ShrOctet(data: seq<byte>)
    requires |data| > 0
    ensures Shr(BeValue(data), 8) == BeValue(data[..|data| - 1])
  {
    var rest := BeValue(data[..|data| - 1]);
    var last := data[|data| - 1];
    assert BeValue(data) == Pow2(8) * rest + last by {
      BeValueSplit(data);
    }
    assert Shr(Pow2(8) * rest + last, 8) == Pow2(0) * rest + Shr(last, 8) by {
      ShrMul(rest, last, 8, 8);
    }
    assert Shr(last, 8) == 0 by {
      assert Pow2(8) == 256;
      ShrSmall(last, 8);
    }
  }

  /** The bit `BitAt` reads is the matching bit of the buffer's big-endian value. */
  lemma {:induction false} BitAtValue(data: seq<byte>, b: int)
    requires 1 <= b <= 8 * |data|
    ensures BitAt(data, b) <==> Shr(BeValue(data), b - 1) % 2 == 1
    decreases |data|
  {
    if b <= 8 {
      BitAtLastOctet(data, b);
    } else {
      BitAtHigherOctet(data, b);
      BitAtValue(data[..|data| - 1], b - 8);
      ShrOctet(data);
      ShrShr(BeValue(data), 8, b - 9);
    }
  }

  lemma StreamSnoc(data: seq<byte>, lo: int, hi: int)
    requires 1 <= lo <= hi <= 8 * |data|
    ensures StreamValue(BitsDown(data, lo, hi))
         == 2 * StreamValue(BitsDown(data, lo + 1, hi)) + Shr(BeValue(data), lo - 1) % 2
  {
    var s := BitsDown(data, lo, hi);
    assert s[..|s| - 1] == BitsDown(data, lo + 1, hi);
    BitAtValue(data, lo);
  }

  /** Reading the bits `hi` down to `lo` yields the low `hi - lo + 1` bits of the value shifted by `lo - 1`. */
  lemma {:induction false} StreamBitsDown(data: seq<byte>, lo: int, hi: int)
    requires 1 <= lo <= hi + 1 && hi <= 8 * |data|
    ensures StreamValue(BitsDown(data, lo, hi)) == Low(Shr(BeValue(data), lo - 1), hi - lo + 1)
    decreases hi + 1 - lo
  {
    if lo <= hi {
      var y := Shr(BeValue(data), lo - 1);
      var rest := StreamValue(BitsDown(data, lo + 1, hi));
      assert rest == Low(y / 2, hi - lo) by {
        StreamBitsDown(data, lo + 1, hi);
        ShrSucc(BeValue(data), lo - 1);
      }
      assert StreamValue(BitsDown(data, lo, hi)) == 2 * rest + y % 2 by {
        StreamSnoc(data, lo, hi);
      }
    }
  }

  lemma {:induction false} ShrIsDiv(v: nat, k: nat)
    ensures Shr(v, k) == v / Pow2(k)
    decreases k
  {
    if k > 0 {
      ShrIsDiv(v / 2, k - 1);
      DivDiv(v, 2, Pow2(k - 1));
    }
  }

  lemma {:induction false} LowIsMod(v: nat, k: nat)
    ensures Low(v, k) == v % Pow2(k)
    decreases k
  {
    if k > 0 {
      LowIsMod(v / 2, k - 1);
      ModDouble(v, k - 1);
    }
  }

  /** Inside the buffer the copy is exactly the range's bits followed by zero padding. */
  lemma GetBitsInside(data: seq<byte>, from: int, to: int)
    requires 1 <= from <= to <= 8 * |data|
    ensures GetBits(data, from, to)
         == Some(BitsDown(data, from, to) + Zeros(8 * OctetsFor(to - from + 1) - (to - from + 1)))
  {
  }

  /** A window of a run of bits is the run of the window's own bit numbers. */
  lemma BitsDownWindowAt(data: seq<byte>, from: int, to: int, a: int, w: int, j: int)
    requires 1 <= from <= to <= 8 * |data|
    requires 0 <= a && 0 <= j < w && a + w <= to - from + 1
    ensures BitsDown(data, from, to)[a..a + w][j] == BitsDown(data, to - a - w + 1, to - a)[j]
  {
    assert BitsDown(data, from, to)[a + j] == BitAt(data, to - a - j);
  }

  lemma BitsDownWindow(data: seq<byte>, from: int, to: int, a: int, w: int)
    requires 1 <= from <= to <= 8 * |data|
    requires 0 <= a && 0 <= w && a + w <= to - from + 1
    ensures BitsDown(data, from, to)[a..a + w] == BitsDown(data, to - a - w + 1, to - a)
  {
    var window := BitsDown(data, from, to)[a..a + w];
    var part := BitsDown(data, to - a - w + 1, to - a);
    forall j | 0 <= j < w
      ensures window[j] == part[j]
    {
      BitsDownWindowAt(data, from, to, a, w, j);
    }
  }

  /** Within the buffer, `getUnsigned` reads exactly the run of the range's bits. */
  lemma GetUnsignedInside(data: seq<byte>, from: int, to: int)
    requires 1 <= from <= to <= 8 * |data| && to - from + 1 <= 32
    ensures GetUnsigned(data, from, to) == StreamValue(BitsDown(data, from, to))
  {
    GetBitsInside(data, from, to);
    var bits := GetBits(data, from, to).value;
    assert bits[..to - from + 1] == BitsDown(data, from, to);
  }

  /**
   * Within the buffer, `getUnsigned` returns bits `to..from` of the buffer
   * read as one big-endian number: its value shifted right by `from - 1`,
   * modulo `2^(to - from + 1)`.
   */
  lemma GetUnsignedValue(data: seq<byte>, from: int, to: int)
    requires 1 <= from <= to <= 8 * |data| && to - from + 1 <= 32
    ensures GetUnsigned(data, from, to) == (BeValue(data) / Pow2(from - 1)) % Pow2(to - from + 1)
  {
    var shifted := Shr(BeValue(data), from - 1);
    assert GetUnsigned(data, from, to) == Low(shifted, to - from + 1) by {
      GetUnsignedInside(data, from, to);
      StreamBitsDown(data, from, to);
    }
    assert Low(shifted, to - from + 1) == (BeValue(data) / Pow2(from - 1)) % Pow2(to - from + 1) by {
      ShrIsDiv(BeValue(data), from - 1);
      LowIsMod(shifted, to - from + 1);
    }
  }

  /** `~u & (2^k - 1)`: the complement of the low `k` bits of `u`. */
  function ComplementLow(u: nat, k: nat): nat {
    Pow2(k) - 1 - u % Pow2(k)
  }

  /**
   * `getSigned`: the unsigned field, and for a set top bit the negation of
   * its complement plus one. Widths outside 1..32 read 0.
   */
  function GetSigned(data: seq<byte>, from: int, to: int): (r: int)
    ensures !(1 <= to - from + 1 <= 32) ==> r == 0
    ensures 1 <= to - from + 1 <= 32 ==>
      var width := to - from + 1;
      var u := GetUnsigned(data, from, to);
      -(Pow2(width - 1) as int) <= r < Pow2(width - 1) &&
      TwosComplement(r, width) == u &&
      r == (if u < Pow2(width - 1) then u else u - Pow2(width))
  {
    var width := to - from + 1;
    var u := GetUnsigned(data, from, to);
    if width < 1 || width > 64 then 0
    else
      var maxval := Pow2(width - 1);
      if u >= maxval then
        assert width <= 32;
        assert u % maxval == u - maxval by {
          DivUnique(u, maxval, 1, u - maxval);
        }
        -(ComplementLow(u, width - 1) + 1)
      else u
  }

  /** One character per 6-bit group of `bits`: the entry of `table` the group's value selects. */
  function SixBitText(table: seq<char>, bits: seq<bool>, count: nat): (r: string)
    requires 6 * count <= |bits| && |table| == 64
    ensures |r| == count
  {
    seq(count, k requires 0 <= k < count =>
      assert Pow2(6) == 64;
      table[StreamValue(bits[6 * k..6 * k + 6])])
  }

  /**
   * `getSixBitString`: the error string unless the width is a non-zero
   * multiple of 6 and the range is readable; else one character per 6-bit
   * group, looked up in the ICAO table.
   */
  function GetSixBitString(data: seq<byte>, from: int, to: int): (r: string)
    ensures to - from + 1 == 0 || (to - from + 1) % 6 != 0 ==> r == ErrorString
    ensures GetBits(data, from, to).None? ==> r == ErrorString
    ensures to - from + 1 != 0 && (to - from + 1) % 6 == 0 && GetBits(data, from, to).Some? ==>
      |r| == (to - from + 1) / 6
  {
    var width := to - from + 1;
    if width == 0 || width % 6 != 0 then ErrorString
    else
      match GetBits(data, from, to)
      case None => ErrorString
      case Some(bits) => SixBitText(SixBitCode, bits, width / 6)
  }

  function OctalDigit(v: nat): (c: char)
    requires v < 8
    ensures '0' <= c <= '7'
  {
    (('0' as int) + v) as char
  }

  /** One digit per 3-bit group of `bits`. */
  function OctalText(bits: seq<bool>, count: nat): (r: string)
    requires 3 * count <= |bits|
    ensures |r| == count
  {
    seq(count, k requires 0 <= k < count =>
      assert Pow2(3) == 8;
      OctalDigit(StreamValue(bits[3 * k..3 * k + 3])))
  }

  /**
   * `getOctal`: the error string unless the width is a positive multiple of
   * 3 and the range is readable; else one digit per 3-bit group.
   */
  function GetOctal(data: seq<byte>, from: int, to: int): (r: string)
    ensures to - from + 1 == 0 || (to - from + 1) % 3 != 0 ==> r == ErrorString
    ensures GetBits(data, from, to).None? ==> r == ErrorString
    ensures to - from + 1 != 0 && (to - from + 1) % 3 == 0 && GetBits(data, from, to).Some? ==>
      |r| == (to - from + 1) / 3 && forall k :: 0 <= k < |r| ==> '0' <= r[k] <= '7'
  {
    var width := to - from + 1;
    if width == 0 || width % 3 != 0 then ErrorString
    else
      match GetBits(data, from, to)
      case None => ErrorString
      case Some(bits) =>
        OctalText(bits, width / 3)
  }

  lemma GroupBits(data: seq<byte>, from: int, to: int, w: nat, base: nat)
    requires 1 <= from <= to <= 8 * |data|
    requires base + w <= to - from + 1
    ensures GetBits(data, from, to).Some?
    ensures base + w <= |GetBits(data, from, to).value|
    ensures GetBits(data, from, to).value[base..base + w] == BitsDown(data, to - base - w + 1, to - base)
  {
    GetBitsInside(data, from, to);
    var run := BitsDown(data, from, to);
    assert GetBits(data, from, to).value[base..base + w] == run[base..base + w];
    BitsDownWindow(data, from, to, base, w);
  }

  /**
   * A `w`-bit group starting at position `base` of a field read within the
   * buffer is the unsigned field `to - base - w + 1 .. to - base` on its own.
   */
  lemma GroupValue(data: seq<byte>, from: int, to: int, w: nat, base: nat)
    requires 1 <= from <= to <= 8 * |data|
    requires 1 <= w <= 32 && base + w <= to - from + 1
    ensures GetBits(data, from, to).Some?
    ensures base + w <= |GetBits(data, from, to).value|
    ensures StreamValue(GetBits(data, from, to).value[base..base + w])
         == GetUnsigned(data, to - base - w + 1, to - base)
  {
    GroupBits(data, from, to, w, base);
    GetUnsignedInside(data, to - base - w + 1, to - base);
  }

  /** Entry `k` of a six-bit text read within the buffer is the table entry of the `k`-th 6-bit field, counted from `to` down. */
  lemma SixBitFields(data: seq<byte>, from: int, to: int, table: seq<char>, k: nat)
    requires 1 <= from <= to <= 8 * |data| && (to - from + 1) % 6 == 0
    requires k < (to - from + 1) / 6 && |table| == 64
    ensures GetBits(data, from, to).Some? && 6 * ((to - from + 1) / 6) <= |GetBits(data, from, to).value|
    ensures GetUnsigned(data, to - 6 * k - 5, to - 6 * k) < 64
    ensures SixBitText(table, GetBits(data, from, to).value, (to - from + 1) / 6)[k]
         == table[GetUnsigned(data, to - 6 * k - 5, to - 6 * k)]
  {
    var count := (to - from + 1) / 6;
    assert 6 * k + 6 <= 6 * count == to - from + 1;
    GetBitsInside(data, from, to);
    var bits := GetBits(data, from, to).value;
    assert StreamValue(bits[6 * k..6 * k + 6]) == GetUnsigned(data, to - 6 * k - 5, to - 6 * k) by {
      GroupValue(data, from, to, 6, 6 * k);
    }
    assert Pow2(6) == 64;
  }

  /** Within the buffer, character `k` of a six-bit string is the table entry of the `k`-th 6-bit field. */
  lemma SixBitCharacters(data: seq<byte>, from: int, to: int, k: nat)
    requires 1 <= from <= to <= 8 * |data| && (to - from + 1) % 6 == 0
    requires k < (to - from + 1) / 6
    ensures GetUnsigned(data, to - 6 * k - 5, to - 6 * k) < 64
    ensures GetSixBitString(data, from, to)[k] == SixBitCode[GetUnsigned(data, to - 6 * k - 5, to - 6 * k)]
  {
    SixBitFields(data, from, to, SixBitCode, k);
  }

  /** Within the buffer, digit `k` of the octal string is the `k`-th 3-bit field. */
  lemma OctalDigits(data: seq<byte>, from: int, to: int, k: nat)
    requires 1 <= from <= to <= 8 * |data| && (to - from + 1) % 3 == 0
    requires k < (to - from + 1) / 3
    ensures GetUnsigned(data, to - 3 * k - 2, to - 3 * k) < 8
    ensures GetOctal(data, from, to)[k] == OctalDigit(GetUnsigned(data, to - 3 * k - 2, to - 3 * k))
  {
    var count := (to - from + 1) / 3;
    assert 3 * k + 3 <= 3 * count == to - from + 1;
    GetBitsInside(data, from, to);
    var bits := GetBits(data, from, to).value;
    assert GetOctal(data, from, to) == OctalText(bits, count);
    assert StreamValue(bits[3 * k..3 * k + 3]) == GetUnsigned(data, to - 3 * k - 2, to - 3 * k) by {
      GroupValue(data, from, to, 3, 3 * k);
    }
    assert Pow2(3) == 8;
  }

  /** C's `/` on `int`: the quotient rounded toward zero. */
  function CDiv(a: int, b: int): int
    requires b > 0
  {
    if a >= 0 then a / b else -((-a) / b)
  }

  /** C's `%` on `int`: the remainder takes the sign of the dividend. */
  function CRem(a: int, b: int): int
    requires b > 0
  {
    a - b * CDiv(a, b)
  }

  /** The top of the mask: `to` rounded up to a multiple of 8, with C's division. */
  function MaskTop(to: int): int {
    if CRem(to, 8) != 0 then (CDiv(to, 8) + 1) * 8 else to
  }

  /** The bottom of the mask: `from` moved down to the first bit of its octet, with C's division. */
  function MaskBottom(from: int): int {
    if CRem(from - 1, 8) != 0 then CDiv(from - 1, 8) * 8 + 1 else from
  }

  /**
   * `getHexBitStringMask`: for a non-empty range, one character per bit of
   * the widened range `MaskTop(to)` down to `MaskBottom(from)`, '1' for the
   * bits of the range itself and '0' for the widening. A widened range of
   * negative length makes the allocation throw, modelled as `None`.
   */
  function GetHexBitStringMask(from: int, to: int): (r: Option<string>)
    ensures to - from + 1 == 0 ==> r == Some(ErrorString)
    ensures r.None? <==> to - from + 1 != 0 && MaskTop(to) - MaskBottom(from) + 1 < 0
    ensures r.Some? && to - from + 1 != 0 ==>
      |r.value| == MaskTop(to) - MaskBottom(from) + 1 &&
      forall j :: 0 <= j < |r.value| ==> (r.value[j] == '1' <==> from <= MaskTop(to) - j <= to)
    ensures r.Some? && to - from + 1 != 0 ==> forall j :: 0 <= j < |r.value| ==> r.value[j] == '0' || r.value[j] == '1'
  {
    if to - from + 1 == 0 then Some(ErrorString)
    else
      var count := MaskTop(to) - MaskBottom(from) + 1;
      if count < 0 then None
      else
        Some(seq(count, j => if from <= MaskTop(to) - j <= to then '1' else '0'))
  }

  lemma MaskEdges(from: int, to: int)
    requires 1 <= from <= to
    ensures MaskTop(to) == 8 * ((to + 7) / 8)
    ensures MaskBottom(from) == 8 * ((from - 1) / 8) + 1
  {
  }

  /**
   * For a range of positive bit numbers the mask spans whole octets: from
   * the first bit of `from`'s octet to the last bit of `to`'s, and it marks
   * exactly the range.
   */
  lemma HexMaskLayout(from: int, to: int)
    requires 1 <= from <= to
    ensures
      var top := 8 * ((to + 7) / 8);
      var r := GetHexBitStringMask(from, to);
      r.Some? &&
      |r.value| == top - 8 * ((from - 1) / 8) &&
      |r.value| % 8 == 0 && |r.value| >= to - from + 1 &&
      (forall j :: 0 <= j < |r.value| ==> (r.value[j] == '1' <==> from <= top - j <= to)) &&
      (forall j :: 0 <= j < |r.value| ==> r.value[j] == '0' || r.value[j] == '1')
  {
    MaskEdges(from, to);
  }

  /** The part of a bit-field definition the decoder consults. */
  datatype BitsField = BitsField(name: string, shortName: string, from: int, to: int, filtered: bool)

  /** The character at index `i` of the NUL-terminated copy of `s`. */
  function CharAt(s: string, i: nat): char {
    if i < |s| then s[i] else '\0'
  }

  /** `strncmp(a, b, n) == 0` on the NUL-terminated copies of `a` and `b`. */
  predicate StrncmpEqual(a: string, b: string, n: nat)
    decreases n
  {
    n == 0 ||
    (CharAt(a, 0) == CharAt(b, 0) &&
     (CharAt(a, 0) == '\0' || StrncmpEqual(a[1..], b[1..], n - 1)))
  }

  predicate NoNul(s: string) {
    forall i :: 0 <= i < |s| ==> s[i] != '\0'
  }

  /** For strings without NUL, comparing over `b`'s length succeeds exactly when `b` is a prefix of `a`. */
  lemma {:induction false} StrncmpPrefix(a: string, b: string)
    requires NoNul(a) && NoNul(b)
    ensures StrncmpEqual(a, b, |b|) <==> b <= a
    decreases |b|
  {
    if |b| > 0 {
      if |a| == 0 {
        assert CharAt(a, 0) != CharAt(b, 0);
      } else if a[0] == b[0] {
        StrncmpPrefix(a[1..], b[1..]);
        assert b <= a <==> b[1..] <= a[1..];
      }
    }
  }

  /**
   * `filterOutItem`: selects the field for output, and reports so, when the
   * requested name starts with the field's short name; otherwise nothing changes.
   */
  function FilterOutItem(f: BitsField, name: string): (r: (BitsField, bool))
    ensures r.1 ==> r.0 == f.(filtered := true)
    ensures !r.1 ==> r.0 == f
    ensures r.1 <==> StrncmpEqual(name, f.shortName, |f.shortName|)
  {
    if StrncmpEqual(name, f.shortName, |f.shortName|) then (f.(filtered := true), true)
    else (f, false)
  }

  lemma FilterOutItemPrefix(f: BitsField, name: string)
    requires NoNul(f.shortName) && NoNul(name)
    ensures FilterOutItem(f, name).1 <==> f.shortName <= name
    ensures FilterOutItem(f, name).0.filtered <==> f.filtered || f.shortName <= name
  {
    StrncmpPrefix(name, f.shortName);
  }

  /** How `getText` leaves off: unselected (returns false), a bad range (returns true), or rendering. */
  datatype TextOutcome = NotSelected | WrongBitFormat | Render

  /**
   * The guard of `getText` over a data item of `length` octets: the field as
   * it is afterwards (range ordered, names filled in) and how the call goes on.
   */
  function TextGuard(f: BitsField, filtering: bool, length: int): (r: (BitsField, TextOutcome))
    ensures r.1 == NotSelected <==> filtering && !f.filtered
    ensures r.1 == NotSelected ==> r.0 == f
    ensures r.1 != NotSelected ==>
      r.0.from == (if f.from <= f.to then f.from else f.to) &&
      r.0.to == (if f.from <= f.to then f.to else f.from) &&
      r.0.filtered == f.filtered
    ensures r.1 == WrongBitFormat <==> r.1 != NotSelected && (r.0.from < 1 || r.0.to > 8 * length)
    ensures r.1 == WrongBitFormat ==> r.0.name == f.name && r.0.shortName == f.shortName
    ensures r.1 == Render ==>
      1 <= r.0.from <= r.0.to <= 8 * length &&
      (f.name != "" ==> r.0.name == f.name) &&
      (f.name == "" ==> r.0.name == f.shortName && r.0.shortName == f.shortName) &&
      (f.name != "" && f.shortName == "" ==> r.0.shortName == f.name) &&
      (f.shortName != "" ==> r.0.shortName == f.shortName)
  {
    if filtering && !f.filtered then (f, NotSelected)
    else
      var g := if f.from > f.to then f.(from := f.to, to := f.from) else f;
      if g.from < 1 || g.to > 8 * length then (g, WrongBitFormat)
      else if g.name == "" then (g.(name := g.shortName), Render)
      else if g.shortName == "" then (g.(shortName := g.name), Render)
      else (g, Render)
  }

  /** What `getText` returns. */
  function TextReturns(outcome: TextOutcome): bool {
    outcome != NotSelected
  }

  /**
   * A field `getText` goes on to render lies inside the item, so its reads
   * are exact: the bit copy succeeds and the unsigned value agrees with the
   * checked read of the range.
   */
  lemma RenderedFieldReadsExactly(f: BitsField, filtering: bool, data: seq<byte>, g: BitsField)
    requires TextGuard(f, filtering, |data|) == (g, Render)
    ensures GetBits(data, g.from, g.to).Some?
    ensures GetUnsigned(data, g.from, g.to) == GetUnsignedChecked(data, g.from, g.to)
  {
    assert 1 <= g.from <= g.to <= 8 * |data|;
    CheckedAgreesInside(data, g.from, g.to);
  }

  lemma OverlongCopy()
    ensures GetBits([0xFF], 5, 10) == Some([true, true, true, true, false, false, false, false])
  {
    var data: seq<byte> := [0xFF];
    assert BitsDown(data, 5, 8) == [true, true, true, true] by {
      assert BitAt(data, 8) && BitAt(data, 7) && BitAt(data, 6) && BitAt(data, 5);
    }
    assert OctetsFor(10 - 5 + 1) == 1;
    assert Zeros(4) == [false, false, false, false];
    assert GetBits(data, 5, 10) == Some(BitsDown(data, 5, 8) + Zeros(4));
    assert [true, true, true, true] + [false, false, false, false] == [true, true, true, true, false, false, false, false];
  }

  lemma StreamValueSixty()
    ensures StreamValue([true, true, true, true, false, false]) == 60
  {
    var b1, b2, b3, b4, b5, b6 := [true], [true, true], [true, true, true], [true, true, true, true],
      [true, true, true, true, false], [true, true, true, true, false, false];
    assert StreamValue(b1) == 1 by { assert b1[..0] == []; }
    assert StreamValue(b2) == 3 by { assert b2[..1] == b1; }
    assert StreamValue(b3) == 7 by { assert b3[..2] == b2; }
    assert StreamValue(b4) == 15 by { assert b4[..3] == b3; }
    assert StreamValue(b5) == 30 by { assert b5[..4] == b4; }
    assert b6[..5] == b5;
  }

  /**
   * A range reaching above the buffer is not refused: the missing high bits
   * are skipped rather than read as zero, so the present bits move up. Bits
   * 10..5 of the single octet 0xFF read as 60 (0b111100), where the octet's
   * value shifted right by 4 is 15.
   */
  lemma OverlongRangeShiftsBits()
    ensures GetUnsigned([0xFF], 5, 10) == 60
    ensures (BeValue([0xFF]) / Pow2(4)) % Pow2(6) == 15
  {
    OverlongCopy();
    StreamValueSixty();
    assert [true, true, true, true, false, false, false, false][..6] == [true, true, true, true, false, false];
    assert Pow2(4) == 16 && Pow2(6) == 64;
  }

  /** `getBits` as its bit numbering intends: a range must lie inside the buffer. */
  function GetBitsChecked(data: seq<byte>, from: int, to: int): (r: Option<seq<bool>>)
    ensures r.Some? <==> 1 <= from <= to <= 8 * |data|
    ensures r.Some? ==> r.value == BitsDown(data, from, to)
  {
    if 1 <= from <= to <= 8 * |data| then Some(BitsDown(data, from, to)) else None
  }

  /** `getUnsigned` over the checked copy: every accepted range reads its own slice of the value. */
  function GetUnsignedChecked(data: seq<byte>, from: int, to: int): (r: nat)
    ensures 1 <= from <= to <= 8 * |data| && to - from + 1 <= 32 ==>
      r == (BeValue(data) / Pow2(from - 1)) % Pow2(to - from + 1)
    ensures !(1 <= from <= to <= 8 * |data| && to - from + 1 <= 32) ==> r == 0
  {
    if to - from + 1 > 32 then 0
    else
      match GetBitsChecked(data, from, to)
      case None => 0
      case Some(bits) =>
        StreamBitsDown(data, from, to);
        ShrIsDiv(BeValue(data), from - 1);
        LowIsMod(Shr(BeValue(data), from - 1), to - from + 1);
        StreamValue(bits)
  }

  /** Where the range lies inside the buffer, the checked and the unchecked reads agree. */
  lemma CheckedAgreesInside(data: seq<byte>, from: int, to: int)
    requires 1 <= from <= to <= 8 * |data|
    ensures GetUnsignedChecked(data, from, to) == GetUnsigned(data, from, to)
  {
    if to - from + 1 <= 32 {
      GetUnsignedValue(data, from, to);
    }
  }
}

=== FILE: Dds.dfy ===
/**
 * Topic names of the DDS transport: "prefix_cat48", or
 * "prefix_cat48_sac1_sic2" when the record's I010 item gives both SAC and
 * SIC. A subscriber scans the '_'-separated parts of a topic name for
 * "cat", "sac" and "sic" parts, a later part of a kind replacing an
 * earlier one. Participants, writers, readers and QoS are left out.
 */
module Dds {
  import opened Wrappers
  import opened Bytes
  import Text
  import opened Records

  /** `DdsConfig::default().topic_prefix`. */
  const DefaultPrefix: string := "asterix"

  /** The three kinds of topic-name part a subscriber recognises. */
  datatype Field = Cat | Sac | Sic

  function Tag(f: Field): (t: string)
    ensures |t| == 3 && '_' !in t
  {
    match f
    case Cat => "cat"
    case Sac => "sac"
    case Sic => "sic"
  }

  /** A part naming one field: its tag followed by the decimal value. */
  function TaggedPart(f: Field, n: nat): (part: string)
    ensures |part| > 3 && part[..3] == Tag(f) && part[3..] == Text.Decimal(n)
    ensures '_' !in part
  {
    var part := Tag(f) + Text.Decimal(n);
    Text.DecimalExcludes(n, '_');
    assert forall i :: 3 <= i < |part| ==> part[i] == Text.Decimal(n)[i - 3];
    part
  }

  /** The parts after the prefix: the category, then SAC and SIC when both are known. */
  function TopicParts(category: nat, sac: Option<nat>, sic: Option<nat>): (parts: seq<string>)
    ensures |parts| >= 1 && |parts[0]| > 0
    ensures forall i :: 0 <= i < |parts| ==> '_' !in parts[i]
  {
    if sac.Some? && sic.Some? then [TaggedPart(Cat, category), TaggedPart(Sac, sac.value), TaggedPart(Sic, sic.value)]
    else [TaggedPart(Cat, category)]
  }

  /**
   * `build_topic_name`: `format!("{prefix}_cat{c}_sac{s}_sic{i}")`, or
   * `format!("{prefix}_cat{c}")` unless both SAC and SIC are known.
   */
  function TopicName(prefix: string, category: nat, sac: Option<nat>, sic: Option<nat>): (topic: string)
    ensures |topic| > |prefix| + 3 && topic[..|prefix|] == prefix && topic[|prefix|..|prefix| + 4] == "_cat"
  {
    var parts := TopicParts(category, sac, sic);
    Text.JoinPrefix(parts, '_');
    var topic := prefix + "_" + Text.Join(parts, '_');
    assert topic[|prefix|..|prefix| + 4] == "_" + parts[0][..3];
    topic
  }

  /** `publish_raw`: `format!("{prefix}_cat{category}")`, routed by category alone. */
  function PublishRawTopic(prefix: string, category: byte): (topic: string)
    ensures topic == TopicName(prefix, category, None, None)
    ensures ParseTopicName(topic, prefix) == Route(category, None, None)
  {
    TopicRoundTrip(prefix, category, None, None);
    prefix + "_" + TaggedPart(Cat, category)
  }

  /** The field a part sets, checked in the order "cat", "sac", "sic". */
  function FieldOf(part: string): (f: Option<Field>)
    ensures f.Some? ==> |part| >= 3 && part[..3] == Tag(f.value)
    ensures f.None? ==> forall g: Field :: !(Tag(g) <= part)
  {
    if "cat" <= part then Some(Cat)
    else if "sac" <= part then Some(Sac)
    else if "sic" <= part then Some(Sic)
    else None
  }

  /** A route's value for one field; the category is always there. */
  function Slot(r: Route, f: Field): Option<nat> {
    match f
    case Cat => Some(r.category)
    case Sac => r.sac
    case Sic => r.sic
  }

  /** What a part of a field sets it to: the category defaults to 0, SAC and SIC to `None`. */
  function PartValue(part: string, f: Field): Option<nat>
    requires |part| >= 3
  {
    if f == Cat then Some(Text.ParseU8(part[3..]).GetOr(0)) else Text.ParseU8(part[3..])
  }

  /**
   * One iteration of the scan in `parse_topic_name`: a "cat", "sac" or
   * "sic" part sets that field and leaves the others; any other part
   * changes nothing.
   */
  function ApplyPart(r: Route, part: string): (next: Route)
    ensures forall f :: Slot(next, f) == if FieldOf(part) == Some(f) then PartValue(part, f) else Slot(r, f)
  {
    match Text.StripPrefix(part, "cat")
    case Some(v) => r.(category := Text.ParseU8(v).GetOr(0))
    case None =>
      match Text.StripPrefix(part, "sac")
      case Some(v) => r.(sac := Text.ParseU8(v))
      case None =>
        match Text.StripPrefix(part, "sic")
        case Some(v) => r.(sic := Text.ParseU8(v))
        case None => r
  }

  /** The scan over all parts, first to last. */
  function ScanParts(parts: seq<string>, r: Route): Route
    decreases |parts|
  {
    if |parts| == 0 then r else ScanParts(parts[1..], ApplyPart(r, parts[0]))
  }

  /**
   * `parse_topic_name`: strip the prefix when present, trim leading '_',
   * then scan the '_'-separated parts starting from category 0 and no
   * SAC or SIC.
   */
  function ParseTopicName(topic: string, prefix: string): (r: Route)
    ensures r.category < 256
    ensures r.sac.Some? ==> r.sac.value < 256
    ensures r.sic.Some? ==> r.sic.value < 256
  {
    var stripped := Text.StripPrefix(topic, prefix).GetOr(topic);
    var parts := Text.Split(Text.TrimStart(stripped, '_'), '_');
    ScanBounded(parts, Route(0, None, None));
    ScanParts(parts, Route(0, None, None))
  }

  /** The scan only ever stores values `ParseU8` produced. */
  lemma {:induction false} ScanBounded(parts: seq<string>, r: Route)
    requires r.category < 256 && (r.sac.Some? ==> r.sac.value < 256) && (r.sic.Some? ==> r.sic.value < 256)
    ensures var s := ScanParts(parts, r);
      s.category < 256 && (s.sac.Some? ==> s.sac.value < 256) && (s.sic.Some? ==> s.sic.value < 256)
    decreases |parts|
  {
    if |parts| > 0 {
      ScanBounded(parts[1..], ApplyPart(r, parts[0]));
    }
  }

  /** A field no part names keeps the value it started with. */
  lemma {:induction false} UntouchedSlot(parts: seq<string>, r: Route, f: Field)
    requires forall k :: 0 <= k < |parts| ==> FieldOf(parts[k]) != Some(f)
    ensures Slot(ScanParts(parts, r), f) == Slot(r, f)
    decreases |parts|
  {
    if |parts| > 0 {
      assert FieldOf(parts[0]) != Some(f);
      UntouchedSlot(parts[1..], ApplyPart(r, parts[0]), f);
    }
  }

  /** The last part naming a field decides that field, whatever came before. */
  lemma {:induction false} LastPartWins(parts: seq<string>, r: Route, f: Field, j: nat)
    requires j < |parts| && FieldOf(parts[j]) == Some(f)
    requires forall k :: j < k < |parts| ==> FieldOf(parts[k]) != Some(f)
    ensures Slot(ScanParts(parts, r), f) == PartValue(parts[j], f)
    decreases |parts|
  {
    var next := ApplyPart(r, parts[0]);
    if j == 0 {
      UntouchedSlot(parts[1..], next, f);
    } else {
      LastPartWins(parts[1..], next, f, j - 1);
    }
  }

  /**
   * The route of a topic built from a prefix and '_'-free parts, the
   * first non-empty: the scan of those parts.
   */
  lemma TopicFromParts(prefix: string, parts: seq<string>)
    requires |parts| >= 1 && |parts[0]| > 0
    requires forall i :: 0 <= i < |parts| ==> '_' !in parts[i]
    ensures ParseTopicName(prefix + "_" + Text.Join(parts, '_'), prefix) == ScanParts(parts, Route(0, None, None))
  {
    var joined := Text.Join(parts, '_');
    var topic := prefix + "_" + joined;
    assert topic[|prefix|..] == "_" + joined;
    Text.JoinHead(parts, '_');
    assert ("_" + joined)[1..] == joined;
    assert Text.TrimStart("_" + joined, '_') == joined;
    Text.SplitJoin(parts, '_');
  }

  /** A tagged part sets its field to the value it was written from. */
  lemma TaggedPartValue(f: Field, n: nat)
    requires n < 256
    ensures FieldOf(TaggedPart(f, n)) == Some(f)
    ensures PartValue(TaggedPart(f, n), f) == Some(n)
  {
    var part := TaggedPart(f, n);
    assert part[..3] == Tag(f);
    Text.DecimalRoundTrip(n, 255);
  }

  /** Scanning the parts of a full route gives that route. */
  lemma ScanFullRoute(category: nat, sac: nat, sic: nat)
    requires category < 256 && sac < 256 && sic < 256
    ensures ScanParts(TopicParts(category, Some(sac), Some(sic)), Route(0, None, None)) == Route(category, Some(sac), Some(sic))
  {
    var parts := TopicParts(category, Some(sac), Some(sic));
    var r := ScanParts(parts, Route(0, None, None));
    TaggedPartValue(Cat, category);
    TaggedPartValue(Sac, sac);
    TaggedPartValue(Sic, sic);
    LastPartWins(parts, Route(0, None, None), Cat, 0);
    LastPartWins(parts, Route(0, None, None), Sac, 1);
    LastPartWins(parts, Route(0, None, None), Sic, 2);
    assert Slot(r, Cat) == Some(category);
  }

  /** Scanning the single category part gives the category alone. */
  lemma ScanCategoryRoute(category: nat)
    requires category < 256
    ensures ScanParts(TopicParts(category, None, None), Route(0, None, None)) == Route(category, None, None)
  {
    var parts := TopicParts(category, None, None);
    var r := ScanParts(parts, Route(0, None, None));
    TaggedPartValue(Cat, category);
    LastPartWins(parts, Route(0, None, None), Cat, 0);
    UntouchedSlot(parts, Route(0, None, None), Sac);
    UntouchedSlot(parts, Route(0, None, None), Sic);
    assert Slot(r, Cat) == Some(category);
  }

  /**
   * The route written into a topic name is the route read back: category,
   * SAC and SIC when both were given, else the category alone.
   */
  lemma TopicRoundTrip(prefix: string, category: nat, sac: Option<nat>, sic: Option<nat>)
    requires category < 256
    requires sac.Some? ==> sac.value < 256
    requires sic.Some? ==> sic.value < 256
    ensures ParseTopicName(TopicName(prefix, category, sac, sic), prefix)
      == if sac.Some? && sic.Some? then Route(category, sac, sic) else Route(category, None, None)
  {
    TopicFromParts(prefix, TopicParts(category, sac, sic));
    if sac.Some? && sic.Some? {
      ScanFullRoute(category, sac.value, sic.value);
    } else {
      assert TopicParts(category, sac, sic) == TopicParts(category, None, None);
      ScanCategoryRoute(category);
    }
  }

  /** A topic that repeats the category keeps the later value. */
  lemma LaterCategoryOverrides(prefix: string, first: nat, second: nat)
    requires first < 256 && second < 256
    ensures ParseTopicName(prefix + "_" + TaggedPart(Cat, first) + "_" + TaggedPart(Cat, second), prefix)
      == Route(second, None, None)
  {
    var parts := [TaggedPart(Cat, first), TaggedPart(Cat, second)];
    assert Text.Join(parts, '_') == parts[0] + "_" + parts[1] by {
      assert parts[1..] == [parts[1]];
    }
    assert prefix + "_" + TaggedPart(Cat, first) + "_" + TaggedPart(Cat, second)
      == prefix + "_" + Text.Join(parts, '_');
    TopicFromParts(prefix, parts);
    TaggedPartValue(Cat, second);
    LastPartWins(parts, Route(0, None, None), Cat, 1);
    UntouchedSlot(parts, Route(0, None, None), Sac);
    UntouchedSlot(parts, Route(0, None, None), Sic);
  }

  /** The message `publish` writes; the timestamp is left out. */
  datatype Message = Message(key: string, category: byte, sac: Option<nat>, sic: Option<nat>, data: seq<byte>)

  /**
   * `publish`: the topic of the record's route, carrying its category,
   * SAC, SIC and payload (`get_raw_data`: the hex path whenever
   * `hex_data` is non-empty).
   */
  function Publish(prefix: string, record: Record, json: Option<seq<byte>>): (r: Result<Message, SerializeError>)
    ensures r.Success? <==> Payload(true, record, json).Success?
    ensures r.Success? ==> (
      && r.value.data == Payload(true, record, json).value
      && r.value.category == record.category
      && (r.value.sac, r.value.sic) == ExtractSacSic(record)
      && ParseTopicName(r.value.key, prefix).category == record.category)
  {
    var (sac, sic) := ExtractSacSic(record);
    var key := TopicName(prefix, record.category, sac, sic);
    TopicRoundTrip(prefix, record.category, sac, sic);
    match Payload(true, record, json)
    case Success(data) => Success(Message(key, record.category, sac, sic, data))
    case Failure(e) => Failure(e)
  }

  /**
   * A subscriber routes a published message by its topic: SAC and SIC
   * come through exactly when the record gave both.
   */
  lemma PublishedTopicRoute(prefix: string, record: Record, json: Option<seq<byte>>)
    ensures var r := Publish(prefix, record, json);
      r.Success? ==>
        ParseTopicName(r.value.key, prefix)
          == if r.value.sac.Some? && r.value.sic.Some? then Route(r.value.category, r.value.sac, r.value.sic)
             else Route(r.value.category, None, None)
  {
    var (sac, sic) := ExtractSacSic(record);
    TopicRoundTrip(prefix, record.category, sac, sic);
  }
}

=== FILE: Ffi.dfy ===
/**
 * The checks the Rust FFI layer makes before calling into the C++ parser:
 * configuration paths, the category given to `describe`, and the mapping
 * of the C++ log level back to `LogLevel`. What the C++ side answers is a
 * parameter.
 */
module Ffi {
  import opened Wrappers
  import Text

  /** The longest path accepted, in UTF-8 bytes (`str::len`). */
  const MaxPathLength: nat := 4096

  /** Why an argument is `InvalidData`: one of the path checks, or category 0 given to `describe`. */
  datatype Problem = EmptyPath | Traversal | PathTooLong | InteriorNul | CategoryZero

  /** The `AsterixError` variants these calls produce. */
  datatype FfiError =
    | InvalidData(problem: Problem)
    | InitializationError
    | InternalError

  /** A path that starts by leaving its base directory: "../…", "..\…" or exactly "..". */
  predicate LeadsUpward(path: string) {
    "../" <= path || "..\\" <= path || path == ".."
  }

  /**
   * The checks `init_config_dir` and `load_category` share, in order:
   * not empty, not leading upward, at most 4096 bytes of UTF-8.
   */
  function CheckPath(path: string): (r: Option<Problem>)
    ensures r.None? <==> |path| > 0 && !LeadsUpward(path) && Text.Utf8Length(path) <= MaxPathLength
    ensures |path| == 0 ==> r == Some(EmptyPath)
    ensures |path| > 0 && LeadsUpward(path) ==> r == Some(Traversal)
  {
    if |path| == 0 then Some(EmptyPath)
    else if LeadsUpward(path) then Some(Traversal)
    else if Text.Utf8Length(path) > MaxPathLength then Some(PathTooLong)
    else None
  }

  /**
   * A call that hands a checked path to C++: the checks, then
   * `CString::new` (which refuses an interior NUL), then the C++ answer.
   */
  function CallWithPath(path: string, accepted: bool): (r: Result<(), FfiError>)
    ensures CheckPath(path).Some? ==> r == Failure(InvalidData(CheckPath(path).value))
    ensures r.Success? <==> CheckPath(path).None? && '\0' !in path && accepted
  {
    match CheckPath(path)
    case Some(problem) => Failure(InvalidData(problem))
    case None =>
      if '\0' in path then Failure(InvalidData(InteriorNul))
      else if accepted then Success(())
      else Failure(InitializationError)
  }

  /** `init_config_dir`; `initialised` is what `asterix_init` answers. */
  function InitConfigDir(configDir: string, initialised: bool): (r: Result<(), FfiError>)
    ensures CheckPath(configDir).Some? ==> r == Failure(InvalidData(CheckPath(configDir).value))
    ensures r.Success? <==> CheckPath(configDir).None? && '\0' !in configDir && initialised
  {
    CallWithPath(configDir, initialised)
  }

  /** `load_category`; `loaded` is what `asterix_load_category` answers. */
  function LoadCategory(xmlPath: string, loaded: bool): (r: Result<(), FfiError>)
    ensures CheckPath(xmlPath).Some? ==> r == Failure(InvalidData(CheckPath(xmlPath).value))
    ensures r.Success? <==> CheckPath(xmlPath).None? && '\0' !in xmlPath && loaded
  {
    CallWithPath(xmlPath, loaded)
  }

  /** ".." inside a path, after a first segment, passes the traversal check. */
  lemma InnerParentAccepted(first: string, rest: string)
    requires |first| > 0 && first[0] != '.'
    requires Text.Utf8Length(first + "/../" + rest) <= MaxPathLength
    ensures CheckPath(first + "/../" + rest).None?
  {
    var path := first + "/../" + rest;
    assert path[0] == first[0];
  }

  /** Exactly 4096 one-byte characters pass; 4097 do not. */
  lemma PathLengthBoundary()
    ensures CheckPath(seq(4096, _ => 'a')).None?
    ensures CheckPath(seq(4097, _ => 'a')) == Some(PathTooLong)
  {
    var p := seq(4096, _ => 'a');
    var q := seq(4097, _ => 'a');
    Text.AsciiLength(p);
    Text.AsciiLength(q);
    assert p[0] == 'a' && q[0] == 'a';
  }

  /** A path measures in bytes: 2049 two-byte characters are refused though they are fewer than 4096 characters. */
  lemma PathLengthInBytes()
    ensures CheckPath(seq(2049, _ => 'é')) == Some(PathTooLong)
  {
    var p := seq(2049, _ => 'é');
    TwoByteLength(p);
    assert p[0] == 'é';
  }

  lemma {:induction false} TwoByteLength(s: string)
    requires forall i :: 0 <= i < |s| ==> s[i] == 'é'
    ensures Text.Utf8Length(s) == 2 * |s|
  {
    if |s| > 0 {
      assert forall i :: 0 <= i < |s[1..]| ==> s[1..][i] == s[i + 1];
      TwoByteLength(s[1..]);
    }
  }

  /**
   * `describe`: category 0 is refused before C++ is asked; otherwise the
   * C++ answer, where `None` is a null result.
   */
  function Describe(category: nat, answer: Option<string>): (r: Result<string, FfiError>)
    requires category < 256
    ensures category == 0 ==> r == Failure(InvalidData(CategoryZero))
    ensures category != 0 ==> (r.Success? <==> answer.Some?)
    ensures r.Success? ==> r.value == answer.value
    ensures category != 0 && answer.None? ==> r == Failure(InternalError)
  {
    if category == 0 then Failure(InvalidData(CategoryZero))
    else
      match answer
      case Some(text) => Success(text)
      case None => Failure(InternalError)
  }

  datatype LogLevel = Silent | Error | Warn | Info | Debug

  /** `level as i32` in `set_log_level`. */
  function LevelValue(level: LogLevel): (v: int)
    ensures 0 <= v <= 4
  {
    match level
    case Silent => 0
    case Error => 1
    case Warn => 2
    case Info => 3
    case Debug => 4
  }

  /** `get_log_level`: 0..4 map to Silent..Debug, anything else falls back to Error. */
  function LogLevelOf(v: int): (level: LogLevel)
    ensures 0 <= v <= 4 ==> LevelValue(level) == v
    ensures !(0 <= v <= 4) ==> level == Error
  {
    if v == 0 then Silent
    else if v == 1 then Error
    else if v == 2 then Warn
    else if v == 3 then Info
    else if v == 4 then Debug
    else Error
  }

  /** A level that is set is the level read back. */
  lemma LogLevelRoundTrip(level: LogLevel)
    ensures LogLevelOf(LevelValue(level)) == level
  {
  }
}

=== FILE: HexCodec.dfy ===
/**
 * `hex_to_bytes` of the CCSDS, Zenoh and DDS transports (the three copies
 * are identical): drop the whitespace, reject an odd UTF-8 length, then
 * read each pair of characters with `u8::from_str_radix(_, 16)`.
 */
module HexCodec {
  import opened Wrappers
  import opened Bytes
  import Text

  /**
   * Why decoding fails: an odd length, a pair that is not a hexadecimal
   * number, or a non-ASCII character (slicing the string by bytes then
   * either panics or hands `from_str_radix` a non-digit).
   */
  datatype HexError = InvalidLength | InvalidDigit | NonAscii

  /** One octet from a two-character pair, as `u8::from_str_radix(pair, 16)`. */
  function PairValue(pair: string): (r: Option<byte>)
    ensures r.Some? <==> Text.ParseUnsigned(pair, 16, 255).Some?
    ensures r.Some? ==> r.value == Text.ParseUnsigned(pair, 16, 255).value
  {
    match Text.ParseUnsigned(pair, 16, 255)
    case None => None
    case Some(v) => Some(v)
  }

  /** The octets of an even-length string, pair by pair; the first bad pair stops it. */
  function DecodePairs(s: string): (r: Result<seq<byte>, HexError>)
    requires |s| % 2 == 0
    ensures r.Success? ==> |r.value| == |s| / 2
    ensures r.Failure? ==> r.error == InvalidDigit
    decreases |s|
  {
    if |s| == 0 then Success([])
    else
      match PairValue(s[..2])
      case None => Failure(InvalidDigit)
      case Some(b) =>
        var rest :- DecodePairs(s[2..]);
        Success([b] + rest)
  }

  /** Octet `k` of a successful decoding is the value of pair `k`. */
  lemma {:induction false} DecodePairsValues(s: string)
    requires |s| % 2 == 0
    ensures DecodePairs(s).Success? ==>
      forall k :: 0 <= k < |s| / 2 ==> PairValue(s[2 * k..2 * k + 2]) == Some(DecodePairs(s).value[k])
    decreases |s|
  {
    if |s| > 0 && DecodePairs(s).Success? {
      DecodePairsValues(s[2..]);
      PairsShift(s);
      var r := DecodePairs(s).value;
      var rest := DecodePairs(s[2..]).value;
      assert r == [r[0]] + rest;
      forall k | 1 <= k < |s| / 2
        ensures PairValue(s[2 * k..2 * k + 2]) == Some(r[k])
      {
        assert r[k] == rest[k - 1];
      }
    }
  }

  /** Pair `k + 1` of a string is pair `k` of the string without its first pair. */
  lemma PairsShift(s: string)
    requires |s| % 2 == 0 && |s| >= 2
    ensures s[2 * 0..2 * 0 + 2] == s[..2]
    ensures forall k :: 1 <= k < |s| / 2 ==> s[2 * k..2 * k + 2] == s[2..][2 * (k - 1)..2 * (k - 1) + 2]
  {
  }

  /** Decoding fails exactly when some pair is not a hexadecimal number. */
  lemma {:induction false} DecodePairsFails(s: string)
    requires |s| % 2 == 0
    ensures DecodePairs(s).Failure? <==> exists k :: 0 <= k < |s| / 2 && PairValue(s[2 * k..2 * k + 2]).None?
    decreases |s|
  {
    if |s| > 0 {
      PairsShift(s);
      if PairValue(s[..2]).Some? {
        DecodePairsFails(s[2..]);
        if DecodePairs(s[2..]).Failure? {
          var j :| 0 <= j < |s[2..]| / 2 && PairValue(s[2..][2 * j..2 * j + 2]).None?;
          assert PairValue(s[2 * (j + 1)..2 * (j + 1) + 2]).None?;
        } else {
          forall k | 0 <= k < |s| / 2
            ensures PairValue(s[2 * k..2 * k + 2]).Some?
          {
            if k > 0 {
              assert s[2 * k..2 * k + 2] == s[2..][2 * (k - 1)..2 * (k - 1) + 2];
            }
          }
        }
      }
    }
  }

  /** `hex_to_bytes`. */
  function HexToBytes(hex: string): (r: Result<seq<byte>, HexError>)
    ensures var clean := Text.RemoveWhitespace(hex);
      && (r == Failure(InvalidLength) <==> Text.Utf8Length(clean) % 2 != 0)
      && (r.Success? ==> Text.IsAscii(clean) && |r.value| == |clean| / 2)
  {
    var clean := Text.RemoveWhitespace(hex);
    if Text.Utf8Length(clean) % 2 != 0 then Failure(InvalidLength)
    else if !Text.IsAscii(clean) then Failure(NonAscii)
    else
      Text.AsciiLength(clean);
      DecodePairs(clean)
  }

  /** A lower-case hexadecimal digit. */
  function HexDigit(d: nat): (c: char)
    requires d < 16
    ensures Text.DigitValue(c, 16) == Some(d)
    ensures c as int < 0x80 && !Text.IsWhitespace(c) && c != '+'
  {
    if d < 10 then ('0' as int + d) as char else ('a' as int + d - 10) as char
  }

  /** Octets written as two lower-case hexadecimal digits each, as `hex::encode` does. */
  function ToHex(bytes: seq<byte>): (s: string)
    ensures |s| == 2 * |bytes|
    ensures forall i :: 0 <= i < |s| ==> s[i] as int < 0x80 && !Text.IsWhitespace(s[i])
  {
    if |bytes| == 0 then []
    else [HexDigit(bytes[0] / 16), HexDigit(bytes[0] % 16)] + ToHex(bytes[1..])
  }

  /** Octet `k` is written at characters `2k` and `2k + 1`, high digit first. */
  lemma {:induction false} ToHexDigits(bytes: seq<byte>)
    ensures var s := ToHex(bytes);
      forall k :: 0 <= k < |bytes| ==> s[2 * k] == HexDigit(bytes[k] / 16) && s[2 * k + 1] == HexDigit(bytes[k] % 16)
  {
    if |bytes| > 0 {
      ToHexDigits(bytes[1..]);
      var s := ToHex(bytes);
      var t := ToHex(bytes[1..]);
      assert s == [HexDigit(bytes[0] / 16), HexDigit(bytes[0] % 16)] + t;
      forall k | 1 <= k < |bytes|
        ensures s[2 * k] == HexDigit(bytes[k] / 16) && s[2 * k + 1] == HexDigit(bytes[k] % 16)
      {
        assert s[2 * k] == t[2 * (k - 1)] && s[2 * k + 1] == t[2 * (k - 1) + 1];
        assert bytes[k] == bytes[1..][k - 1];
      }
    }
  }

  /** Two hexadecimal digits read back as the octet they were written from. */
  lemma PairRoundTrip(b: byte)
    ensures PairValue([HexDigit(b / 16), HexDigit(b % 16)]) == Some(b)
  {
    var pair := [HexDigit(b / 16), HexDigit(b % 16)];
    assert pair[..1] == [HexDigit(b / 16)];
    assert Text.DigitsValue(pair[..1], 16) == b / 16 by {
      assert pair[..1][..0] == [];
    }
  }

  /** Reading the pairs of hexadecimal text gives back the octets written. */
  lemma {:induction false} DecodeToHex(bytes: seq<byte>)
    ensures DecodePairs(ToHex(bytes)) == Success(bytes)
  {
    if |bytes| > 0 {
      DecodeToHex(bytes[1..]);
      DecodeToHexStep(bytes);
    }
  }

  lemma DecodeToHexStep(bytes: seq<byte>)
    requires |bytes| > 0 && DecodePairs(ToHex(bytes[1..])) == Success(bytes[1..])
    ensures DecodePairs(ToHex(bytes)) == Success(bytes)
  {
    EvenLength(|bytes|);
    HeadPair(bytes);
    ToHexCons(bytes);
    DecodePairsCons(ToHex(bytes), bytes);
  }

  lemma HeadPair(bytes: seq<byte>)
    requires |bytes| > 0
    ensures PairValue(ToHex(bytes)[..2]) == Some(bytes[0])
  {
    ToHexCons(bytes);
    PairRoundTrip(bytes[0]);
  }

  lemma EvenLength(n: nat)
    ensures (2 * n) % 2 == 0 && (2 * n - 2) % 2 == 0
  {
  }

  lemma ToHexCons(bytes: seq<byte>)
    requires |bytes| > 0
    ensures ToHex(bytes)[..2] == [HexDigit(bytes[0] / 16), HexDigit(bytes[0] % 16)]
    ensures ToHex(bytes)[2..] == ToHex(bytes[1..])
  {
  }

  lemma DecodePairsCons(s: string, bytes: seq<byte>)
    requires |s| % 2 == 0 && |s| >= 2 && |bytes| > 0
    requires PairValue(s[..2]) == Some(bytes[0]) && DecodePairs(s[2..]) == Success(bytes[1..])
    ensures DecodePairs(s) == Success(bytes)
  {
    assert bytes == [bytes[0]] + bytes[1..];
  }

  /** Decoding the hexadecimal text of any octets gives the octets back. */
  lemma HexRoundTrip(bytes: seq<byte>)
    ensures HexToBytes(ToHex(bytes)) == Success(bytes)
  {
    var s := ToHex(bytes);
    assert Text.RemoveWhitespace(s) == s;
    Text.AsciiLength(s);
    DecodeToHex(bytes);
  }

  /** `from_str_radix` takes a leading '+', so "+f" passes as the octet 15. */
  lemma PlusSignAccepted()
    ensures HexToBytes("+f") == Success([15])
  {
    var s := "+f";
    assert Text.RemoveWhitespace(s) == s;
    assert s[..2] == s && s[2..] == [];
    assert s[1..] == "f";
    assert "f"[..0] == [];
    assert Text.ParseUnsigned(s, 16, 255) == Some(15);
    assert PairValue(s) == Some(15);
    assert DecodePairs(s[2..]) == Success([]);
    assert [15] + [] == [15];
    assert DecodePairs(s) == Success([15]);
    assert Text.IsAscii(s);
    Text.AsciiLength(s);
  }
}

=== FILE: Records.dfy ===
/**
 * What the Zenoh, DDS and CCSDS publishers read from a decoded ASTERIX
 * record: its category, the hexadecimal text of its raw octets, and the
 * SAC/SIC fields of its I010 item. The record type itself (`AsterixRecord`)
 * is not part of this model; only those three parts of it are.
 */
module Records {
  import opened Wrappers
  import opened Bytes
  import Text
  import HexCodec

  /**
   * A field value of a decoded item, as far as `as_i64` can tell: an
   * integral JSON number, or anything else (a fraction, a string, ...).
   */
  datatype FieldValue = Integer(v: int) | NonInteger

  /** An item's named fields. */
  type Fields = map<string, FieldValue>

  /** A decoded record: category, raw octets as hexadecimal text, items by id. */
  datatype Record = Record(category: byte, hexData: string, items: map<string, Fields>)

  /** Where a record goes: category, and SAC and SIC when they are known. */
  datatype Route = Route(category: nat, sac: Option<nat>, sic: Option<nat>)

  const I64Min: int := -0x8000_0000_0000_0000
  const I64Max: int := 0x7FFF_FFFF_FFFF_FFFF

  /** `Value::as_i64`: an integral number that fits in `i64`. */
  function AsI64(v: FieldValue): (r: Option<int>)
    ensures r.Some? <==> v.Integer? && I64Min <= v.v <= I64Max
    ensures r.Some? ==> r.value == v.v
  {
    if v.Integer? && I64Min <= v.v <= I64Max then Some(v.v) else None
  }

  /** `v as u8` on an `i64`: the low eight bits of the two's-complement value. */
  function LowOctet(v: int): (b: byte)
    ensures 0 <= v < 256 ==> b == v
    ensures (v - b) % 256 == 0
  {
    v % 256
  }

  /** `format!("I{:03}/010", category)`: the id of the category's I010 item. */
  function ItemId(category: byte): (id: string)
    ensures |id| == 8 && id[0] == 'I' && id[4..] == "/010"
  {
    var digits := Text.ZeroPadded(category, 3);
    Text.DecimalBound(category);
    "I" + digits + "/010"
  }

  /** The I010 item ids of the categories the decoders and encoders handle. */
  lemma ItemIdExamples()
    ensures ItemId(21) == "I021/010"
    ensures ItemId(48) == "I048/010"
    ensures ItemId(62) == "I062/010"
  {
    assert Text.Decimal(21) == "21" by { assert Text.Decimal(2) == "2"; }
    assert Text.Decimal(48) == "48" by { assert Text.Decimal(4) == "4"; }
    assert Text.Decimal(62) == "62" by { assert Text.Decimal(6) == "6"; }
  }

  /** One named field of the I010 item, as `get(name).and_then(as_i64).map(as u8)`. */
  function SourceField(item: Fields, name: string): (r: Option<nat>)
    ensures r.Some? <==> name in item && AsI64(item[name]).Some?
    ensures r.Some? ==> r.value < 256 && r.value == LowOctet(item[name].v)
  {
    if name in item then
      match AsI64(item[name])
      case None => None
      case Some(v) => Some(LowOctet(v) as nat)
    else None
  }

  /**
   * `extract_sac_sic`: the SAC and SIC fields of the record's I010 item,
   * each `None` when missing or not an integer; both `None` without the item.
   */
  function ExtractSacSic(record: Record): (r: (Option<nat>, Option<nat>))
    ensures ItemId(record.category) !in record.items ==> r == (None, None)
    ensures ItemId(record.category) in record.items ==>
      var item := record.items[ItemId(record.category)];
      && (r.0.Some? <==> "SAC" in item && AsI64(item["SAC"]).Some?)
      && (r.1.Some? <==> "SIC" in item && AsI64(item["SIC"]).Some?)
    ensures r.0.Some? ==> r.0.value < 256
    ensures r.1.Some? ==> r.1.value < 256
  {
    var id := ItemId(record.category);
    if id in record.items then
      (SourceField(record.items[id], "SAC"), SourceField(record.items[id], "SIC"))
    else (None, None)
  }

  /** A record whose I010 item carries the given SAC and SIC, as a decoder would produce it. */
  function WithSource(category: byte, hexData: string, sac: byte, sic: byte): (record: Record)
    ensures ExtractSacSic(record) == (Some(sac as nat), Some(sic as nat))
  {
    var item := map["SAC" := Integer(sac), "SIC" := Integer(sic)];
    Record(category, hexData, map[ItemId(category) := item])
  }

  /** Why a record could not be turned into octets. */
  datatype SerializeError = BadHex(reason: HexCodec.HexError) | NoSerializer

  /**
   * The octets a publisher sends for a record: the decoded `hex_data` when
   * the hex path is taken, else the JSON serialisation `json`, which is
   * `None` when the crate is built without the `serde` feature. CCSDS and
   * DDS take the hex path whenever `hex_data` is non-empty; Zenoh also
   * needs `include_raw_bytes`, passed here as `preferRaw`.
   */
  function Payload(preferRaw: bool, record: Record, json: Option<seq<byte>>): (r: Result<seq<byte>, SerializeError>)
    ensures preferRaw && |record.hexData| > 0 ==>
      (r.Success? <==> HexCodec.HexToBytes(record.hexData).Success?)
      && (r.Success? ==> r.value == HexCodec.HexToBytes(record.hexData).value)
    ensures !(preferRaw && |record.hexData| > 0) ==>
      (json.Some? ==> r == Success(json.value)) && (json.None? ==> r == Failure(NoSerializer))
  {
    if preferRaw && |record.hexData| > 0 then
      match HexCodec.HexToBytes(record.hexData)
      case Success(bytes) => Success(bytes)
      case Failure(e) => Failure(BadHex(e))
    else
      match json
      case Some(bytes) => Success(bytes)
      case None => Failure(NoSerializer)
  }

  /** On the hex path a record carrying the hexadecimal text of some octets yields exactly those octets. */
  lemma PayloadOfHex(record: Record, bytes: seq<byte>, json: Option<seq<byte>>)
    requires record.hexData == HexCodec.ToHex(bytes) && |bytes| > 0
    ensures Payload(true, record, json) == Success(bytes)
  {
    HexCodec.HexRoundTrip(bytes);
  }
}

=== FILE: RustParser.dfy ===
/**
 * The checks the Rust `parse` API makes around the C++ decoder: input
 * length limits, the offset and block-count limits of incremental
 * parsing, the category filter and record cap applied to the decoded
 * blocks, the bytes-consumed estimate, and the pre-checks on the JSON text
 * a block is described by. The C++ decoder itself is a parameter: the
 * blocks it returns, or `None` for a null result.
 */
module RustParser {
  import opened Wrappers
  import Text
  import Bytes

  /** `MAX_ASTERIX_MESSAGE_SIZE`. */
  const MaxMessageSize: nat := 65536
  /** `MAX_BLOCKS_PER_CALL`. */
  const MaxBlocksPerCall: nat := 10000
  const U32Max: nat := 0xFFFF_FFFF

  /** Why a call was refused. */
  datatype Reason =
    | EmptyInput
    | InputTooLarge
    | OffsetBeyondU32
    | OffsetBeyondData
    | BlocksBeyondU32
    | TooManyBlocks
    | NullFromDecoder
    | MalformedJson

  /** The `AsterixError` variants these checks produce. */
  datatype AsterixError =
    | InvalidData(reason: Reason)
    | ParseError(offset: nat, reason: Reason)
    | NullPointer(reason: Reason)

  /** The part of `ParseOptions` the conversion depends on. */
  datatype Options = Options(filterCategory: Option<nat>, maxRecords: Option<nat>)

  /**
   * A data block handed back by the C++ decoder: a null pointer, or a block
   * of some category and length whose conversion to a record may fail.
   */
  datatype Block = NullBlock | Block(category: nat, length: nat, conversionError: Option<AsterixError>)

  /** The part of a converted `AsterixRecord` the conversion loop looks at. */
  datatype Rec = Rec(category: nat, length: nat)

  /** `ParseResult`. */
  datatype ParseResult = ParseResult(records: seq<Rec>, bytesConsumed: nat, remainingBlocks: nat)

  /** The length checks `parse` and `parse_with_offset` share, in order. */
  function CheckLength(data: seq<Bytes.byte>): (r: Option<AsterixError>)
    ensures r.None? <==> 1 <= |data| <= MaxMessageSize
    ensures |data| == 0 ==> r == Some(InvalidData(EmptyInput))
    ensures |data| > MaxMessageSize ==> r == Some(InvalidData(InputTooLarge))
  {
    if |data| == 0 then Some(InvalidData(EmptyInput))
    else if |data| > MaxMessageSize then Some(InvalidData(InputTooLarge))
    else None
  }

  /**
   * `parse`: refuse empty and oversized input before the decoder runs,
   * then convert what the decoder returned.
   */
  function Parse(data: seq<Bytes.byte>, options: Options, decoded: Option<seq<Block>>): (r: Result<seq<Rec>, AsterixError>)
    ensures CheckLength(data).Some? ==> r == Failure(CheckLength(data).value)
    ensures CheckLength(data).None? && decoded.None? ==> r == Failure(NullPointer(NullFromDecoder))
    ensures CheckLength(data).None? && decoded.Some? ==> r == ConvertBlocks(decoded.value, options)
  {
    match CheckLength(data)
    case Some(e) => Failure(e)
    case None =>
      match decoded
      case None => Failure(NullPointer(NullFromDecoder))
      case Some(blocks) => ConvertBlocks(blocks, options)
  }

  /**
   * The argument checks of `parse_with_offset`, in the source's order:
   * empty, too large, offset beyond `u32`, offset not inside the data,
   * block count beyond `u32`, block count above `MAX_BLOCKS_PER_CALL`.
   */
  function CheckOffsetArguments(data: seq<Bytes.byte>, offset: nat, blocksCount: nat): (r: Option<AsterixError>)
    ensures r.None? <==> 1 <= |data| <= MaxMessageSize && offset < |data| && blocksCount <= MaxBlocksPerCall
    ensures CheckLength(data).Some? ==> r == CheckLength(data)
    ensures CheckLength(data).None? && offset >= |data| ==> r.Some? && r.value.ParseError? && r.value.offset == offset
    ensures CheckLength(data).None? && offset < |data| && blocksCount > MaxBlocksPerCall ==>
      r.Some? && r.value.InvalidData?
  {
    if CheckLength(data).Some? then CheckLength(data)
    else if offset > U32Max then Some(ParseError(offset, OffsetBeyondU32))
    else if offset >= |data| then Some(ParseError(offset, OffsetBeyondData))
    else if blocksCount > U32Max then Some(InvalidData(BlocksBeyondU32))
    else if blocksCount > MaxBlocksPerCall then Some(InvalidData(TooManyBlocks))
    else None
  }

  /** The sum of the records' lengths. */
  function TotalLength(records: seq<Rec>): nat {
    if |records| == 0 then 0 else records[0].length + TotalLength(records[1..])
  }

  /** Lengths add up over consecutive batches of records. */
  lemma {:induction false} TotalLengthAppend(a: seq<Rec>, b: seq<Rec>)
    ensures TotalLength(a + b) == TotalLength(a) + TotalLength(b)
  {
    if |a| > 0 {
      assert (a + b)[0] == a[0];
      assert (a + b)[1..] == a[1..] + b;
      TotalLengthAppend(a[1..], b);
    } else {
      assert a + b == b;
    }
  }

  /**
   * The bytes-consumed estimate: the offset when no record came back, else
   * the offset plus the records' lengths.
   */
  function BytesConsumed(offset: nat, records: seq<Rec>): (consumed: nat)
    ensures consumed >= offset
    ensures consumed == offset + TotalLength(records)
  {
    if |records| == 0 then offset else offset + TotalLength(records)
  }

  /** The remaining-blocks estimate: whole 32-octet blocks left after what was consumed. */
  function RemainingBlocks(length: nat, consumed: nat): (n: nat)
    ensures consumed >= length ==> n == 0
    ensures consumed < length ==> 32 * n <= length - consumed < 32 * (n + 1)
  {
    if consumed >= length then 0 else (length - consumed) / 32
  }

  /** Parsing the records of two calls in a row consumes what one call over both would. */
  lemma ConsumedChains(offset: nat, first: seq<Rec>, second: seq<Rec>)
    ensures BytesConsumed(BytesConsumed(offset, first), second) == BytesConsumed(offset, first + second)
  {
    TotalLengthAppend(first, second);
  }

  /**
   * `parse_with_offset`: the argument checks, then the conversion of what
   * the decoder returned, with the bytes-consumed and remaining-blocks
   * estimates.
   */
  function ParseWithOffset(data: seq<Bytes.byte>, offset: nat, blocksCount: nat, options: Options, decoded: Option<seq<Block>>): (r: Result<ParseResult, AsterixError>)
    ensures CheckOffsetArguments(data, offset, blocksCount).Some? ==>
      r == Failure(CheckOffsetArguments(data, offset, blocksCount).value)
    ensures r.Success? ==> decoded.Some? && ConvertBlocks(decoded.value, options) == Success(r.value.records)
    ensures r.Success? ==>
      && r.value.bytesConsumed == offset + TotalLength(r.value.records)
      && r.value.remainingBlocks == RemainingBlocks(|data|, r.value.bytesConsumed)
  {
    match CheckOffsetArguments(data, offset, blocksCount)
    case Some(e) => Failure(e)
    case None =>
      match decoded
      case None => Failure(NullPointer(NullFromDecoder))
      case Some(blocks) =>
        var records :- ConvertBlocks(blocks, options);
        var consumed := BytesConsumed(offset, records);
        Success(ParseResult(records, consumed, RemainingBlocks(|data|, consumed)))
  }

  /** A block the category filter lets through. */
  predicate Selected(b: Block, filter: Option<nat>) {
    b.Block? && (filter.None? || b.category == filter.value)
  }

  /** Reference definition: the records of every selected block, in order. */
  function SelectedRecords(blocks: seq<Block>, filter: Option<nat>): seq<Rec> {
    if |blocks| == 0 then []
    else if Selected(blocks[0], filter) then [Rec(blocks[0].category, blocks[0].length)] + SelectedRecords(blocks[1..], filter)
    else SelectedRecords(blocks[1..], filter)
  }

  /**
   * How many records the loop keeps: the check `records.len() >= max`
   * runs after a record is pushed, so a cap of 0 still keeps one.
   */
  function Cap(maxRecords: nat): (cap: nat)
    ensures cap >= 1 && cap >= maxRecords
  {
    if maxRecords == 0 then 1 else maxRecords
  }

  /**
   * The loop of `convert_asterix_data` from a given point: null blocks and
   * blocks of another category are skipped, a selected block whose
   * conversion fails ends the call with that error, and the loop stops as
   * soon as `max_records` records are held.
   */
  function ConvertFrom(blocks: seq<Block>, options: Options, acc: seq<Rec>): (r: Result<seq<Rec>, AsterixError>)
    ensures r.Success? ==> acc <= r.value
    ensures r.Success? ==> forall i :: |acc| <= i < |r.value| ==>
      options.filterCategory.None? || r.value[i].category == options.filterCategory.value
    ensures r.Failure? ==> (exists k :: 0 <= k < |blocks| && Selected(blocks[k], options.filterCategory)
                                          && blocks[k].conversionError == Some(r.error))
    decreases |blocks|
  {
    if |blocks| == 0 then Success(acc)
    else
      var b := blocks[0];
      if !Selected(b, options.filterCategory) then ConvertFrom(blocks[1..], options, acc)
      else if b.conversionError.Some? then Failure(b.conversionError.value)
      else
        var held := acc + [Rec(b.category, b.length)];
        if options.maxRecords.Some? && |held| >= options.maxRecords.value then Success(held)
        else ConvertFrom(blocks[1..], options, held)
  }

  /** `convert_asterix_data`. */
  function ConvertBlocks(blocks: seq<Block>, options: Options): (r: Result<seq<Rec>, AsterixError>)
    ensures r.Success? ==> forall i :: 0 <= i < |r.value| ==>
      options.filterCategory.None? || r.value[i].category == options.filterCategory.value
    ensures r.Failure? ==> (exists k :: 0 <= k < |blocks| && Selected(blocks[k], options.filterCategory)
                                          && blocks[k].conversionError == Some(r.error))
  {
    ConvertFrom(blocks, options, [])
  }

  /** No selected block fails to convert. */
  predicate AllConvert(blocks: seq<Block>, filter: Option<nat>) {
    forall k :: 0 <= k < |blocks| && Selected(blocks[k], filter) ==> blocks[k].conversionError.None?
  }

  /** The first `n` elements, or all of them when there are fewer. */
  function Take(s: seq<Rec>, n: nat): (r: seq<Rec>)
    ensures |r| <= n && r <= s
    ensures |s| <= n ==> r == s
  {
    if |s| <= n then s else s[..n]
  }

  lemma {:induction false} ConvertFromTakes(blocks: seq<Block>, options: Options, acc: seq<Rec>)
    requires AllConvert(blocks, options.filterCategory)
    requires options.maxRecords.Some? ==> |acc| < Cap(options.maxRecords.value)
    ensures var all := SelectedRecords(blocks, options.filterCategory);
      ConvertFrom(blocks, options, acc) == Success(acc + (
        if options.maxRecords.Some? then Take(all, Cap(options.maxRecords.value) - |acc|) else all))
    decreases |blocks|
  {
    var all := SelectedRecords(blocks, options.filterCategory);
    if |blocks| == 0 {
      assert acc + [] == acc;
    } else {
      var b := blocks[0];
      var rest := SelectedRecords(blocks[1..], options.filterCategory);
      assert AllConvert(blocks[1..], options.filterCategory) by {
        forall k | 0 <= k < |blocks[1..]| && Selected(blocks[1..][k], options.filterCategory)
          ensures blocks[1..][k].conversionError.None?
        {
          assert blocks[1..][k] == blocks[k + 1];
        }
      }
      if !Selected(b, options.filterCategory) {
        ConvertFromTakes(blocks[1..], options, acc);
      } else {
        assert b.conversionError.None?;
        var rec := Rec(b.category, b.length);
        var held := acc + [rec];
        assert all == [rec] + rest;
        if options.maxRecords.Some? && |held| >= options.maxRecords.value {
          var n := Cap(options.maxRecords.value) - |acc|;
          assert n == 1;
          assert Take(all, n) == [rec];
        } else {
          ConvertFromTakes(blocks[1..], options, held);
          if options.maxRecords.Some? {
            var n := Cap(options.maxRecords.value) - |acc|;
            assert Take(all, n) == [rec] + Take(rest, n - 1);
          }
          assert held + (if options.maxRecords.Some? then Take(rest, Cap(options.maxRecords.value) - |held|) else rest)
            == acc + ([rec] + (if options.maxRecords.Some? then Take(rest, Cap(options.maxRecords.value) - |held|) else rest));
        }
      }
    }
  }

  /**
   * When every selected block converts, the result is the records of the
   * selected blocks, in order, cut to at most `max(max_records, 1)`.
   */
  lemma ConvertBlocksSelects(blocks: seq<Block>, options: Options)
    requires AllConvert(blocks, options.filterCategory)
    ensures var all := SelectedRecords(blocks, options.filterCategory);
      ConvertBlocks(blocks, options) == Success(
        if options.maxRecords.Some? then Take(all, Cap(options.maxRecords.value)) else all)
  {
    ConvertFromTakes(blocks, options, []);
    var all := SelectedRecords(blocks, options.filterCategory);
    var kept := if options.maxRecords.Some? then Take(all, Cap(options.maxRecords.value)) else all;
    assert [] + kept == kept;
  }

  /** A cap of 0 records still lets the first selected record through. */
  lemma MaxRecordsZeroKeepsOne(blocks: seq<Block>, filter: Option<nat>)
    requires AllConvert(blocks, filter)
    requires |SelectedRecords(blocks, filter)| > 0
    ensures var r := ConvertBlocks(blocks, Options(filter, Some(0)));
      r.Success? && |r.value| == 1
  {
    ConvertBlocksSelects(blocks, Options(filter, Some(0)));
  }

  /** With a zero block count (parse everything) and valid arguments, only the decoder can fail. */
  lemma ZeroBlocksAccepted(data: seq<Bytes.byte>, offset: nat, options: Options, blocks: seq<Block>)
    requires 1 <= |data| <= MaxMessageSize && offset < |data|
    requires AllConvert(blocks, options.filterCategory)
    ensures ParseWithOffset(data, offset, 0, options, Some(blocks)).Success?
  {
    ConvertBlocksSelects(blocks, options);
  }

  // ---------------------------------------------------------------------
  // Pre-checks on the JSON text of a block
  // ---------------------------------------------------------------------

  /** The number of `{` and of `}` characters, as the fold in the source counts them. */
  function BraceCounts(s: string): (nat, nat)
  {
    if |s| == 0 then (0, 0)
    else
      var rest := BraceCounts(s[1..]);
      if s[0] == '{' then (rest.0 + 1, rest.1)
      else if s[0] == '}' then (rest.0, rest.1 + 1)
      else rest
  }

  /** The fold counts exactly the occurrences of each brace. */
  lemma {:induction false} BraceCountsOccurrences(s: string)
    ensures BraceCounts(s).0 == multiset(s)['{'] && BraceCounts(s).1 == multiset(s)['}']
  {
    if |s| > 0 {
      assert s == [s[0]] + s[1..];
      BraceCountsOccurrences(s[1..]);
    }
  }

  /** The position of the first line feed, or the length when there is none. */
  function LineEnd(s: string): (n: nat)
    ensures n <= |s| && '\n' !in s[..n]
    ensures n < |s| ==> s[n] == '\n'
  {
    if |s| == 0 || s[0] == '\n' then 0
    else
      var n := 1 + LineEnd(s[1..]);
      assert s[..n] == [s[0]] + s[1..][..n - 1];
      n
  }

  /** `lines().next()` of a text holding a line feed: up to it, without a trailing carriage return. */
  function FirstLine(s: string): (line: string)
    ensures '\n' !in line && line <= s
  {
    var l := s[..LineEnd(s)];
    if |l| > 0 && l[|l| - 1] == '\r' then l[..|l| - 1] else l
  }

  /** What the pre-checks decide: no items, unbalanced braces, or the text handed to the JSON parser. */
  datatype PreCheck = NoItems | Unbalanced(open: nat, close: nat) | ToParse(text: string)

  /** The text the brace check and the JSON parser see: the trimmed input, or its first line. */
  function CandidateText(trimmed: string): (t: string)
    ensures '\n' !in t
  {
    if '\n' in trimmed then FirstLine(trimmed) else trimmed
  }

  /**
   * The pre-checks of `parse_items_from_json`: blank, "{}" and "[]" give
   * no items; otherwise only the first line is looked at, and it is
   * refused when it holds different numbers of `{` and `}`.
   */
  function JsonPreCheck(json: string): (r: PreCheck)
    ensures r.NoItems? <==> Text.Trim(json) in {"", "{}", "[]"}
    ensures r.Unbalanced? ==> (
      && r.open != r.close
      && r.open == multiset(CandidateText(Text.Trim(json)))['{']
      && r.close == multiset(CandidateText(Text.Trim(json)))['}'])
    ensures r.ToParse? ==> (
      && r.text == CandidateText(Text.Trim(json))
      && multiset(r.text)['{'] == multiset(r.text)['}'])
  {
    var trimmed := Text.Trim(json);
    if trimmed in {"", "{}", "[]"} then NoItems
    else
      var text := CandidateText(trimmed);
      BraceCountsOccurrences(text);
      var (open, close) := BraceCounts(text);
      if open != close then Unbalanced(open, close) else ToParse(text)
  }

  /** The decision on multi-line text is the decision on its first line: later lines are never looked at. */
  lemma LaterLinesIgnored(line: string, rest: string)
    requires |line| > 0 && '\n' !in line && line !in {"{}", "[]"}
    requires !Text.IsWhitespace(line[0]) && !Text.IsWhitespace(line[|line| - 1])
    requires |rest| > 0 && !Text.IsWhitespace(rest[|rest| - 1])
    ensures JsonPreCheck(line + "\n" + rest) == JsonPreCheck(line)
  {
    var s := line + "\n" + rest;
    assert s[0] == line[0] && s[|s| - 1] == rest[|rest| - 1];
    assert Text.Trim(s) == s;
    assert Text.Trim(line) == line;
    assert s[|line|] == '\n';
    assert s[..|line|] == line;
    LineEndAt(s, |line|);
    assert '\n' in s;
    assert |s| >= 3;
    assert line[|line| - 1] != '\r';
  }

  /** The first line feed is where the line ends. */
  lemma {:induction false} LineEndAt(s: string, n: nat)
    requires n < |s| && s[n] == '\n' && '\n' !in s[..n]
    ensures LineEnd(s) == n
  {
    if n > 0 {
      assert s[0] in s[..n];
      assert s[1..][..n - 1] == s[1..n];
      assert forall c :: c in s[1..n] ==> c in s[..n];
      LineEndAt(s[1..], n - 1);
    }
  }

  // ---------------------------------------------------------------------
  // Braces inside JSON strings
  // ---------------------------------------------------------------------

  /**
   * Brace counts outside JSON string literals: a '"' opens or closes a
   * string, and inside one a '\' escapes the next character.
   */
  function StructuralBraceCounts(s: string, inString: bool, escaped: bool): (r: (nat, nat))
    decreases |s|
  {
    if |s| == 0 then (0, 0)
    else
      var c := s[0];
      if inString then
        if escaped then StructuralBraceCounts(s[1..], true, false)
        else if c == '\\' then StructuralBraceCounts(s[1..], true, true)
        else if c == '"' then StructuralBraceCounts(s[1..], false, false)
        else StructuralBraceCounts(s[1..], true, false)
      else if c == '"' then StructuralBraceCounts(s[1..], true, false)
      else
        var rest := StructuralBraceCounts(s[1..], false, false);
        if c == '{' then (rest.0 + 1, rest.1)
        else if c == '}' then (rest.0, rest.1 + 1)
        else rest
  }

  /** The pre-checks with the brace check applied to structural braces only. */
  function JsonPreCheckStructural(json: string): (r: PreCheck)
    ensures r.NoItems? <==> Text.Trim(json) in {"", "{}", "[]"}
    ensures r.ToParse? ==> r.text == CandidateText(Text.Trim(json))
  {
    var trimmed := Text.Trim(json);
    if trimmed in {"", "{}", "[]"} then NoItems
    else
      var text := CandidateText(trimmed);
      var (open, close) := StructuralBraceCounts(text, false, false);
      if open != close then Unbalanced(open, close) else ToParse(text)
  }

  /** Without any string literal, structural counting is the source's counting. */
  lemma {:induction false} StructuralAgreesWithoutStrings(s: string)
    requires '"' !in s
    ensures StructuralBraceCounts(s, false, false) == BraceCounts(s)
  {
    if |s| > 0 {
      assert s[0] in s;
      assert forall c :: c in s[1..] ==> c in s;
      StructuralAgreesWithoutStrings(s[1..]);
    }
  }

  /** Text inside a string literal without quotes or escapes contributes no brace. */
  lemma {:induction false} StringContentsIgnored(body: string, after: string)
    requires '"' !in body && '\\' !in body
    ensures StructuralBraceCounts(body + "\"" + after, true, false) == StructuralBraceCounts(after, false, false)
  {
    if |body| == 0 {
      assert body + "\"" + after == "\"" + after;
      assert ("\"" + after)[1..] == after;
    } else {
      assert (body + "\"" + after)[1..] == body[1..] + "\"" + after;
      assert body[0] in body;
      assert forall c :: c in body[1..] ==> c in body;
      StringContentsIgnored(body[1..], after);
    }
  }

  /** The text of the example below: no blank at either end, no line feed. */
  lemma ExampleIsOneLine()
    ensures Text.Trim("{\"a\":\"}\"}") == "{\"a\":\"}\"}"
    ensures CandidateText("{\"a\":\"}\"}") == "{\"a\":\"}\"}"
  {
    var s := "{\"a\":\"}\"}";
    assert |s| == 9 && s[0] == '{' && s[8] == '}';
    assert !Text.IsWhitespace(s[0]) && !Text.IsWhitespace(s[8]);
    assert forall i :: 0 <= i < 9 ==> s[i] != '\n';
  }

  lemma ExampleBraceCounts()
    ensures BraceCounts("{\"a\":\"}\"}") == (1, 2)
  {
    assert BraceCounts("}") == (0, 1);
    assert BraceCounts("\"}") == (0, 1);
    assert BraceCounts("}\"}") == (0, 2);
    assert BraceCounts("\"}\"}") == (0, 2);
    assert BraceCounts(":\"}\"}") == (0, 2);
    assert BraceCounts("\":\"}\"}") == (0, 2);
    assert BraceCounts("a\":\"}\"}") == (0, 2);
    assert BraceCounts("\"a\":\"}\"}") == (0, 2);
  }

  lemma ExampleStructuralCounts()
    ensures StructuralBraceCounts("{\"a\":\"}\"}", false, false) == (1, 1)
  {
    assert StructuralBraceCounts("}", false, false) == (0, 1);
    assert StructuralBraceCounts("\"}", true, false) == (0, 1);
    assert StructuralBraceCounts("}\"}", true, false) == (0, 1);
    assert StructuralBraceCounts("\"}\"}", false, false) == (0, 1);
    assert StructuralBraceCounts(":\"}\"}", false, false) == (0, 1);
    assert StructuralBraceCounts("\":\"}\"}", true, false) == (0, 1);
    assert StructuralBraceCounts("a\":\"}\"}", true, false) == (0, 1);
    assert StructuralBraceCounts("\"a\":\"}\"}", false, false) == (0, 1);
  }

  /** `{"a":"}"}` is well-formed JSON, but the source's count sees one `{` and two `}`. */
  lemma BraceInStringRefused()
    ensures JsonPreCheck("{\"a\":\"}\"}") == Unbalanced(1, 2)
  {
    ExampleIsOneLine();
    ExampleBraceCounts();
  }

  /** The structural count hands `{"a":"}"}` on to the JSON parser. */
  lemma BraceInStringAccepted()
    ensures JsonPreCheckStructural("{\"a\":\"}\"}") == ToParse("{\"a\":\"}\"}")
  {
    ExampleIsOneLine();
    ExampleStructuralCounts();
  }
}

=== FILE: SpecConverter.dfy ===
/**
 * The layout arithmetic of the JSON-to-XML category converter
 * (`asterixjson2xml.py`): item sizes, constraint values, the conversion
 * of rule-based JSON into variations, the bit ranges of a Fixed item, the
 * FSPEC of a Compound and the User Application Profile. JSON objects are
 * datatypes here; a Python exception is `None` or `Failure`.
 */
module SpecConverter {
  import opened Wrappers
  import Bytes

  // ---------------------------------------------------------------------
  // Variations and their sizes
  // ---------------------------------------------------------------------

  /** A converted variation; `Unsupported` is one kept as raw JSON of a kind nothing sizes. */
  datatype Variation =
    | Element(size: int)
    | Group(items: seq<Item>)
    | Repetitive(inner: Variation)
    | Extended(first: int, extents: int, items: seq<Item>)
    | Explicit
    | Compound(fspec: Option<int>, items: seq<Item>)
    | Unsupported

  /** An item slot: `None` in the JSON, a spare, an item without a variation, or a described item. */
  datatype Item = Absent | Spare(length: Option<int>) | Unconverted | Described(variation: Variation)

  /** `getVariationSize`: `None` where the source raises. */
  function VariationSize(v: Variation): Option<int>
    decreases v, 1
  {
    match v
    case Element(size) => Some(size)
    case Group(items) => ItemsSize(v, items)
    case Repetitive(inner) => VariationSize(inner)
    case _ => None
  }

  /** The sum over a group's items, which raises as soon as one of them does. */
  function ItemsSize(owner: Variation, items: seq<Item>): Option<int>
    requires forall i :: 0 <= i < |items| ==> items[i] < owner
    decreases owner, 0, |items|
  {
    if |items| == 0 then Some(0)
    else
      match ItemSize(owner, items[0])
      case None => None
      case Some(first) =>
        match ItemsSize(owner, items[1..])
        case None => None
        case Some(rest) => Some(first + rest)
  }

  /** `getItemSize`: 0 for `None` and for an item without a variation; a spare's length, 0 when it has none. */
  function ItemSize(owner: Variation, item: Item): Option<int>
    requires item < owner
    decreases owner, 0, 0
  {
    match item
    case Absent => Some(0)
    case Spare(length) => Some(length.GetOr(0))
    case Unconverted => Some(0)
    case Described(v) => VariationSize(v)
  }

  /** A variation the size functions can measure: only Elements, Groups and Repetitives. */
  predicate Sized(v: Variation)
    decreases v
  {
    match v
    case Element(_) => true
    case Group(items) => AllSized(v, items)
    case Repetitive(inner) => Sized(inner)
    case _ => false
  }

  predicate ItemSized(owner: Variation, item: Item)
    requires item < owner
    decreases owner, 0
  {
    item.Described? ==> Sized(item.variation)
  }

  /** The widths a sized variation is made of, left to right: Element sizes and spare lengths. */
  function Widths(v: Variation): seq<int>
    requires Sized(v)
    decreases v, 1
  {
    match v
    case Element(size) => [size]
    case Group(items) => assert AllSized(v, items); ItemsWidths(v, items)
    case Repetitive(inner) => Widths(inner)
  }

  function ItemsWidths(owner: Variation, items: seq<Item>): seq<int>
    requires forall i :: 0 <= i < |items| ==> items[i] < owner && ItemSized(owner, items[i])
    decreases owner, 0, |items|
  {
    if |items| == 0 then [] else ItemWidths(owner, items[0]) + ItemsWidths(owner, items[1..])
  }

  function ItemWidths(owner: Variation, item: Item): seq<int>
    requires item < owner && ItemSized(owner, item)
    decreases owner, 0, 0
  {
    match item
    case Spare(length) => [length.GetOr(0)]
    case Described(inner) => Widths(inner)
    case _ => []
  }

  predicate AllSized(owner: Variation, items: seq<Item>)
    requires forall i :: 0 <= i < |items| ==> items[i] < owner
    decreases owner, 1
  {
    forall i :: 0 <= i < |items| ==> ItemSized(owner, items[i])
  }

  function Sum(s: seq<int>): int {
    if |s| == 0 then 0 else s[0] + Sum(s[1..])
  }

  lemma {:induction false} SumAppend(a: seq<int>, b: seq<int>)
    ensures Sum(a + b) == Sum(a) + Sum(b)
  {
    if |a| > 0 {
      assert (a + b)[1..] == a[1..] + b;
      SumAppend(a[1..], b);
    } else {
      assert a + b == b;
    }
  }

  /** A variation has a size exactly when it is `Sized`, and then the size is the sum of its widths. */
  lemma {:induction false} SizeIsSumOfWidths(v: Variation)
    ensures VariationSize(v).Some? <==> Sized(v)
    ensures Sized(v) ==> VariationSize(v) == Some(Sum(Widths(v)))
    decreases v, 1
  {
    match v
    case Element(_) =>
    case Group(items) => ItemsSizeIsSum(v, items);
    case Repetitive(inner) => SizeIsSumOfWidths(inner);
    case _ =>
  }

  lemma {:induction false} ItemsSizeIsSum(owner: Variation, items: seq<Item>)
    requires forall i :: 0 <= i < |items| ==> items[i] < owner
    ensures ItemsSize(owner, items).Some? <==> AllSized(owner, items)
    ensures AllSized(owner, items) ==> ItemsSize(owner, items) == Some(Sum(ItemsWidths(owner, items)))
    decreases owner, 0, |items|
  {
    if |items| > 0 {
      var rest := items[1..];
      ItemsSizeIsSum(owner, rest);
      ItemSizeIsSum(owner, items[0]);
      AllSizedSplit(owner, items);
      if AllSized(owner, items) {
        SumAppend(ItemWidths(owner, items[0]), ItemsWidths(owner, rest));
      }
    }
  }

  lemma ItemSizeIsSum(owner: Variation, item: Item)
    requires item < owner
    ensures ItemSize(owner, item).Some? <==> ItemSized(owner, item)
    ensures ItemSized(owner, item) ==> ItemSize(owner, item) == Some(Sum(ItemWidths(owner, item)))
    decreases owner, 0, 0
  {
    match item
    case Described(inner) => SizeIsSumOfWidths(inner);
    case Spare(length) => assert Sum([length.GetOr(0)]) == length.GetOr(0);
    case _ =>
  }

  lemma AllSizedSplit(owner: Variation, items: seq<Item>)
    requires |items| > 0 && forall i :: 0 <= i < |items| ==> items[i] < owner
    ensures AllSized(owner, items) <==> ItemSized(owner, items[0]) && AllSized(owner, items[1..])
  {
    assert forall i :: 1 <= i < |items| ==> items[1..][i - 1] == items[i];
  }

  // ---------------------------------------------------------------------
  // Converting rule-based JSON
  // ---------------------------------------------------------------------

  /** The variation of a rule-based JSON item. */
  datatype RuleVariation =
    | RuleElement(size: int, dependentSize: Option<int>)
    | RuleGroup(items: seq<RuleItem>)
    | RuleExtended(items: seq<RuleItem>)
    | RuleRepetitive(fx: bool, inner: RuleVariation)
    | RuleExplicit
    | RuleCompound(fspec: FspecField, items: seq<RuleItem>)
    | RuleOther

  /** The `fspec` key of a Compound: absent, `null`, or a number of bits. */
  datatype FspecField = FspecMissing | FspecNull | FspecGiven(bits: int)

  /**
   * A rule-based JSON item: `None`, a spare, an item without a rule (or
   * with a rule of another type), a context-free rule over a variation,
   * or a top-level dependent rule with the size of its default case.
   */
  datatype RuleItem = RuleAbsent | RuleSpare(length: Option<int>) | NoRule | ContextFree(v: RuleVariation) | Dependent(defaultSize: Option<int>)

  /** Every Extended inside has one-octet first part and extents. */
  predicate OctetExtents(v: Variation)
    decreases v
  {
    match v
    case Group(items) => forall i :: 0 <= i < |items| ==> ItemOctetExtents(v, items[i])
    case Repetitive(inner) => OctetExtents(inner)
    case Extended(first, extents, items) =>
      first == 8 && extents == 8 && forall i :: 0 <= i < |items| ==> ItemOctetExtents(v, items[i])
    case Compound(_, items) => forall i :: 0 <= i < |items| ==> ItemOctetExtents(v, items[i])
    case _ => true
  }

  predicate ItemOctetExtents(owner: Variation, item: Item)
    requires item < owner
    decreases owner, 0
  {
    item.Described? ==> OctetExtents(item.variation)
  }

  /**
   * `convert_rule_to_variation`. An Element takes the default size of a
   * dependent content rule when there is one. Both an Extended and an
   * Fx-repetitive become an Extended of one-octet parts; the latter wraps
   * its inner variation, unconverted, as a single item.
   */
  function ConvertItem(item: RuleItem): (r: Item)
    ensures r.Described? ==> OctetExtents(r.variation)
    decreases item, 2
  {
    match item
    case RuleAbsent => Absent
    case RuleSpare(length) => Spare(length)
    case NoRule => Unconverted
    case Dependent(defaultSize) => Described(Element(defaultSize.GetOr(0)))
    case ContextFree(v) =>
      match v
      case RuleOther => Unconverted
      case _ => Described(ConvertVariation(v))
  }

  function ConvertVariation(v: RuleVariation): (r: Variation)
    requires !v.RuleOther?
    ensures OctetExtents(r)
    decreases v, 1
  {
    match v
    case RuleElement(size, dependentSize) => Element(dependentSize.GetOr(size))
    case RuleGroup(items) => Group(ConvertItems(v, items))
    case RuleExtended(items) => Extended(8, 8, ConvertItems(v, items))
    case RuleRepetitive(fx, inner) =>
      if fx then Extended(8, 8, [Described(AsIs(inner))])
      else Repetitive(ConvertRepeated(inner))
    case RuleExplicit => Explicit
    case RuleCompound(fspec, items) =>
      var bits := match fspec
        case FspecMissing => Some(0)
        case FspecNull => None
        case FspecGiven(n) => Some(n);
      Compound(bits, ConvertItems(v, items))
  }

  function ConvertItems(owner: RuleVariation, items: seq<RuleItem>): (r: seq<Item>)
    requires forall i :: 0 <= i < |items| ==> items[i] < owner
    ensures |r| == |items|
    ensures forall i :: 0 <= i < |r| ==> r[i] == ConvertItem(items[i])
    decreases owner, 0, |items|
  {
    if |items| == 0 then [] else [ConvertItem(items[0])] + ConvertItems(owner, items[1..])
  }

  /** The inner variation of a regular Repetitive: a Group's items are converted, an Element kept. */
  function ConvertRepeated(v: RuleVariation): (r: Variation)
    ensures OctetExtents(r)
    decreases v, 1
  {
    match v
    case RuleElement(size, _) => Element(size)
    case RuleGroup(items) => Group(ConvertItems(v, items))
    case _ => Unsupported
  }

  /** A variation taken over without conversion: its items have rules but no variations yet. */
  function AsIs(v: RuleVariation): (r: Variation)
    ensures OctetExtents(r)
  {
    match v
    case RuleElement(size, _) => Element(size)
    case RuleGroup(items) => Group(seq(|items|, i requires 0 <= i < |items| => RawItem(items[i])))
    case _ => Unsupported
  }

  function RawItem(item: RuleItem): Item {
    match item
    case RuleAbsent => Absent
    case RuleSpare(length) => Spare(length)
    case _ => Unconverted
  }

  /**
   * Conversion keeps every slot in place: `None` stays `None`, a spare
   * keeps its length, and a described item is one whose rule was
   * understood.
   */
  lemma ConvertKeepsSlots(items: seq<RuleItem>)
    ensures var r := ConvertItems(RuleGroup(items), items);
      forall i :: 0 <= i < |items| ==>
        && (r[i].Absent? <==> items[i].RuleAbsent?)
        && (items[i].RuleSpare? ==> r[i] == Spare(items[i].length))
        && (r[i].Described? <==> items[i].Dependent? || (items[i].ContextFree? && !items[i].v.RuleOther?))
  {
  }

  /**
   * A Compound whose `fspec` key is missing gets 0, which the renderer
   * takes for a declared FSPEC length: with any subitem it raises instead
   * of using an FX-extended FSPEC as it does for `null`.
   */
  lemma MissingFspecIsZero(items: seq<RuleItem>)
    ensures ConvertVariation(RuleCompound(FspecMissing, items)).fspec == Some(0)
    ensures ConvertVariation(RuleCompound(FspecNull, items)).fspec.None?
    ensures |items| > 0 ==> CompoundFspec(0, seq(|items|, _ => None)).None?
  {
  }

  /** An Fx-repetitive element and an Extended holding that element convert to the same variation. */
  lemma FxRepetitiveIsExtended(size: int)
    ensures ConvertItem(ContextFree(RuleRepetitive(true, RuleElement(size, None))))
         == ConvertItem(ContextFree(RuleExtended([ContextFree(RuleElement(size, None))])))
  {
    var items := [ContextFree(RuleElement(size, None))];
    assert items[1..] == [];
    assert ConvertItems(RuleExtended(items), items) == [ConvertItem(items[0])] + ConvertItems(RuleExtended(items), items[1..]);
  }

  /** An Extended has no size: measuring one raises. */
  lemma ExtendedHasNoSize(items: seq<RuleItem>)
    ensures VariationSize(ConvertVariation(RuleExtended(items))).None?
  {
  }

  // ---------------------------------------------------------------------
  // Fixed items
  // ---------------------------------------------------------------------

  /** Bits numbered from the item's last bit (1) up to its first; `from` is the higher. */
  datatype BitRange = BitRange(from: int, to: int)

  /** The sizes above zero, in order. */
  function Positive(sizes: seq<int>): (r: seq<int>)
    ensures |r| <= |sizes|
    ensures forall k :: 0 <= k < |r| ==> r[k] > 0
    ensures forall n :: n in r <==> n in sizes && n > 0
  {
    if |sizes| == 0 then []
    else if sizes[0] > 0 then [sizes[0]] + Positive(sizes[1..])
    else Positive(sizes[1..])
  }

  /**
   * The loop of `Fixed.render`: items of size 0 or less are skipped; each
   * other item takes the next `n` bits downwards from `bitsFrom`.
   */
  function FixedBits(bitsFrom: int, sizes: seq<int>): (r: seq<BitRange>)
    ensures |r| == |Positive(sizes)|
    decreases |sizes|
  {
    if |sizes| == 0 then []
    else if sizes[0] <= 0 then FixedBits(bitsFrom, sizes[1..])
    else [BitRange(bitsFrom, bitsFrom - sizes[0] + 1)] + FixedBits(bitsFrom - sizes[0], sizes[1..])
  }

  /** Each range starts on the bit right below the end of the one before it. */
  predicate Adjacent(r: seq<BitRange>) {
    forall k :: 0 <= k < |r| - 1 ==> r[k + 1].from == r[k].to - 1
  }

  /**
   * The ranges are as wide as the positive sizes, in order; the first
   * starts at `bitsFrom`, each next one starts right below the previous
   * one, and the last ends the total width below `bitsFrom`.
   */
  lemma FixedBitsLayout(bitsFrom: int, sizes: seq<int>)
    ensures var r := FixedBits(bitsFrom, sizes);
      && (forall k :: 0 <= k < |r| ==> r[k].from - r[k].to + 1 == Positive(sizes)[k])
      && (|r| > 0 ==> r[0].from == bitsFrom)
      && Adjacent(r)
      && (|r| > 0 ==> r[|r| - 1].to == bitsFrom - Sum(Positive(sizes)) + 1)
  {
    FixedBitsWidths(bitsFrom, sizes);
    FixedBitsStart(bitsFrom, sizes);
    FixedBitsContiguous(bitsFrom, sizes);
  }

  lemma {:induction false} FixedBitsWidths(bitsFrom: int, sizes: seq<int>)
    ensures var r := FixedBits(bitsFrom, sizes);
      forall k :: 0 <= k < |r| ==> r[k].from - r[k].to + 1 == Positive(sizes)[k]
    decreases |sizes|
  {
    if |sizes| > 0 {
      if sizes[0] <= 0 {
        FixedBitsWidths(bitsFrom, sizes[1..]);
        assert FixedBits(bitsFrom, sizes) == FixedBits(bitsFrom, sizes[1..]);
        assert Positive(sizes) == Positive(sizes[1..]);
      } else {
        FixedBitsWidths(bitsFrom - sizes[0], sizes[1..]);
        var rest := FixedBits(bitsFrom - sizes[0], sizes[1..]);
        var r := FixedBits(bitsFrom, sizes);
        var p := Positive(sizes);
        var q := Positive(sizes[1..]);
        assert p == [sizes[0]] + q;
        assert r == [BitRange(bitsFrom, bitsFrom - sizes[0] + 1)] + rest;
        forall k | 0 <= k < |r|
          ensures r[k].from - r[k].to + 1 == p[k]
        {
          if k > 0 {
            assert r[k] == rest[k - 1] && p[k] == q[k - 1];
          }
        }
      }
    }
  }

  lemma {:induction false} FixedBitsContiguous(bitsFrom: int, sizes: seq<int>)
    ensures var r := FixedBits(bitsFrom, sizes);
      && Adjacent(r)
      && (|r| > 0 ==> r[|r| - 1].to == bitsFrom - Sum(Positive(sizes)) + 1)
  {
    FixedBitsAdjacent(bitsFrom, sizes);
    FixedBitsEnd(bitsFrom, sizes);
  }

  lemma {:induction false} FixedBitsAdjacent(bitsFrom: int, sizes: seq<int>)
    ensures Adjacent(FixedBits(bitsFrom, sizes))
    decreases |sizes|
  {
    if |sizes| > 0 {
      if sizes[0] <= 0 {
        FixedBitsAdjacent(bitsFrom, sizes[1..]);
        assert FixedBits(bitsFrom, sizes) == FixedBits(bitsFrom, sizes[1..]);
      } else {
        FixedBitsAdjacent(bitsFrom - sizes[0], sizes[1..]);
        FixedBitsStart(bitsFrom - sizes[0], sizes[1..]);
        var rest := FixedBits(bitsFrom - sizes[0], sizes[1..]);
        var r := FixedBits(bitsFrom, sizes);
        assert r == [BitRange(bitsFrom, bitsFrom - sizes[0] + 1)] + rest;
        forall k | 0 <= k < |r| - 1
          ensures r[k + 1].from == r[k].to - 1
        {
          if k == 0 {
            assert r[1] == rest[0];
          } else {
            assert r[k + 1] == rest[k] && r[k] == rest[k - 1];
          }
        }
      }
    }
  }

  lemma {:induction false} FixedBitsStart(bitsFrom: int, sizes: seq<int>)
    ensures var r := FixedBits(bitsFrom, sizes);
      |r| > 0 ==> r[0].from == bitsFrom
    decreases |sizes|
  {
    if |sizes| > 0 && sizes[0] <= 0 {
      FixedBitsStart(bitsFrom, sizes[1..]);
    }
  }

  lemma {:induction false} FixedBitsEnd(bitsFrom: int, sizes: seq<int>)
    ensures var r := FixedBits(bitsFrom, sizes);
      |r| > 0 ==> r[|r| - 1].to == bitsFrom - Sum(Positive(sizes)) + 1
    decreases |sizes|
  {
    if |sizes| > 0 {
      if sizes[0] <= 0 {
        FixedBitsEnd(bitsFrom, sizes[1..]);
      } else {
        FixedBitsEnd(bitsFrom - sizes[0], sizes[1..]);
        var rest := FixedBits(bitsFrom - sizes[0], sizes[1..]);
        var r := FixedBits(bitsFrom, sizes);
        var p := Positive(sizes);
        var q := Positive(sizes[1..]);
        assert p == [sizes[0]] + q;
        assert r == [BitRange(bitsFrom, bitsFrom - sizes[0] + 1)] + rest;
        assert Sum(p) == sizes[0] + Sum(q) by {
          assert p[1..] == q;
        }
        if |rest| > 0 {
          assert r[|r| - 1] == rest[|rest| - 1];
        } else {
          assert q == [];
        }
      }
    }
  }

  /** What `Fixed.render` emits: a `<Fixed>` of some octets with bit ranges, or one bare BDS bit range. */
  datatype FixedOutput = FixedTag(octets: int, bits: seq<BitRange>) | BdsBits(range: BitRange)

  /** Why `Fixed.render` raises: a size that is not whole octets, an item with no size, or a lone `None` item. */
  datatype FixedError = NotOctetAligned | NoSize | LoneAbsentItem

  /** The sizes of a Fixed's items, in order; `None` where measuring one raises. */
  function ItemSizes(items: seq<Item>): (r: Option<seq<int>>)
    ensures r.Some? ==> |r.value| == |items|
    ensures r.Some? <==> forall i :: 0 <= i < |items| ==> ItemSize(Group(items), items[i]).Some?
  {
    if |items| == 0 then Some([])
    else
      assert forall i :: 1 <= i < |items| ==> items[i] == items[1..][i - 1];
      assert forall i :: 1 <= i < |items| ==> ItemSize(Group(items), items[i]) == ItemSize(Group(items[1..]), items[i]);
      match ItemSize(Group(items), items[0])
      case None => None
      case Some(first) =>
        match ItemSizes(items[1..])
        case None => None
        case Some(rest) => Some([first] + rest)
  }

  /**
   * `Fixed.render` for an item of `bitSize` bits: the size must be whole
   * octets; a single item with BDS content (`singleIsBds`) is one bare bit
   * range, and a single `None` item fails that test by raising.
   */
  function RenderFixed(bitSize: int, items: seq<Item>, singleIsBds: bool): (r: Result<FixedOutput, FixedError>)
    ensures bitSize % 8 != 0 ==> r == Failure(NotOctetAligned)
    ensures r.Success? && r.value.FixedTag? ==> 8 * r.value.octets == bitSize && |r.value.bits| <= |items|
    ensures r.Success? && r.value.BdsBits? ==> r.value.range.from == bitSize && |items| == 1
  {
    if bitSize % 8 != 0 then Failure(NotOctetAligned)
    else if |items| == 1 && items[0].Absent? then Failure(LoneAbsentItem)
    else if |items| == 1 && singleIsBds then
      match ItemSize(Group(items), items[0])
      case None => Failure(NoSize)
      case Some(n) => Success(BdsBits(BitRange(bitSize, bitSize - n + 1)))
    else
      match ItemSizes(items)
      case None => Failure(NoSize)
      case Some(sizes) => Success(FixedTag(bitSize / 8, FixedBits(bitSize, sizes)))
  }

  /** When the positive sizes fill the item exactly, the ranges tile it from its first bit down to bit 1. */
  lemma FixedTilesItem(bitSize: int, items: seq<Item>, sizes: seq<int>)
    requires bitSize % 8 == 0
    requires ItemSizes(items) == Some(sizes) && Sum(Positive(sizes)) == bitSize && |Positive(sizes)| > 0
    ensures RenderFixed(bitSize, items, false).Success?
    ensures var bits := RenderFixed(bitSize, items, false).value.bits;
      && (forall k :: 0 <= k < |bits| ==> bits[k].from - bits[k].to + 1 == Positive(sizes)[k])
      && bits[0].from == bitSize && bits[|bits| - 1].to == 1
  {
    assert !(|items| == 1 && items[0].Absent?) by {
      if |items| == 1 && items[0].Absent? {
        LoneAbsentHasNoWidth(items, sizes);
      }
    }
    FixedBitsLayout(bitSize, sizes);
  }

  lemma LoneAbsentHasNoWidth(items: seq<Item>, sizes: seq<int>)
    requires |items| == 1 && items[0].Absent? && ItemSizes(items) == Some(sizes)
    ensures Positive(sizes) == []
  {
    assert sizes == [0];
  }

  // ---------------------------------------------------------------------
  // Compound FSPEC with a given length
  // ---------------------------------------------------------------------

  /** One bit of a Compound's FSPEC: a subitem's presence bit or a spare. */
  datatype FspecBit = PresenceBit(bit: int, name: string, presence: nat) | SpareBit(bit: int)

  function CountPresent(items: seq<Option<string>>): nat {
    if |items| == 0 then 0 else (if items[0].Some? then 1 else 0) + CountPresent(items[1..])
  }

  lemma {:induction false} CountPresentAppend(a: seq<Option<string>>, x: Option<string>)
    ensures CountPresent(a + [x]) == CountPresent(a) + (if x.Some? then 1 else 0)
  {
    if |a| > 0 {
      assert (a + [x])[1..] == a[1..] + [x];
      CountPresentAppend(a[1..], x);
    }
  }

  /** The loop of `Compound.render`: bits count down from `n`, presence numbers count up from `bp` over present subitems. */
  function FspecBits(items: seq<Option<string>>, n: int, bp: nat): (r: seq<FspecBit>)
    ensures |r| == |items|
    ensures forall k :: 0 <= k < |r| ==> r[k].bit == n - k
    ensures forall k :: 0 <= k < |r| ==> (r[k].PresenceBit? <==> items[k].Some?)
    ensures forall k :: 0 <= k < |r| && items[k].Some? ==>
      r[k].name == items[k].value && r[k].presence == bp + CountPresent(items[..k])
  {
    if |items| == 0 then []
    else
      var rest := FspecBits(items[1..], n - 1, if items[0].Some? then bp + 1 else bp);
      assert forall k :: 1 <= k <= |items| ==> items[..k] == [items[0]] + items[1..][..k - 1];
      if items[0].Some? then [PresenceBit(n, items[0].value, bp)] + rest
      else [SpareBit(n)] + rest
  }

  /**
   * `Compound.render` with a declared FSPEC length: it must be whole
   * octets and equal the number of subitems, each subitem taking one bit
   * numbered from the top down.
   */
  function CompoundFspec(fspec: int, items: seq<Option<string>>): (r: Option<(int, seq<FspecBit>)>)
    ensures r.Some? <==> fspec % 8 == 0 && fspec == |items|
    ensures r.Some? ==> 8 * r.value.0 == |items| && |r.value.1| == |items|
    ensures r.Some? ==> forall k :: 0 <= k < |items| ==> r.value.1[k].bit == |items| - k
    ensures r.Some? ==> forall k :: 0 <= k < |items| && items[k].Some? ==>
      r.value.1[k].PresenceBit? && r.value.1[k].presence == 1 + CountPresent(items[..k])
  {
    if fspec % 8 != 0 || fspec != |items| then None
    else Some((fspec / 8, FspecBits(items, |items|, 1)))
  }

  /** Presence numbers are 1, 2, ... over the present subitems: the last one is their count. */
  lemma PresenceNumbersConsecutive(fspec: int, items: seq<Option<string>>)
    requires CompoundFspec(fspec, items).Some? && |items| > 0 && items[|items| - 1].Some?
    ensures CompoundFspec(fspec, items).value.1[|items| - 1].presence == CountPresent(items)
  {
    var k := |items| - 1;
    assert items == items[..k] + [items[k]];
    CountPresentAppend(items[..k], items[k]);
  }

  // ---------------------------------------------------------------------
  // User Application Profile
  // ---------------------------------------------------------------------

  /** A `<UAPItem>`: a field reference number with its item, or the FX bit closing an octet. */
  datatype UapEntry = UapItem(bit: int, frn: int, shown: string) | UapFx(bit: int)

  /** `i or '-'`: a missing or empty item name is shown as "-". */
  function Label(name: Option<string>): (s: string)
    ensures |s| > 0
    ensures name.Some? && name.value != "" ==> s == name.value
    ensures name.None? || name.value == "" ==> s == "-"
  {
    if name.None? || name.value == "" then "-" else name.value
  }

  /** The padding after the last item: "-" entries until the bit before an FX position. */
  function Padding(bit: int, frn: int): (r: seq<UapEntry>)
    ensures |r| == (7 - bit % 8)
    ensures forall j :: 0 <= j < |r| ==> r[j] == UapItem(bit + j, frn + j, "-")
    decreases 7 - bit % 8
  {
    if bit % 8 == 7 then []
    else [UapItem(bit, frn, "-")] + Padding(bit + 1, frn + 1)
  }

  /** The entries for the items of one chunk, from a given bit and FRN. */
  function Chunk(items: seq<Option<string>>, bit: int, frn: int): (r: seq<UapEntry>)
    ensures |r| == |items|
    ensures forall j :: 0 <= j < |items| ==> r[j] == UapItem(bit + j, frn + j, Label(items[j]))
  {
    seq(|items|, j requires 0 <= j < |items| => UapItem(bit + j, frn + j, Label(items[j])))
  }

  /** The loop of `renderUap` from a given bit and FRN: chunks of seven items, each closed by an FX entry. */
  function UapLoop(items: seq<Option<string>>, bit: int, frn: int): seq<UapEntry>
    decreases |items|
  {
    if |items| <= 7 then
      var pad := Padding(bit + |items|, frn + |items|);
      Chunk(items, bit, frn) + pad + [UapFx(bit + |items| + |pad|)]
    else Chunk(items[..7], bit, frn) + [UapFx(bit + 7)] + UapLoop(items[7..], bit + 8, frn + 7)
  }

  /** `renderUap` for one UAP variation. */
  function RenderUap(items: seq<Option<string>>): seq<UapEntry> {
    UapLoop(items, 0, 1)
  }

  /** The label of FRN slot `s` (from 0): the item there, or "-" past the end. */
  function Slot(items: seq<Option<string>>, s: int): string {
    if 0 <= s < |items| then Label(items[s]) else "-"
  }

  /** Octet `k` of the profile: FRNs 7k+1 .. 7k+7 on bits 8k .. 8k+6, then FX on bit 8k+7. */
  function Octet(items: seq<Option<string>>, k: int): (r: seq<UapEntry>)
    ensures |r| == 8
    ensures forall j :: 0 <= j < 7 ==> r[j] == UapItem(8 * k + j, 7 * k + j + 1, Slot(items, 7 * k + j))
    ensures r[7] == UapFx(8 * k + 7)
  {
    seq(7, j requires 0 <= j < 7 => UapItem(8 * k + j, 7 * k + j + 1, Slot(items, 7 * k + j))) + [UapFx(8 * k + 7)]
  }

  /** Octets `k` .. `count - 1`. */
  function Octets(items: seq<Option<string>>, k: nat, count: nat): (r: seq<UapEntry>)
    ensures |r| == if k >= count then 0 else 8 * (count - k)
    decreases count - k
  {
    if k >= count then [] else Octet(items, k) + Octets(items, k + 1, count)
  }

  /** How many octets the profile takes: one at least, else one per seven items. */
  function OctetCount(n: nat): nat {
    if n == 0 then 1 else (n + 6) / 7
  }

  /** The last chunk, padded and closed by FX, is the octet of its slots. */
  lemma LastChunk(items: seq<Option<string>>, k: nat)
    requires 7 * k <= |items| <= 7 * k + 7
    ensures UapLoop(items[7 * k..], 8 * k, 7 * k + 1) == Octet(items, k)
  {
    var rest := items[7 * k..];
    var take := |rest|;
    var chunk := Chunk(rest, 8 * k, 7 * k + 1);
    var pad := Padding(8 * k + take, 7 * k + 1 + take);
    Bytes.DivUnique(8 * k + take, 8, k, take);
    assert |pad| == 7 - take;
    var r := chunk + pad + [UapFx(8 * k + 7)];
    assert UapLoop(rest, 8 * k, 7 * k + 1) == r;
    LastChunkEntries(items, k, chunk, pad);
  }

  lemma LastChunkEntries(items: seq<Option<string>>, k: nat, chunk: seq<UapEntry>, pad: seq<UapEntry>)
    requires 7 * k <= |items| <= 7 * k + 7
    requires chunk == Chunk(items[7 * k..], 8 * k, 7 * k + 1)
    requires |pad| == 7 - |chunk|
    requires forall j :: 0 <= j < |pad| ==> pad[j] == UapItem(8 * k + |chunk| + j, 7 * k + 1 + |chunk| + j, "-")
    ensures chunk + pad + [UapFx(8 * k + 7)] == Octet(items, k)
  {
    var rest := items[7 * k..];
    var take := |rest|;
    var r := chunk + pad + [UapFx(8 * k + 7)];
    var o := Octet(items, k);
    forall j | 0 <= j < 8
      ensures r[j] == o[j]
    {
      if j < take {
        assert r[j] == chunk[j];
        assert rest[j] == items[7 * k + j];
      } else if j < 7 {
        assert r[j] == pad[j - take];
      }
    }
  }

  /** A full chunk followed by FX is the octet of its slots. */
  lemma FullChunk(items: seq<Option<string>>, k: nat)
    requires 7 * k + 7 < |items|
    ensures Chunk(items[7 * k..][..7], 8 * k, 7 * k + 1) + [UapFx(8 * k + 7)] == Octet(items, k)
  {
    var rest := items[7 * k..][..7];
    var head := Chunk(rest, 8 * k, 7 * k + 1) + [UapFx(8 * k + 7)];
    var o := Octet(items, k);
    forall j | 0 <= j < 7
      ensures head[j] == o[j]
    {
      assert rest[j] == items[7 * k + j];
    }
  }

  lemma {:induction false} LoopIsOctets(items: seq<Option<string>>, k: nat)
    requires 7 * k <= |items| && (7 * k < |items| || k == 0)
    ensures UapLoop(items[7 * k..], 8 * k, 7 * k + 1) == Octets(items, k, OctetCount(|items|))
    decreases |items| - 7 * k
  {
    var count := OctetCount(|items|);
    OctetCountFrom(|items|, k);
    OctetsCons(items, k, count);
    if |items| <= 7 * k + 7 {
      LastChunk(items, k);
    } else {
      LoopStep(items, k);
      LoopIsOctets(items, k + 1);
    }
  }

  lemma OctetsCons(items: seq<Option<string>>, k: nat, count: nat)
    requires k < count
    ensures Octets(items, k, count) == Octet(items, k) + Octets(items, k + 1, count)
    ensures k + 1 == count ==> Octets(items, k, count) == Octet(items, k)
  {
    if k + 1 == count {
      assert Octets(items, k + 1, count) == [];
    }
  }

  /** Where chunk `k` falls among the octets: the last one, or one with more to follow. */
  lemma OctetCountFrom(n: nat, k: nat)
    requires 7 * k <= n && (7 * k < n || k == 0)
    ensures n <= 7 * k + 7 ==> OctetCount(n) == k + 1
    ensures n > 7 * k + 7 ==> OctetCount(n) > k + 1
  {
    if n > 0 {
      var q, r := (n + 6) / 7, (n + 6) % 7;
      assert n + 6 == 7 * q + r && 0 <= r < 7;
    }
  }

  /** Before the last chunk, the loop emits the octet of the chunk and carries on with the next. */
  lemma LoopStep(items: seq<Option<string>>, k: nat)
    requires 7 * k + 7 < |items|
    ensures UapLoop(items[7 * k..], 8 * k, 7 * k + 1)
      == Octet(items, k) + UapLoop(items[7 * (k + 1)..], 8 * (k + 1), 7 * (k + 1) + 1)
  {
    var rest := items[7 * k..];
    assert rest[7..] == items[7 * (k + 1)..];
    FullChunk(items, k);
    assert UapLoop(rest, 8 * k, 7 * k + 1)
        == Chunk(rest[..7], 8 * k, 7 * k + 1) + [UapFx(8 * k + 7)] + UapLoop(rest[7..], 8 * (k + 1), 7 * (k + 1) + 1);
  }

  /**
   * The profile is whole octets, one per seven items (one when there are
   * none): FRN 7k+j+1 sits on bit 8k+j with the item in that slot or "-",
   * and bit 8k+7 is FX.
   */
  lemma UapIsOctets(items: seq<Option<string>>)
    ensures RenderUap(items) == Octets(items, 0, OctetCount(|items|))
    ensures |RenderUap(items)| == 8 * OctetCount(|items|)
  {
    LoopIsOctets(items, 0);
  }

  /** Every entry of a run of octets sits on the bit equal to its position, and exactly the positions 7 mod 8 are FX. */
  lemma {:induction false} OctetsLayout(items: seq<Option<string>>, k: nat, count: nat)
    ensures forall p :: 0 <= p < |Octets(items, k, count)| ==>
      Octets(items, k, count)[p].bit == 8 * k + p && (Octets(items, k, count)[p].UapFx? <==> p % 8 == 7)
    decreases count - k
  {
    if k < count {
      OctetsLayout(items, k + 1, count);
      var o := Octet(items, k);
      var rest := Octets(items, k + 1, count);
      var r := Octets(items, k, count);
      assert r == o + rest;
      forall p | 0 <= p < |r|
        ensures r[p].bit == 8 * k + p && (r[p].UapFx? <==> p % 8 == 7)
      {
        if p < 7 {
          assert r[p] == o[p] == UapItem(8 * k + p, 7 * k + p + 1, Slot(items, 7 * k + p));
        } else if p == 7 {
          assert r[p] == o[7];
        } else {
          assert r[p] == rest[p - 8];
          assert rest[p - 8].bit == 8 * (k + 1) + (p - 8);
          assert (p - 8) % 8 == p % 8;
        }
      }
    }
  }

  /** In the rendered profile entry `p` is on bit `p`, and it is FX exactly when `p` is 7 mod 8. */
  lemma UapFxPositions(items: seq<Option<string>>)
    ensures var r := RenderUap(items);
      forall p :: 0 <= p < |r| ==> r[p].bit == p && (r[p].UapFx? <==> p % 8 == 7)
  {
    UapIsOctets(items);
    OctetsLayout(items, 0, OctetCount(|items|));
  }
}

=== FILE: Text.dfy ===
/**
 * Character-string helpers with the semantics of the Rust standard library
 * calls the transports make: `from_str_radix` for unsigned types, decimal
 * `Display`, `split`, `strip_prefix`, `trim_start_matches` and
 * `char::is_whitespace`. Strings are sequences of Unicode scalar values.
 */
module Text {
  import opened Wrappers

  /** `char::to_digit(radix)` for radix 10 or 16. */
  function DigitValue(c: char, radix: nat): (d: Option<nat>)
    requires radix == 10 || radix == 16
    ensures d.Some? ==> d.value < radix
  {
    if '0' <= c <= '9' then Some(c as int - '0' as int)
    else if radix == 16 && 'a' <= c <= 'f' then Some(c as int - 'a' as int + 10)
    else if radix == 16 && 'A' <= c <= 'F' then Some(c as int - 'A' as int + 10)
    else None
  }

  predicate AllDigits(s: string, radix: nat)
    requires radix == 10 || radix == 16
  {
    forall i :: 0 <= i < |s| ==> DigitValue(s[i], radix).Some?
  }

  /** The value of a string of digits, most significant first. */
  function DigitsValue(s: string, radix: nat): nat
    requires radix == 10 || radix == 16
    requires AllDigits(s, radix)
  {
    if |s| == 0 then 0
    else DigitsValue(s[..|s| - 1], radix) * radix + DigitValue(s[|s| - 1], radix).value
  }

  /**
   * Rust's `from_str_radix` for an unsigned type whose largest value is
   * `max`: one optional leading '+', then at least one digit; a lone "+",
   * an empty string, any other character or a value above `max` fail.
   */
  function ParseUnsigned(s: string, radix: nat, max: nat): (r: Option<nat>)
    requires radix == 10 || radix == 16
    ensures r.Some? ==> r.value <= max
    ensures |s| == 0 ==> r.None?
    ensures s == "+" ==> r.None?
  {
    var digits := if |s| > 0 && s[0] == '+' then s[1..] else s;
    if |digits| == 0 || !AllDigits(digits, radix) then None
    else if DigitsValue(digits, radix) <= max then Some(DigitsValue(digits, radix))
    else None
  }

  /** `str::parse::<u8>()`. */
  function ParseU8(s: string): (r: Option<nat>)
    ensures r.Some? ==> r.value < 256
  {
    ParseUnsigned(s, 10, 255)
  }

  function DigitChar(d: nat): (c: char)
    requires d < 10
    ensures DigitValue(c, 10) == Some(d)
  {
    ('0' as int + d) as char
  }

  /** Decimal `Display` of an unsigned integer: no sign, no leading zeros. */
  function Decimal(n: nat): (s: string)
    ensures |s| >= 1 && AllDigits(s, 10)
    ensures s[0] != '+' && (s[0] == '0' ==> n == 0)
  {
    if n < 10 then [DigitChar(n)] else Decimal(n / 10) + [DigitChar(n % 10)]
  }

  lemma {:induction false} DecimalValue(n: nat)
    ensures DigitsValue(Decimal(n), 10) == n
  {
    if n >= 10 {
      var s := Decimal(n);
      assert s[..|s| - 1] == Decimal(n / 10);
      DecimalValue(n / 10);
    }
  }

  /** Parsing the decimal text of a value that fits gives the value back. */
  lemma DecimalRoundTrip(n: nat, max: nat)
    requires n <= max
    ensures ParseUnsigned(Decimal(n), 10, max) == Some(n)
  {
    DecimalValue(n);
  }

  /** Decimal text holds nothing but digits, so no separator. */
  lemma DecimalExcludes(n: nat, c: char)
    requires DigitValue(c, 10).None?
    ensures c !in Decimal(n)
  {
    var s := Decimal(n);
    assert forall i :: 0 <= i < |s| ==> s[i] != c;
  }

  /** A value below 1000 has at most three decimal digits. */
  lemma DecimalBound(n: nat)
    requires n < 1000
    ensures |Decimal(n)| <= 3
  {
    if n >= 10 {
      assert |Decimal(n / 10)| <= 2 by {
        if n / 10 >= 10 {
          assert n / 10 / 10 < 10;
        }
      }
    }
  }

  /** `format!("{:0w}", n)`: decimal text left-padded with '0' to width `w`. */
  function ZeroPadded(n: nat, w: nat): (s: string)
    ensures |s| >= w
    ensures |Decimal(n)| <= w ==> |s| == w
  {
    var d := Decimal(n);
    if |d| >= w then d else seq(w - |d|, _ => '0') + d
  }

  function StripPrefix(s: string, prefix: string): (r: Option<string>)
    ensures r.Some? <==> prefix <= s
    ensures r.Some? ==> prefix + r.value == s
  {
    if prefix <= s then Some(s[|prefix|..]) else None
  }

  /** `trim_start_matches(c)`: drop every leading `c`. */
  function TrimStart(s: string, c: char): (r: string)
    ensures |r| <= |s|
    ensures |r| > 0 ==> r[0] != c
    ensures forall i :: 0 <= i < |s| - |r| ==> s[i] == c
    ensures r == s[|s| - |r|..]
  {
    if |s| > 0 && s[0] == c then TrimStart(s[1..], c) else s
  }

  /** `s.split(sep)`: the pieces between separators, empty ones included. */
  function Split(s: string, sep: char): (parts: seq<string>)
    ensures |parts| >= 1
    ensures forall i :: 0 <= i < |parts| ==> sep !in parts[i]
  {
    SplitFrom(s, sep, [])
  }

  function SplitFrom(s: string, sep: char, current: string): (parts: seq<string>)
    requires sep !in current
    ensures |parts| >= 1
    ensures forall i :: 0 <= i < |parts| ==> sep !in parts[i]
    decreases |s|
  {
    if |s| == 0 then [current]
    else if s[0] == sep then [current] + SplitFrom(s[1..], sep, [])
    else SplitFrom(s[1..], sep, current + [s[0]])
  }

  /** The pieces joined with `sep` between them, as `format!("{a}/{b}")`. */
  function Join(parts: seq<string>, sep: char): string
    requires |parts| >= 1
  {
    if |parts| == 1 then parts[0] else parts[0] + [sep] + Join(parts[1..], sep)
  }

  /** A join starts with the first character of its first piece. */
  lemma JoinHead(parts: seq<string>, sep: char)
    requires |parts| >= 1 && |parts[0]| > 0
    ensures |Join(parts, sep)| > 0 && Join(parts, sep)[0] == parts[0][0]
  {
  }

  /** A join starts with its first piece. */
  lemma JoinPrefix(parts: seq<string>, sep: char)
    requires |parts| >= 1
    ensures |Join(parts, sep)| >= |parts[0]| && Join(parts, sep)[..|parts[0]|] == parts[0]
  {
    if |parts| > 1 {
      assert Join(parts, sep) == parts[0] + ([sep] + Join(parts[1..], sep));
    }
  }

  /** A join whose first piece is empty starts with the separator. */
  lemma JoinEmptyHead(parts: seq<string>, sep: char)
    requires |parts| >= 2 && |parts[0]| == 0
    ensures Join(parts, sep) == [sep] + Join(parts[1..], sep)
  {
  }

  /** A join whose first piece is not empty starts with that piece's first character, then joins the rest of it with the other pieces. */
  lemma JoinUncons(parts: seq<string>, sep: char)
    requires |parts| >= 1 && |parts[0]| > 0
    requires forall i :: 0 <= i < |parts| ==> sep !in parts[i]
    ensures var tail := [parts[0][1..]] + parts[1..];
      && |Join(parts, sep)| > 0 && Join(parts, sep)[0] == parts[0][0] != sep
      && Join(parts, sep)[1..] == Join(tail, sep)
      && (forall i :: 0 <= i < |tail| ==> sep !in tail[i])
      && tail[0] == parts[0][1..] && tail[1..] == parts[1..]
  {
    var tail := [parts[0][1..]] + parts[1..];
    var s := Join(parts, sep);
    assert tail[1..] == parts[1..];
    assert sep !in parts[0][1..] by {
      assert forall k :: 0 <= k < |parts[0][1..]| ==> parts[0][1..][k] == parts[0][k + 1];
    }
    forall i | 0 <= i < |tail|
      ensures sep !in tail[i]
    {
      if i > 0 {
        assert tail[i] == parts[i];
      }
    }
    if |parts| == 1 {
      assert s == parts[0];
      assert Join(tail, sep) == parts[0][1..];
    } else {
      assert s == parts[0] + [sep] + Join(parts[1..], sep);
      assert Join(tail, sep) == parts[0][1..] + [sep] + Join(parts[1..], sep);
    }
    assert s[0] == parts[0][0];
    assert parts[0][0] in parts[0];
  }

  lemma {:induction false} SplitFromJoin(parts: seq<string>, sep: char, current: string)
    requires |parts| >= 1
    requires sep !in current
    requires forall i :: 0 <= i < |parts| ==> sep !in parts[i]
    ensures SplitFrom(Join(parts, sep), sep, current) == [current + parts[0]] + parts[1..]
    decreases |Join(parts, sep)|
  {
    var s := Join(parts, sep);
    if |parts[0]| == 0 {
      if |parts| == 1 {
        assert s == [];
      } else {
        JoinEmptyHead(parts, sep);
        assert s[1..] == Join(parts[1..], sep);
        SplitFromJoin(parts[1..], sep, []);
        assert parts[1..][1..] == parts[2..];
        assert [] + parts[1..][0] == parts[1];
        assert [parts[1]] + parts[2..] == parts[1..];
        assert SplitFrom(s, sep, current) == [current] + parts[1..];
      }
      assert current + parts[0] == current;
    } else {
      var tail := [parts[0][1..]] + parts[1..];
      JoinUncons(parts, sep);
      SplitFromJoin(tail, sep, current + [s[0]]);
      assert current + [s[0]] + parts[0][1..] == current + parts[0];
    }
  }

  /** Splitting a joined list gives the list back when no piece holds the separator. */
  lemma SplitJoin(parts: seq<string>, sep: char)
    requires |parts| >= 1
    requires forall i :: 0 <= i < |parts| ==> sep !in parts[i]
    ensures Split(Join(parts, sep), sep) == parts
  {
    SplitFromJoin(parts, sep, []);
    assert [] + parts[0] == parts[0];
    assert [parts[0]] + parts[1..] == parts;
  }

  /** `char::is_whitespace`: the Unicode White_Space property. */
  predicate IsWhitespace(c: char) {
    var v := c as int;
    (0x09 <= v <= 0x0D) || v == 0x20 || v == 0x85 || v == 0xA0 || v == 0x1680
    || (0x2000 <= v <= 0x200A) || v == 0x2028 || v == 0x2029 || v == 0x202F
    || v == 0x205F || v == 0x3000
  }

  /** `s.chars().filter(|c| !c.is_whitespace()).collect()`. */
  function RemoveWhitespace(s: string): (r: string)
    ensures forall i :: 0 <= i < |r| ==> !IsWhitespace(r[i])
    ensures |r| <= |s|
    ensures (forall i :: 0 <= i < |s| ==> !IsWhitespace(s[i])) ==> r == s
  {
    if |s| == 0 then []
    else if IsWhitespace(s[0]) then RemoveWhitespace(s[1..])
    else [s[0]] + RemoveWhitespace(s[1..])
  }

  /** `trim_start()`: drop leading whitespace. */
  function TrimStartWhitespace(s: string): (r: string)
    ensures |r| > 0 ==> !IsWhitespace(r[0])
    ensures |s| > 0 && !IsWhitespace(s[0]) ==> r == s
    ensures |r| <= |s| && r == s[|s| - |r|..]
    ensures forall i :: 0 <= i < |s| - |r| ==> IsWhitespace(s[i])
  {
    if |s| > 0 && IsWhitespace(s[0]) then
      var r := TrimStartWhitespace(s[1..]);
      assert s[1..][|s| - 1 - |r|..] == s[|s| - |r|..];
      assert forall i :: 1 <= i < |s| - |r| ==> s[i] == s[1..][i - 1];
      r
    else s
  }

  /** `trim_end()`: drop trailing whitespace. */
  function TrimEndWhitespace(s: string): (r: string)
    ensures |r| > 0 ==> !IsWhitespace(r[|r| - 1])
    ensures |s| > 0 && !IsWhitespace(s[|s| - 1]) ==> r == s
    ensures |r| <= |s| && r == s[..|r|]
    ensures forall i :: |r| <= i < |s| ==> IsWhitespace(s[i])
  {
    if |s| > 0 && IsWhitespace(s[|s| - 1]) then TrimEndWhitespace(s[..|s| - 1]) else s
  }

  /** `str::trim()`: drop leading and trailing whitespace. */
  function Trim(s: string): (r: string)
    ensures |r| > 0 ==> !IsWhitespace(r[0]) && !IsWhitespace(r[|r| - 1])
    ensures |r| == 0 <==> forall i :: 0 <= i < |s| ==> IsWhitespace(s[i])
    ensures |s| > 0 && !IsWhitespace(s[0]) && !IsWhitespace(s[|s| - 1]) ==> r == s
  {
    TrimFacts(s);
    TrimEndWhitespace(TrimStartWhitespace(s))
  }

  lemma TrimFacts(s: string)
    ensures var front := TrimStartWhitespace(s);
      var r := TrimEndWhitespace(front);
      && (|r| > 0 ==> !IsWhitespace(r[0]))
      && (|r| == 0 <==> forall i :: 0 <= i < |s| ==> IsWhitespace(s[i]))
  {
    var front := TrimStartWhitespace(s);
    var r := TrimEndWhitespace(front);
    if |r| > 0 {
      assert r[0] == front[0];
      assert s[|s| - |front|] == front[0];
    }
  }

  /** Number of UTF-8 code units of one scalar value. */
  function Utf8Width(c: char): nat {
    if c as int < 0x80 then 1 else if c as int < 0x800 then 2 else if c as int < 0x10000 then 3 else 4
  }

  /** `str::len()`: the UTF-8 byte length. */
  function Utf8Length(s: string): (n: nat)
    ensures n >= |s|
  {
    if |s| == 0 then 0 else Utf8Width(s[0]) + Utf8Length(s[1..])
  }

  predicate IsAscii(s: string) {
    forall i :: 0 <= i < |s| ==> s[i] as int < 0x80
  }

  /** An ASCII string has one UTF-8 byte per character. */
  lemma {:induction false} AsciiLength(s: string)
    requires IsAscii(s)
    ensures Utf8Length(s) == |s|
  {
    if |s| > 0 {
      assert IsAscii(s[1..]) by {
        assert forall i :: 0 <= i < |s[1..]| ==> s[1..][i] == s[i + 1];
      }
      AsciiLength(s[1..]);
    }
  }
}

=== FILE: Wrappers.dfy ===
/**
 * Option and Result types used to model the error paths of the source:
 * Rust `Option`/`Result`, C++ null returns and Python exceptions.
 */
module Wrappers {

  datatype Option<+T> = None | Some(value: T) {
    predicate IsFailure() {
      None?
    }

    function PropagateFailure<U>(): Option<U>
      requires None?
    {
      None
    }

    function Extract(): T
      requires Some?
    {
      value
    }

    function GetOr(default: T): T {
      match this
      case Some(v) => v
      case None() => default
    }

    function ToResult<E>(error: E): Result<T, E> {
      match this
      case Some(v) => Success(v)
      case None() => Failure(error)
    }
  }

  datatype Result<+R, +E> = Success(value: R) | Failure(error: E) {
    predicate IsFailure() {
      Failure?
    }

    function PropagateFailure<U>(): Result<U, E>
      requires Failure?
    {
      Failure(this.error)
    }

    function Extract(): R
      requires Success?
    {
      value
    }
  }
}

=== FILE: XmlLoader.dfy ===
/**
 * The nesting rules of the XML category-definition loader (`XMLParser`).
 * The loader sees start and end events from the XML tokeniser and builds
 * a tree of formats under each data item. It keeps a pointer to the
 * "current format", which is a stack linked through parent pointers, and
 * a sticky error flag. Formats live here in an arena (`nodes`) indexed by
 * position, and a parent pointer is an index into it.
 */
module XmlLoader {
  import opened Wrappers

  /** Categories 0..256 fit the definition's table (256 is the BDS table). */
  const MaxCategories: int := 257

  /** The table slot of the BDS register definitions, named `BDS` in a category's `id` attribute. */
  const BdsCatId: int := 256

  datatype Kind = Fixed | Variable | Compound | Repetitive | Explicit | Bds | Bits

  /** The kinds opened by a format tag; `Bits` has its own handler. */
  type FormatKind = k: Kind | k != Bits witness Fixed

  /**
   * The flags a start handler hands to `addFormatToParent`: may the new
   * format sit in a Variable, a Repetitive, an Explicit or a Compound, and
   * may it be a Compound's first part.
   */
  datatype Placement = Placement(inVariable: bool, inRepetitive: bool, inExplicit: bool, inCompound: bool, firstInCompound: bool)

  function PlacementOf(kind: FormatKind): Placement {
    match kind
    case Fixed => Placement(true, true, true, true, false)
    case Bds => Placement(true, true, true, true, false)
    case Variable => Placement(false, false, true, true, true)
    case Compound => Placement(false, false, true, true, false)
    case Repetitive => Placement(false, false, true, true, false)
    case Explicit => Placement(false, false, false, true, false)
  }

  /** The flag that applies under a parent of the given kind; a kind that holds no parts admits nothing. */
  function PlacedIn(p: Placement, parent: Kind): bool {
    match parent
    case Variable => p.inVariable
    case Repetitive => p.inRepetitive
    case Explicit => p.inExplicit
    case Compound => p.inCompound
    case _ => false
  }

  /**
   * Which formats may be parts of which, written out as sets: Fixed and
   * BDS go anywhere; Variable, Compound and Repetitive only in Explicit
   * and Compound; Explicit only in Compound.
   */
  predicate MayNest(parent: Kind, child: Kind) {
    match parent
    case Variable => child in {Fixed, Bds}
    case Repetitive => child in {Fixed, Bds}
    case Explicit => child in {Fixed, Bds, Variable, Compound, Repetitive}
    case Compound => child in {Fixed, Bds, Variable, Compound, Repetitive, Explicit}
    case _ => false
  }

  /** The handlers' flags are exactly the table. */
  lemma PlacementIsTable(parent: Kind, kind: FormatKind)
    ensures PlacedIn(PlacementOf(kind), parent) <==> MayNest(parent, kind)
    ensures PlacementOf(kind).firstInCompound <==> kind == Variable
  {
  }

  /** A format or a bit field; `length` is a Fixed's octet count, `from`/`to` a bit field's range. */
  datatype Node = Node(kind: Kind, parent: Option<nat>, parts: seq<nat>, length: int, from: int, to: int)

  /**
   * A data item: which opening of a category it belongs to, and its id.
   * Every `<Category>` start allocates a new category whose data items
   * have no formats yet, so the items of a category that is closed and
   * opened again are new items.
   */
  type ItemKey = (nat, string)

  /**
   * What the loader knows about categories: the open one (and whether it
   * has met a data item yet), the ids defined so far, whether the BDS table
   * holds data items, whether the corrected category guard is in use, and
   * how many categories have been opened (the open one's number).
   */
  datatype Table = Table(category: Option<int>, withItems: bool, defined: set<int>, bdsLoaded: bool, strict: bool, openings: nat)

  datatype Loader = Loader(
    nodes: seq<Node>,
    current: Option<nat>,
    item: Option<ItemKey>,
    formats: map<ItemKey, nat>,
    table: Table,
    failed: bool)

  /**
   * A fresh loader. `bdsLoaded` says whether the BDS table already holds
   * data items (from a file loaded before); `strict` selects the corrected
   * category guard instead of the one the loader is written with.
   * `withItems` says whether the open category has met a data item.
   */
  function Initial(bdsLoaded: bool, strict: bool): Loader {
    Loader([], None, None, map[], Table(None, false, {}, bdsLoaded, strict, 0), false)
  }

  /** The attributes of a `<Bits>` tag that the loader checks. */
  datatype BitsAttr = BitAt(n: int) | FromBit(n: int) | ToBit(n: int) | Encoding(known: bool) | Extension | UnknownBitsAttr

  /** The `id` attribute of `<Category>`: the word `BDS`, or the number `atoi` reads from it. */
  datatype CategoryId = BdsName | Numeric(n: int)

  function IdValue(id: CategoryId): (n: int)
    ensures id.BdsName? ==> n == BdsCatId
  {
    match id
    case BdsName => BdsCatId
    case Numeric(n) => n
  }

  /** The events the loader reacts to. */
  datatype Event =
    | CategoryStart(id: CategoryId)
    | CategoryEnd
    | DataItemStart(name: string)
    | DataItemEnd
    | FormatStart(kind: FormatKind, length: Option<int>)
    | BitsStart(attrs: seq<BitsAttr>)
    | FormatEnd(closing: Kind)
    | UnknownTag

  /** The category ids the guard in `handleCategoryStart` admits, as written: it lets `MaxCategories` itself through. */
  predicate CategoryAcceptedAsWritten(id: int) {
    0 <= id <= MaxCategories
  }

  /** The ids the definition's category table holds. */
  predicate InTable(id: int) {
    0 <= id < MaxCategories
  }

  /** The guard as evidently intended: exactly the ids the table holds. */
  function CategoryAccepted(id: int): (ok: bool)
    ensures ok <==> InTable(id)
  {
    0 <= id && id < MaxCategories
  }

  /** The written guard admits an id the table cannot hold. */
  lemma CategoryGuardOffByOne()
    ensures CategoryAcceptedAsWritten(MaxCategories) && !InTable(MaxCategories)
    ensures forall id :: CategoryAcceptedAsWritten(id) && id != MaxCategories ==> CategoryAccepted(id)
  {
  }

  /**
   * `addFormatToParent`: with no current format the new one becomes the
   * data item's format (a second one is a "Duplicate format" error but
   * still replaces the first); otherwise the parent must admit it, a
   * Compound's first part must be a Variable, and a second part of a
   * Repetitive or an Explicit is a "Duplicate" error that still keeps it.
   * A rejected format is dropped and the current format stays.
   */
  function AddFormat(l: Loader, kind: FormatKind): (r: (Loader, bool))
    requires Valid(l) && l.item.Some?
    ensures !r.1 ==> r.0 == l.(failed := true)
    ensures r.1 ==> |r.0.nodes| == |l.nodes| + 1 && r.0.current == Some(|l.nodes|)
    ensures r.1 ==> r.0.nodes[|l.nodes|] == Node(kind, l.current, [], 0, 0, 0)
  {
    var n := |l.nodes|;
    var made := Node(kind, l.current, [], 0, 0, 0);
    var placement := PlacementOf(kind);
    match l.current
    case None =>
      var key := l.item.value;
      (l.(nodes := l.nodes + [made], current := Some(n), formats := l.formats[key := n],
          failed := l.failed || key in l.formats), true)
    case Some(c) =>
      var parent := l.nodes[c];
      if !PlacedIn(placement, parent.kind) then (l.(failed := true), false)
      else if parent.kind == Compound && |parent.parts| == 0 && !placement.firstInCompound then (l.(failed := true), false)
      else
        var duplicate := parent.kind in {Repetitive, Explicit} && |parent.parts| > 0;
        var nodes := l.nodes[c := parent.(parts := parent.parts + [n])] + [made];
        (l.(nodes := nodes, current := Some(n), failed := l.failed || duplicate), true)
  }

  /** The `length` attribute of `<Fixed>`: a negative value is an error and is not stored. */
  function SetLength(l: Loader, n: nat, length: Option<int>): (r: Loader)
    requires n < |l.nodes|
    ensures |r.nodes| == |l.nodes| && r.current == l.current && r.formats == l.formats
    ensures r.failed <==> l.failed || (length.Some? && length.value < 0)
    ensures forall i :: 0 <= i < |l.nodes| && i != n ==> r.nodes[i] == l.nodes[i]
    ensures r.nodes[n] == if length.Some? && length.value >= 0 then l.nodes[n].(length := length.value) else l.nodes[n]
  {
    match length
    case None => l
    case Some(len) =>
      if len >= 0 then l.(nodes := l.nodes[n := l.nodes[n].(length := len)])
      else l.(failed := true)
  }

  /** A start tag of a format: the data-item check (BDS first needs its definitions), then placement. */
  function StartFormat(l: Loader, kind: FormatKind, length: Option<int>): (r: Loader)
    requires Valid(l)
  {
    if kind == Bds && !l.table.bdsLoaded then l.(failed := true)
    else if l.item.None? then l.(failed := true)
    else Place(l, kind, length)
  }

  /** A format placed under the current one, a Fixed with its length. */
  function Place(l: Loader, kind: FormatKind, length: Option<int>): (r: Loader)
    requires Valid(l) && l.item.Some?
  {
    var (added, ok) := AddFormat(l, kind);
    if ok && kind == Fixed then SetLength(added, |l.nodes|, length) else added
  }

  /**
   * The attributes of `<Bits>`, in order: a bit, from or to value must be
   * non-negative (else it is an error and not stored) and a value above
   * `limit` (eight times the Fixed's length) is an error but is stored.
   * The result says whether any error was met.
   */
  function BitsAttrs(node: Node, limit: int, attrs: seq<BitsAttr>): (r: (Node, bool))
    ensures r.0.kind == node.kind && r.0.parent == node.parent && r.0.parts == node.parts && r.0.length == node.length
    ensures !r.1 && node.from <= limit && node.to <= limit ==> r.0.from <= limit && r.0.to <= limit
    decreases |attrs|
  {
    if |attrs| == 0 then (node, false)
    else
      var (next, bad) := match attrs[0]
        case BitAt(b) => if b >= 0 then (node.(from := b, to := b), limit < b) else (node, true)
        case FromBit(b) => if b >= 0 then (node.(from := b), limit < b) else (node, true)
        case ToBit(b) => if b >= 0 then (node.(to := b), limit < b) else (node, true)
        case Encoding(known) => (node, !known)
        case Extension => (node, false)
        case UnknownBitsAttr => (node, true);
      var (last, later) := BitsAttrs(next, limit, attrs[1..]);
      (last, bad || later)
  }

  /** `handleBitsStart`: the current format must be a Fixed; the bit field becomes its last part and the current format. */
  function StartBits(l: Loader, attrs: seq<BitsAttr>): (r: Loader)
    requires Valid(l)
  {
    match l.current
    case None => l.(failed := true)
    case Some(c) =>
      var fixed := l.nodes[c];
      if fixed.kind != Fixed then l.(failed := true)
      else
        var n := |l.nodes|;
        var (bits, bad) := BitsAttrs(Node(Bits, Some(c), [], 0, 0, 0), 8 * fixed.length, attrs);
        l.(nodes := l.nodes[c := fixed.(parts := fixed.parts + [n])] + [bits], current := Some(n),
           failed := l.failed || bad)
  }

  /** `handleFormatEnd` and `handleBitsEnd`: close the current format only when its kind matches the tag. */
  function EndFormat(l: Loader, kind: Kind): (r: Loader)
    requires Valid(l)
    ensures (l.current.Some? && l.nodes[l.current.value].kind == kind) ==> r == l.(current := l.nodes[l.current.value].parent)
    ensures !(l.current.Some? && l.nodes[l.current.value].kind == kind) ==> r == l.(failed := true)
  {
    if l.current.Some? && l.nodes[l.current.value].kind == kind then l.(current := l.nodes[l.current.value].parent)
    else l.(failed := true)
  }

  /** The category guard: the written one, or the corrected one in a strict loader. */
  predicate Admits(strict: bool, id: int) {
    if strict then CategoryAccepted(id) else CategoryAcceptedAsWritten(id)
  }

  /** `handleCategoryStart`: a new category with that id, and no data items yet, becomes the open one. */
  function Open(t: Table, id: int): (r: Table)
    ensures r.category == Some(id) && !r.withItems && r.openings > t.openings
    ensures r.defined == t.defined && r.bdsLoaded == t.bdsLoaded && r.strict == t.strict
  {
    t.(category := Some(id), withItems := false, openings := t.openings + 1)
  }

  /**
   * `handleCategoryEnd`: the open category replaces the definition's entry
   * for its id. When that id is the BDS table, whether BDS formats may be
   * loaded from now on depends on whether the new entry has data items.
   */
  function Close(t: Table): (r: Table)
    requires t.category.Some?
    ensures r.defined == t.defined + {t.category.value} && r.category.None? && r.strict == t.strict
    ensures r.bdsLoaded <==> if t.category.value == BdsCatId then t.withItems else t.bdsLoaded
  {
    var c := t.category.value;
    t.(defined := t.defined + {c}, category := None, bdsLoaded := if c == BdsCatId then t.withItems else t.bdsLoaded)
  }

  /** One event; once an error has been met every event is ignored. */
  function Step(l: Loader, e: Event): (r: Loader)
    requires Valid(l)
    ensures r.table.strict == l.table.strict
  {
    if l.failed then l
    else
      match e
      case CategoryStart(id) =>
        var n := IdValue(id);
        if Admits(l.table.strict, n) then l.(table := Open(l.table, n)) else l.(failed := true)
      case CategoryEnd =>
        if l.table.category.Some? then l.(table := Close(l.table)) else l.(failed := true)
      case DataItemStart(name) =>
        if l.table.category.Some? then l.(item := Some((l.table.openings, name)), table := l.table.(withItems := true)) else l.(failed := true)
      case DataItemEnd =>
        if l.item.Some? then l.(item := None) else l.(failed := true)
      case FormatStart(kind, length) => StartFormat(l, kind, length)
      case BitsStart(attrs) => StartBits(l, attrs)
      case FormatEnd(closing) => EndFormat(l, closing)
      case UnknownTag => l.(failed := true)
  }

  /** Parent and part indices stay inside the arena, and a parent precedes its parts. */
  ghost predicate Tree(nodes: seq<Node>) {
    && (forall i :: 0 <= i < |nodes| && nodes[i].parent.Some? ==> nodes[i].parent.value < i)
    && (forall i, j :: 0 <= i < |nodes| && 0 <= j < |nodes[i].parts| ==> i < nodes[i].parts[j] < |nodes|)
  }

  /** The current format and every data item's format are in the arena. */
  ghost predicate Valid(l: Loader) {
    && (l.current.Some? ==> l.current.value < |l.nodes|)
    && (forall k :: k in l.formats ==> l.formats[k] < |l.nodes|)
    && Tree(l.nodes)
  }

  /** Every part sits where the table admits it, and a bit field sits in a Fixed. */
  ghost predicate Nested(nodes: seq<Node>) {
    forall i :: 0 <= i < |nodes| && nodes[i].parent.Some? && nodes[i].parent.value < |nodes| ==>
      var parent := nodes[nodes[i].parent.value].kind;
      if nodes[i].kind == Bits then parent == Fixed else MayNest(parent, nodes[i].kind)
  }

  /** A Compound's first part is a Variable. */
  ghost predicate CompoundsStartVariable(nodes: seq<Node>) {
    forall i :: 0 <= i < |nodes| && nodes[i].kind == Compound && |nodes[i].parts| > 0 && nodes[i].parts[0] < |nodes| ==>
      nodes[nodes[i].parts[0]].kind == Variable
  }

  /** No Repetitive or Explicit has more than one part. */
  ghost predicate SingleParts(nodes: seq<Node>) {
    forall i :: 0 <= i < |nodes| && nodes[i].kind in {Repetitive, Explicit} ==> |nodes[i].parts| <= 1
  }

  /** Only Fixed formats have a length, and it is never negative. */
  ghost predicate LengthsSound(nodes: seq<Node>) {
    forall i :: 0 <= i < |nodes| ==> nodes[i].length >= 0 && (nodes[i].kind != Fixed ==> nodes[i].length == 0)
  }

  /** Every bit field lies within eight times its Fixed's length. */
  ghost predicate BitsFit(nodes: seq<Node>) {
    forall i :: 0 <= i < |nodes| && nodes[i].kind == Bits && nodes[i].parent.Some? && nodes[i].parent.value < |nodes| ==>
      var limit := 8 * nodes[nodes[i].parent.value].length;
      nodes[i].from <= limit && nodes[i].to <= limit
  }

  /** The ids a loader's guard admits. */
  ghost predicate Guarded(strict: bool, ids: set<int>) {
    forall c :: c in ids ==> Admits(strict, c)
  }

  /** Every data item, and every item that has a format, belongs to a category opened so far. */
  ghost predicate Keyed(l: Loader) {
    && (forall k :: k in l.formats ==> k.0 <= l.table.openings)
    && (l.item.Some? ==> l.item.value.0 <= l.table.openings)
  }

  /** Every defined or open category passed the guard. */
  ghost predicate CategoriesInTable(l: Loader) {
    && Guarded(l.table.strict, l.table.defined)
    && (l.table.category.Some? ==> Admits(l.table.strict, l.table.category.value))
  }

  /**
   * What every reachable loader satisfies: the nesting table, the
   * Compound rule and the length rule always; the single-part rule and the
   * bit ranges unless an error has been raised.
   */
  ghost predicate Invariant(l: Loader) {
    && Valid(l) && Nested(l.nodes) && CompoundsStartVariable(l.nodes) && LengthsSound(l.nodes)
    && (l.failed || (SingleParts(l.nodes) && BitsFit(l.nodes)))
    && CategoriesInTable(l) && Keyed(l)
  }

  function Run(l: Loader, events: seq<Event>): (r: Loader)
    requires Valid(l)
    ensures Valid(r) && r.table.strict == l.table.strict
    decreases |events|
  {
    if |events| == 0 then l
    else
      StepKeepsValid(l, events[0]);
      Run(Step(l, events[0]), events[1..])
  }

  /**
   * `Parse`: the definition loads when no event raised an error; what it
   * builds keeps the invariant. With the written guard a defined id can be
   * `MaxCategories`, one past the table.
   */
  function Parse(events: seq<Event>, bdsLoaded: bool): (r: (bool, Loader))
    ensures Invariant(r.1)
    ensures r.0 ==> forall i :: 0 <= i < |r.1.nodes| && r.1.nodes[i].kind in {Repetitive, Explicit} ==> |r.1.nodes[i].parts| <= 1
    ensures r.0 ==> BitsFit(r.1.nodes)
    ensures forall c :: c in r.1.table.defined ==> 0 <= c <= MaxCategories
  {
    Load(events, bdsLoaded, false)
  }

  /** `Parse` with the corrected guard: every defined id has a slot in the table. */
  function ParseCorrected(events: seq<Event>, bdsLoaded: bool): (r: (bool, Loader))
    ensures Invariant(r.1)
    ensures r.0 ==> BitsFit(r.1.nodes)
    ensures forall c :: c in r.1.table.defined ==> InTable(c)
  {
    Load(events, bdsLoaded, true)
  }

  function Load(events: seq<Event>, bdsLoaded: bool, strict: bool): (r: (bool, Loader))
    ensures Invariant(r.1) && r.1.table.strict == strict
    ensures r.0 <==> !r.1.failed
  {
    InitialInvariant(bdsLoaded, strict);
    RunKeepsInvariant(Initial(bdsLoaded, strict), events);
    var last := Run(Initial(bdsLoaded, strict), events);
    (!last.failed, last)
  }

  lemma InitialInvariant(bdsLoaded: bool, strict: bool)
    ensures Invariant(Initial(bdsLoaded, strict))
  {
  }

  /** The arena after a new node `made` joins it, as a part of `at` or as a data item's format. */
  function Grow(nodes: seq<Node>, at: Option<nat>, made: Node): seq<Node>
    requires at.Some? ==> at.value < |nodes|
  {
    match at
    case None => nodes + [made]
    case Some(c) => nodes[c := nodes[c].(parts := nodes[c].parts + [|nodes|])] + [made]
  }

  lemma GrowFacts(nodes: seq<Node>, at: Option<nat>, made: Node)
    requires at.Some? ==> at.value < |nodes|
    ensures var g := Grow(nodes, at, made);
      && |g| == |nodes| + 1 && g[|nodes|] == made
      && (forall i :: 0 <= i < |nodes| && Some(i) != at ==> g[i] == nodes[i])
      && (at.Some? ==> g[at.value] == nodes[at.value].(parts := nodes[at.value].parts + [|nodes|]))
  {
  }

  lemma GrowKeepsTree(nodes: seq<Node>, at: Option<nat>, made: Node)
    requires Tree(nodes) && (at.Some? ==> at.value < |nodes|)
    requires made.parent == at && made.parts == []
    ensures Tree(Grow(nodes, at, made))
  {
    GrowFacts(nodes, at, made);
  }

  lemma GrowKeepsNested(nodes: seq<Node>, at: Option<nat>, made: Node)
    requires Tree(nodes) && Nested(nodes) && (at.Some? ==> at.value < |nodes|)
    requires made.parent == at
    requires at.Some? ==> if made.kind == Bits then nodes[at.value].kind == Fixed else MayNest(nodes[at.value].kind, made.kind)
    ensures Nested(Grow(nodes, at, made))
  {
    GrowFacts(nodes, at, made);
    var g := Grow(nodes, at, made);
    forall i | 0 <= i < |g| && g[i].parent.Some? && g[i].parent.value < |g|
      ensures var parent := g[g[i].parent.value].kind;
        if g[i].kind == Bits then parent == Fixed else MayNest(parent, g[i].kind)
    {
      if i < |nodes| {
        assert g[i].parent == nodes[i].parent && g[i].kind == nodes[i].kind;
        assert g[g[i].parent.value].kind == nodes[nodes[i].parent.value].kind;
      }
    }
  }

  lemma GrowKeepsCompounds(nodes: seq<Node>, at: Option<nat>, made: Node)
    requires Tree(nodes) && CompoundsStartVariable(nodes) && (at.Some? ==> at.value < |nodes|)
    requires made.parts == []
    requires at.Some? && nodes[at.value].kind == Compound && |nodes[at.value].parts| == 0 ==> made.kind == Variable
    ensures CompoundsStartVariable(Grow(nodes, at, made))
  {
    GrowFacts(nodes, at, made);
    var g := Grow(nodes, at, made);
    forall i | 0 <= i < |g| && g[i].kind == Compound && |g[i].parts| > 0 && g[i].parts[0] < |g|
      ensures g[g[i].parts[0]].kind == Variable
    {
      if i < |nodes| {
        if |nodes[i].parts| > 0 {
          var first := nodes[i].parts[0];
          assert g[i].parts[0] == first;
          assert g[first].kind == nodes[first].kind;
        } else {
          assert g[i].parts[0] == |nodes|;
        }
      }
    }
  }

  lemma GrowKeepsSingleParts(nodes: seq<Node>, at: Option<nat>, made: Node)
    requires SingleParts(nodes) && (at.Some? ==> at.value < |nodes|)
    requires made.parts == []
    requires at.Some? && nodes[at.value].kind in {Repetitive, Explicit} ==> |nodes[at.value].parts| == 0
    ensures SingleParts(Grow(nodes, at, made))
  {
    GrowFacts(nodes, at, made);
  }

  lemma GrowKeepsLengths(nodes: seq<Node>, at: Option<nat>, made: Node)
    requires LengthsSound(nodes) && (at.Some? ==> at.value < |nodes|)
    requires made.length == 0
    ensures LengthsSound(Grow(nodes, at, made))
  {
    GrowFacts(nodes, at, made);
  }

  lemma GrowKeepsBitsFit(nodes: seq<Node>, at: Option<nat>, made: Node)
    requires Tree(nodes) && BitsFit(nodes) && (at.Some? ==> at.value < |nodes|)
    requires made.parent == at
    requires made.kind == Bits && at.Some? ==> made.from <= 8 * nodes[at.value].length && made.to <= 8 * nodes[at.value].length
    ensures BitsFit(Grow(nodes, at, made))
  {
    GrowFacts(nodes, at, made);
    var g := Grow(nodes, at, made);
    forall i | 0 <= i < |g| && g[i].kind == Bits && g[i].parent.Some? && g[i].parent.value < |g|
      ensures g[i].from <= 8 * g[g[i].parent.value].length && g[i].to <= 8 * g[g[i].parent.value].length
    {
      if i < |nodes| {
        assert g[i] == nodes[i] || (Some(i) == at && g[i].parent == nodes[i].parent);
        assert g[g[i].parent.value].length == nodes[nodes[i].parent.value].length;
      }
    }
  }

  /** Two arenas with the same kinds, parents and parts. */
  ghost predicate SameShape(a: seq<Node>, b: seq<Node>) {
    |a| == |b| && forall i :: 0 <= i < |a| ==> a[i].kind == b[i].kind && a[i].parent == b[i].parent && a[i].parts == b[i].parts
  }

  lemma SameShapeKeeps(a: seq<Node>, b: seq<Node>)
    requires SameShape(a, b)
    ensures Tree(a) ==> Tree(b)
    ensures Nested(a) ==> Nested(b)
    ensures CompoundsStartVariable(a) ==> CompoundsStartVariable(b)
    ensures SingleParts(a) ==> SingleParts(b)
  {
  }

  /** The arena with the newest node's length set. */
  function WithLastLength(nodes: seq<Node>, len: int): seq<Node>
    requires |nodes| > 0
  {
    nodes[|nodes| - 1 := nodes[|nodes| - 1].(length := len)]
  }

  lemma LastLengthKeepsShape(nodes: seq<Node>, len: int)
    requires |nodes| > 0
    ensures SameShape(nodes, WithLastLength(nodes, len))
  {
  }

  lemma LastLengthKeepsBitsFit(nodes: seq<Node>, len: int)
    requires |nodes| > 0 && Tree(nodes) && BitsFit(nodes)
    ensures BitsFit(WithLastLength(nodes, len))
  {
    var g := WithLastLength(nodes, len);
    forall i | 0 <= i < |g| && g[i].kind == Bits && g[i].parent.Some? && g[i].parent.value < |g|
      ensures g[i].from <= 8 * g[g[i].parent.value].length && g[i].to <= 8 * g[g[i].parent.value].length
    {
      assert nodes[i].parent.value < i;
    }
  }

  lemma LastLengthKeepsLengths(nodes: seq<Node>, len: int)
    requires |nodes| > 0 && LengthsSound(nodes) && len >= 0 && nodes[|nodes| - 1].kind == Fixed
    ensures LengthsSound(WithLastLength(nodes, len))
  {
  }

  lemma LastLengthKeepsInvariant(l: Loader, len: int)
    requires Invariant(l) && |l.nodes| > 0 && len >= 0
    requires l.nodes[|l.nodes| - 1].kind == Fixed
    ensures Invariant(l.(nodes := WithLastLength(l.nodes, len)))
  {
    var nodes := WithLastLength(l.nodes, len);
    LastLengthKeepsShape(l.nodes, len);
    SameShapeKeeps(l.nodes, nodes);
    LastLengthKeepsLengths(l.nodes, len);
    if !l.failed {
      LastLengthKeepsBitsFit(l.nodes, len);
    }
  }

  /** A length given to the newest node, a Fixed, keeps every invariant. */
  lemma SetLengthKeepsInvariant(l: Loader, length: Option<int>)
    requires Invariant(l) && |l.nodes| > 0
    requires l.nodes[|l.nodes| - 1].kind == Fixed
    ensures Invariant(SetLength(l, |l.nodes| - 1, length))
  {
    if length.Some? && length.value >= 0 {
      assert SetLength(l, |l.nodes| - 1, length) == l.(nodes := WithLastLength(l.nodes, length.value));
      LastLengthKeepsInvariant(l, length.value);
    }
  }

  lemma AddFormatKeepsInvariant(l: Loader, kind: FormatKind)
    requires Invariant(l) && l.item.Some? && !l.failed
    ensures Invariant(AddFormat(l, kind).0)
  {
    var (r, ok) := AddFormat(l, kind);
    var made := Node(kind, l.current, [], 0, 0, 0);
    if ok {
      if l.current.Some? {
        PlacementIsTable(l.nodes[l.current.value].kind, kind);
      }
      assert r.nodes == Grow(l.nodes, l.current, made);
      GrowKeepsTree(l.nodes, l.current, made);
      GrowKeepsNested(l.nodes, l.current, made);
      GrowKeepsCompounds(l.nodes, l.current, made);
      GrowKeepsLengths(l.nodes, l.current, made);
      GrowKeepsBitsFit(l.nodes, l.current, made);
      if !r.failed {
        GrowKeepsSingleParts(l.nodes, l.current, made);
      }
    }
  }

  lemma StartFormatKeepsInvariant(l: Loader, kind: FormatKind, length: Option<int>)
    requires Invariant(l) && !l.failed
    ensures Invariant(StartFormat(l, kind, length))
  {
    if (kind == Bds && !l.table.bdsLoaded) || l.item.None? {
      FailingKeepsInvariant(l);
    } else {
      PlaceKeepsInvariant(l, kind, length);
    }
  }

  lemma PlaceKeepsInvariant(l: Loader, kind: FormatKind, length: Option<int>)
    requires Invariant(l) && !l.failed && l.item.Some?
    ensures Invariant(Place(l, kind, length))
  {
    AddFormatKeepsInvariant(l, kind);
    var (added, ok) := AddFormat(l, kind);
    if ok && kind == Fixed {
      SetLengthKeepsInvariant(added, length);
    }
  }

  lemma StartBitsKeepsInvariant(l: Loader, attrs: seq<BitsAttr>)
    requires Invariant(l) && !l.failed
    ensures Invariant(StartBits(l, attrs))
  {
    if l.current.Some? && l.nodes[l.current.value].kind == Fixed {
      var c := l.current.value;
      var r := StartBits(l, attrs);
      var (bits, bad) := BitsAttrs(Node(Bits, Some(c), [], 0, 0, 0), 8 * l.nodes[c].length, attrs);
      assert r.nodes == Grow(l.nodes, l.current, bits);
      GrowFacts(l.nodes, l.current, bits);
      GrowKeepsTree(l.nodes, l.current, bits);
      GrowKeepsNested(l.nodes, l.current, bits);
      GrowKeepsCompounds(l.nodes, l.current, bits);
      GrowKeepsLengths(l.nodes, l.current, bits);
      if !r.failed {
        GrowKeepsSingleParts(l.nodes, l.current, bits);
        GrowKeepsBitsFit(l.nodes, l.current, bits);
      }
    }
  }

  lemma AddFormatKeepsValid(l: Loader, kind: FormatKind)
    requires Valid(l) && l.item.Some?
    ensures Valid(AddFormat(l, kind).0)
  {
    var (added, ok) := AddFormat(l, kind);
    if ok {
      var made := Node(kind, l.current, [], 0, 0, 0);
      assert added.nodes == Grow(l.nodes, l.current, made);
      GrowKeepsTree(l.nodes, l.current, made);
    }
  }

  lemma StartFormatKeepsValid(l: Loader, kind: FormatKind, length: Option<int>)
    requires Valid(l) && !l.failed
    ensures Valid(StartFormat(l, kind, length))
  {
    if !(kind == Bds && !l.table.bdsLoaded) && l.item.Some? {
      PlaceKeepsValid(l, kind, length);
    }
  }

  lemma PlaceKeepsValid(l: Loader, kind: FormatKind, length: Option<int>)
    requires Valid(l) && l.item.Some?
    ensures Valid(Place(l, kind, length))
  {
    var (added, ok) := AddFormat(l, kind);
    AddFormatKeepsValid(l, kind);
    if ok && kind == Fixed {
      var r := SetLength(added, |l.nodes|, length);
      if length.Some? && length.value >= 0 {
        assert r.nodes == WithLastLength(added.nodes, length.value);
        LastLengthKeepsShape(added.nodes, length.value);
        SameShapeKeeps(added.nodes, r.nodes);
      }
    }
  }

  lemma StartBitsKeepsValid(l: Loader, attrs: seq<BitsAttr>)
    requires Valid(l) && !l.failed
    ensures Valid(StartBits(l, attrs))
  {
    if l.current.Some? && l.nodes[l.current.value].kind == Fixed {
      var c := l.current.value;
      var (bits, bad) := BitsAttrs(Node(Bits, Some(c), [], 0, 0, 0), 8 * l.nodes[c].length, attrs);
      assert StartBits(l, attrs).nodes == Grow(l.nodes, l.current, bits);
      GrowKeepsTree(l.nodes, l.current, bits);
    }
  }

  lemma StepKeepsValid(l: Loader, e: Event)
    requires Valid(l)
    ensures Valid(Step(l, e))
  {
    if !l.failed {
      match e
      case FormatStart(kind, length) => StartFormatKeepsValid(l, kind, length);
      case BitsStart(attrs) => StartBitsKeepsValid(l, attrs);
      case FormatEnd(closing) =>
      case _ => TableEventKeepsValid(l, e);
    }
  }

  lemma TableEventKeepsValid(l: Loader, e: Event)
    requires Valid(l) && !l.failed
    requires !e.FormatStart? && !e.BitsStart? && !e.FormatEnd?
    ensures Valid(Step(l, e))
  {
    match e
    case CategoryStart(id) =>
    case CategoryEnd =>
    case DataItemStart(name) =>
    case DataItemEnd =>
    case UnknownTag =>
  }

  lemma StepKeepsInvariant(l: Loader, e: Event)
    requires Invariant(l)
    ensures Invariant(Step(l, e))
  {
    if !l.failed {
      match e
      case FormatStart(kind, length) => StartFormatKeepsInvariant(l, kind, length);
      case BitsStart(attrs) => StartBitsKeepsInvariant(l, attrs);
      case FormatEnd(closing) => EndFormatKeepsInvariant(l, closing);
      case _ => TableEventKeepsInvariant(l, e);
    }
  }

  lemma EndFormatKeepsInvariant(l: Loader, closing: Kind)
    requires Invariant(l) && !l.failed
    ensures Invariant(Step(l, FormatEnd(closing)))
  {
    if l.current.Some? && l.nodes[l.current.value].kind == closing {
      ParentKeepsInvariant(l);
    } else {
      FailingKeepsInvariant(l);
    }
  }

  /** The events about categories and data items leave the arena alone. */
  lemma TableEventKeepsInvariant(l: Loader, e: Event)
    requires Invariant(l) && !l.failed
    requires !e.FormatStart? && !e.BitsStart? && !e.FormatEnd?
    ensures Invariant(Step(l, e))
  {
    match e
    case CategoryStart(id) =>
      if Admits(l.table.strict, IdValue(id)) { OpenCategoryKeepsInvariant(l, IdValue(id)); } else { FailingKeepsInvariant(l); }
    case CategoryEnd =>
      if l.table.category.Some? { CloseCategoryKeepsInvariant(l); } else { FailingKeepsInvariant(l); }
    case DataItemStart(name) =>
      if l.table.category.Some? { ItemKeepsInvariant(l, Some((l.table.openings, name)), true); } else { FailingKeepsInvariant(l); }
    case DataItemEnd =>
      if l.item.Some? { ItemKeepsInvariant(l, None, l.table.withItems); } else { FailingKeepsInvariant(l); }
    case UnknownTag => FailingKeepsInvariant(l);
  }

  lemma FailingKeepsInvariant(l: Loader)
    requires Invariant(l)
    ensures Invariant(l.(failed := true))
  {
  }

  lemma ParentKeepsInvariant(l: Loader)
    requires Invariant(l) && l.current.Some?
    ensures Invariant(l.(current := l.nodes[l.current.value].parent))
  {
  }

  lemma OpenCategoryKeepsInvariant(l: Loader, id: int)
    requires Invariant(l) && Admits(l.table.strict, id)
    ensures Invariant(l.(table := Open(l.table, id)))
  {
  }

  lemma CloseCategoryKeepsInvariant(l: Loader)
    requires Invariant(l) && l.table.category.Some?
    ensures Invariant(l.(table := Close(l.table)))
  {
  }

  lemma ItemKeepsInvariant(l: Loader, item: Option<ItemKey>, withItems: bool)
    requires Invariant(l) && (item.Some? ==> item.value.0 <= l.table.openings)
    ensures Invariant(l.(item := item, table := l.table.(withItems := withItems)))
  {
  }

  lemma {:induction false} RunKeepsInvariant(l: Loader, events: seq<Event>)
    requires Invariant(l)
    ensures Invariant(Run(l, events))
    decreases |events|
  {
    if |events| > 0 {
      StepKeepsInvariant(l, events[0]);
      RunKeepsInvariant(Step(l, events[0]), events[1..]);
    }
  }

  /** The error flag is sticky: a failed loader ignores every later event. */
  lemma {:induction false} FailedIsFinal(l: Loader, events: seq<Event>)
    requires Valid(l) && l.failed
    ensures Run(l, events) == l
    decreases |events|
  {
    if |events| > 0 {
      FailedIsFinal(Step(l, events[0]), events[1..]);
    }
  }

  /** Running two event sequences one after the other is running their concatenation. */
  lemma {:induction false} RunAppend(l: Loader, a: seq<Event>, b: seq<Event>)
    requires Valid(l)
    ensures Run(l, a + b) == Run(Run(l, a), b)
    decreases |a|
  {
    if |a| > 0 {
      var next := Step(l, a[0]);
      StepKeepsValid(l, a[0]);
      assert (a + b)[0] == a[0] && (a + b)[1..] == a[1..] + b;
      assert Run(l, a + b) == Run(next, a[1..] + b);
      assert Run(l, a) == Run(next, a[1..]);
      RunAppend(next, a[1..], b);
    } else {
      assert a + b == b;
    }
  }

  /** An error anywhere makes the whole definition fail, whatever follows. */
  lemma ErrorRejectsDefinition(prefix: seq<Event>, rest: seq<Event>, bdsLoaded: bool)
    requires Parse(prefix, bdsLoaded).1.failed
    ensures !Parse(prefix + rest, bdsLoaded).0
  {
    InitialInvariant(bdsLoaded, false);
    RunAppend(Initial(bdsLoaded, false), prefix, rest);
    FailedIsFinal(Run(Initial(bdsLoaded, false), prefix), rest);
  }

  /** With no current format a new format becomes the item's format; it is an error iff the item had one already. */
  lemma TopLevelFormat(l: Loader, kind: FormatKind)
    requires Valid(l) && !l.failed && l.item.Some? && l.current.None?
    requires kind != Bds || l.table.bdsLoaded
    requires kind != Fixed
    ensures var r := Step(l, FormatStart(kind, None));
      && r.formats == l.formats[l.item.value := |l.nodes|]
      && r.current == Some(|l.nodes|)
      && (r.failed <==> l.item.value in l.formats)
  {
  }

  /** Opening a category and a data item in it: the item belongs to this opening of the category. */
  lemma OpenItem(l: Loader, id: CategoryId, name: string)
    requires Valid(l) && !l.failed && Admits(l.table.strict, IdValue(id))
    ensures Run(l, [CategoryStart(id), DataItemStart(name)])
      == l.(item := Some((l.table.openings + 1, name)), table := Open(l.table, IdValue(id)).(withItems := true))
  {
    var events := [CategoryStart(id), DataItemStart(name)];
    var started := Step(l, events[0]);
    assert Run(l, events) == Run(started, events[1..]);
    assert Run(started, events[1..]) == Run(Step(started, events[1]), []);
  }

  /** The first format of an item that has none is no duplicate: it becomes the item's format and the current format. */
  lemma FirstFormat(l: Loader, kind: FormatKind)
    requires Valid(l) && !l.failed && l.item.Some? && l.current.None? && l.item.value !in l.formats
    requires kind != Bds || l.table.bdsLoaded
    ensures var r := Step(l, FormatStart(kind, None));
      && !r.failed && r.current == Some(|l.nodes|) && r.nodes == l.nodes + [Node(kind, None, [], 0, 0, 0)]
      && r.formats == l.formats[l.item.value := |l.nodes|] && r.item == l.item && r.table == l.table
  {
  }

  /**
   * A data item of a category just opened has no format yet, even when a
   * category with that id was loaded before: its first top-level format is
   * recorded as the item's format and is not a duplicate.
   */
  lemma FreshItemHasNoFormat(l: Loader, id: CategoryId, name: string, kind: FormatKind)
    requires Valid(l) && Keyed(l) && !l.failed && Admits(l.table.strict, IdValue(id)) && l.current.None?
    requires kind != Bds || l.table.bdsLoaded
    ensures (l.table.openings + 1, name) !in l.formats
    ensures var r := Run(l, [CategoryStart(id), DataItemStart(name), FormatStart(kind, None)]);
      && !r.failed && r.current == Some(|l.nodes|) && r.nodes == l.nodes + [Node(kind, None, [], 0, 0, 0)]
      && r.formats == l.formats[(l.table.openings + 1, name) := |l.nodes|]
      && r.item.Some? && r.table.category == Some(IdValue(id))
  {
    var key := (l.table.openings + 1, name);
    assert key !in l.formats by {
      forall k | k in l.formats ensures k != key { assert k.0 <= l.table.openings; }
    }
    var head := [CategoryStart(id), DataItemStart(name)];
    OpenItem(l, id, name);
    var item := Run(l, head);
    FirstFormat(item, kind);
    RunAppend(l, head, [FormatStart(kind, None)]);
    assert head + [FormatStart(kind, None)] == [CategoryStart(id), DataItemStart(name), FormatStart(kind, None)];
    assert Run(item, [FormatStart(kind, None)]) == Run(Step(item, FormatStart(kind, None)), []);
  }

  /** Closing a top-level format, its data item and its category leaves nothing open and defines the category. */
  lemma CloseRound(l: Loader, kind: FormatKind)
    requires Valid(l) && !l.failed && l.item.Some? && l.table.category.Some?
    requires l.current.Some? && l.nodes[l.current.value].kind == kind && l.nodes[l.current.value].parent.None?
    ensures var r := Run(l, [FormatEnd(kind), DataItemEnd, CategoryEnd]);
      !r.failed && r.current.None? && l.table.category.value in r.table.defined
  {
    var events := [FormatEnd(kind), DataItemEnd, CategoryEnd];
    var up := Step(l, events[0]);
    assert up == l.(current := None);
    var out := Step(up, events[1]);
    assert out == up.(item := None);
    assert Run(l, events) == Run(up, events[1..]);
    assert Run(up, events[1..]) == Run(out, events[2..]);
    assert Run(out, events[2..]) == Run(Step(out, events[2]), []);
  }

  /**
   * A category holding one data item with one format loads after any
   * successful load that left no format open, whether or not its id has
   * been loaded before.
   */
  lemma CategoryRoundLoads(l: Loader, id: CategoryId, name: string, kind: FormatKind)
    requires Invariant(l) && !l.failed && Admits(l.table.strict, IdValue(id)) && l.current.None?
    requires kind != Bds || l.table.bdsLoaded
    ensures var r := Run(l, [CategoryStart(id), DataItemStart(name), FormatStart(kind, None), FormatEnd(kind), DataItemEnd, CategoryEnd]);
      !r.failed && r.current.None? && Invariant(r) && IdValue(id) in r.table.defined
  {
    var head := [CategoryStart(id), DataItemStart(name), FormatStart(kind, None)];
    var tail := [FormatEnd(kind), DataItemEnd, CategoryEnd];
    FreshItemHasNoFormat(l, id, name, kind);
    var placed := Run(l, head);
    CloseRound(placed, kind);
    RunAppend(l, head, tail);
    assert head + tail == [CategoryStart(id), DataItemStart(name), FormatStart(kind, None), FormatEnd(kind), DataItemEnd, CategoryEnd];
    RunKeepsInvariant(l, head + tail);
  }

  /** A file that defines category 48 twice, each time with item 010 in a Variable format, loads. */
  lemma ReopenedCategoryLoads()
    ensures var once := [CategoryStart(Numeric(48)), DataItemStart("010"), FormatStart(Variable, None), FormatEnd(Variable), DataItemEnd, CategoryEnd];
      Parse(once + once, false).0
  {
    var once := [CategoryStart(Numeric(48)), DataItemStart("010"), FormatStart(Variable, None), FormatEnd(Variable), DataItemEnd, CategoryEnd];
    var start := Initial(false, false);
    InitialInvariant(false, false);
    CategoryRoundLoads(start, Numeric(48), "010", Variable);
    var first := Run(start, once);
    CategoryRoundLoads(first, Numeric(48), "010", Variable);
    RunAppend(start, once, once);
  }

  /** A format that its parent does not admit is dropped: the arena and the current format are unchanged and an error is raised. */
  lemma RejectedFormatDropped(l: Loader, kind: FormatKind, length: Option<int>)
    requires Valid(l) && !l.failed && l.item.Some? && l.current.Some?
    requires kind != Bds || l.table.bdsLoaded
    requires !MayNest(l.nodes[l.current.value].kind, kind)
    ensures Step(l, FormatStart(kind, length)) == l.(failed := true)
  {
    PlacementIsTable(l.nodes[l.current.value].kind, kind);
  }

  /** A Compound with no parts yet takes a Variable and refuses every other kind. */
  lemma CompoundFirstPart(l: Loader, kind: FormatKind)
    requires Valid(l) && !l.failed && l.item.Some? && l.current.Some?
    requires kind != Bds || l.table.bdsLoaded
    requires l.nodes[l.current.value].kind == Compound && |l.nodes[l.current.value].parts| == 0
    ensures var r := Step(l, FormatStart(kind, None));
      (r.failed <==> kind != Variable) && (kind != Variable ==> r.nodes == l.nodes && r.current == l.current)
  {
    PlacementIsTable(Compound, kind);
  }

  /** A second part of a Repetitive or an Explicit is kept, and the definition fails. */
  lemma SecondPartFails(l: Loader, kind: FormatKind)
    requires Valid(l) && !l.failed && l.item.Some? && l.current.Some?
    requires kind != Bds || l.table.bdsLoaded
    requires l.nodes[l.current.value].kind in {Repetitive, Explicit} && |l.nodes[l.current.value].parts| > 0
    requires MayNest(l.nodes[l.current.value].kind, kind)
    requires kind != Fixed
    ensures var r := Step(l, FormatStart(kind, None));
      r.failed && |r.nodes| == |l.nodes| + 1 && r.current == Some(|l.nodes|)
  {
    PlacementIsTable(l.nodes[l.current.value].kind, kind);
  }

  /** `<Bits>` needs a Fixed as the current format; anything else is an error. */
  lemma BitsNeedFixed(l: Loader, attrs: seq<BitsAttr>)
    requires Valid(l) && !l.failed
    requires l.current.None? || l.nodes[l.current.value].kind != Fixed
    ensures Step(l, BitsStart(attrs)) == l.(failed := true)
  {
  }

  /** A bit number beyond the Fixed's octets is an error; one within them is not. */
  lemma BitBeyondLengthFails(l: Loader, bit: int)
    requires Valid(l) && !l.failed && l.current.Some? && l.nodes[l.current.value].kind == Fixed
    requires bit >= 0
    ensures Step(l, BitsStart([BitAt(bit)])).failed <==> bit > 8 * l.nodes[l.current.value].length
  {
    var c := l.current.value;
    var start := Node(Bits, Some(c), [], 0, 0, 0);
    var limit := 8 * l.nodes[c].length;
    var next := start.(from := bit, to := bit);
    assert [BitAt(bit)][1..] == [];
    assert BitsAttrs(next, limit, []) == (next, false);
    assert BitsAttrs(start, limit, [BitAt(bit)]) == (next, limit < bit);
  }

  /** A closing tag that does not match the current format is an error and nothing else changes. */
  lemma MismatchedEndFails(l: Loader, kind: Kind)
    requires Valid(l) && !l.failed
    requires l.current.None? || l.nodes[l.current.value].kind != kind
    ensures Step(l, FormatEnd(kind)) == l.(failed := true)
  {
  }

  /** Opening a format and closing it again returns to the enclosing format. */
  lemma OpenCloseReturns(l: Loader, kind: FormatKind)
    requires Valid(l) && !l.failed && l.item.Some?
    requires kind != Bds || l.table.bdsLoaded
    requires kind != Fixed
    requires !Step(l, FormatStart(kind, None)).failed
    ensures var r := Step(l, FormatStart(kind, None));
      Valid(r) && Step(r, FormatEnd(kind)).current == l.current
  {
    StepKeepsValid(l, FormatStart(kind, None));
  }

  /** The written guard lets a category one past the table through and defines it; the corrected guard refuses it. */
  lemma CategoryOverflowDefined(bdsLoaded: bool)
    ensures var r := Parse([CategoryStart(Numeric(MaxCategories)), CategoryEnd], bdsLoaded);
      r.0 && MaxCategories in r.1.table.defined && !InTable(MaxCategories)
    ensures !ParseCorrected([CategoryStart(Numeric(MaxCategories)), CategoryEnd], bdsLoaded).0
  {
    var events := [CategoryStart(Numeric(MaxCategories)), CategoryEnd];
    var pending := Initial(bdsLoaded, false).(table := Open(Initial(bdsLoaded, false).table, MaxCategories));
    assert Step(Initial(bdsLoaded, false), events[0]) == pending;
    assert Run(Initial(bdsLoaded, false), events) == Run(pending, events[1..]);
    assert Run(pending, events[1..]) == Run(pending.(table := Close(pending.table)), []);
    var refused := Initial(bdsLoaded, true).(failed := true);
    assert Run(Initial(bdsLoaded, true), events) == Run(refused, events[1..]);
    FailedIsFinal(refused, events[1..]);
  }

  /** A BDS category that holds a data item makes `<BDS>` formats loadable from then on. */
  lemma BdsCategoryEnablesBds(l: Loader, name: string)
    requires Valid(l) && !l.failed
    ensures Run(l, [CategoryStart(BdsName), DataItemStart(name), DataItemEnd, CategoryEnd]).table.bdsLoaded
  {
    var events := [CategoryStart(BdsName), DataItemStart(name), DataItemEnd, CategoryEnd];
    var started := Step(l, events[0]);
    assert started.table.category == Some(BdsCatId);
    var item := Step(started, events[1]);
    assert item.table.withItems && item.item.Some? && item.table.category == Some(BdsCatId);
    var closing := Step(item, events[2]);
    assert closing.table == item.table && !closing.failed;
    assert Step(closing, events[3]).table.bdsLoaded;
    assert Run(l, events) == Run(started, events[1..]);
    assert Run(started, events[1..]) == Run(item, events[2..]);
    assert Run(item, events[2..]) == Run(closing, events[3..]);
    assert Run(closing, events[3..]) == Run(Step(closing, events[3]), []);
  }

  /** An empty BDS category replaces the table's entry and turns `<BDS>` formats off. */
  lemma EmptyBdsCategoryDisablesBds(l: Loader)
    requires Valid(l) && !l.failed
    ensures !Run(l, [CategoryStart(BdsName), CategoryEnd]).table.bdsLoaded
  {
    var events := [CategoryStart(BdsName), CategoryEnd];
    var started := Step(l, events[0]);
    assert started.table.category == Some(BdsCatId) && !started.table.withItems;
    assert !Step(started, events[1]).table.bdsLoaded;
    assert Run(l, events) == Run(started, events[1..]);
  }
}

=== FILE: Zenoh.dfy ===
/**
 * Key expressions of the Zenoh transport: a record is put under
 * "prefix/category" or, when its I010 item gives both SAC and SIC,
 * "prefix/category/sac/sic"; a subscriber reads the route back from the
 * key. The session, the subscriber task and the channel are left out.
 */
module Zenoh {
  import opened Wrappers
  import opened Bytes
  import Text
  import HexCodec
  import opened Records

  /** The part of `ZenohConfig` the keys and payloads depend on. */
  datatype Config = Config(keyPrefix: string, includeRawBytes: bool)

  /** `ZenohConfig::default()`. */
  const DefaultConfig: Config := Config("asterix", true)

  /** The segments after the prefix: decimal category, then SAC and SIC when both are known. */
  function RouteSegments(category: nat, sac: Option<nat>, sic: Option<nat>): (segs: seq<string>)
    ensures sac.Some? && sic.Some? ==> |segs| == 3
    ensures !(sac.Some? && sic.Some?) ==> |segs| == 1
    ensures segs[0] == Text.Decimal(category)
  {
    if sac.Some? && sic.Some? then [Text.Decimal(category), Text.Decimal(sac.value), Text.Decimal(sic.value)]
    else [Text.Decimal(category)]
  }

  /** `format!("{prefix}/{cat}/{sac}/{sic}")`, or `format!("{prefix}/{cat}")` without both SAC and SIC. */
  function KeyExpr(prefix: string, category: nat, sac: Option<nat>, sic: Option<nat>): (key: string)
    ensures |key| > |prefix| && key[..|prefix|] == prefix && key[|prefix|] == '/'
  {
    var key := prefix + "/" + Text.Join(RouteSegments(category, sac, sic), '/');
    assert key[..|prefix|] == prefix;
    key
  }

  /** `build_key_expr`: the key of a record, routed by its I010 SAC and SIC. */
  function BuildKeyExpr(prefix: string, record: Record): (key: string)
    ensures var (sac, sic) := ExtractSacSic(record);
      key == KeyExpr(prefix, record.category, sac, sic)
    ensures ItemId(record.category) !in record.items ==> key == KeyExpr(prefix, record.category, None, None)
  {
    var (sac, sic) := ExtractSacSic(record);
    KeyExpr(prefix, record.category, sac, sic)
  }

  /** `publish_raw`: the key carries the category only. */
  function PublishRawKey(prefix: string, category: byte): (key: string)
    ensures ParseKeyExpr(key, prefix) == Route(category, None, None)
  {
    KeyRoundTrip(prefix, category, None, None);
    KeyExpr(prefix, category, None, None)
  }

  /** `publish_raw_with_routing`: the key carries category, SAC and SIC. */
  function RoutingKey(prefix: string, category: byte, sac: byte, sic: byte): (key: string)
    ensures ParseKeyExpr(key, prefix) == Route(category, Some(sac as nat), Some(sic as nat))
  {
    KeyRoundTrip(prefix, category, Some(sac as nat), Some(sic as nat));
    KeyExpr(prefix, category, Some(sac), Some(sic))
  }

  /** The '/'-separated segments of a key: the prefix stripped when present, leading '/' trimmed. */
  function KeySegments(key: string, prefix: string): (segs: seq<string>)
    ensures |segs| >= 1
  {
    var stripped := Text.StripPrefix(key, prefix).GetOr(key);
    Text.Split(Text.TrimStart(stripped, '/'), '/')
  }

  /**
   * `parse_key_expr`: the first segment as the category (0 when it is not
   * a `u8`), the second and third as SAC and SIC (`None` when missing or
   * not a `u8`); further segments are ignored.
   */
  function ParseKeyExpr(key: string, prefix: string): (r: Route)
    ensures r.category < 256
    ensures r.sac.Some? ==> r.sac.value < 256 && |KeySegments(key, prefix)| >= 2
    ensures r.sic.Some? ==> r.sic.value < 256 && |KeySegments(key, prefix)| >= 3
  {
    var segs := KeySegments(key, prefix);
    Route(
      Text.ParseU8(segs[0]).GetOr(0),
      if |segs| > 1 then Text.ParseU8(segs[1]) else None,
      if |segs| > 2 then Text.ParseU8(segs[2]) else None)
  }

  /**
   * The route of a key built from a prefix and '/'-free segments, the
   * first non-empty: category, SAC and SIC from the first three segments,
   * whatever follows.
   */
  lemma KeyFromSegments(prefix: string, segs: seq<string>)
    requires |segs| >= 1 && |segs[0]| > 0
    requires forall i :: 0 <= i < |segs| ==> '/' !in segs[i]
    ensures ParseKeyExpr(prefix + "/" + Text.Join(segs, '/'), prefix) == Route(
      Text.ParseU8(segs[0]).GetOr(0),
      if |segs| > 1 then Text.ParseU8(segs[1]) else None,
      if |segs| > 2 then Text.ParseU8(segs[2]) else None)
  {
    var joined := Text.Join(segs, '/');
    var key := prefix + "/" + joined;
    assert key[|prefix|..] == "/" + joined;
    Text.JoinHead(segs, '/');
    assert ("/" + joined)[1..] == joined;
    assert Text.TrimStart("/" + joined, '/') == joined;
    Text.SplitJoin(segs, '/');
    assert KeySegments(key, prefix) == segs;
  }

  /** The route written into a key is the route read back from it. */
  lemma KeyRoundTrip(prefix: string, category: nat, sac: Option<nat>, sic: Option<nat>)
    requires category < 256
    requires sac.Some? ==> sac.value < 256
    requires sic.Some? ==> sic.value < 256
    ensures ParseKeyExpr(KeyExpr(prefix, category, sac, sic), prefix)
      == if sac.Some? && sic.Some? then Route(category, sac, sic) else Route(category, None, None)
  {
    var segs := RouteSegments(category, sac, sic);
    forall i | 0 <= i < |segs|
      ensures '/' !in segs[i]
    {
      Text.DecimalExcludes([category, sac.GetOr(0), sic.GetOr(0)][i], '/');
    }
    KeyFromSegments(prefix, segs);
    Text.DecimalRoundTrip(category, 255);
    if sac.Some? && sic.Some? {
      Text.DecimalRoundTrip(sac.value, 255);
      Text.DecimalRoundTrip(sic.value, 255);
    }
  }

  /**
   * A subscriber reads a published record's category back from its key,
   * and its SAC and SIC exactly when the I010 item supplied both.
   */
  lemma RecordKeyRoundTrip(prefix: string, record: Record)
    ensures var (sac, sic) := ExtractSacSic(record);
      ParseKeyExpr(BuildKeyExpr(prefix, record), prefix)
        == if sac.Some? && sic.Some? then Route(record.category, sac, sic) else Route(record.category, None, None)
  {
    var (sac, sic) := ExtractSacSic(record);
    KeyRoundTrip(prefix, record.category, sac, sic);
  }

  /**
   * `serialize_record`: the octets of `hex_data` when raw bytes are
   * included and there is hex text, else the JSON serialisation.
   */
  function SerializeRecord(config: Config, record: Record, json: Option<seq<byte>>): (r: Result<seq<byte>, SerializeError>)
    ensures config.includeRawBytes && |record.hexData| > 0 ==>
      (r.Success? <==> HexCodec.HexToBytes(record.hexData).Success?)
      && (r.Success? ==> HexCodec.HexToBytes(record.hexData) == Success(r.value))
    ensures !(config.includeRawBytes && |record.hexData| > 0) ==>
      r == if json.Some? then Success(json.value) else Failure(NoSerializer)
  {
    Payload(config.includeRawBytes, record, json)
  }

  /** With raw bytes off, the JSON path is taken even when `hex_data` is present. */
  lemma RawBytesOffIgnoresHex(config: Config, record: Record, json: Option<seq<byte>>)
    requires !config.includeRawBytes
    ensures SerializeRecord(config, record, json) == SerializeRecord(config, record.(hexData := ""), json)
  {
  }
}
